=== FILE: README.md ===
# Mother's Garage — a Dafny model of its decision logic

Mother's Garage connects mothers with care providers. Mothers sign up and confirm their e-mail with a six-digit code. Providers apply with certificates and wait for an administrator's approval, then pick a subscription plan that limits their monthly bookings. This project models the logic that decides those flows, on both sides of the application:

- **the Django backend** (`backend/`): the user and profile records with their choice sets; the pending registrations; the subscription and booking-quota rules; the payment, activation, tutorial and quota endpoints; the sign-up, code, approval, settings and search endpoints; the administrator's approval action; and the authentication endpoints;
- **the Next.js client** (`web/mothers-garage/src/`): the form validators of `lib/utils.ts`; the HTTP layer of `lib/api.ts`, with its single refresh-and-replay on a 401; the two sign-up wizards; the e-mail verification card; the sign-in, reset and forgot-password forms; the settings pages; the administrator dashboard; the plan picker; the workspace picker; and the tutorials;
- **the lint tooling** (`web/mothers-garage/`): the `no-div-in-p` rule and the helpers of the nesting checker.

The database is one immutable value (`Store.Db`). Each endpoint is a function from the database, the signed-in user and the request to a status code and the new database. Each page handler is a function from the page's state and the outcome of its request to the next state. Whatever the program gets from outside is an argument: the clock (whole seconds), password hashes and checks, tokens, the random code, stored file names, the payment service's answer and the replies to HTTP requests. Timers advance by explicit ticks.

Each operation is paired with a lemma that ties it to something independent of its body:
- a round trip (for example a tutorial completed, then the first-time flag read back);
- an invariant it keeps (the database's well-formedness);
- a reference definition (each client regular expression, stated once as the procedure the form calls and once as the set of strings the pattern describes);
- or the endpoint that answers the page (a form the page sends always passes the endpoint's own checks).

A refused payment verification on the plan picker closes the confirmation dialog (`SubscriptionPage.ApproveSpec`). The cooldown between code requests is computed from `timedelta.seconds`, which wraps every day, and the model keeps that wrap (`Registration.CooldownWrapsDaily`).

## Model

| member | source | states |
|---|---|---|
| Accounts.RoleNameRoundTrip | backend/users/models.py:8-16 | each role survives a trip through its column value, and a column value that reads as a role is exactly that role's name |
| Registration.VerifiedMotherIsFirstTime | backend/users/models.py:42-67 | a mother created by code verification starts from the profile defaults: the first-time check answers yes for her, and no payment method is on file |
| Registration.ApprovedProviderIsFirstTime | backend/users/models.py:100-141 | an approved provider starts from the profile defaults: the first-time check answers yes for it, and the profile has no plan |
| Store.UserByUsernameUnique | backend/users/models.py:7-17 | in a well-formed database the lookup by user name finds the one user with that name |
| Store.UserByEmailUnique | backend/users/models.py:17 | in a well-formed database the lookup by e-mail finds the one user with that e-mail |
| Store.CreateUserKeepsWf | backend/users/models.py:7-17 | a successful creation keeps user names and e-mails unique |
| Store.UpdateUserKeepsWf | backend/users/models.py:7-17 | a successful save keeps user names and e-mails unique |
| Billing.StartCycle | backend/payments/models.py:34-40 | a cycle started now is active, on the plan given, starts now, is live throughout the next thirty days and has expired at every instant from then on |
| Billing.AutoRenewSpec | backend/payments/models.py:57-71 | only an expired basic subscription is renewed, for thirty days from now and active, and the profile's end date follows it; anything else is untouched |
| Billing.Quota | backend/payments/models.py:99-118 | basic allows 5 bookings and standard 50; every other plan, premium included, has no numeric quota |
| Billing.LimitIsThreshold | backend/payments/models.py:99-118 | the limit is reached exactly at the plan's quota, never on premium, and once reached stays reached as bookings grow |
| Billing.IncrementUsage | backend/payments/models.py:120-138 | a booking adds one to the counter and keeps its cycle start; the profile is hidden from search (and marked verified) exactly when the limit is then reached, and is otherwise unchanged; only those two flags of the profile can change |
| Billing.RevertGovernsByBasic | backend/payments/models.py:42-55 | after a revert the basic quota of 5 governs and the provider is searchable |
| Billing.ResetClearsKnownPlans | backend/payments/models.py:90-118 | a counter just reset is within quota under each of the three plans, and still at its limit when the governing plan is none of them |
| Billing.BasicHiddenFromFifthBooking | backend/payments/models.py:120-138 | on the basic plan, from a fresh counter, the provider stays searchable for four bookings and is hidden from the fifth on |
| Billing.BasicCounting | backend/payments/models.py:120-138 | on the basic plan each booking is counted, the plan never changes, and the provider is searchable exactly while fewer than 5 bookings were made |
| PaymentViews.ActivationGoverns | backend/payments/views.py:44-57 | after an activation the activated plan governs for the whole thirty-day cycle and no longer, the profile shows it, and every other provider's rows are untouched |
| PaymentViews.ActivationKeepsWf | backend/payments/views.py:44-57 | an activation keeps the database well formed |
| PaymentViews.PaymentSuccess | backend/payments/views.py:29-62 | the upgrade succeeds exactly for a provider naming standard or premium; a bad plan is refused with 400 before the role is looked at; a refusal changes nothing |
| PaymentViews.FreePlan | backend/payments/views.py:188-212 | the free plan is activated exactly for a provider; anyone else gets 403 and nothing changes |
| PaymentViews.FreePlanQuota | backend/payments/views.py:188-212 | right after the free plan the booking limit is reached exactly from the fifth booking |
| PaymentViews.BookingIncrementSpec | backend/payments/views.py:65-96 | a provider's booking is counted exactly once and hides the provider exactly when the quota is then reached; of the caller's profile only the verified and searchable flags change; users, mothers, other providers, subscriptions, other counters and pending registrations are unchanged; a non-provider changes nothing |
| PaymentViews.BookingIncrementFrame | backend/payments/views.py:65-96 | a provider's booking changes only the booking counters and, of the caller's own profile, only the verified and searchable flags; every other table and profile is unchanged |
| PaymentViews.CheckFirstTime | backend/payments/views.py:99-120 | 403 exactly for a non-provider, 404 exactly for a provider without a profile, and otherwise 200 with the flag telling whether the tutorial is still to do |
| PaymentViews.CompleteTutorial | backend/payments/views.py:123-142 | the tutorial is completed exactly for a provider with a profile; otherwise nothing changes |
| PaymentViews.TutorialFlagRoundTrip | backend/payments/views.py:99-142 | completing the tutorial turns the first-time flag off, is idempotent, and both endpoints refuse the same callers |
| PaymentViews.StatusAgreesWithQuota | backend/payments/views.py:145-177 | the status endpoint reports the plan the quota logic uses whenever a subscription is live or the profile names a plan, and no plan (where the quota logic uses basic) otherwise |
| PaymentViews.StatusAfterPayment | backend/payments/views.py:29-62 | right after a successful payment the status endpoint reports the plan paid for |
| PaymentViews.PlanPrice | backend/payments/views.py:215-219 | only standard and premium have a price |
| PaymentViews.VerifiedPaymentAcceptsExactly | backend/payments/views.py:222-285 | an order activates the plan exactly when the caller is a provider, the order id is given, the plan is paid, the order was found completed for the plan's price in USD and paid to the configured merchant; any refusal changes nothing, 403 exactly for non-providers, basic never |
| AuthViews.Authenticate | backend/authentication/views.py:36-49 | a user found is one with that user name whom the password checks out for |
| AuthViews.LoginSpec | backend/authentication/views.py:27-64 | 400 exactly without a login key or password; 200 exactly when the key is the user name or e-mail of a user the password checks out for, the user name winning, with that user's role in the reply |
| AuthViews.LogoutOnce | backend/authentication/views.py:74-85 | logging out blacklists exactly the token given, any refusal is 400 and blacklists nothing, and the same token cannot log out twice |
| AuthViews.AdminLoginSpec | backend/authentication/views.py:96-116 | a refused inner login is passed on; only an administrator or super administrator gets 200; a known user of another role gets 403 |
| AuthViews.ForgotPasswordSpec | backend/authentication/views.py:122-162 | 400 exactly without an e-mail; both 200 answers exist but their messages differ, telling whether the e-mail is registered; the link goes only to the owner of the e-mail |
| AuthViews.ResetPasswordSpec | backend/authentication/views.py:178-215 | a reset succeeds exactly when all four fields are present, the passwords match, the uid decodes to a user and the token is valid for that user; it then changes only that user's password; any failure is 400 and changes nothing |
| AuthViews.ResetPasswordKeepsWf | backend/authentication/views.py:178-215 | a reset keeps the database well formed |
| Registration.TextFieldsSettle | backend/onboarding/serializers.py:110-126 | a stored text value passes the same field again unchanged, is no longer than what was sent and holds only characters that were sent |
| Registration.OtpCode | backend/onboarding/serializers.py:141 | every code drawn is six decimal digits |
| Registration.ChoiceFieldsAccept | backend/onboarding/serializers.py:27-30 | the user-type field accepts exactly the mother and provider roles, and the plan field exactly the three plans |
| Registration.ValidateMotherSignup | backend/onboarding/serializers.py:110-130 | a mother's sign-up is valid exactly when user name, e-mail, password and both names are not blank once stripped, an interest is chosen, the age reads as an integer, weight and height read as numbers of at most five digits with two decimals, and the consent flag was sent; text is kept stripped, the numbers are kept as the fields read them, and the language defaults to English |
| Registration.StoredAge | backend/onboarding/serializers.py:117 | an accepted age is stored as a text that the integer field reads back as the same value |
| Registration.StoredMeasure | backend/onboarding/serializers.py:118-119 | an accepted weight or height is stored as a text that the decimal field reads back as the same value and that fits the ten-character column |
| Registration.SignUpRefusesBadNumbers | backend/onboarding/serializers.py:117-128 | an age of 30.5, a weight with three decimals, a height of 1000 or a missing consent flag makes the sign-up a 400 that changes nothing |
| Registration.SignUpStoresNumbersFaithfully | backend/onboarding/serializers.py:117-158 | a new pending record holds an age, weight and height that read back as the values sent, and the consent flag as sent |
| NumberFields.IntegerFieldReadsRendering | backend/onboarding/serializers.py:117 | the integer field reads a whole number's decimal rendering as that number, also when followed by a point and only zeros and spaces |
| NumberFields.IntegerFieldReadsOwnRendering | backend/onboarding/serializers.py:117 | a whole number's rendering within the length limit reads back as that number |
| NumberFields.IntegerFieldBound | backend/onboarding/serializers.py:117 | an accepted integer's rendering is no longer than the text it was read from |
| NumberFields.IntegerFieldRefusesFraction | backend/onboarding/serializers.py:117 | a number with a non-zero digit after the point is refused |
| NumberFields.PlainDecimalRule | backend/onboarding/serializers.py:118-119 | a plain decimal numeral is accepted exactly when it has at most two decimals and a whole part below 1000, and then reads as its value in hundredths |
| NumberFields.DecimalFieldReadsRendering | backend/onboarding/serializers.py:118-119 | every value the field can accept reads back from its rendering as itself |
| NumberFields.DecimalFieldBound | backend/onboarding/serializers.py:118-119 | every accepted value is below 1000 in magnitude |
| NumberFields.RenderingFits | backend/onboarding/models.py:37-38 | an accepted value's rendering takes at most seven characters, within the ten-character column |
| NumberFields.ExponentForms | backend/onboarding/serializers.py:118-119 | exponent notation is judged after scaling: 0E+3 is refused for its digit count and 1E+2 reads as 100 |
| NumberFields.FieldExamples | backend/onboarding/serializers.py:117-119 | an age of 30.5, a weight of 70.123 and a height of 1000 are refused, and 070.5 reads as 70.50 |
| Registration.MotherSignUp | backend/onboarding/views.py:691-719 | with numeric coordinates, the sign-up answers 201 exactly for valid fields, and otherwise 400 with nothing changed |
| Registration.MotherSignUpSpec | backend/onboarding/serializers.py:132-171 | a sign-up leaves one pending record for the e-mail with the hash and a fresh six-digit code, stamped only when the record already existed; a new record takes the request's fields, a refreshed one keeps those not sent; nothing else changes |
| Registration.MotherSignUpKeepsWf | backend/onboarding/serializers.py:132-171 | a sign-up keeps the database well formed |
| Registration.RequestEmailOtpSpec | backend/onboarding/views.py:106-145 | the e-mail is looked up stripped; 404 exactly for an unknown one, 400 exactly for a blank one or while the cooldown holds, and a 200 changes only that record's code and stamp |
| Registration.CooldownWrapsDaily | backend/onboarding/views.py:121-128 | within a day of the stamp the cooldown is the first 60 seconds, but the guard repeats every day and lets a request through when the clock went back |
| Registration.ResendThenResend | backend/onboarding/views.py:121-145 | after a successful resend another within 60 seconds is refused |
| Registration.FirstResendNeverWaits | backend/onboarding/serializers.py:159-166 | a first sign-up leaves its code unstamped, so the first resend is accepted however soon it comes |
| Registration.TruthyPin | backend/onboarding/views.py:256-262 | the mother's pin is set exactly when both stored coordinates are non-zero, longitude first |
| Registration.VerifyEmailOtpSpec | backend/onboarding/views.py:209-272 | e-mail and code are compared stripped and a blank one is 400; verification succeeds exactly when the record exists, the code matches, name and e-mail are free and a country was given; it then adds one verified mother with the pending hash and a profile from the record, and deletes the record; any other answer changes nothing |
| Registration.VerifyEmailOtpKeepsWf | backend/onboarding/views.py:209-272 | verification keeps the database well formed |
| Registration.SignUpThenVerify | backend/onboarding/views.py:209-272 | right after a sign-up, the mailed code, typed with or without white space around it, creates the account exactly when name and e-mail are still free and a country was given, with the requested name and the password's hash; otherwise the answer is 500 and nothing changes |
| Registration.ProviderSignUpSpec | backend/onboarding/serializers.py:173-262 | with numeric coordinates, a provider sign-up succeeds exactly when the user name and e-mail are not blank once stripped, the passwords agree and no pending registration has the stripped e-mail; the new record stores that e-mail, keeps the hash, certificates and requested ids and is the only change; any failure is 400 with nothing changed |
| Registration.ProviderSignUpKeepsWf | backend/onboarding/serializers.py:218-262 | a provider sign-up keeps the database well formed |
| Registration.RStripSlash | backend/onboarding/serializers.py:289 | the result is the text with every trailing slash, and only those, removed |
| Registration.CertificateUrls | backend/onboarding/serializers.py:285-292 | one address per stored file, in order, each the base without trailing slashes, the media prefix and the path |
| Registration.CertificateUrlsRoundTrip | backend/onboarding/serializers.py:285-292 | every address starts with the shared prefix, and removing it gives back the stored path at the same position |
| Registration.PinOf | backend/onboarding/admin.py:40-48 | the admin action pins exactly when both coordinates are present, the endpoint exactly when both are non-zero; a pin is longitude first |
| Registration.Promote | backend/onboarding/views.py:783-838 | promotion succeeds exactly when name and e-mail are free and a country was given; it appends the provider user, gives it an approved profile and deletes the pending record, nothing else changing |
| Registration.PromoteKeepsWf | backend/onboarding/views.py:783-838 | promotion keeps the database well formed |
| Registration.AdminApprove | backend/onboarding/views.py:764-841 | for a numeric pending id: 400 exactly without a truthy pending id, 404 exactly for an unknown one, a 200 is the promotion, and any other answer changes nothing |
| Registration.ProviderUsers | backend/onboarding/admin.py:19-75 | one provider user per selected record, in selection order |
| Registration.ApproveBatchUsers | backend/onboarding/admin.py:19-75 | a successful batch appends exactly the selected records' users, in selection order |
| Registration.ApproveBatchProfiles | backend/onboarding/admin.py:19-75 | a successful batch gives every new user a profile verified by the administrator and leaves existing profiles alone |
| Registration.ApproveBatchDeletes | backend/onboarding/admin.py:19-75 | a successful batch deletes exactly the selected pending records |
| Registration.EndpointAndBatchAgree | backend/onboarding/admin.py:40-48 | the endpoint and the admin action approve the same record alike whenever no coordinate is zero, while a provider on the equator is pinned only by the admin action |
| SettingsViews.MotherSettingsGet | backend/onboarding/views.py:474-495 | settings are returned, with status 200, exactly to a mother with a profile, carrying her e-mail and country |
| SettingsViews.MotherSettingsPatchSpec | backend/onboarding/views.py:497-555 | each branch touches only what it names: a new e-mail only the e-mail and verified flag, a password change only the hash and only with the right old password and matching new ones, a payment method nothing, the profile branch only the profile fields sent |
| SettingsViews.MotherPatchThenGet | backend/onboarding/views.py:474-555 | patching the profile fields and reading back shows each field sent and keeps each field not sent |
| SettingsViews.ProviderSettingsGet | backend/onboarding/views.py:561-579 | settings are returned, with status 200, exactly to a provider with a profile, carrying the e-mail and the stored plan |
| SettingsViews.ProviderSettingsPatchSpec | backend/onboarding/views.py:581-652 | the password fields are all or nothing; a rejected password change still keeps the user fields sent with it; a successful patch writes exactly the fields sent |
| SettingsViews.ProviderPatchThenGet | backend/onboarding/views.py:561-652 | patching and reading back shows the fields sent and keeps the others |
| SettingsViews.SettingsPlanLiftsQuota | backend/onboarding/views.py:626-627 | a provider without a live subscription who writes the premium plan through settings never reaches the booking limit |
| WorkspaceViews.DaysRemaining | backend/onboarding/views.py:419-423 | the days remaining are the whole days until the end, rounded down, and 0 without an end or once it has passed |
| WorkspaceViews.ListedServiceSearch | backend/onboarding/views.py:436 | every service a provider's specialities belong to is listed on its overview; a search under that name finds the provider when it offers the service, is searchable and serves the mother's country, and never finds a provider with no service types |
| WorkspaceViews.OverviewRenewsFirst | backend/onboarding/views.py:390-404 | the expired basic subscription is renewed even for a caller then refused; 403 exactly for non-providers and an overview exactly for a provider with a profile |
| WorkspaceViews.OverviewLimitAgreesWithQuota | backend/onboarding/views.py:413-445 | the overview's limit flag agrees with the booking quota for the three plans, while for a missing plan it shows no limit where the quota counts the provider as exhausted |
| WorkspaceViews.RenewedBasicShowsThirtyDays | backend/onboarding/views.py:390-450 | a provider on an expired basic subscription sees a fresh thirty-day cycle, its renewal date and no warning |
| WorkspaceViews.SearchProvidersSpec | backend/onboarding/views.py:986-1031 | the checks come in order (403, 400, 404), and the answer lists exactly the searchable providers offering the service in the mother's country, both compared stripped and without case |
| WorkspaceViews.HiddenProviderNotFound | backend/onboarding/views.py:1012-1016 | a provider hidden by the booking that exhausted the quota is found by no search |
| WorkspaceViews.CheckMotherFirstTime | backend/onboarding/views.py:1042-1051 | 403 exactly for a non-mother, 404 exactly for a mother without a profile, and otherwise 200 with the flag telling whether the tutorial is still to do |
| WorkspaceViews.CompleteMotherTutorial | backend/onboarding/views.py:1062-1070 | the tutorial is completed exactly for a mother with a profile; otherwise nothing changes |
| WorkspaceViews.MotherTutorialRoundTrip | backend/onboarding/views.py:1034-1070 | completing the tutorial turns the first-time flag off, repeating it changes nothing, and both endpoints refuse the same callers |
| HttpClient.AuthorizationHeader | web/mothers-garage/src/lib/api.ts:11-22 | a request carries an Authorization header exactly when a non-empty access token is stored |
| HttpClient.HeaderCarriesToken | web/mothers-garage/src/lib/api.ts:11-22 | the token a server reads out of the header is exactly the stored access token |
| HttpClient.ErrorMessage | web/mothers-garage/src/lib/api.ts:81-105 | the error toast always has a message |
| HttpClient.ErrorMessagePrecedence | web/mothers-garage/src/lib/api.ts:81-105 | the message is the first non-empty field among detail, message and error; only without them is it a fixed text, chosen by the status alone (404, 403, 500, anything else) |
| HttpClient.CallRetriesOnce | web/mothers-garage/src/lib/api.ts:29-78 | a call is replayed at most once, exactly after a 401 that a stored refresh token turned into a new access token, and the replay carries that token; a missing refresh token or a failed refresh goes to the login page without a toast |
| HttpClient.ReplayedUnauthorisedIsFinal | web/mothers-garage/src/lib/api.ts:32-36 | a 401 on the replayed request is not refreshed again: two requests in all, ending with the error toast |
| HttpClient.ActivationReachesBackend | web/mothers-garage/src/lib/api.ts:324-332 | whichever plan a provider picks, the request sent is accepted and puts the subscription and profile on that plan; anyone else gets 403 and nothing changes |
| HttpClient.ProviderTypesRoundTrip | web/mothers-garage/src/lib/api.ts:175-181 | the server reads back the service type id the caller passed, except that id 0 is lost |
| SignupSteps.NavigationStaysInRange | web/mothers-garage/src/app/onboarding/mother/signup/page.tsx:179-193 | the step stays between 1 and the last; Next moves on exactly from a valid step before the last and submits exactly from a valid last step; Back undoes a Next and stays put only on step 1 |
| SignupSteps.ValidPhoneNotBlank | web/mothers-garage/src/app/onboarding/mother/signup/page.tsx:218-231 | a phone number in the accepted format is never blank, so the required check is covered by the format check |
| SignupSteps.AccountStepAccepts | web/mothers-garage/src/app/onboarding/mother/signup/page.tsx:196-233 | the account step passes exactly for a non-blank user name, a valid e-mail, a strong password typed twice and a valid phone; each message appears exactly when the earlier checks pass and its own fails |
| SignupSteps.WholeNumberAccepted | web/mothers-garage/src/app/onboarding/mother/signup/page.tsx:239-250 | a whole number typed as its digits is accepted as age, weight or height exactly when it is positive |
| SignupSteps.CountdownReenables | web/mothers-garage/src/app/onboarding/mother/signup/page.tsx:391-404 | from a count of c the resend button stays disabled showing c - k for k < c ticks and is enabled with 0 from tick c on |
| SignupSteps.IdleTicks | web/mothers-garage/src/app/onboarding/mother/signup/page.tsx:395-404 | once the button is enabled the timer changes nothing |
| SignupSteps.ResendBlockedDuringCountdown | web/mothers-garage/src/app/onboarding/mother/signup/page.tsx:380-404 | after a successful resend a second one is ignored until the countdown has run out, and allowed after it |
| MotherSignupPage.StepRequirements | web/mothers-garage/src/app/onboarding/mother/signup/page.tsx:194-286 | step 1 needs the account fields, step 2 both names and a positive age, weight and height, step 3 a location, step 4 an interest and both care texts, step 5 the terms accepted |
| MotherSignupPage.NextSpec | web/mothers-garage/src/app/onboarding/mother/signup/page.tsx:179-193 | the wizard stays on steps 1 to 5, changes nothing but the step, moves on exactly past a step that validates, and submits exactly from a valid fifth step, so only with the terms accepted |
| MotherSignupPage.ToggleInterestSpec | web/mothers-garage/src/app/onboarding/mother/signup/page.tsx:124-139 | the interest list never holds an id twice and holds the toggled id exactly when its box is checked; checking appends it at the end, unchecking splices it out where it stood, and the other ids keep their order |
| MotherSignupPage.SignupErrorPrecedence | web/mothers-garage/src/app/onboarding/mother/signup/page.tsx:314-342 | a refused sign-up shows the user-name complaint first, then the e-mail one, then the detail, then a generic text; no response shows the network message |
| MotherSignupPage.RefusedSignUpToast | web/mothers-garage/src/app/onboarding/mother/signup/page.tsx:314-342 | a sign-up the endpoint refuses is a 400 whose toast is the blank-field message exactly when the user name or e-mail was blank, and the generic failure text otherwise |
| MotherSignupPage.StepTwoPassesWhatTheEndpointRefuses | web/mothers-garage/src/app/onboarding/mother/signup/page.tsx:239-250 | the page's positive-number check lets a weight of 70.123 and a height of 1000 through, which the endpoint then refuses |
| MotherSignupPage.VerifyOtpSpec | web/mothers-garage/src/app/onboarding/mother/signup/page.tsx:348-378 | a blank code is never sent; a sent code either closes the dialog and leads to the login page after 1.5 seconds or keeps the dialog open with an error; the spinner is off afterwards |
| MotherSignupPage.MailedCodeVerifies | web/mothers-garage/src/app/onboarding/mother/signup/page.tsx:348-378 | right after a sign-up the mailed code is sent, and the dialog moves to the login page exactly when the endpoint creates the account; otherwise it stays open with the invalid-code message |
| MotherSignupPage.ResendOtp | web/mothers-garage/src/app/onboarding/mother/signup/page.tsx:380-410 | a successful resend from an enabled button disables it with a 20-second count; otherwise nothing changes |
| MotherSignupPage.ResendWaitsTwentySeconds | web/mothers-garage/src/app/onboarding/mother/signup/page.tsx:391-404 | after a successful resend the button is disabled, showing the seconds left, for exactly twenty ticks |
| FileUpload.FileChangeSpec | web/mothers-garage/src/components/file-upload.tsx:33-44 | a batch with any file over the size limit is refused whole with an error and the parent hears nothing; otherwise the error clears and the parent receives exactly the new list, the chosen files after the kept ones (none kept in single mode), all within the limit |
| FileUpload.DefaultsKeepOneSmallFile | web/mothers-garage/src/components/file-upload.tsx:24-44 | with the default settings an accepted batch replaces the list and every file in it is at most 5 MB |
| FileUpload.RemoveFileSpec | web/mothers-garage/src/components/file-upload.tsx:46-51 | removing drops exactly the file at that position, keeps the others in order, passes the new list to the parent and leaves the error alone; an index past the end changes nothing |
| FileUpload.AddThenRemove | web/mothers-garage/src/components/file-upload.tsx:33-51 | in the several-files mode, removing the file just added gives the list back as it was |
| ProviderSignupPage.GetPut | web/mothers-garage/src/app/onboarding/provider/signup/page.tsx:552-553 | after writing a service's specialty list, reading that service gives the list written and every other service reads as before |
| ProviderSignupPage.GetRemove | web/mothers-garage/src/app/onboarding/provider/signup/page.tsx:539-544 | after deleting a service's entry, that service reads as missing and every other service reads as before |
| ProviderSignupPage.ValuesMembership | web/mothers-garage/src/app/onboarding/provider/signup/page.tsx:297-301 | a specialty is among the flattened values exactly when some service's list holds it |
| ProviderSignupPage.Without | web/mothers-garage/src/app/onboarding/provider/signup/page.tsx:538 | filtering keeps exactly the ids other than the one dropped |
| ProviderSignupPage.ServiceChoiceSpec | web/mothers-garage/src/app/onboarding/provider/signup/page.tsx:535-574 | choosing a service appends it and starts it with no specialty, dropping it removes every occurrence and its specialties, and no other service's specialties change |
| ProviderSignupPage.DoubleSelectDuplicates | web/mothers-garage/src/app/onboarding/provider/signup/page.tsx:535-574 | the card and the check box inside it both react to one click, so selecting twice lists the service twice |
| ProviderSignupPage.ToggleSpecialtySpec | web/mothers-garage/src/app/onboarding/provider/signup/page.tsx:593-601 | a specialty box adds or removes that specialty under that service only, and the chosen services stay |
| ProviderSignupPage.FirstUncovered | web/mothers-garage/src/app/onboarding/provider/signup/page.tsx:214-224 | the search finds nothing exactly when every chosen service has a specialty, and otherwise a chosen service without one |
| ProviderSignupPage.ServiceName | web/mothers-garage/src/app/onboarding/provider/signup/page.tsx:216 | the name shown in the complaint is never empty |
| ProviderSignupPage.StepRequirements | web/mothers-garage/src/app/onboarding/provider/signup/page.tsx:170-270 | step 1 needs the account fields, step 2 a service and a specialty for each, step 3 names, bio, licence and a certificate, step 4 country and language, step 5 a location, step 6 the terms accepted |
| ProviderSignupPage.ParseRenderIds | web/mothers-garage/src/app/onboarding/provider/signup/page.tsx:293-301 | reading back the ids sent as decimal text gives the ids themselves |
| ProviderSignupPage.PayloadRoundTrip | web/mothers-garage/src/app/onboarding/provider/signup/page.tsx:272-305 | the server reads back exactly the chosen services in order, with any repetition, and exactly the specialties chosen under some service; certificates and location are sent as chosen |
| ProviderSignupPage.ErrorTextLines | web/mothers-garage/src/app/onboarding/provider/signup/page.tsx:326-335 | a body of field complaints gives the header line and then one line per field, in order, naming the field and its messages |
| ProviderSignupPage.NextSpec | web/mothers-garage/src/app/onboarding/provider/signup/page.tsx:154-168 | the application goes out only from the last step with the terms agreed, carrying the form's payload; only success completes it, a failure shows its message; before the last step Next only moves on, exactly when the step validates |
| Validators.IsValidEmailMatchesPattern | web/mothers-garage/src/lib/utils.ts:18-21 | the e-mail check accepts exactly the texts the pattern matches: a non-empty local part, one @, a non-empty domain with a dot, no spaces |
| Validators.ScanStrongPassword | web/mothers-garage/src/lib/utils.ts:24-28 | a single pass over the password accepts exactly the passwords of at least eight allowed characters with a lower-case letter, an upper-case letter, a digit and a special character |
| Validators.ValidPhoneShape | web/mothers-garage/src/lib/utils.ts:36-41 | an accepted phone number is '+' followed by 2 to 15 digits and nothing else, so has no dash or space |
| Validators.DashedPhoneRejected | web/mothers-garage/src/lib/utils.ts:36-41 | the dashed example number is not accepted by the pattern |
| Validators.FormatPreservesDigits | web/mothers-garage/src/lib/utils.ts:44-61 | formatting only inserts punctuation: the digits stay the same and in the same order |
| Validators.FormatIdempotent | web/mothers-garage/src/lib/utils.ts:44-61 | formatting an already formatted number changes nothing |
| Validators.SliceTo | web/mothers-garage/src/lib/utils.ts:66 | a slice is never longer than the text |
| Validators.TruncateTextShape | web/mothers-garage/src/lib/utils.ts:64-67 | for text counted in code points: texts within the limit are kept; with a non-negative limit a longer text keeps exactly its first characters up to the limit and gains "..."; a negative limit drops that many characters from the end |
| Validators.TruncateIdempotent | web/mothers-garage/src/lib/utils.ts:64-67 | truncating twice with the same non-negative limit is truncating once |
| Validators.GetInitialsFromSpaces | web/mothers-garage/src/lib/utils.ts:70-77 | with ASCII upper-casing: the initials are at most two letters, the upper-cased first character unless it is a space, and, when the name has a space, the upper-cased character after the last space |
| EmailVerification.TicksCountDown | web/mothers-garage/src/components/auth/email-verification.tsx:29-34 | after k ticks the count shows c - k, or 0 once k reaches c, and nothing else on the card changes |
| EmailVerification.VerifySpec | web/mothers-garage/src/components/auth/email-verification.tsx:36-79 | the code is sent exactly when both e-mail and code are filled; the card is verified exactly on success, which alone schedules the redirect, after three seconds, to the given address or the login page; missing fields change nothing but the toast |
| EmailVerification.MailedCodeConfirms | web/mothers-garage/src/components/auth/email-verification.tsx:36-79 | right after a sign-up the card sends the mailed code and is marked verified exactly when the endpoint creates the account |
| EmailVerification.ResendSpec | web/mothers-garage/src/components/auth/email-verification.tsx:81-114 | a new code is requested exactly when an e-mail is filled; only success restarts the 60-second count; the e-mail and verified state never change and nothing navigates |
| EmailVerification.ResendWaitsAMinute | web/mothers-garage/src/components/auth/email-verification.tsx:93-110 | after a successful resend the resend button is disabled for exactly sixty ticks |
| EmailVerification.CountdownMatchesCooldown | web/mothers-garage/src/components/auth/email-verification.tsx:93-110 | within a day of a successful resend, the endpoint accepts another exactly when the card offers the button again |
| LoginPage.HandleLoginSpec | web/mothers-garage/src/app/auth/login/page.tsx:31-76 | tokens are stored exactly when the login succeeds, even if the first-time check then fails; a mother asks the mother first-time endpoint and everyone else the provider one; the page navigates exactly when both calls succeed and shows the failure toast otherwise; the spinner ends off |
| LoginPage.LoginRefusalMessages | backend/authentication/views.py:32-49 | the client's error text for a refused login is the backend's own detail: the missing-credentials text for 400, "Invalid credentials." for 401 |
| LoginPage.WrongPassword | web/mothers-garage/src/app/auth/login/page.tsx:31-76 | a wrong password never asks the first-time endpoint and ends with the failure toast; without a refresh token or when the refresh throws it goes to the login page, otherwise the backend's message is shown first and nothing moves |
| LoginPage.RightPassword | web/mothers-garage/src/app/auth/login/page.tsx:31-76 | right credentials store the answer's tokens, ask the first-time endpoint of the backend's role and land where the landing table says |
| LoginPage.LandingTable | web/mothers-garage/src/app/auth/login/page.tsx:60-65 | a mother lands on her tutorial the first time and her dashboard afterwards; every other user type on the provider tutorial or the workspace picker |
| LoginPage.RoutingByRole | web/mothers-garage/src/app/auth/login/page.tsx:49-65 | with the role the backend sends, only mothers reach the mother pages; administrators and users without a role are routed and checked like providers |
| ResetPasswordPage.ReadLinkSpec | web/mothers-garage/src/app/auth/reset-password/page.tsx:32-45 | the link is refused with the invalid-link message exactly when uid or token is missing or empty, and otherwise both are kept as given |
| ResetPasswordPage.MatchHintSpec | web/mothers-garage/src/app/auth/reset-password/page.tsx:47-53 | the mismatch hint shows exactly when a confirmation was typed and differs from the password |
| ResetPasswordPage.SubmitSpec | web/mothers-garage/src/app/auth/reset-password/page.tsx:55-100 | a reset is sent exactly when the link is complete, the password strong and confirmed, each failing check showing its own message in that order; the request carries the link and the password twice; only success shows done and leads to the login page after three seconds; a failure shows the server's detail or a fixed text |
| ResetPasswordPage.SentRequestReachesTokenCheck | web/mothers-garage/src/app/auth/reset-password/page.tsx:74-90 | a request the page sends passes every field check of the reset endpoint, so the endpoint accepts it exactly when the uid names a user whose token is valid |
| ForgotPasswordModal.SubmitSpec | web/mothers-garage/src/components/forgot-password-modal.tsx:33-65 | a request is sent exactly for a valid e-mail; the modal then shows the success view whether or not the request succeeded |
| ForgotPasswordModal.NoAccountEnumeration | web/mothers-garage/src/components/forgot-password-modal.tsx:33-65 | whatever the endpoint answers for an e-mail, registered or not, the modal shows the same thing |
| ForgotPasswordModal.CloseSpec | web/mothers-garage/src/components/forgot-password-modal.tsx:67-71 | closing empties the e-mail and leaves the success view, is idempotent, and a closed modal sends nothing |
| SettingsPages.InputChangeSpec | web/mothers-garage/src/app/mother/dashboard/settings/page.tsx:66-72 | typing sets the named field to the value typed, adds no other key and leaves every other field as it was |
| SettingsPages.StripPasswordsSpec | web/mothers-garage/src/app/mother/dashboard/settings/page.tsx:80-86 | every non-password field is sent as in the form; the three passwords are sent together as typed when all are filled and otherwise none is sent |
| SettingsPages.ClearPasswordsSpec | web/mothers-garage/src/app/mother/dashboard/settings/page.tsx:95-101 | after a save no password field is filled in and every other field is kept |
| SettingsPages.MotherSubmitSpec | web/mothers-garage/src/app/mother/dashboard/settings/page.tsx:74-112 | the mother's page always sends, with no check that the new passwords agree; the endpoint sees a password change only if all three were filled; success empties the passwords, failure keeps the form |
| SettingsPages.EmailEditHidesPasswordChange | web/mothers-garage/src/app/mother/dashboard/settings/page.tsx:74-101 | an e-mail edit sent together with the passwords is answered 200 without changing the password hash, while the page empties the password fields as if it had |
| SettingsPages.AsWrittenShowsUndefined | web/mothers-garage/src/app/provider/settings/page.tsx:131-146 | as written, a failure with no detail shows "undefined" and a null detail shows "null", not the intended generic message |
| SettingsPages.DetailTextSpec | web/mothers-garage/src/app/provider/settings/page.tsx:131-146 | the corrected text is the generic message exactly for a missing or null detail and otherwise the page's own rendering; a string detail is shown unchanged, and a list of space-free words splits back into its items |
| SettingsPages.ProviderSubmitSpec | web/mothers-garage/src/app/provider/settings/page.tsx:78-150 | nothing is sent exactly when the passwords are partly filled or the new ones differ, each with its own title; otherwise the stripped form is sent, a success empties the passwords and a failure keeps the form and shows the detail text |
| SettingsPages.ProviderBodyPassesPasswordRules | web/mothers-garage/src/app/provider/settings/page.tsx:84-113 | a body the provider page sends never breaks the endpoint's all-or-nothing and matching rules, so the only password refusal left is a wrong old password |
| SuperAdminDashboard.InputChangeSpec | web/mothers-garage/src/app/super-admin/dashboard/page.tsx:150-163 | typing changes only the field typed in and clears only that field's error; the name fields have no error slot and leave every error as it was |
| SuperAdminDashboard.ValidateAdminFormSpec | web/mothers-garage/src/app/super-admin/dashboard/page.tsx:165-192 | the form is valid exactly when no slot holds an error, and each slot holds its own message exactly when its check fails, independent of the others |
| SuperAdminDashboard.AdminFormAgreesWithSignup | web/mothers-garage/src/app/super-admin/dashboard/page.tsx:165-192 | the administrator form accepts exactly what the sign-up account step accepts given a valid phone number |
| SuperAdminDashboard.CreateAdminSpec | web/mothers-garage/src/app/super-admin/dashboard/page.tsx:194-227 | an invalid form sends nothing and shows its errors; a valid form is sent as typed; success empties every field and closes the dialog, failure keeps both |
| SuperAdminDashboard.LogoutSpec | web/mothers-garage/src/app/super-admin/dashboard/page.tsx:110-114 | sign-out removes exactly auth_token and user_role and opens the administrator sign-in; the stored access token survives and is still sent as the bearer token |
| SubscriptionPage.FindPlanSpec | web/mothers-garage/src/app/provider/subscription/page.tsx:24-59 | a plan is found exactly for an id listed in the plan table, which is exactly a plan the backend accepts, and the entry found carries that id |
| SubscriptionPage.SelectPlanSpec | web/mothers-garage/src/app/provider/subscription/page.tsx:105-108 | a plan's button is disabled exactly while busy or on the current plan; pressing it records the plan and opens the dialog and changes nothing else |
| SubscriptionPage.ActivateFreeSpec | web/mothers-garage/src/app/provider/subscription/page.tsx:111-127 | the basic plan is requested at the free-plan endpoint with no body; only success completes, and failure closes the dialog |
| SubscriptionPage.OrderAmountMatchesPrice | web/mothers-garage/src/app/provider/subscription/page.tsx:354-368 | the order amount for a paid plan is its price in whole dollars, and the backend's price for the plan is that amount with cents, in USD |
| SubscriptionPage.ApproveSpec | web/mothers-garage/src/app/provider/subscription/page.tsx:369-398 | the verification carries the captured order and the chosen plan; the subscription completes exactly when verification succeeds; a refusal or a widget error closes the dialog without completing |
| SubscriptionPage.PaidOrderVerifies | web/mothers-garage/src/app/provider/subscription/page.tsx:354-388 | a completed order for a paid plan, in the plan's price to the merchant, is accepted by the verification endpoint, which activates the chosen plan |
| SubscriptionPage.CloseModalSpec | web/mothers-garage/src/app/provider/subscription/page.tsx:152-158 | closing goes to the workspace picker exactly when the subscription went through, and otherwise only closes the dialog |
| SubscriptionPage.SelectThenCancel | web/mothers-garage/src/app/provider/subscription/page.tsx:105-158 | choosing a plan and cancelling before completion restores the page, save the plan remembered |
| WorkspaceSelectPage.LoadSpec | web/mothers-garage/src/app/provider/workspace-select/page.tsx:39-57 | data is shown exactly when the body has a services array and a subscription, both shown as sent, with the settings link falling back to /provider/settings |
| WorkspaceSelectPage.OverviewLoads | web/mothers-garage/src/app/provider/workspace-select/page.tsx:39-57 | every overview the endpoint gives a provider loads, showing exactly the provider's services, the subscription as sent and the endpoint's settings link |
| WorkspaceSelectPage.UsagePercentageSpec | web/mothers-garage/src/app/provider/workspace-select/page.tsx:110-114 | the percentage lies in 0..100, is 0 with no subscription and 100 on premium, is NaN exactly for 0 of a missing or zero limit, and is otherwise the share of the limit used, capped at 100 |
| WorkspaceSelectPage.UsageColorSpec | web/mothers-garage/src/app/provider/workspace-select/page.tsx:116-121 | red exactly from 90 per cent, yellow exactly from 70 to below 90, green below 70 and for NaN |
| WorkspaceSelectPage.BarForOverview | web/mothers-garage/src/app/provider/workspace-select/page.tsx:110-121 | read against the overview endpoint: at the limit or on premium the bar is full and red; with no plan it is NaN and green before the first booking and red after |
| WorkspaceSelectPage.ServiceColorSpec | web/mothers-garage/src/app/provider/workspace-select/page.tsx:100-108 | each of the three services has its own colour; a name the table inherits from `Object.prototype` yields that inherited property, never the fallback; any other name gets the Teletherapy colour |
| WorkspaceSelectPage.ConstructorSkipsFallback | web/mothers-garage/src/app/provider/workspace-select/page.tsx:106-108 | "constructor" finds the inherited `Object` function, so the fallback purple is not used for it |
| WorkspaceSelectPage.ServiceColorIsTableLookup | web/mothers-garage/src/app/provider/workspace-select/page.tsx:100-108 | the colour is the table's own entry for the service, else the property inherited from `Object.prototype` under that name, else the fallback purple |
| WorkspaceSelectPage.SelectWorkspaceSpec | web/mothers-garage/src/app/provider/workspace-select/page.tsx:72-75 | the choice is stored under selectedWorkspace, nothing else in storage changes, and the dashboard opens |
| WorkspaceSelectPage.SelectWorkspaceLastWins | web/mothers-garage/src/app/provider/workspace-select/page.tsx:72-75 | choosing twice is the same as making only the second choice |
| WorkspaceSelectPage.PickedServiceIsOffered | web/mothers-garage/src/app/provider/workspace-select/page.tsx:39-75 | a card picked from a loaded overview stores one of the provider's own services |
| Tutorials.NextStepSpec | web/mothers-garage/src/app/mother/tutorial/page.tsx:14-42 | before the last page a press turns one page and sends nothing; on the last page it sends the completion request and leaves for the role's next page exactly when that succeeds |
| Tutorials.ThirdPressCompletes | web/mothers-garage/src/app/provider/tutorial/page.tsx:33-56 | from the first page two presses only turn pages and the third sends the completion request, leaving on success |
| Tutorials.StaysOnLastPage | web/mothers-garage/src/app/provider/tutorial/page.tsx:33-56 | on the last page every press sends the completion request and the page stays until one succeeds |
| Tutorials.MotherTutorialShownOnce | web/mothers-garage/src/app/mother/tutorial/page.tsx:18-33 | once the mother's completion succeeds, the first-time flag reads false and her sign-in goes to her dashboard |
| Tutorials.ProviderTutorialShownOnce | web/mothers-garage/src/app/provider/tutorial/page.tsx:33-48 | once the provider's completion succeeds, the first-time flag reads false and sign-in goes to the workspace picker |
| Tutorials.TutorialCountrySpec | web/mothers-garage/src/app/provider/tutorial/page.tsx:17-31 | the country is the provider profile's country when the status request succeeds, and "US" when it fails or has not answered |
| HtmlNesting.BlockMessagesSpec | web/mothers-garage/eslint-plugin-html-nesting.js:12-29 | every message names a block child of the paragraph, every block child is named, and there are no more messages than children |
| HtmlNesting.ReportsOnlyUnderParagraphs | web/mothers-garage/eslint-plugin-html-nesting.js:6-31 | a tree without a paragraph is never reported, and every report is one of the block-tag messages |
| HtmlNesting.ReportsAllOnlyUnderParagraphs | web/mothers-garage/eslint-plugin-html-nesting.js:6-31 | the same for a list of sibling trees |
| HtmlNesting.NestedParagraphsReached | web/mothers-garage/eslint-plugin-html-nesting.js:6-23 | a paragraph inside a fragment or an attribute value is checked like any other, while a div inside a fragment that is the paragraph's child is not a direct child and goes unreported |
| HtmlNesting.OnlyDirectChildren | web/mothers-garage/eslint-plugin-html-nesting.js:13-23 | a div inside a span inside a paragraph is not reported, while a div directly inside is reported once |
| HtmlNesting.LineNumberCounts | web/mothers-garage/check-html-nesting.js:78-81 | the line number of an index is one more than the number of line breaks before it |
| HtmlNesting.LineNumberMonotone | web/mothers-garage/check-html-nesting.js:78-81 | line numbers start at 1 and never decrease as the index grows |
| HtmlNesting.SnippetSpec | web/mothers-garage/check-html-nesting.js:64 | a snippet is at most the first 100 characters of the match followed by "...", which is added even when nothing was cut |
| HtmlNesting.WalkScanned | web/mothers-garage/check-html-nesting.js:84-111 | every path the walk returns ends in .tsx, .jsx or .js, however deep the directory it came from |
| HtmlNesting.WalkAppend | web/mothers-garage/check-html-nesting.js:89-104 | walking two lists of entries one after the other gives the files of the first list, then those of the second |
| HtmlNesting.WalkEntryScanned | web/mothers-garage/check-html-nesting.js:90-103 | every path returned for one entry ends in .tsx, .jsx or .js |
| HtmlNesting.ExcludedDirectories | web/mothers-garage/check-html-nesting.js:93-97 | a directory whose path mentions node_modules or .next contributes nothing |
| HtmlNesting.PlainTypeScriptSkipped | web/mothers-garage/check-html-nesting.js:98-103 | a .ts file is never scanned, only .tsx, .jsx and .js files |
| Registration.ValidateAdminUserSpec | backend/onboarding/serializers.py:294-305 | a creation body is accepted exactly when the username, e-mail and passwords are not blank once stripped and the stripped passwords agree; the cleaned body holds the stripped username, e-mail and password and is itself accepted unchanged |
| Registration.CreateAdminSpec | backend/onboarding/views.py:940-972 | only the super administrator creates administrators; a creation appends one verified staff user with the admin role, the stripped user name and e-mail and the given hash and changes nothing else; every refusal leaves the database unchanged; well-formedness is kept |
| Registration.DuplicateAdminIsServerError | backend/onboarding/views.py:956-970 | the view as written and as intended agree on every request except a valid one from the super administrator whose user name or e-mail is taken: 500 as written, 400 as intended |
| SuperAdminDashboard.SentFormMeetsSerializer | web/mothers-garage/src/app/super-admin/dashboard/page.tsx:194-201 | a form the dashboard sends passes the creation serializer exactly when its username is not blank by Python's reckoning (its e-mail holds an '@', so is never blank), the password arriving as typed; a U+001C username passes the form yet is refused |

## Left out

- Mail, password hashing and checking, JWT minting and blacklisting, the random code and the file store are not modelled. Their results are inputs: the hash, whether a password checks out, whether a token is sound, the code drawn, the stored file names. No mail is sent in the model.
- The PayPal order lookup is an input (the order status, amount, currency and merchant the service reports), as is the capture inside the payment widget.
- Django's e-mail validator and the column lengths of the `CharField`s are not modelled. An `EmailField` is modelled as a required text field, stripped and refused when blank; an address of the wrong shape and over-long text are not refused.
- `Store.Db` keeps users in creation order and never deletes one. `is_active` is left out: `authenticate` refuses an inactive user, and that refusal is folded into the login's "password checks out" input. Django's other account flags and the timestamps it fills in are left out, because no modelled decision reads them.
- JSON `null` in a settings patch is treated like an absent key. Settings patch bodies carry strings only.
- Common.ToLower, Common.ToUpper: ASCII-only case folding, because every compared value in the model (roles, plans, tags) is ASCII.
- Validators.GetInitials: upper-cases ASCII letters only, because no Unicode case table is modelled. JavaScript's `toUpperCase` also maps "é" to "É" and "ß" to "SS", so for such names the source shows a different letter, or more than two letters.
- GetInitialsFromSpaces: states its bound of two letters and its upper-casing for the modelled ASCII case mapping only. A name starting with "ß" gives "SS" in JavaScript, so "ß ß" has four letters of initials there.
- Validators.TruncateText: counts and slices code points, because Dafny strings are sequences of code points. JavaScript's `length` and `slice` count UTF-16 units, so a character outside the Basic Multilingual Plane counts twice there: "a😀b" with limit 3 is cut by the source and kept by the model.
- TruncateTextShape: holds for code-point counting only, for the same reason. Under UTF-16 counting a cut can also fall inside such a character.
- Registration.MotherSignUp, Registration.ProviderSignUp: the pinned coordinates arrive as numbers. A value Python's `float` cannot read (a non-numeric string, a list, an object) raises, which is a 500. Neither serializer's `create` is atomic, so a first mother sign-up and every provider sign-up leave the new pending record saved.
- ProviderSignUpSpec: "any failure is 400 with nothing changed" holds for numeric coordinates only; the 500 above, with the record kept, is not modelled.
- Registration.AdminApprove: the pending id arrives as a number. A string that is not a number makes the lookup raise, which is a 500 and not the 404 of an unknown id.
- The landing, user-type, consent, dashboard, interest, service and speciality list endpoints are not part of this model. Neither are the administrator's list of pending providers and its approve button on the dashboard, because they decide nothing beyond the endpoints modelled.
- The location picker, maps and geocoding are left out (third-party widgets). So are `formatDate`, `formatPriceForCountry` and `cn` (display only), and the unused `auth-form.tsx` and `handlePaymentSuccess`.
- The regular-expression scan of `checkFile`, `main` and the file system reads of `check-html-nesting.js` are not modelled. `HtmlNesting.Walk` takes the directory listing as a tree.
- HtmlNesting.Reports: ESLint's visiting order is taken to be an element first, then the JSX in its attribute values, then its children, each in source order.
- SignupSteps.IsPositiveNumber: covers the plain decimal forms `Number` reads (white space, an optional `+`, digits with at most one point), not exponents, hexadecimal, `Infinity` or a leading `-`, which the forms never produce usefully.
- HttpClient.ProviderTypesUrl: service type ids are natural numbers, so a negative id is not modelled.
- HttpClient.ErrorBody: the `detail`, `message` and `error` fields are strings only. A non-string value, which JavaScript would pass to the toast as it is, is not modelled.
- ProviderSignupPage.ErrorData: the `detail` of a refused application is a string only.
- SettingsPages.DetailText: an array or object `detail` holds strings only, and any other scalar comes with the text `String` gives it.
- SubscriptionPage.PaidOrderVerifies: assumes the payment service reports the captured amount with two decimals ("50.00"). The widget sends "50", and the backend compares the reported text with its price table exactly.
- The sign-out of the workspace picker and the settings pages' loading effects are not modelled. They only call the endpoints modelled and copy the answer into the form.
- Timers (the 20-second resend countdown, the 60-second card countdown, the 3-second redirects) are modelled as ticks, not as wall-clock time.
- Pending: the registration records are modelled by the fields the flows read. The `max_length` constraints are not modelled.
- NumberFields.ParseDecimal: reads ASCII digits only. `Decimal` also reads Unicode digits and digits grouped by underscores; the model refuses both.
- NumberFields.IntegerFieldValue: reads ASCII digits only, so Unicode digits are refused where Python's `int` would read them.
- Registration.MotherSignup: the consent flag arrives already read as a boolean. The textual spellings `BooleanField` accepts ("true", "1", "yes" and so on) are not modelled.
- Registration.StoredAge: an age of more than ten digits passes the integer field but does not fit the ten-character column. The database error that follows is not modelled.

## Findings

| source | as written | input that shows it | evidently intended | confidence | as-written member | corrected member |
|---|---|---|---|---|---|---|
| web/mothers-garage/src/app/provider/settings/page.tsx:131-146 | the error text falls through to `String(detail)`, overwriting the fallback "Failed to update settings."; `typeof null` is "object", so `null` reaches `JSON.stringify` | a failed request with no response, or a response body without `detail`, shows "undefined"; a `detail` of `null` shows "null" | the fallback "Failed to update settings." for a missing or `null` detail | medium, not executed | SettingsPages.AsWrittenShowsUndefined | SettingsPages.DetailTextSpec |
| backend/onboarding/views.py:956-970 | `except IntegrityError` names an exception the module never imports, so a duplicate raises `NameError` | the super administrator creates an administrator with a user name that already exists | 400 "Username or email already exists." with nothing saved | high, not executed | Registration.CreateAdminAsWritten / Registration.DuplicateAdminIsServerError | Registration.CreateAdmin / Registration.CreateAdminSpec |

=== FILE: accounts.dfy ===
/** Accounts and profiles (backend/users/models.py): the custom user with a
    role, the mother and provider profiles attached one-to-one to a user, and
    the service catalogue providers classify themselves under. */
module Accounts {
  import opened Common

  /** `User.ROLE_CHOICES`; a user's role may also be missing (`null=True`). */
  datatype Role = Mother | Provider | Admin | SuperAdmin

  /** The value stored in the `role` column. */
  function RoleName(r: Role): (s: string) {
    match r
    case Mother => "mother"
    case Provider => "provider"
    case Admin => "admin"
    case SuperAdmin => "super_admin"
  }

  /** Reading the `role` column back; anything else is no role. */
  function ParseRole(s: string): (r: Option<Role>) {
    if s == "mother" then Some(Mother)
    else if s == "provider" then Some(Provider)
    else if s == "admin" then Some(Admin)
    else if s == "super_admin" then Some(SuperAdmin)
    else None
  }

  /** Every role survives a trip through its column value, and the column
      accepts exactly the four role names. */
  lemma RoleNameRoundTrip(r: Role, s: string)
    ensures ParseRole(RoleName(r)) == Some(r)
    ensures ParseRole(s).Some? ==> RoleName(ParseRole(s).value) == s
  {
  }

  /** A geographic point, longitude first as GeoDjango builds it. */
  datatype Point = Point(lng: real, lat: real)

  /** `users.User`: Django's user plus e-mail verification, phone and role.
      `password` holds the hashed password. */
  datatype User = User(
    username: string,
    email: string,
    phone: Option<string>,
    password: string,
    role: Option<Role>,
    emailVerified: bool,
    firstName: string,
    lastName: string,
    isStaff: bool)

  predicate HasRole(u: User, r: Role) {
    u.role == Some(r)
  }

  /** `MotherProfile`. */
  datatype MotherProfile = MotherProfile(
    age: Option<string>,
    weight: Option<string>,
    height: Option<string>,
    country: string,
    language: Option<string>,
    pin: Option<Point>,
    postpartumNeeds: Option<string>,
    infantCare: Option<string>,
    agreedToTerms: bool,
    paymentMethod: Option<string>,
    interests: set<int>,
    completedTutorial: bool)

  /** `ProviderProfile`. `plan` is the profile's own copy of the subscription
      plan; `subscriptionEnd` mirrors the subscription's end date. */
  datatype ProviderProfile = ProviderProfile(
    pin: Option<Point>,
    bio: Option<string>,
    license: Option<string>,
    credentials: Option<string>,
    clinic: Option<string>,
    verifiedByAdmin: bool,
    plan: Option<string>,
    subscriptionStart: Option<int>,
    subscriptionEnd: Option<int>,
    serviceTypes: set<int>,
    specialities: set<int>,
    certificates: Option<seq<string>>,
    searchable: bool,
    country: string,
    language: Option<string>,
    completedTutorial: bool)

  /** `Speciality`: a named speciality under one service type. */
  datatype Speciality = Speciality(name: string, serviceType: int)

  const UGANDA := "Uganda"
  const CANADA := "Canada"
  const ENGLISH := "English"
  const FRENCH := "French"
  const BASIC := "basic"
  const STANDARD := "standard"
  const PREMIUM := "premium"

  /** `COUNTRY_CHOICES` */
  predicate IsCountryChoice(c: string) { c == UGANDA || c == CANADA }

  /** `LANGUAGE_CHOICES` */
  predicate IsLanguageChoice(l: string) { l == ENGLISH || l == FRENCH }

  /** `SUBSCRIPTION_PLAN_CHOICES` */
  predicate IsPlanChoice(p: string) { p == BASIC || p == STANDARD || p == PREMIUM }

  /** A mother profile created with only the fields given, the rest at their
      model defaults. */
  function NewMotherProfile(age: Option<string>, weight: Option<string>, height: Option<string>,
                            country: string, language: Option<string>,
                            postpartumNeeds: Option<string>, infantCare: Option<string>,
                            agreedToTerms: bool): (m: MotherProfile)
    ensures m.pin.None? && m.paymentMethod.None? && m.interests == {}
    ensures !m.completedTutorial
    ensures m.country == country && m.agreedToTerms == agreedToTerms
  {
    MotherProfile(age, weight, height, country, language, None, postpartumNeeds, infantCare,
                  agreedToTerms, None, {}, false)
  }

  /** A provider profile created with only the fields given, the rest at their
      model defaults: no plan, no services, searchable, tutorial pending. */
  function NewProviderProfile(bio: Option<string>, license: Option<string>, clinic: Option<string>,
                              verified: bool, country: string, language: Option<string>): (p: ProviderProfile)
    ensures p.plan.None? && p.subscriptionEnd.None? && p.pin.None?
    ensures p.serviceTypes == {} && p.specialities == {}
    ensures p.searchable && !p.completedTutorial
    ensures p.verifiedByAdmin == verified && p.country == country
  {
    ProviderProfile(None, bio, license, None, clinic, verified, None, None, None, {}, {},
                    Some([]), true, country, language, false)
  }
}

=== FILE: auth_views.dfy ===
/** The authentication endpoints (backend/authentication/views.py). Password
    checking, token minting and verification, and the decoding of the
    reset link's user id are outside the model: which users a password
    checks out for, and whether a token is sound, are inputs. */
module AuthViews {
  import opened Common
  import opened Accounts
  import opened Store

  // ---------------------------------------------------------------------
  // Login
  // ---------------------------------------------------------------------

  const MISSING_CREDENTIALS := "Missing login_key or password."
  const INVALID_CREDENTIALS := "Invalid credentials."

  /** What a login answers: the status, the `detail` text of a refusal, and
      for 200 the user logged in and the role sent as `user_type`. */
  datatype LoginReply = LoginReply(status: nat, detail: Option<string>, user: Option<nat>, userType: Option<Role>)

  /** `authenticate(username=name, password=...)`, where `accepts` holds the
      users the password checks out for. */
  function Authenticate(db: Db, name: string, accepts: set<nat>): (r: Option<nat>)
    ensures r.Some? ==> r.value < |db.users| && db.users[r.value].username == name && r.value in accepts
  {
    var u := UserByUsername(db, name);
    if u.Some? && u.value in accepts then u else None
  }

  /** `CustomTokenObtainPairView.post`: 400 without a login key or password;
      the key is tried as a user name, then as an e-mail resolved to its
      owner's user name; 401 when neither works. */
  function Login(db: Db, loginKey: Option<string>, password: Option<string>, accepts: set<nat>): (r: LoginReply) {
    if !Truthy(loginKey) || !Truthy(password) then LoginReply(400, Some(MISSING_CREDENTIALS), None, None)
    else
      var byName := Authenticate(db, loginKey.value, accepts);
      var found := UserByEmail(db, loginKey.value);
      var user := if byName.Some? then byName
                  else if found.Some? then Authenticate(db, db.users[found.value].username, accepts)
                  else None;
      if user.None? then LoginReply(401, Some(INVALID_CREDENTIALS), None, None)
      else LoginReply(200, None, user, db.users[user.value].role)
  }

  /** In a well-formed database a login succeeds exactly when the key names
      a user, by user name or by e-mail, whom the password checks out for;
      the user name wins when it does; the reply carries that user's role. */
  lemma LoginSpec(db: Db, loginKey: Option<string>, password: Option<string>, accepts: set<nat>)
    requires Wf(db)
    ensures var r := Login(db, loginKey, password, accepts);
      (r.status == 400 <==> !Truthy(loginKey) || !Truthy(password))
      && (r.status == 200 <==>
            Truthy(loginKey) && Truthy(password)
            && exists k | 0 <= k < |db.users| && k in accepts ::
                 db.users[k].username == loginKey.value || db.users[k].email == loginKey.value)
      && (r.status == 200 ==>
            var k := r.user.value;
            k < |db.users| && k in accepts && r.userType == db.users[k].role
            && (db.users[k].username == loginKey.value || db.users[k].email == loginKey.value)
            && (forall j | 0 <= j < |db.users| && j in accepts && db.users[j].username == loginKey.value :: j == k))
      && (r.status != 200 ==> r.user.None? && r.status in {400, 401})
      && (r.detail.Some? <==> r.status != 200)
  {
    if Truthy(loginKey) && Truthy(password) {
      var key := loginKey.value;
      var r := Login(db, loginKey, password, accepts);
      if exists k | 0 <= k < |db.users| && k in accepts :: db.users[k].username == key || db.users[k].email == key {
        var k :| 0 <= k < |db.users| && k in accepts && (db.users[k].username == key || db.users[k].email == key);
        if db.users[k].username == key {
          UserByUsernameUnique(db, key, k);
        } else {
          UserByEmailUnique(db, key, k);
          UserByUsernameUnique(db, db.users[k].username, k);
        }
      }
      if r.status == 200 {
        var k := r.user.value;
        forall j | 0 <= j < |db.users| && j in accepts && db.users[j].username == key
          ensures j == k
        {
          UserByUsernameUnique(db, key, j);
        }
      }
    }
  }

  // ---------------------------------------------------------------------
  // Logout
  // ---------------------------------------------------------------------

  /** `LogoutView.post` over the set of blacklisted refresh tokens: 400
      without a token, 400 for a token that is unsound or already
      blacklisted, otherwise the token is blacklisted and 205. */
  function Logout(blacklist: set<string>, refresh: Option<string>, sound: bool): (r: (nat, set<string>)) {
    if !Truthy(refresh) then (400, blacklist)
    else if !sound || refresh.value in blacklist then (400, blacklist)
    else (205, blacklist + {refresh.value})
  }

  /** Logging out blacklists exactly the token given, and the same token
      cannot log out twice. */
  lemma LogoutOnce(blacklist: set<string>, refresh: Option<string>, sound: bool)
    ensures var r := Logout(blacklist, refresh, sound);
      (r.0 == 205 <==> Truthy(refresh) && sound && refresh.value !in blacklist)
      && (r.0 == 205 ==> r.1 == blacklist + {refresh.value})
      && (r.0 != 205 ==> r.0 == 400 && r.1 == blacklist)
      && Logout(r.1, refresh, sound).0 == 400
  {
  }

  // ---------------------------------------------------------------------
  // Administrator login
  // ---------------------------------------------------------------------

  /** `AdminLoginView.post`: `inner` is the status of the ordinary token
      login it runs first, passed through unless 200; then 400 without a user
      name, 404 for an unknown one, 403 unless the user is an administrator. */
  function AdminLogin(db: Db, username: Option<string>, inner: nat): (status: nat) {
    if inner != 200 then inner
    else if !Truthy(username) then 400
    else
      var u := UserByUsername(db, username.value);
      if u.None? then 404
      else if !(HasRole(db.users[u.value], Admin) || HasRole(db.users[u.value], SuperAdmin)) then 403
      else 200
  }

  /** Only administrators get in, and a refused inner login is reported as
      it was. */
  lemma AdminLoginSpec(db: Db, username: Option<string>, inner: nat)
    ensures var s := AdminLogin(db, username, inner);
      (inner != 200 ==> s == inner)
      && (s == 200 <==>
            inner == 200 && Truthy(username) && UserByUsername(db, username.value).Some?
            && db.users[UserByUsername(db, username.value).value].role in {Some(Admin), Some(SuperAdmin)})
      && ((inner == 200 && Truthy(username) && UserByUsername(db, username.value).Some?
           && db.users[UserByUsername(db, username.value).value].role in {Some(Mother), Some(Provider), None}) ==> s == 403)
  {
  }

  // ---------------------------------------------------------------------
  // Forgotten and reset passwords
  // ---------------------------------------------------------------------

  /** The reply to a reset request: status, the message, and the user the
      reset link was mailed to. */
  datatype ForgotReply = ForgotReply(status: nat, detail: string, mailedTo: Option<nat>)

  const NO_SUCH_EMAIL := "If that email exists, we have sent instructions."
  const LINK_SENT := "Password reset link sent if email exists."

  /** `ForgotPasswordView.post`: 400 without an e-mail; an unknown e-mail is
      answered 200 without mail; for a known one the link is mailed and 200,
      or 500 when the mail cannot be sent (it is not sent silently). */
  function ForgotPassword(db: Db, email: Option<string>, mailOk: bool): (r: ForgotReply) {
    if !Truthy(email) then ForgotReply(400, "Email is required.", None)
    else
      var u := UserByEmail(db, email.value);
      if u.None? then ForgotReply(200, NO_SUCH_EMAIL, None)
      else if !mailOk then ForgotReply(500, "", None)
      else ForgotReply(200, LINK_SENT, u)
  }

  /** The status does not say whether the e-mail is registered, but the
      message does: the two 200 answers differ in their text. The link goes
      only to the owner of the e-mail. */
  lemma ForgotPasswordSpec(db: Db, email: Option<string>, mailOk: bool)
    ensures var r := ForgotPassword(db, email, mailOk);
      (r.status == 400 <==> !Truthy(email))
      && (Truthy(email) && mailOk ==> r.status == 200)
      && (r.status == 200 ==>
            (r.detail == LINK_SENT <==> UserByEmail(db, email.value).Some?)
            && (r.detail == NO_SUCH_EMAIL <==> UserByEmail(db, email.value).None?))
      && (r.mailedTo.Some? ==> r.mailedTo.value < |db.users| && db.users[r.mailedTo.value].email == email.value)
    ensures NO_SUCH_EMAIL != LINK_SENT
  {
  }

  /** `ResetPasswordView.post`, with the decoded user id (`None` when the uid
      does not decode to a number), the users the token is valid for, and the
      hash of the new password as inputs. Checks in order: all four fields,
      equal passwords, a known user, a valid token. */
  function ResetPassword(db: Db, uid: Option<string>, token: Option<string>, password: Option<string>,
                         password2: Option<string>, decoded: Option<int>, tokenOkFor: set<nat>,
                         newHash: string): (r: Outcome)
  {
    if !(Truthy(uid) && Truthy(token) && Truthy(password) && Truthy(password2)) then Outcome(400, db)
    else if password != password2 then Outcome(400, db)
    else if decoded.None? || !(0 <= decoded.value < |db.users|) then Outcome(400, db)
    else if decoded.value as nat !in tokenOkFor then Outcome(400, db)
    else
      var id := decoded.value as nat;
      Outcome(200, db.(users := db.users[id := db.users[id].(password := newHash)]))
  }

  /** A reset changes exactly the password of the user the link names, and
      only when every check passes; any failure leaves the database alone. */
  lemma ResetPasswordSpec(db: Db, uid: Option<string>, token: Option<string>, password: Option<string>,
                          password2: Option<string>, decoded: Option<int>, tokenOkFor: set<nat>, newHash: string)
    ensures var r := ResetPassword(db, uid, token, password, password2, decoded, tokenOkFor, newHash);
      (r.status == 200 <==>
         Truthy(uid) && Truthy(token) && Truthy(password) && Truthy(password2) && password == password2
         && decoded.Some? && 0 <= decoded.value < |db.users| && decoded.value as nat in tokenOkFor)
      && (r.status != 200 ==> r.status == 400 && r.db == db)
      && (r.status == 200 ==>
            var id := decoded.value as nat;
            |r.db.users| == |db.users| && r.db.users[id].password == newHash
            && r.db.users[id] == db.users[id].(password := newHash)
            && (forall o | 0 <= o < |db.users| && o != id :: r.db.users[o] == db.users[o])
            && r.db == db.(users := r.db.users))
  {
  }

  /** A reset keeps the database well formed. */
  lemma ResetPasswordKeepsWf(db: Db, uid: Option<string>, token: Option<string>, password: Option<string>,
                             password2: Option<string>, decoded: Option<int>, tokenOkFor: set<nat>, newHash: string)
    requires Wf(db)
    ensures Wf(ResetPassword(db, uid, token, password, password2, decoded, tokenOkFor, newHash).db)
  {
  }
}

=== FILE: billing.dfy ===
/** Subscriptions and booking quotas (backend/payments/models.py). A provider
    has at most one subscription and one usage counter; the plan that limits
    bookings is the live subscription's plan, falling back to the profile's.
    Times are whole seconds; `now` is the instant the caller reads the clock. */
module Billing {
  import opened Common
  import opened Accounts

  const DAY := 86400
  /** `timedelta(days=30)`, the length of every paid or free cycle. */
  const CYCLE := 30 * DAY

  /** `payments.Subscription`. */
  datatype Subscription = Subscription(plan: Option<string>, start: int, end: Option<int>, isActive: bool)

  /** `payments.BookingUsage`. */
  datatype BookingUsage = BookingUsage(used: nat, cycleStart: int)

  /** `Subscription.has_expired`: an end date exists and has been reached. */
  predicate HasExpired(s: Subscription, now: int) {
    s.end.Some? && now >= s.end.value
  }

  /** Active and not expired: the condition under which the subscription's
      plan, rather than the profile's, governs the provider. */
  predicate IsLive(s: Subscription, now: int) {
    s.isActive && !HasExpired(s, now)
  }

  /** A subscription opened at `now` for one cycle: active, on the plan
      given, live for the whole cycle and expired from its end on. */
  function StartCycle(plan: string, now: int): (s: Subscription)
    ensures s.plan == Some(plan) && s.isActive && s.start == now
    ensures forall t | now <= t < now + CYCLE :: IsLive(s, t)
    ensures forall t | t >= now + CYCLE :: HasExpired(s, t)
  {
    Subscription(Some(plan), now, Some(now + CYCLE), true)
  }

  /** `Subscription.expire_and_revert`: the subscription is deactivated and the
      profile, when there is one, drops back to the basic plan, loses its end
      date and becomes searchable again. */
  function ExpireAndRevert(s: Subscription, p: Option<ProviderProfile>): (r: (Subscription, Option<ProviderProfile>))
    ensures r.0 == s.(isActive := false)
    ensures r.1.Some? <==> p.Some?
    ensures p.Some? ==> r.1.value == p.value.(plan := Some(BASIC), subscriptionEnd := None, searchable := true)
  {
    (s.(isActive := false),
     if p.Some? then Some(p.value.(plan := Some(BASIC), subscriptionEnd := None, searchable := true)) else None)
  }

  /** `Subscription.auto_renew_if_needed`: an expired basic subscription starts
      a fresh cycle at `now` and the profile's end date follows; anything else
      is left untouched. */
  function AutoRenewIfNeeded(s: Subscription, p: Option<ProviderProfile>, now: int): (r: (Subscription, Option<ProviderProfile>)) {
    if s.plan == Some(BASIC) && HasExpired(s, now) then
      var s' := s.(start := now, end := Some(now + CYCLE), isActive := true);
      (s', if p.Some? then Some(p.value.(subscriptionEnd := s'.end)) else None)
    else (s, p)
  }

  /** Renewal only ever fires for an expired basic subscription; it leaves the
      subscription live for exactly one cycle from `now`, keeps the plan, and
      changes nothing on the profile but its end date. Renewing twice at the
      same instant is renewing once. */
  lemma AutoRenewSpec(s: Subscription, p: Option<ProviderProfile>, now: int)
    ensures var r := AutoRenewIfNeeded(s, p, now);
      if s.plan == Some(BASIC) && HasExpired(s, now) then
        r.0.plan == s.plan
        && (forall t | now <= t < now + CYCLE :: IsLive(r.0, t))
        && HasExpired(r.0, now + CYCLE)
        && (p.Some? ==> r.1 == Some(p.value.(subscriptionEnd := Some(now + CYCLE))))
        && (p.None? ==> r.1.None?)
      else r == (s, p)
    ensures var r := AutoRenewIfNeeded(s, p, now);
      AutoRenewIfNeeded(r.0, r.1, now) == r
  {
  }

  /** `BookingUsage.reset_cycle`. */
  function ResetCycle(u: BookingUsage, now: int): (r: BookingUsage)
    ensures r.used == 0 && r.cycleStart == now
  {
    BookingUsage(0, now)
  }

  /** The plan `monthly_limit_reached` goes by: the live subscription's plan
      (which may be missing), else the profile's plan with a blank or missing
      plan read as basic, else basic. */
  function EffectivePlan(sub: Option<Subscription>, p: Option<ProviderProfile>, now: int): (plan: Option<string>) {
    if sub.Some? && IsLive(sub.value, now) then sub.value.plan
    else if p.Some? then (if Truthy(p.value.plan) then p.value.plan else Some(BASIC))
    else Some(BASIC)
  }

  /** The per-plan quota test: five bookings on basic, fifty on standard, no
      limit on premium, and any other plan (or none) counts as exhausted. */
  predicate LimitReachedFor(plan: Option<string>, used: nat) {
    if plan == Some(BASIC) then used >= 5
    else if plan == Some(STANDARD) then used >= 50
    else if plan == Some(PREMIUM) then false
    else true
  }

  /** The quota as a number, for the plans that have one. */
  function Quota(plan: Option<string>): (q: Option<nat>)
    ensures plan == Some(BASIC) ==> q == Some(5)
    ensures plan == Some(STANDARD) ==> q == Some(50)
    ensures q.None? <==> plan != Some(BASIC) && plan != Some(STANDARD)
  {
    if plan == Some(BASIC) then Some(5) else if plan == Some(STANDARD) then Some(50) else None
  }

  /** The quota test is a threshold: with a known plan it is reached exactly
      from the quota on (never on premium), and once reached it stays reached
      as usage grows. */
  lemma LimitIsThreshold(plan: Option<string>, used: nat, more: nat)
    ensures Quota(plan).Some? ==> (LimitReachedFor(plan, used) <==> used >= Quota(plan).value)
    ensures plan == Some(PREMIUM) ==> !LimitReachedFor(plan, used)
    ensures LimitReachedFor(plan, used) && used <= more ==> LimitReachedFor(plan, more)
  {
  }

  /** `BookingUsage.monthly_limit_reached`. */
  predicate MonthlyLimitReached(u: BookingUsage, sub: Option<Subscription>, p: Option<ProviderProfile>, now: int) {
    LimitReachedFor(EffectivePlan(sub, p, now), u.used)
  }

  /** `BookingUsage.increment_usage`: one more booking; when that exhausts the
      quota the profile is hidden from searches (and flagged as verified). */
  function IncrementUsage(u: BookingUsage, sub: Option<Subscription>, p: Option<ProviderProfile>, now: int)
    : (r: (BookingUsage, Option<ProviderProfile>))
    ensures r.0.used == u.used + 1 && r.0.cycleStart == u.cycleStart
    ensures r.1.Some? <==> p.Some?
    ensures p.Some? && MonthlyLimitReached(r.0, sub, p, now) ==> !r.1.value.searchable && r.1.value.verifiedByAdmin
    ensures p.Some? && !MonthlyLimitReached(r.0, sub, p, now) ==> r.1 == p
    ensures p.Some? ==> r.1.value.plan == p.value.plan
    ensures p.Some? ==> r.1.value == p.value.(verifiedByAdmin := r.1.value.verifiedByAdmin,
                                               searchable := r.1.value.searchable)
  {
    var u' := u.(used := u.used + 1);
    if MonthlyLimitReached(u', sub, p, now) && p.Some? then
      (u', Some(p.value.(verifiedByAdmin := true, searchable := false)))
    else (u', p)
  }

  /** After a revert the provider is governed by the basic plan, whatever the
      old subscription said, and the basic quota applies. */
  lemma RevertGovernsByBasic(s: Subscription, p: ProviderProfile, u: BookingUsage, now: int)
    ensures var r := ExpireAndRevert(s, Some(p));
      EffectivePlan(Some(r.0), r.1, now) == Some(BASIC)
      && (MonthlyLimitReached(u, Some(r.0), r.1, now) <==> u.used >= 5)
      && r.1.value.searchable
  {
  }

  /** A counter just reset is within quota for each of the three plans, and
      still "exhausted" when the governing plan is none of them. */
  lemma ResetClearsKnownPlans(u: BookingUsage, sub: Option<Subscription>, p: Option<ProviderProfile>, now: int)
    ensures var plan := EffectivePlan(sub, p, now);
      plan.Some? && IsPlanChoice(plan.value) ==> !MonthlyLimitReached(ResetCycle(u, now), sub, p, now)
    ensures var plan := EffectivePlan(sub, p, now);
      !(plan.Some? && IsPlanChoice(plan.value)) ==> MonthlyLimitReached(ResetCycle(u, now), sub, p, now)
  {
  }

  /** `k` successive bookings. */
  function IncrementTimes(u: BookingUsage, sub: Option<Subscription>, p: Option<ProviderProfile>, now: int, k: nat)
    : (r: (BookingUsage, Option<ProviderProfile>))
    decreases k
  {
    if k == 0 then (u, p)
    else
      var step := IncrementUsage(u, sub, p, now);
      IncrementTimes(step.0, sub, step.1, now, k - 1)
  }

  /** Starting from a fresh counter under the basic plan, a searchable
      provider stays searchable for four bookings and is hidden from the fifth
      on; the counter records every booking. */
  lemma {:induction false} BasicHiddenFromFifthBooking(u: BookingUsage, sub: Option<Subscription>, p: ProviderProfile, now: int, k: nat)
    requires EffectivePlan(sub, Some(p), now) == Some(BASIC)
    requires u.used == 0 && p.searchable
    ensures var r := IncrementTimes(u, sub, Some(p), now, k);
      r.0.used == k && r.1.Some? && (r.1.value.searchable <==> k < 5)
  {
    BasicCounting(u, sub, p, now, k);
  }

  lemma {:induction false} BasicCounting(u: BookingUsage, sub: Option<Subscription>, p: ProviderProfile, now: int, k: nat)
    requires EffectivePlan(sub, Some(p), now) == Some(BASIC)
    requires u.used < 5 ==> p.searchable
    requires u.used >= 5 ==> !p.searchable
    ensures var r := IncrementTimes(u, sub, Some(p), now, k);
      r.0.used == u.used + k && r.1.Some?
      && r.1.value.plan == p.plan
      && (r.1.value.searchable <==> u.used + k < 5)
    decreases k
  {
    if k > 0 {
      var step := IncrementUsage(u, sub, Some(p), now);
      assert EffectivePlan(sub, step.1, now) == Some(BASIC);
      BasicCounting(step.0, sub, step.1.value, now, k - 1);
    }
  }
}

=== FILE: common.dfy ===
/** Shared vocabulary: optional values, the character classes the client's
    regular expressions and the backend's string methods rely on, and the
    small string functions (`split`, `trim`, number rendering) both sides use. */
module Common {

  /** A value that may be missing: JSON `null`, a Python `None`, an absent key. */
  datatype Option<T> = None | Some(value: T) {
    function GetOr(default: T): T {
      match this
      case Some(v) => v
      case None => default
    }

    /** This value if present, else `other`: a field that was not sent keeps
        its stored value. */
    function OrElse(other: Option<T>): Option<T> {
      if this.Some? then this else other
    }
  }

  /** A client-side navigation scheduled after a delay in milliseconds. */
  datatype Redirect = Redirect(path: string, delayMs: nat)

  /** The sign-in page, where the client sends a user it cannot or will no
      longer authenticate. */
  const LOGIN_PATH := "/auth/login"

  /** JavaScript truthiness of an optional string: present and non-empty. */
  predicate Truthy(s: Option<string>) {
    s.Some? && s.value != ""
  }

  /** Characters matched by `\s` in an ECMAScript regular expression; the same
      set is stripped by `String.prototype.trim`. */
  predicate IsJsSpace(c: char) {
    var n := c as int;
    n == 0x09 || n == 0x0A || n == 0x0B || n == 0x0C || n == 0x0D || n == 0x20
    || n == 0xA0 || n == 0x1680 || (0x2000 <= n <= 0x200A) || n == 0x2028
    || n == 0x2029 || n == 0x202F || n == 0x205F || n == 0x3000 || n == 0xFEFF
  }

  /** Characters stripped by Python's `str.strip()` with no argument. */
  predicate IsPySpace(c: char) {
    var n := c as int;
    (0x09 <= n <= 0x0D) || (0x1C <= n <= 0x20) || n == 0x85 || n == 0xA0
    || n == 0x1680 || (0x2000 <= n <= 0x200A) || n == 0x2028 || n == 0x2029
    || n == 0x202F || n == 0x205F || n == 0x3000
  }

  /** `s.trim()` is empty: every character is JavaScript white space. */
  predicate IsBlank(s: string) {
    forall i | 0 <= i < |s| :: IsJsSpace(s[i])
  }

  predicate IsDigit(c: char) { '0' <= c <= '9' }
  predicate IsLower(c: char) { 'a' <= c <= 'z' }
  predicate IsUpper(c: char) { 'A' <= c <= 'Z' }

  function UpperChar(c: char): char {
    if IsLower(c) then (c as int - 32) as char else c
  }

  function LowerChar(c: char): char {
    if IsUpper(c) then (c as int + 32) as char else c
  }

  lemma ToUpperAppend(a: string, b: string)
    ensures ToUpper(a + b) == ToUpper(a) + ToUpper(b)
  {
  }

  /** Upper-casing, restricted to the ASCII letters. */
  function ToUpper(s: string): (r: string)
    ensures |r| == |s|
    ensures forall i | 0 <= i < |s| :: r[i] == UpperChar(s[i])
  {
    if s == [] then [] else [UpperChar(s[0])] + ToUpper(s[1..])
  }

  /** Lower-casing, restricted to the ASCII letters. */
  function ToLower(s: string): (r: string)
    ensures |r| == |s|
    ensures forall i | 0 <= i < |s| :: r[i] == LowerChar(s[i])
  {
    if s == [] then [] else [LowerChar(s[0])] + ToLower(s[1..])
  }

  /** Django's `__iexact` lookup: equality up to (ASCII) case. */
  predicate EqualsIgnoreCase(a: string, b: string) {
    ToLower(a) == ToLower(b)
  }

  /** Python `s.strip()`. */
  function PyStrip(s: string): (r: string)
    decreases |s|
  {
    if |s| > 0 && IsPySpace(s[0]) then PyStrip(s[1..])
    else if |s| > 0 && IsPySpace(s[|s| - 1]) then PyStrip(s[..|s| - 1])
    else s
  }

  /** Stripping only removes: every character left was in the text. */
  lemma {:induction false} PyStripWithin(s: string)
    ensures forall k | 0 <= k < |PyStrip(s)| :: PyStrip(s)[k] in s
    decreases |s|
  {
    if |s| > 0 && IsPySpace(s[0]) {
      PyStripWithin(s[1..]);
      forall k | 0 <= k < |PyStrip(s)| ensures PyStrip(s)[k] in s {
        assert PyStrip(s)[k] in s[1..];
      }
    } else if |s| > 0 && IsPySpace(s[|s| - 1]) {
      PyStripWithin(s[..|s| - 1]);
      forall k | 0 <= k < |PyStrip(s)| ensures PyStrip(s)[k] in s {
        assert PyStrip(s)[k] in s[..|s| - 1];
      }
    }
  }

  /** A text holding a character Python does not strip is not blank once
      stripped. */
  lemma {:induction false} PyStripNotBlank(s: string, k: int)
    requires 0 <= k < |s| && !IsPySpace(s[k])
    ensures PyStrip(s) != ""
    decreases |s|
  {
    if |s| > 0 && IsPySpace(s[0]) {
      PyStripNotBlank(s[1..], k - 1);
    } else if |s| > 0 && IsPySpace(s[|s| - 1]) {
      PyStripNotBlank(s[..|s| - 1], k);
    }
  }

  /** JavaScript `s.trim()`. */
  function JsTrim(s: string): (r: string)
    ensures r == "" <==> IsBlank(s)
    ensures r != "" ==> !IsJsSpace(r[0]) && !IsJsSpace(r[|r| - 1])
    decreases |s|
  {
    if |s| > 0 && IsJsSpace(s[0]) then
      assert IsBlank(s) <==> IsBlank(s[1..]) by {
        if IsBlank(s[1..]) {
          forall i | 0 <= i < |s| ensures IsJsSpace(s[i]) {
            if i > 0 { assert s[i] == s[1..][i - 1]; }
          }
        }
      }
      JsTrim(s[1..])
    else if |s| > 0 && IsJsSpace(s[|s| - 1]) then
      assert IsBlank(s) <==> IsBlank(s[..|s| - 1]) by {
        if IsBlank(s[..|s| - 1]) {
          forall i | 0 <= i < |s| ensures IsJsSpace(s[i]) {
            if i < |s| - 1 { assert s[i] == s[..|s| - 1][i]; }
          }
        }
      }
      JsTrim(s[..|s| - 1])
    else s
  }

  /** Number of occurrences of `c` in `s`. */
  function Count(s: string, c: char): (n: nat)
    ensures n <= |s|
  {
    if s == [] then 0 else (if s[0] == c then 1 else 0) + Count(s[1..], c)
  }

  lemma {:induction false} CountAppend(a: string, b: string, c: char)
    ensures Count(a + b, c) == Count(a, c) + Count(b, c)
  {
    if a != [] {
      assert (a + b)[1..] == a[1..] + b;
      CountAppend(a[1..], b, c);
    } else {
      assert a + b == b;
    }
  }

  /** Position of the first `c` in `s`, or `|s|` when there is none. */
  function IndexOf<T(==)>(s: seq<T>, c: T): (i: nat)
    ensures i <= |s|
    ensures i < |s| ==> s[i] == c
    ensures forall j | 0 <= j < i :: s[j] != c
  {
    if s == [] then 0 else if s[0] == c then 0 else 1 + IndexOf(s[1..], c)
  }

  /** JavaScript `s.split(sep)` for a one-character separator. */
  function Split(s: string, sep: char): (parts: seq<string>)
    ensures |parts| >= 1
    decreases |s|
  {
    var i := IndexOf(s, sep);
    if i == |s| then [s] else [s[..i]] + Split(s[i + 1..], sep)
  }

  /** Position of the last `c` in `s`, or -1 when there is none. */
  function LastIndexOf(s: string, c: char): (i: int)
    ensures -1 <= i < |s|
    ensures 0 <= i ==> s[i] == c
    ensures forall j | i < j < |s| :: s[j] != c
  {
    if s == [] then -1
    else if s[|s| - 1] == c then |s| - 1
    else LastIndexOf(s[..|s| - 1], c)
  }

  /** The last element of a split. */
  function LastPart(s: string, sep: char): string {
    var parts := Split(s, sep);
    parts[|parts| - 1]
  }

  /** The last part of a split is the text after the last separator, and the
      whole text when there is no separator. */
  lemma SplitLast(s: string, sep: char)
    ensures LastPart(s, sep) == s[LastIndexOf(s, sep) + 1..]
  {
    var k := LastIndexOf(s, sep) + 1;
    assert sep !in s[k..] by {
      forall j | 0 <= j < |s| - k ensures s[k..][j] != sep {
        assert s[k..][j] == s[k + j];
      }
    }
    assert SuffixAfterSeparator(s, sep, k);
    SplitLastAt(s, sep, k);
  }

  /** A suffix free of separators that starts the text or follows a
      separator is the last part of the split. */
  lemma {:induction false} SplitLastAt(s: string, sep: char, k: nat)
    requires SuffixAfterSeparator(s, sep, k)
    ensures LastPart(s, sep) == s[k..]
    decreases |s|
  {
    if IndexOf(s, sep) < |s| {
      var i := IndexOf(s, sep);
      SuffixInRest(s, sep, k);
      SplitLastAt(s[i + 1..], sep, k - i - 1);
      SplitLastStep(s, sep, k);
    } else {
      assert k == 0;
      assert s[0..] == s;
    }
  }

  /** `s[k..]` holds no separator and starts `s` or follows a separator. */
  predicate SuffixAfterSeparator(s: string, sep: char, k: nat) {
    k <= |s| && sep !in s[k..] && (k == 0 || s[k - 1] == sep)
  }

  /** The suffix lies after the first separator, and is such a suffix of
      the rest too. */
  lemma SuffixInRest(s: string, sep: char, k: nat)
    requires SuffixAfterSeparator(s, sep, k) && IndexOf(s, sep) < |s|
    ensures IndexOf(s, sep) < k && SuffixAfterSeparator(s[IndexOf(s, sep) + 1..], sep, k - IndexOf(s, sep) - 1)
  {
    var i := IndexOf(s, sep);
    assert i < k;
    var rest := s[i + 1..];
    var k' := k - i - 1;
    assert rest[k'..] == s[k..];
    assert k' > 0 ==> rest[k' - 1] == s[k - 1];
  }

  /** One step: the last part of the split is the last part of the rest's. */
  lemma SplitLastStep(s: string, sep: char, k: nat)
    requires SuffixAfterSeparator(s, sep, k) && IndexOf(s, sep) < k
    requires LastPart(s[IndexOf(s, sep) + 1..], sep) == s[IndexOf(s, sep) + 1..][k - IndexOf(s, sep) - 1..]
    ensures LastPart(s, sep) == s[k..]
  {
    var i := IndexOf(s, sep);
    assert LastPart(s, sep) == LastPart(s[i + 1..], sep);
    assert s[i + 1..][k - i - 1..] == s[k..];
  }

  /** `parts.join(sep)` for a one-character separator. */
  function Join(parts: seq<string>, sep: string): string {
    if |parts| == 0 then ""
    else if |parts| == 1 then parts[0]
    else parts[0] + sep + Join(parts[1..], sep)
  }

  /** Splitting and joining again gives back the original text, and there is
      one more part than there are separators. */
  lemma SplitJoin(s: string, sep: char)
    ensures Join(Split(s, sep), [sep]) == s
    ensures |Split(s, sep)| == Count(s, sep) + 1
    ensures forall k | 0 <= k < |Split(s, sep)| :: sep !in Split(s, sep)[k]
  {
    SplitJoinRoundTrip(s, sep);
    SplitCount(s, sep);
    SplitPartsFree(s, sep);
  }

  /** A split at the first separator: the text before it, then the split of
      the rest. */
  lemma SplitFirstSeparator(s: string, sep: char)
    requires IndexOf(s, sep) < |s|
    ensures var i := IndexOf(s, sep);
      s == s[..i] + [sep] + s[i + 1..] && sep !in s[..i]
      && Split(s, sep) == [s[..i]] + Split(s[i + 1..], sep)
  {
  }

  lemma {:induction false} SplitJoinRoundTrip(s: string, sep: char)
    ensures Join(Split(s, sep), [sep]) == s
    decreases |s|
  {
    var i := IndexOf(s, sep);
    if i < |s| {
      SplitFirstSeparator(s, sep);
      SplitJoinRoundTrip(s[i + 1..], sep);
      var parts := Split(s, sep);
      assert parts[1..] == Split(s[i + 1..], sep);
    }
  }

  lemma {:induction false} SplitCount(s: string, sep: char)
    ensures |Split(s, sep)| == Count(s, sep) + 1
    decreases |s|
  {
    var i := IndexOf(s, sep);
    if i == |s| {
      assert sep !in s;
      CountNone(s, sep);
    } else {
      var rest := s[i + 1..];
      SplitFirstSeparator(s, sep);
      SplitCount(rest, sep);
      CountAppend(s[..i] + [sep], rest, sep);
      CountAppend(s[..i], [sep], sep);
      CountNone(s[..i], sep);
      assert Count([sep], sep) == 1 by {
        assert [sep][1..] == [];
      }
    }
  }

  lemma {:induction false} SplitPartsFree(s: string, sep: char)
    ensures forall k | 0 <= k < |Split(s, sep)| :: sep !in Split(s, sep)[k]
    decreases |s|
  {
    var i := IndexOf(s, sep);
    if i == |s| {
      assert sep !in s;
    } else {
      SplitFirstSeparator(s, sep);
      SplitPartsFree(s[i + 1..], sep);
      var parts := Split(s, sep);
      forall k | 0 <= k < |parts| ensures sep !in parts[k] {
        if k > 0 {
          assert parts[k] == Split(s[i + 1..], sep)[k - 1];
        }
      }
    }
  }

  /** Joining parts that hold no separator and splitting again gives the
      parts back. */
  lemma {:induction false} JoinSplit(parts: seq<string>, sep: char)
    requires |parts| >= 1
    requires forall k | 0 <= k < |parts| :: sep !in parts[k]
    ensures Split(Join(parts, [sep]), sep) == parts
  {
    var s := Join(parts, [sep]);
    if |parts| == 1 {
      assert IndexOf(s, sep) == |s|;
    } else {
      var rest := Join(parts[1..], [sep]);
      assert s == parts[0] + [sep] + rest;
      var i := IndexOf(s, sep);
      assert s[|parts[0]|] == sep;
      assert i == |parts[0]|;
      assert s[..i] == parts[0];
      assert s[i + 1..] == rest;
      JoinSplit(parts[1..], sep);
    }
  }

  lemma {:induction false} CountNone(s: string, c: char)
    requires c !in s
    ensures Count(s, c) == 0
  {
    if s != [] {
      assert c !in s[1..] by {
        forall k | 0 <= k < |s[1..]| ensures s[1..][k] != c {
          assert s[1..][k] == s[k + 1];
        }
      }
      CountNone(s[1..], c);
    }
  }

  /** The first part of a split is the text before the first separator. */
  lemma SplitFirst(s: string, sep: char)
    ensures Split(s, sep)[0] == s[..IndexOf(s, sep)]
  {
  }

  /** The decimal digits of a natural number, as `String(n)` renders them. */
  function NatToString(n: nat): (r: string)
    ensures |r| >= 1
    ensures forall i | 0 <= i < |r| :: IsDigit(r[i])
  {
    if n < 10 then [DigitChar(n)] else NatToString(n / 10) + [DigitChar(n % 10)]
  }

  function DigitChar(d: nat): (c: char)
    requires d < 10
    ensures IsDigit(c)
  {
    ('0' as int + d) as char
  }

  /** `String(i)` for an integer. */
  function IntToString(i: int): (r: string) {
    if i < 0 then "-" + NatToString(-i) else NatToString(i)
  }

  predicate AllDigitChars(s: string) {
    forall i | 0 <= i < |s| :: IsDigit(s[i])
  }

  /** The number a string of decimal digits denotes, as `parseInt` reads it. */
  function DigitsValue(s: string): (n: nat)
    requires AllDigitChars(s)
  {
    if |s| == 0 then 0 else DigitsValue(s[..|s| - 1]) * 10 + (s[|s| - 1] as int - '0' as int)
  }

  /** Reading back the digits `String(n)` renders gives `n` again. */
  lemma {:induction false} NatToStringRoundTrip(n: nat)
    ensures AllDigitChars(NatToString(n))
    ensures DigitsValue(NatToString(n)) == n
  {
    var s := NatToString(n);
    if n >= 10 {
      NatToStringRoundTrip(n / 10);
      assert s[..|s| - 1] == NatToString(n / 10);
    }
  }

  /** Numbers with exactly `k + 1` digits render as `k + 1` characters. */
  lemma {:induction false} NatToStringLength(n: nat, k: nat)
    requires Pow10(k) <= n < Pow10(k + 1)
    ensures |NatToString(n)| == k + 1
  {
    if k == 0 {
      assert n < 10;
    } else {
      assert n >= 10;
      NatToStringLength(n / 10, k - 1);
    }
  }

  function Pow10(k: nat): (p: nat)
    ensures p >= 1
  {
    if k == 0 then 1 else 10 * Pow10(k - 1)
  }

  predicate StartsWith(s: string, prefix: string) {
    |prefix| <= |s| && s[..|prefix|] == prefix
  }

  predicate EndsWith(s: string, suffix: string) {
    |suffix| <= |s| && s[|s| - |suffix|..] == suffix
  }
}

=== FILE: email_verification.dfy ===
/** The e-mail verification card
    (web/mothers-garage/src/components/auth/email-verification.tsx): a code
    is checked against the address typed, and a new code can be requested
    at most once a minute. The two requests are not modelled; whether each
    succeeded is an input. Toasts are identified by their title key. */
module EmailVerification {
  import opened Common
  import Billing
  import Store
  import Registration

  const REDIRECT_DELAY_MS := 3000
  const RESEND_SECONDS := 60

  const MISSING_FIELDS := "verification.missingFields"
  const VERIFIED := "verification.success"
  const VERIFY_FAILED := "verification.failed"
  const MISSING_EMAIL := "verification.missingEmail"
  const CODE_RESENT := "verification.otpResent"
  const RESEND_FAILED := "verification.resendFailed"

  /** The card's state: the fields, the seconds before "resend" is offered
      again, and the busy and done flags. */
  datatype Card = Card(email: string, otp: string, countdown: nat, loading: bool, resending: bool, verified: bool)

  /** The card as first shown: the address passed in, or empty. */
  function InitialCard(initialEmail: Option<string>): (c: Card) {
    Card(if Truthy(initialEmail) then initialEmail.value else "", "", 0, false, false, false)
  }

  /** What a handler did: the card afterwards, whether the request was sent,
      the toast shown and the navigation scheduled. */
  datatype Step = Step(card: Card, called: bool, toast: string, redirect: Option<Redirect>)

  /** The one-second countdown effect: it runs only while the count is above
      zero. */
  function Tick(c: Card): (c': Card) {
    if c.countdown > 0 then c.(countdown := c.countdown - 1) else c
  }

  function Ticks(c: Card, k: nat): (c': Card)
    decreases k
  {
    if k == 0 then c else Ticks(Tick(c), k - 1)
  }

  /** The count goes down by one a second and stops at zero; nothing else on
      the card changes. */
  lemma {:induction false} TicksCountDown(c: Card, k: nat)
    ensures var c' := Ticks(c, k);
      c'.countdown == (if k < c.countdown then c.countdown - k else 0)
      && c' == c.(countdown := c'.countdown)
    decreases k
  {
    if k > 0 {
      TicksCountDown(Tick(c), k - 1);
    }
  }

  /** `disabled` of the resend button. */
  predicate ResendDisabled(c: Card) {
    c.resending || c.countdown > 0
  }

  /** `handleVerify`: nothing is sent while the address or the code is
      empty; a confirmed code marks the card verified and leaves for
      `redirectUrl`, or the login page, three seconds later. */
  function Verify(c: Card, redirectUrl: Option<string>, ok: bool): (s: Step) {
    if c.email == "" || c.otp == "" then Step(c, false, MISSING_FIELDS, None)
    else if ok then
      var target := if Truthy(redirectUrl) then redirectUrl.value else LOGIN_PATH;
      Step(c.(verified := true, loading := false), true, VERIFIED, Some(Redirect(target, REDIRECT_DELAY_MS)))
    else Step(c.(loading := false), true, VERIFY_FAILED, None)
  }

  /** The request goes out exactly when both fields are filled; the card is
      verified, and a navigation scheduled, exactly when it was confirmed;
      the fields and the countdown are never touched. */
  lemma VerifySpec(c: Card, redirectUrl: Option<string>, ok: bool)
    requires !c.verified
    ensures var s := Verify(c, redirectUrl, ok);
      (s.called <==> c.email != "" && c.otp != "")
      && (s.card.verified <==> s.called && ok)
      && (s.redirect.Some? <==> s.card.verified)
      && (s.redirect.Some? ==>
            s.redirect.value.delayMs == 3000
            && s.redirect.value.path == (if Truthy(redirectUrl) then redirectUrl.value else "/auth/login"))
      && (!s.called ==> s.card == c && s.toast == MISSING_FIELDS)
      && (s.called ==> !s.card.loading)
      && s.card.email == c.email && s.card.otp == c.otp && s.card.countdown == c.countdown
  {
  }

  /** `handleResendOTP`: nothing is sent without an address; a new code
      starts a sixty-second countdown, a failure leaves the count as it
      was. */
  function ResendOtp(c: Card, ok: bool): (s: Step) {
    if c.email == "" then Step(c, false, MISSING_EMAIL, None)
    else if ok then Step(c.(resending := false, countdown := RESEND_SECONDS), true, CODE_RESENT, None)
    else Step(c.(resending := false), true, RESEND_FAILED, None)
  }

  /** The request goes out exactly when an address is typed; the countdown
      is 60 after a success and unchanged otherwise. */
  lemma ResendSpec(c: Card, ok: bool)
    ensures var s := ResendOtp(c, ok);
      (s.called <==> c.email != "")
      && (s.called && ok ==> s.card.countdown == 60 && s.toast == CODE_RESENT)
      && (!(s.called && ok) ==> s.card.countdown == c.countdown)
      && (s.called ==> !s.card.resending)
      && s.redirect.None? && s.card.email == c.email && s.card.verified == c.verified
  {
  }

  /** After a code is resent the button stays disabled for 59 seconds and is
      offered again at the sixtieth. */
  lemma ResendWaitsAMinute(c: Card, k: nat)
    requires c.email != ""
    ensures var started := ResendOtp(c, true).card;
      (ResendDisabled(Ticks(started, k)) <==> k < 60)
  {
    TicksCountDown(ResendOtp(c, true).card, k);
  }

  // ---------------------------------------------------------------------
  // The card against the code endpoints
  // ---------------------------------------------------------------------

  /** Right after a sign-up, the card holding the same address and the
      mailed code, with or without white space around it, sends them, and it
      is marked verified exactly when the endpoint creates the account. */
  lemma MailedCodeConfirms(db: Store.Db, body: Registration.MotherSignup, hashed: string, n: nat, now: int,
                           c: Card, redirectUrl: Option<string>)
    requires 100000 <= n <= 999999
    requires Registration.ValidateMotherSignup(body).Some?
    requires c.email == body.email && PyStrip(c.otp) == Registration.OtpCode(n) && !c.verified
    ensures var signed := Registration.MotherSignUp(db, body, hashed, n, now).db;
      var v := Registration.ValidateMotherSignup(body).value;
      var r := Registration.VerifyEmailOtp(signed, c.email, c.otp);
      var s := Verify(c, redirectUrl, r.status == 200);
      s.called
      && (s.card.verified <==>
            Store.UserByUsername(db, v.username).None? && Store.UserByEmail(db, v.email).None?
            && signed.pendingMothers[v.email].country.Some?)
  {
    assert PyStrip("") == "";
    Registration.SignUpThenVerify(db, body, hashed, n, now, c.otp);
  }

  /** The card's minute matches the endpoint's cooldown: within a day of a
      successful resend, a further one is accepted by the endpoint exactly
      when the card offers the button again. */
  lemma CountdownMatchesCooldown(db: Store.Db, c: Card, n: nat, m: nat, now: int, k: nat)
    requires 100000 <= n <= 999999 && 100000 <= m <= 999999
    requires c.email != "" && Registration.RequestEmailOtp(db, c.email, n, now).status == 200
    requires k < Billing.DAY
    ensures var d := Registration.RequestEmailOtp(db, c.email, n, now).db;
      var card := Ticks(ResendOtp(c, true).card, k);
      Registration.RequestEmailOtp(d, c.email, m, now + k).status == 200 <==> !ResendDisabled(card)
  {
    var d := Registration.RequestEmailOtp(db, c.email, n, now).db;
    Registration.RequestEmailOtpSpec(db, c.email, n, now);
    assert d.pendingMothers[PyStrip(c.email)].otpCreatedAt == Some(now);
    Registration.RequestEmailOtpSpec(d, c.email, m, now + k);
    ResendWaitsAMinute(c, k);
    Registration.CooldownWrapsDaily(now, now + k);
  }
}

=== FILE: file_upload.dfy ===
/** The certificate picker (web/mothers-garage/src/components/file-upload.tsx):
    a batch of chosen files is accepted only when none is too large, and is
    then appended to the list (several files allowed) or replaces it. */
module FileUpload {
  import opened Common

  /** A chosen file: its name and size in bytes. */
  datatype File = File(name: string, size: nat)

  /** The component's properties that matter: the accepted extensions, the
      size limit in megabytes, and whether several files may be kept. */
  datatype Props = Props(accept: string, maxSizeMb: nat, multiple: bool)

  /** The defaults when a property is not given. */
  const DEFAULT_PROPS := Props(".pdf,.doc,.docx", 5, false)

  /** The list shown and the error message. */
  datatype Picker = Picker(files: seq<File>, error: Option<string>)

  function MaxBytes(mb: nat): nat {
    mb * 1024 * 1024
  }

  predicate Oversized(props: Props, f: File) {
    f.size > MaxBytes(props.maxSizeMb)
  }

  /** `handleFileChange`: the picker afterwards and the list passed to
      `onChange` (`None` when it is not called). */
  function FileChange(props: Props, p: Picker, chosen: seq<File>): (r: (Picker, Option<seq<File>>)) {
    if exists i | 0 <= i < |chosen| :: Oversized(props, chosen[i]) then
      (p.(error := Some("Some files exceed the maximum size of " + NatToString(props.maxSizeMb) + "MB")), None)
    else
      var files := if props.multiple then p.files + chosen else chosen;
      (Picker(files, None), Some(files))
  }

  /** A batch with one file too large is refused whole: the list stays, the
      parent hears nothing and an error shows. Otherwise the error clears and
      the parent receives exactly the new list, in which the chosen files
      follow the kept ones in their order; every file kept is within the
      limit if the earlier ones were. */
  lemma FileChangeSpec(props: Props, p: Picker, chosen: seq<File>)
    ensures var r := FileChange(props, p, chosen);
      var refused := exists i | 0 <= i < |chosen| :: Oversized(props, chosen[i]);
      (refused ==> r.0.files == p.files && r.1.None? && r.0.error.Some?)
      && (!refused ==>
            r.1 == Some(r.0.files) && r.0.error.None?
            && |r.0.files| == (if props.multiple then |p.files| else 0) + |chosen|
            && r.0.files[|r.0.files| - |chosen|..] == chosen
            && (props.multiple ==> r.0.files[..|p.files|] == p.files)
            && ((forall i | 0 <= i < |p.files| :: !Oversized(props, p.files[i])) ==>
                  forall i | 0 <= i < |r.0.files| :: !Oversized(props, r.0.files[i])))
  {
    var r := FileChange(props, p, chosen);
    if !(exists i | 0 <= i < |chosen| :: Oversized(props, chosen[i])) && props.multiple {
      var fs := r.0.files;
      assert fs == p.files + chosen;
      forall i | 0 <= i < |fs| && (forall j | 0 <= j < |p.files| :: !Oversized(props, p.files[j]))
        ensures !Oversized(props, fs[i])
      {
        if i < |p.files| { assert fs[i] == p.files[i]; } else { assert fs[i] == chosen[i - |p.files|]; }
      }
    }
  }

  /** The default picker holds one file at a time, of at most 5 MB. */
  lemma DefaultsKeepOneSmallFile(p: Picker, chosen: seq<File>)
    ensures var r := FileChange(DEFAULT_PROPS, p, chosen);
      r.1.Some? ==> r.0.files == chosen && forall i | 0 <= i < |chosen| :: chosen[i].size <= 5242880
  {
  }

  /** `handleRemoveFile`: the list without the entry at `index` (an index
      past the end removes nothing), which is also passed to `onChange`. */
  function RemoveFile(p: Picker, index: nat): (r: (Picker, seq<File>)) {
    var files := if index < |p.files| then p.files[..index] + p.files[index + 1..] else p.files;
    (p.(files := files), files)
  }

  /** Removing keeps the other files in their order and loses only the one
      removed; an index past the end changes nothing. */
  lemma RemoveFileSpec(p: Picker, index: nat)
    ensures var r := RemoveFile(p, index);
      r.1 == r.0.files && r.0.error == p.error
      && (index >= |p.files| ==> r.0 == p)
      && (index < |p.files| ==>
            |r.0.files| == |p.files| - 1
            && (forall k | 0 <= k < index :: r.0.files[k] == p.files[k])
            && (forall k | index <= k < |r.0.files| :: r.0.files[k] == p.files[k + 1])
            && multiset(r.0.files) + multiset{p.files[index]} == multiset(p.files))
  {
    if index < |p.files| {
      var fs := p.files;
      assert fs == fs[..index] + [fs[index]] + fs[index + 1..];
    }
  }

  /** Removing the file just added in the several-files mode gives the list
      back as it was. */
  lemma AddThenRemove(props: Props, p: Picker, f: File)
    requires props.multiple && !Oversized(props, f)
    ensures var added := FileChange(props, p, [f]).0;
      RemoveFile(added, |p.files|).0.files == p.files
  {
    var added := FileChange(props, p, [f]).0;
    assert added.files == p.files + [f];
    assert added.files[..|p.files|] == p.files;
  }
}

=== FILE: forgot_password_modal.dfy ===
/** The "forgot password" dialog
    (web/mothers-garage/src/components/forgot-password-modal.tsx): an
    address is checked, sent, and whatever the server answers the dialog
    reports that a link was sent if the address is registered. */
module ForgotPasswordModal {
  import opened Common
  import opened Validators
  import opened Store
  import opened AuthViews

  const INVALID_EMAIL := "Invalid email"
  const LINK_SENT_TITLE := "Reset link sent"
  const LINK_SENT_TEXT := "If that email is registered, we've sent a reset link."

  /** The dialog's state. */
  datatype Modal = Modal(email: string, submitting: bool, success: bool)

  /** What `handleSubmit` did: the dialog afterwards, whether the request was
      sent, and the toast's title and text. */
  datatype Submitted = Submitted(modal: Modal, called: bool, title: string, text: string)

  /** `handleSubmit`; `ok` says whether the request succeeded. */
  function Submit(m: Modal, ok: bool): (s: Submitted) {
    if !IsValidEmail(m.email) then Submitted(m, false, INVALID_EMAIL, "Please enter a valid email address")
    else if ok then Submitted(m.(success := true, submitting := false), true, LINK_SENT_TITLE, LINK_SENT_TEXT)
    else
      // a failure is reported as a success
      Submitted(m.(success := true, submitting := false), true, LINK_SENT_TITLE, LINK_SENT_TEXT)
  }

  /** Nothing is sent for an invalid address; for a valid one the dialog
      ends in the same state with the same toast whether the request
      succeeded or not, and the busy flag is down again. */
  lemma SubmitSpec(m: Modal, ok: bool)
    ensures var s := Submit(m, ok);
      (s.called <==> IsValidEmail(m.email))
      && (!s.called ==> s.modal == m && s.title == INVALID_EMAIL)
      && (s.called ==> s.modal.success && !s.modal.submitting && s.modal.email == m.email
                       && s.title == LINK_SENT_TITLE && s.text == LINK_SENT_TEXT)
      && Submit(m, true) == Submit(m, false)
  {
  }

  /** The dialog does not tell a registered address from an unknown one:
      whatever the endpoint answers for the address, the dialog shows the
      same thing. */
  lemma NoAccountEnumeration(db: Db, email: string, m: Modal, mailOk: bool)
    requires m.email == email && IsValidEmail(email)
    ensures var r := ForgotPassword(db, Some(email), mailOk);
      Submit(m, 200 <= r.status < 300) == Submit(m, true)
  {
  }

  /** `handleClose`: the address is cleared and the success view reset;
      the parent's `onClose` runs (not modelled). */
  function Close(m: Modal): (m': Modal) {
    m.(email := "", success := false)
  }

  /** Closing after a success shows a blank form again, and closing twice is
      the same as closing once. */
  lemma CloseSpec(m: Modal)
    ensures var c := Close(m);
      c.email == "" && !c.success && c.submitting == m.submitting && Close(c) == c
      && !Submit(c, true).called
  {
    assert !IsValidEmail("");
  }
}

=== FILE: html_nesting.dfy ===
/** The two guards against block elements inside paragraphs: the lint rule
    of web/mothers-garage/eslint-plugin-html-nesting.js, which inspects the
    parsed JSX tree, and the helpers of web/mothers-garage/check-html-nesting.js,
    which scans source text: the line number of a match, the snippet shown,
    and the choice of files and directories to scan. */
module HtmlNesting {
  import opened Common
  import opened Validators

  // ---------------------------------------------------------------------
  // The lint rule
  // ---------------------------------------------------------------------

  /** A JSX node: an element, with its tag name when that is a plain
      identifier (`None` for a member expression such as `Card.Title`), the
      JSX held in its attribute values and its children; or any other node
      (text, an expression container, a fragment) with the JSX inside it,
      none for plain text. */
  datatype Jsx =
    | Element(name: Option<string>, attributes: seq<Jsx>, children: seq<Jsx>)
    | Other(children: seq<Jsx>)

  /** The tags the rule refuses directly inside a paragraph. */
  const BLOCK_TAGS := ["div", "section", "article", "aside", "header", "footer", "form", "fieldset", "nav",
                       "ul", "ol", "table"]

  predicate IsBlockChild(c: Jsx) {
    c.Element? && c.name.Some? && c.name.value in BLOCK_TAGS
  }

  function Message(tag: string): (m: string) {
    "Do not use <" + tag + "> inside <p>. This causes hydration errors."
  }

  /** The visitor on one element: for a `p`, one message per direct child
      that is a block element, in the children's order. */
  function Own(n: Jsx): (ms: seq<string>) {
    if n.Element? && n.name == Some("p") then BlockMessages(n.children) else []
  }

  function BlockMessages(cs: seq<Jsx>): (ms: seq<string>) {
    if |cs| == 0 then []
    else (if IsBlockChild(cs[0]) then [Message(cs[0].name.value)] else []) + BlockMessages(cs[1..])
  }

  /** Each listed position holds a block child, and the message beside it
      names that child. */
  predicate Named(cs: seq<Jsx>, idx: seq<nat>, ms: seq<string>) {
    |idx| == |ms|
    && forall j | 0 <= j < |idx| :: idx[j] < |cs| && IsBlockChild(cs[idx[j]]) && ms[j] == Message(cs[idx[j]].name.value)
  }

  predicate Increasing(idx: seq<nat>) {
    forall i, j | 0 <= i < j < |idx| :: idx[i] < idx[j]
  }

  /** Every block child's position is listed. */
  predicate Covers(cs: seq<Jsx>, idx: seq<nat>) {
    forall k | 0 <= k < |cs| && IsBlockChild(cs[k]) :: k in idx
  }

  /** `idx` lists, in increasing order, exactly the positions of the block
      children of `cs`, and `ms` holds one message per listed position,
      naming that child. */
  predicate Picks(cs: seq<Jsx>, idx: seq<nat>, ms: seq<string>) {
    Named(cs, idx, ms) && Increasing(idx) && Covers(cs, idx)
  }

  /** Every position one further on. */
  function Shift(idx: seq<nat>): (r: seq<nat>)
    ensures |r| == |idx| && forall j | 0 <= j < |idx| :: r[j] == idx[j] + 1
  {
    seq(|idx|, j requires 0 <= j < |idx| => idx[j] + 1)
  }

  /** A block child of `all == [c] + cs` other than the first is a block
      child of `cs`, hence listed, and so listed one further on after the
      shift. */
  lemma ShiftCovers(all: seq<Jsx>, c: Jsx, cs: seq<Jsx>, idx: seq<nat>, k: nat)
    requires all == [c] + cs && Covers(cs, idx)
    requires 0 < k < |all| && IsBlockChild(all[k])
    ensures k in Shift(idx)
  {
    assert all[k] == cs[k - 1];
    var j :| 0 <= j < |idx| && idx[j] == k - 1;
    assert Shift(idx)[j] == k;
  }

  /** A leading child that is not a block element adds no message. */
  lemma ShiftSkip(all: seq<Jsx>, c: Jsx, cs: seq<Jsx>, idx: seq<nat>, ms: seq<string>)
    requires all == [c] + cs && Picks(cs, idx, ms) && !IsBlockChild(c)
    ensures Picks(all, Shift(idx), ms)
  {
    var ix := Shift(idx);
    forall j | 0 <= j < |ix|
      ensures ix[j] < |all| && IsBlockChild(all[ix[j]]) && ms[j] == Message(all[ix[j]].name.value)
    {
      assert all[ix[j]] == cs[idx[j]];
    }
    forall k | 0 <= k < |all| && IsBlockChild(all[k])
      ensures k in ix
    {
      ShiftCovers(all, c, cs, idx, k);
    }
  }

  lemma TakeNamed(all: seq<Jsx>, c: Jsx, cs: seq<Jsx>, idx: seq<nat>, ms: seq<string>, ns: seq<string>)
    requires IsBlockChild(c) && all == [c] + cs && ns == [Message(c.name.value)] + ms && Named(cs, idx, ms)
    ensures Named(all, [0] + Shift(idx), ns)
  {
    var ix := [0] + Shift(idx);
    forall j | 1 <= j < |ix|
      ensures ix[j] < |all| && IsBlockChild(all[ix[j]]) && ns[j] == Message(all[ix[j]].name.value)
    {
      assert ix[j] == idx[j - 1] + 1;
      assert all[ix[j]] == cs[idx[j - 1]];
      assert ns[j] == ms[j - 1];
    }
  }

  lemma TakeIncreasing(idx: seq<nat>)
    requires Increasing(idx)
    ensures Increasing([0] + Shift(idx))
  {
    var ix := [0] + Shift(idx);
    assert forall j | 1 <= j < |ix| :: ix[j] == idx[j - 1] + 1;
  }

  lemma TakeCovers(all: seq<Jsx>, c: Jsx, cs: seq<Jsx>, idx: seq<nat>)
    requires all == [c] + cs && Covers(cs, idx)
    ensures Covers(all, [0] + Shift(idx))
  {
    var ix := [0] + Shift(idx);
    forall k | 0 <= k < |all| && IsBlockChild(all[k])
      ensures k in ix
    {
      if k > 0 {
        ShiftCovers(all, c, cs, idx, k);
        var j :| 0 <= j < |Shift(idx)| && Shift(idx)[j] == k;
        assert ix[j + 1] == k;
      }
    }
  }

  /** A leading block child adds its message in front. */
  lemma ShiftTake(all: seq<Jsx>, c: Jsx, cs: seq<Jsx>, idx: seq<nat>, ms: seq<string>, ns: seq<string>)
    requires IsBlockChild(c) && all == [c] + cs && ns == [Message(c.name.value)] + ms && Picks(cs, idx, ms)
    ensures Picks(all, [0] + Shift(idx), ns)
  {
    TakeNamed(all, c, cs, idx, ms, ns);
    TakeIncreasing(idx);
    TakeCovers(all, c, cs, idx);
  }

  /** The positions of the block children, in order, one per message. */
  lemma {:induction false} BlockPicks(cs: seq<Jsx>) returns (idx: seq<nat>)
    ensures Picks(cs, idx, BlockMessages(cs))
  {
    if |cs| == 0 {
      assert BlockMessages(cs) == [];
      idx := [];
    } else {
      var tail := cs[1..];
      var t := BlockPicks(tail);
      assert cs == [cs[0]] + tail;
      if IsBlockChild(cs[0]) {
        assert BlockMessages(cs) == [Message(cs[0].name.value)] + BlockMessages(tail);
        ShiftTake(cs, cs[0], tail, t, BlockMessages(tail), BlockMessages(cs));
        idx := [0] + Shift(t);
      } else {
        assert BlockMessages(cs) == BlockMessages(tail);
        ShiftSkip(cs, cs[0], tail, t, BlockMessages(tail));
        idx := Shift(t);
      }
    }
  }

  /** The messages of a paragraph's check are exactly those of its block
      children, one each, in the children's order. */
  lemma {:induction false} BlockMessagesSpec(cs: seq<Jsx>)
    ensures exists idx :: Picks(cs, idx, BlockMessages(cs))
    ensures |BlockMessages(cs)| <= |cs|
    ensures forall m | m in BlockMessages(cs) :: exists k | 0 <= k < |cs| && IsBlockChild(cs[k]) :: m == Message(cs[k].name.value)
    ensures forall k | 0 <= k < |cs| && IsBlockChild(cs[k]) :: Message(cs[k].name.value) in BlockMessages(cs)
  {
    var idx := BlockPicks(cs);
    PicksMeaning(cs, idx, BlockMessages(cs));
    if |cs| > 0 {
      BlockMessagesSpec(cs[1..]);
    }
  }

  /** Read position by position, a choice of block children says that each
      message names a block child and each block child is named. */
  lemma PicksMeaning(cs: seq<Jsx>, idx: seq<nat>, ms: seq<string>)
    requires Picks(cs, idx, ms)
    ensures forall m | m in ms :: exists k | 0 <= k < |cs| && IsBlockChild(cs[k]) :: m == Message(cs[k].name.value)
    ensures forall k | 0 <= k < |cs| && IsBlockChild(cs[k]) :: Message(cs[k].name.value) in ms
  {
    forall m | m in ms
      ensures exists k | 0 <= k < |cs| && IsBlockChild(cs[k]) :: m == Message(cs[k].name.value)
    {
      var j :| 0 <= j < |ms| && ms[j] == m;
      assert idx[j] < |cs| && IsBlockChild(cs[idx[j]]);
    }
    forall k | 0 <= k < |cs| && IsBlockChild(cs[k])
      ensures Message(cs[k].name.value) in ms
    {
      var j :| 0 <= j < |idx| && idx[j] == k;
      assert ms[j] == Message(cs[k].name.value);
    }
  }

  /** The rule over a whole tree: ESLint visits every element wherever it
      sits, an element before its attributes and the attributes before its
      children. */
  function Reports(n: Jsx): (ms: seq<string>)
    decreases n, 1
  {
    match n
    case Other(cs) => ReportsAll(cs)
    case Element(_, attrs, cs) => Own(n) + ReportsAll(attrs) + ReportsAll(cs)
  }

  function ReportsAll(cs: seq<Jsx>): (ms: seq<string>)
    decreases cs, 0
  {
    if |cs| == 0 then [] else Reports(cs[0]) + ReportsAll(cs[1..])
  }

  /** Whether a tree has an element named `p`. */
  predicate HasParagraph(n: Jsx)
    decreases n, 1
  {
    match n
    case Other(cs) => AnyParagraph(cs)
    case Element(name, attrs, cs) => name == Some("p") || AnyParagraph(attrs) || AnyParagraph(cs)
  }

  predicate AnyParagraph(cs: seq<Jsx>)
    decreases cs, 0
  {
    |cs| > 0 && (HasParagraph(cs[0]) || AnyParagraph(cs[1..]))
  }

  /** Only paragraphs are checked: a tree without one is never reported,
      and every report is one of the block-tag messages. */
  lemma {:induction false} ReportsOnlyUnderParagraphs(n: Jsx)
    ensures !HasParagraph(n) ==> Reports(n) == []
    ensures forall m | m in Reports(n) :: exists t | t in BLOCK_TAGS :: m == Message(t)
    decreases n, 1
  {
    match n
    case Other(cs) =>
      ReportsAllOnlyUnderParagraphs(cs);
    case Element(name, attrs, cs) =>
      ReportsAllOnlyUnderParagraphs(attrs);
      ReportsAllOnlyUnderParagraphs(cs);
      BlockMessagesSpec(cs);
  }

  lemma {:induction false} ReportsAllOnlyUnderParagraphs(cs: seq<Jsx>)
    ensures !AnyParagraph(cs) ==> ReportsAll(cs) == []
    ensures forall m | m in ReportsAll(cs) :: exists t | t in BLOCK_TAGS :: m == Message(t)
    decreases cs, 0
  {
    if |cs| > 0 {
      ReportsOnlyUnderParagraphs(cs[0]);
      ReportsAllOnlyUnderParagraphs(cs[1..]);
    }
  }

  /** Only direct children count: a `div` wrapped in a `span` inside a
      paragraph goes unreported, while the same `div` as a direct child is
      reported once. */
  lemma OnlyDirectChildren()
    ensures Reports(Element(Some("p"), [], [Element(Some("span"), [], [Element(Some("div"), [], [])])])) == []
    ensures Reports(Element(Some("p"), [], [Element(Some("div"), [], [])])) == [Message("div")]
  {
    var div := Element(Some("div"), [], []);
    var span := Element(Some("span"), [], [div]);
    SpanAndDiv();
    assert Reports(div) == [] by {
      assert Own(div) == [];
    }
    assert ReportsAll([div]) == [];
    assert Reports(span) == [] by {
      assert Own(span) == [];
    }
    assert ReportsAll([span]) == [];
    assert BlockMessages([span]) == [];
    assert BlockMessages([div]) == [Message("div")];
  }

  /** Paragraphs are found wherever they sit: inside a fragment or in an
      attribute's value a `div` directly in a `p` is reported, while a `div`
      in a fragment that is itself the paragraph's child is not a direct
      child and goes unreported. */
  lemma NestedParagraphsReached()
    ensures Reports(Other([Element(Some("p"), [], [Element(Some("div"), [], [])])])) == [Message("div")]
    ensures Reports(Element(Some("Tooltip"), [Element(Some("p"), [], [Element(Some("div"), [], [])])], []))
            == [Message("div")]
    ensures Reports(Element(Some("p"), [], [Other([Element(Some("div"), [], [])])])) == []
  {
    var div := Element(Some("div"), [], []);
    var para := Element(Some("p"), [], [div]);
    var fragment := Other([div]);
    SpanAndDiv();
    assert Reports(div) == [] by {
      assert Own(div) == [];
    }
    assert ReportsAll([div]) == [];
    assert BlockMessages([div]) == [Message("div")];
    assert Reports(para) == [Message("div")];
    assert ReportsAll([para]) == [Message("div")];
    assert Own(Element(Some("Tooltip"), [para], [])) == [] by {
      assert Some("Tooltip") != Some("p");
    }
    assert Reports(fragment) == [];
    assert ReportsAll([fragment]) == [];
    assert BlockMessages([fragment]) == [];
  }

  /** `span` is not a block tag, `div` is, and neither is a paragraph. */
  lemma SpanAndDiv()
    ensures "span" !in BLOCK_TAGS && "div" in BLOCK_TAGS
    ensures Some("div") != Some("p") && Some("span") != Some("p")
  {
    assert BLOCK_TAGS[0] == "div";
  }

  // ---------------------------------------------------------------------
  // The text scanner's helpers
  // ---------------------------------------------------------------------

  /** Where `content.slice(0, index)` ends. */
  function Cut(content: string, index: nat): (cut: nat) {
    if index <= |content| then index else |content|
  }

  /** `getLineNumber`: the number of lines of the text before `index`. */
  function LineNumber(content: string, index: nat): (line: nat) {
    |Split(content[..Cut(content, index)], '\n')|
  }

  /** The line number is one more than the number of line breaks before
      the index. */
  lemma LineNumberCounts(content: string, index: nat)
    ensures LineNumber(content, index) == Count(content[..Cut(content, index)], '\n') + 1
  {
    SplitJoin(content[..Cut(content, index)], '\n');
  }

  /** Line numbers start at 1 and never decrease as the index grows. */
  lemma LineNumberMonotone(content: string, index: nat, later: nat)
    requires index <= later
    ensures 1 <= LineNumber(content, index) <= LineNumber(content, later)
  {
    var a := content[..Cut(content, index)];
    var b := content[..Cut(content, later)];
    var gap := content[Cut(content, index)..Cut(content, later)];
    LineNumberCounts(content, index);
    LineNumberCounts(content, later);
    assert b == a + gap;
    CountAppend(a, gap, '\n');
  }

  /** `match[0].substring(0, 100) + '...'`: the marker is added even when
      nothing was cut. */
  function Snippet(s: string): (r: string) {
    s[..if |s| <= 100 then |s| else 100] + "..."
  }

  /** A snippet starts with at most 100 characters of the match and always
      ends in "..."; it agrees with `truncateText` at 100 exactly when the
      match is longer than that. */
  lemma SnippetSpec(s: string)
    ensures var r := Snippet(s);
      |r| == (if |s| <= 100 then |s| else 100) + 3
      && r[..|r| - 3] == s[..|r| - 3] && r[|r| - 3..] == "..."
      && (r == TruncateText(s, 100) <==> |s| > 100)
  {
    var r := Snippet(s);
    TruncateTextShape(s, 100);
    if |s| <= 100 {
      assert |r| == |s| + 3;
    }
  }

  /** Whether `sub` occurs in `s` (`String.prototype.includes`). */
  predicate Contains(s: string, sub: string) {
    exists i | 0 <= i <= |s| :: StartsWith(s[i..], sub)
  }

  /** `path.join(dir, name)`, with "" for the starting directory "./". */
  function JoinPath(dir: string, name: string): (p: string) {
    if dir == "" then name else dir + "/" + name
  }

  /** A directory is entered unless its path mentions `node_modules` or
      `.next` anywhere. */
  predicate Descends(path: string) {
    !Contains(path, "node_modules") && !Contains(path, ".next")
  }

  /** A file is scanned when its path ends in `.tsx`, `.jsx` or `.js`. */
  predicate IsScanned(path: string) {
    EndsWith(path, ".tsx") || EndsWith(path, ".jsx") || EndsWith(path, ".js")
  }

  /** A directory entry. */
  datatype Entry = Dir(name: string, entries: seq<Entry>) | File(name: string)

  /** `walkDir`: the files to scan, in listing order, each directory's
      files where the directory is listed. */
  function Walk(dir: string, es: seq<Entry>): (files: seq<string>)
    decreases es, 1
  {
    if |es| == 0 then []
    else WalkEntry(dir, es[0]) + Walk(dir, es[1..])
  }

  function WalkEntry(dir: string, e: Entry): (files: seq<string>)
    decreases e, 0
  {
    var path := JoinPath(dir, e.name);
    match e
    case Dir(_, inner) => if Descends(path) then Walk(path, inner) else []
    case File(_) => if IsScanned(path) then [path] else []
  }

  /** Listing two groups of entries walks each in turn. */
  lemma {:induction false} WalkAppend(dir: string, a: seq<Entry>, b: seq<Entry>)
    ensures Walk(dir, a + b) == Walk(dir, a) + Walk(dir, b)
  {
    if |a| > 0 {
      var rest := a[1..];
      assert a == [a[0]] + rest;
      assert a + b == [a[0]] + (rest + b);
      WalkAppend(dir, rest, b);
      WalkCons(dir, a[0], rest);
      WalkCons(dir, a[0], rest + b);
    } else {
      assert a + b == b;
    }
  }

  /** A listing walks its first entry, then the rest. */
  lemma WalkCons(dir: string, e: Entry, rest: seq<Entry>)
    ensures Walk(dir, [e] + rest) == WalkEntry(dir, e) + Walk(dir, rest)
  {
    assert ([e] + rest)[0] == e && ([e] + rest)[1..] == rest;
  }

  /** Every path the walk returns is a file to scan. */
  lemma {:induction false} WalkScanned(dir: string, es: seq<Entry>)
    ensures forall p | p in Walk(dir, es) :: IsScanned(p)
    decreases es, 1
  {
    if |es| > 0 {
      WalkEntryScanned(dir, es[0]);
      WalkScanned(dir, es[1..]);
    }
  }

  lemma {:induction false} WalkEntryScanned(dir: string, e: Entry)
    ensures forall p | p in WalkEntry(dir, e) :: IsScanned(p)
    decreases e, 0
  {
    match e
    case Dir(name, inner) =>
      if Descends(JoinPath(dir, name)) {
        WalkScanned(JoinPath(dir, name), inner);
      }
    case File(_) =>
  }

  /** An excluded directory contributes nothing, however much it holds. */
  lemma ExcludedDirectories(dir: string, es: seq<Entry>, name: string, inner: seq<Entry>)
    requires !Descends(JoinPath(dir, name))
    ensures Walk(dir, es + [Dir(name, inner)]) == Walk(dir, es)
  {
    WalkAppend(dir, es, [Dir(name, inner)]);
    assert Walk(dir, [Dir(name, inner)]) == WalkEntry(dir, Dir(name, inner)) + Walk(dir, []);
  }

  /** A TypeScript file without JSX (`.ts`) is never scanned. */
  lemma PlainTypeScriptSkipped()
    ensures Walk("", [File("api.ts")]) == []
  {
    assert !EndsWith("api.ts", ".js") by {
      assert "api.ts"[|"api.ts"| - 3..] == ".ts";
    }
    assert !EndsWith("api.ts", ".tsx") by {
      assert "api.ts"[|"api.ts"| - 4..] == "i.ts";
    }
    assert !EndsWith("api.ts", ".jsx") by {
      assert "api.ts"[|"api.ts"| - 4..] == "i.ts";
    }
  }
}

=== FILE: http_client.dfy ===
/** The client's HTTP layer (web/mothers-garage/src/lib/api.ts): the bearer
    header, the response handler that refreshes an expired access token once
    and replays the request, the error message shown for a failed request,
    and the two endpoints whose address depends on their argument. The
    network is not modelled: the reply to each request and the outcome of
    the refresh call are inputs. */
module HttpClient {
  import opened Common
  import opened Accounts
  import opened Billing
  import opened Store
  import opened PaymentViews

  // ---------------------------------------------------------------------
  // Tokens and the Authorization header
  // ---------------------------------------------------------------------

  /** The `access_token` and `refresh_token` entries of local storage. */
  datatype TokenStore = TokenStore(access: Option<string>, refresh: Option<string>)

  const BEARER := "Bearer "

  /** The request handler: a stored, non-empty access token is sent as a
      bearer token; otherwise the request goes out without the header. */
  function AuthorizationHeader(st: TokenStore): (h: Option<string>)
    ensures h.Some? <==> Truthy(st.access)
  {
    if Truthy(st.access) then Some(BEARER + st.access.value) else None
  }

  /** The token a server reads out of a bearer header. */
  function BearerToken(h: string): (t: Option<string>) {
    if StartsWith(h, BEARER) then Some(h[|BEARER|..]) else None
  }

  /** The header carries exactly the stored token. */
  lemma HeaderCarriesToken(st: TokenStore)
    ensures var h := AuthorizationHeader(st);
      h.Some? ==> BearerToken(h.value) == st.access
  {
    var h := BEARER + st.access.GetOr("");
    assert h[..|BEARER|] == BEARER;
    assert h[|BEARER|..] == st.access.GetOr("");
  }

  // ---------------------------------------------------------------------
  // Error messages
  // ---------------------------------------------------------------------

  /** The string fields of an error response's JSON body that the client
      looks at. */
  datatype ErrorBody = ErrorBody(detail: Option<string>, message: Option<string>, error: Option<string>)

  /** A response: its status and body. A request that got no response at
      all is `None`. */
  datatype Reply = Reply(status: nat, body: ErrorBody)

  /** axios resolves for a 2xx status and rejects otherwise. */
  predicate Succeeded(r: Option<Reply>) {
    r.Some? && 200 <= r.value.status < 300
  }

  const DEFAULT_ERROR := "An unexpected error occurred"
  const NOT_FOUND_ERROR := "Resource not found"
  const FORBIDDEN_ERROR := "You do not have permission to perform this action"
  const SERVER_ERROR := "Server error. Please try again later"

  /** `handleApiError`'s message. */
  function ErrorMessage(r: Option<Reply>): (m: string)
    ensures m != ""
  {
    var b := if r.Some? then r.value.body else ErrorBody(None, None, None);
    var status := if r.Some? then r.value.status else 0;
    if Truthy(b.detail) then b.detail.value
    else if Truthy(b.message) then b.message.value
    else if Truthy(b.error) then b.error.value
    else if status == 404 then NOT_FOUND_ERROR
    else if status == 403 then FORBIDDEN_ERROR
    else if status == 500 then SERVER_ERROR
    else DEFAULT_ERROR
  }

  /** The server's own words win: the message is the first non-empty field
      among `detail`, `message` and `error`, and one of the fixed texts only
      when the body has none of them; which fixed text depends on the
      status alone. */
  lemma ErrorMessagePrecedence(r: Option<Reply>)
    ensures var m := ErrorMessage(r);
      var b := if r.Some? then r.value.body else ErrorBody(None, None, None);
      (Truthy(b.detail) ==> m == b.detail.value)
      && (!Truthy(b.detail) && Truthy(b.message) ==> m == b.message.value)
      && (!Truthy(b.detail) && !Truthy(b.message) && Truthy(b.error) ==> m == b.error.value)
      && (!Truthy(b.detail) && !Truthy(b.message) && !Truthy(b.error) ==>
            m in {NOT_FOUND_ERROR, FORBIDDEN_ERROR, SERVER_ERROR, DEFAULT_ERROR}
            && (m == NOT_FOUND_ERROR <==> r.Some? && r.value.status == 404)
            && (m == FORBIDDEN_ERROR <==> r.Some? && r.value.status == 403)
            && (m == SERVER_ERROR <==> r.Some? && r.value.status == 500))
  {
  }

  // ---------------------------------------------------------------------
  // The 401 handler
  // ---------------------------------------------------------------------

  /** What the `/auth/refresh` call did: it threw, or it answered with a
      body whose `access` field may be missing. */
  datatype RefreshResult = RefreshThrew | RefreshAnswered(access: Option<string>)

  /** The result of one call through the client: whether the caller's
      promise resolves, the tokens left in storage, whether the page was
      sent to the login screen, the error toast shown, and the
      Authorization header of every request that went out, in order. */
  datatype CallResult = CallResult(ok: bool, store: TokenStore, toLogin: bool, toast: Option<string>,
                                   sent: seq<Option<string>>)

  /** A request through the shared axios instance: `first` is the reply to
      the request, `refresh` what the refresh call did (used only when it is
      made) and `replay` the reply to the replayed request (used only when it
      is sent). The replay carries the retry mark, so a second 401 goes to
      the generic error handler. */
  function Call(st: TokenStore, first: Option<Reply>, refresh: RefreshResult, replay: Option<Reply>): (r: CallResult) {
    var h1 := AuthorizationHeader(st);
    if Succeeded(first) then CallResult(true, st, false, None, [h1])
    else if first.Some? && first.value.status == 401 then
      if !Truthy(st.refresh) then CallResult(false, st, true, None, [h1])
      else
        match refresh
        case RefreshThrew => CallResult(false, TokenStore(None, None), true, None, [h1])
        case RefreshAnswered(access) =>
          if !Truthy(access) then CallResult(false, st, false, Some(ErrorMessage(first)), [h1])
          else
            var st2 := st.(access := access);
            var h2 := AuthorizationHeader(st2);
            if Succeeded(replay) then CallResult(true, st2, false, None, [h1, h2])
            else CallResult(false, st2, false, Some(ErrorMessage(replay)), [h1, h2])
    else CallResult(false, st, false, Some(ErrorMessage(first)), [h1])
  }

  /** A call is replayed at most once, and only after a 401 that a stored
      refresh token turned into a new access token; the replay carries that
      token. A failed refresh clears both tokens and goes to the login page;
      a refresh with no token in its answer reports the original error. */
  lemma CallRetriesOnce(st: TokenStore, first: Option<Reply>, refresh: RefreshResult, replay: Option<Reply>)
    ensures var r := Call(st, first, refresh, replay);
      var got401 := first.Some? && first.value.status == 401;
      1 <= |r.sent| <= 2
      && r.sent[0] == AuthorizationHeader(st)
      && (|r.sent| == 2 <==> got401 && Truthy(st.refresh) && refresh.RefreshAnswered? && Truthy(refresh.access))
      && (|r.sent| == 2 ==>
            r.sent[1] == Some(BEARER + refresh.access.value) && r.store == st.(access := refresh.access)
            && (r.ok <==> Succeeded(replay))
            && (!r.ok ==> r.toast == Some(ErrorMessage(replay)) && !r.toLogin))
      && (|r.sent| == 1 ==> (r.ok <==> Succeeded(first)))
      && (r.toLogin <==> got401 && (!Truthy(st.refresh) || refresh.RefreshThrew?))
      && (r.toLogin ==> !r.ok && r.toast.None?)
      && (got401 && Truthy(st.refresh) && refresh.RefreshThrew? ==> r.store == TokenStore(None, None))
      && (got401 && Truthy(st.refresh) && refresh == RefreshAnswered(None) ==> r.toast == Some(ErrorMessage(first)) && r.store == st)
      && (!got401 && !Succeeded(first) ==> r.toast == Some(ErrorMessage(first)) && r.store == st)
  {
  }

  /** A 401 on the replayed request is reported, not refreshed again: the
      call sends two requests and ends with the error toast. */
  lemma ReplayedUnauthorisedIsFinal(st: TokenStore, first: Reply, access: string, replay: Reply)
    requires first.status == 401 && Truthy(st.refresh) && access != ""
    requires replay.status == 401
    ensures var r := Call(st, Some(first), RefreshAnswered(Some(access)), Some(replay));
      |r.sent| == 2 && !r.ok && !r.toLogin && r.toast == Some(ErrorMessage(Some(replay)))
      && r.store.access == Some(access)
  {
  }

  // ---------------------------------------------------------------------
  // Addresses that depend on the argument
  // ---------------------------------------------------------------------

  const FREE_PLAN_PATH := "/payments/activate-free-plan"
  const PAYMENT_SUCCESS_PATH := "/payments/paypal-payment-success"

  /** A POST: the path and the `plan` field of its JSON body, if any. */
  datatype Post = Post(path: string, plan: Option<string>)

  /** `activateSubscription`: the free plan has its own endpoint and no body;
      the paid plans go to the payment-success endpoint. */
  function ActivateSubscription(plan: string): (p: Post) {
    if plan == BASIC then Post(FREE_PLAN_PATH, None)
    else Post(PAYMENT_SUCCESS_PATH, Some(plan))
  }

  /** The two payment endpoints, as the backend routes them (any other path
      is not found). */
  function ServePost(db: Db, me: nat, p: Post, now: int): (r: Outcome)
    requires me < |db.users|
  {
    if p.path == FREE_PLAN_PATH then FreePlan(db, me, now)
    else if p.path == PAYMENT_SUCCESS_PATH then PaymentSuccess(db, me, p.plan, now)
    else Outcome(404, db)
  }

  /** Whichever of the three plans a provider picks, the request the client
      sends is accepted and leaves the provider's subscription and profile on
      that plan; anyone else is refused with 403 and nothing changes. */
  lemma ActivationReachesBackend(db: Db, me: nat, plan: string, now: int)
    requires me < |db.users| && IsPlanChoice(plan)
    ensures var r := ServePost(db, me, ActivateSubscription(plan), now);
      (IsProvider(db, me) ==>
         r.status == 200 && SubscriptionOf(r.db, me) == Some(StartCycle(plan, now))
         && ((me in r.db.providers) == (me in db.providers))
         && (me in db.providers ==> r.db.providers[me].plan == Some(plan) && r.db.providers[me].searchable))
      && (!IsProvider(db, me) ==> r.status == 403 && r.db == db)
  {
    ActivationServed(db, me, plan, now);
    ActivationRows(db, me, plan, now);
  }

  /** The request reaches the endpoint for its plan, which activates that
      plan for a provider and refuses anyone else. */
  lemma ActivationServed(db: Db, me: nat, plan: string, now: int)
    requires me < |db.users| && IsPlanChoice(plan)
    ensures ServePost(db, me, ActivateSubscription(plan), now)
      == if IsProvider(db, me) then Outcome(200, Activate(db, me, plan, now)) else Outcome(403, db)
  {
    PaymentPathsDiffer();
  }

  /** The rows an activation writes. */
  lemma ActivationRows(db: Db, me: nat, plan: string, now: int)
    ensures var d := Activate(db, me, plan, now);
      SubscriptionOf(d, me) == Some(StartCycle(plan, now))
      && ((me in d.providers) == (me in db.providers))
      && (me in db.providers ==> d.providers[me].plan == Some(plan) && d.providers[me].searchable)
  {
  }

  lemma PaymentPathsDiffer()
    ensures FREE_PLAN_PATH != PAYMENT_SUCCESS_PATH
  {
    assert FREE_PLAN_PATH[10] != PAYMENT_SUCCESS_PATH[10];
  }

  const PROVIDER_TYPES_PATH := "/onboarding/provider_types"
  const SERVICE_TYPE_QUERY := "?service_type_id="

  /** `getProviderTypes`: the filter is added only for a truthy id, so id 0
      is sent without it. */
  function ProviderTypesUrl(serviceTypeId: Option<nat>): (url: string) {
    if serviceTypeId.Some? && serviceTypeId.value != 0 then
      PROVIDER_TYPES_PATH + SERVICE_TYPE_QUERY + NatToString(serviceTypeId.value)
    else PROVIDER_TYPES_PATH
  }

  /** The filter a server reads from the address. */
  function QueryServiceType(url: string): (id: Option<nat>) {
    var prefix := PROVIDER_TYPES_PATH + SERVICE_TYPE_QUERY;
    if StartsWith(url, prefix) && |url| > |prefix| && AllDigitChars(url[|prefix|..]) then
      Some(DigitsValue(url[|prefix|..]))
    else None
  }

  /** The server sees the id the caller passed, except that id 0 is lost. */
  lemma ProviderTypesRoundTrip(serviceTypeId: Option<nat>)
    ensures QueryServiceType(ProviderTypesUrl(serviceTypeId)) ==
      (if serviceTypeId == Some(0) then None else serviceTypeId)
  {
    var prefix := PROVIDER_TYPES_PATH + SERVICE_TYPE_QUERY;
    var url := ProviderTypesUrl(serviceTypeId);
    if serviceTypeId.Some? && serviceTypeId.value != 0 {
      NatToStringRoundTrip(serviceTypeId.value);
      assert url[..|prefix|] == prefix;
      assert url[|prefix|..] == NatToString(serviceTypeId.value);
    } else {
      assert |url| < |prefix|;
    }
  }
}

=== FILE: login_page.dfy ===
/** The sign-in page (web/mothers-garage/src/app/auth/login/page.tsx): the
    tokens are stored, the first-time flag is asked of the endpoint for the
    user's type, and the page moves to a tutorial or a home page. Both
    requests go through the shared client (`HttpClient.Call`); the replies
    and the refresh call's outcome are inputs. */
module LoginPage {
  import opened Common
  import opened Accounts
  import opened Store
  import opened HttpClient
  import AuthViews

  const MOTHER_FIRST_TIME_PATH := "/onboarding/check_mother_first_time"
  const PROVIDER_FIRST_TIME_PATH := "/payments/check_first_time"

  const MOTHER_TUTORIAL := "/mother/tutorial"
  const MOTHER_DASHBOARD := "/mother/dashboard"
  const PROVIDER_TUTORIAL := "/provider/tutorial"
  const WORKSPACE_SELECT := "/provider/workspace-select"

  const LOGIN_OK := "Login successful!"
  const LOGIN_FAILED := "Login failed"

  /** The body of a successful login: the two tokens and `user_type`, which
      is `null` for a user without a role. */
  datatype Tokens = Tokens(access: string, refresh: string, userType: Option<string>)

  /** `user_type` as the login endpoint fills it from the user's role. */
  function UserTypeOf(role: Option<Role>): (t: Option<string>) {
    if role.Some? then Some(RoleName(role.value)) else None
  }

  /** The first-time endpoint asked: the mother one for "mother", the
      provider one for every other type. */
  function FirstTimePath(userType: Option<string>): (path: string) {
    if userType == Some("mother") then MOTHER_FIRST_TIME_PATH else PROVIDER_FIRST_TIME_PATH
  }

  /** Where a signed-in user is sent. */
  function Landing(userType: Option<string>, firstTime: bool): (path: string) {
    if userType == Some("mother") then (if firstTime then MOTHER_TUTORIAL else MOTHER_DASHBOARD)
    else if firstTime then PROVIDER_TUTORIAL else WORKSPACE_SELECT
  }

  /** One request through the shared client: the reply to it, what the
      refresh call did and the reply to the replay, as `Call` takes them. */
  datatype Exchange = Exchange(first: Option<Reply>, refresh: RefreshResult, replay: Option<Reply>)

  function Send(st: TokenStore, x: Exchange): CallResult {
    Call(st, x.first, x.refresh, x.replay)
  }

  /** What `handleLogin` did: the tokens in storage, the first-time endpoint
      asked, the page navigated to, the toasts shown in order and the busy
      flag. */
  datatype LoginResult = LoginResult(store: TokenStore, asked: Option<string>, navigate: Option<string>,
                                     toasts: seq<string>, loading: bool)

  /** A rejected request lands in the page's `catch`: the client's own error
      toast, when it showed one, comes before the page's failure toast. */
  function FailureToasts(c: CallResult): (ts: seq<string>)
    ensures |ts| > 0 && ts[|ts| - 1] == LOGIN_FAILED
    ensures |ts| == 1 <==> c.toast.None?
  {
    (if c.toast.Some? then [c.toast.value] else []) + [LOGIN_FAILED]
  }

  /** The navigation a rejected request leaves behind: the client's move to
      the sign-in page, if it made one. */
  function Redirected(c: CallResult): (nav: Option<string>)
    ensures nav.Some? <==> c.toLogin
  {
    if c.toLogin then Some(LOGIN_PATH) else None
  }

  /** `handleLogin`. Both requests go through the shared client, so a 401
      first meets its refresh handler. `login` is the login request and
      `tokens` the body it resolves with; `check` is the first-time request,
      sent with the tokens just stored, and `firstTime` its flag. */
  function HandleLogin(st: TokenStore, login: Exchange, tokens: Tokens, check: Exchange, firstTime: bool): (r: LoginResult) {
    var c1 := Send(st, login);
    if !c1.ok then LoginResult(c1.store, None, Redirected(c1), FailureToasts(c1), false)
    else
      var stored := TokenStore(Some(tokens.access), Some(tokens.refresh));
      var c2 := Send(stored, check);
      var asked := Some(FirstTimePath(tokens.userType));
      if !c2.ok then LoginResult(c2.store, asked, Redirected(c2), FailureToasts(c2), false)
      else LoginResult(c2.store, asked, Some(Landing(tokens.userType, firstTime)), [LOGIN_OK], false)
  }

  /** The page signs in, with the single success toast and a move to the
      landing page, exactly when both requests resolve; otherwise the last
      toast is the failure one and the only move is the client's own to the
      sign-in page. The tokens of the answer replace the stored ones as soon
      as the login resolves, even when the first-time check then fails; a
      rejected login leaves storage as the client's 401 handler left it. The
      busy flag always ends cleared. */
  lemma HandleLoginSpec(st: TokenStore, login: Exchange, tokens: Tokens, check: Exchange, firstTime: bool)
    ensures var r := HandleLogin(st, login, tokens, check, firstTime);
      var c1 := Send(st, login);
      var stored := TokenStore(Some(tokens.access), Some(tokens.refresh));
      var c2 := Send(stored, check);
      !r.loading && |r.toasts| > 0
      && (r.asked.Some? <==> c1.ok)
      && (c1.ok ==> (r.asked == Some("/onboarding/check_mother_first_time") <==> tokens.userType == Some("mother")))
      && (c1.ok && c2.ok <==> r.toasts == [LOGIN_OK])
      && (c1.ok && c2.ok ==> r.navigate == Some(Landing(tokens.userType, firstTime)))
      && (!(c1.ok && c2.ok) ==>
            r.toasts[|r.toasts| - 1] == LOGIN_FAILED
            && (r.navigate == Some(LOGIN_PATH) <==> (if c1.ok then c2.toLogin else c1.toLogin))
            && (r.navigate.None? <==> !(if c1.ok then c2.toLogin else c1.toLogin)))
      && (!c1.ok ==> r.store == c1.store)
      && (c1.ok && Succeeded(check.first) ==> r.store == stored)
  {
    var r := HandleLogin(st, login, tokens, check, firstTime);
    if !(Send(st, login).ok && Send(TokenStore(Some(tokens.access), Some(tokens.refresh)), check).ok) {
      LoginToastsDiffer();
    }
  }

  lemma LoginToastsDiffer()
    ensures LOGIN_OK != LOGIN_FAILED
  {
    assert LOGIN_OK[6] != LOGIN_FAILED[6];
  }

  /** The backend's refusal as the client receives it: the status and the
      `detail` text. */
  function LoginAnswer(a: AuthViews.LoginReply): (r: Reply)
    ensures r.status == a.status && r.body.detail == a.detail
  {
    Reply(a.status, ErrorBody(a.detail, None, None))
  }

  /** The client's error text for each refusal of the login endpoint is the
      backend's own `detail`: "Missing login_key or password." for 400 and
      "Invalid credentials." for 401. */
  lemma LoginRefusalMessages(db: Db, key: Option<string>, password: Option<string>, accepts: set<nat>)
    requires AuthViews.Login(db, key, password, accepts).status != 200
    ensures var a := AuthViews.Login(db, key, password, accepts);
      var m := ErrorMessage(Some(LoginAnswer(a)));
      (a.status == 400 ==> m == "Missing login_key or password.")
      && (a.status == 401 ==> m == "Invalid credentials.")
      && !Succeeded(Some(LoginAnswer(a)))
  {
  }

  /** A wrong password never signs in, and what else happens depends on what
      an earlier session left in storage. The replayed request carries the
      same credentials, so it is refused the same way. With no refresh token
      the client moves to the sign-in page and storage is untouched; with one
      the refresh call is made, and when it throws both tokens are cleared;
      when it answers, the 401's "Invalid credentials." is shown before the
      page's failure toast and nothing moves. */
  lemma WrongPassword(db: Db, key: string, password: string, accepts: set<nat>, st: TokenStore,
                      refresh: RefreshResult, tokens: Tokens, check: Exchange, firstTime: bool)
    requires AuthViews.Login(db, Some(key), Some(password), accepts).status == 401
    ensures var answer := Some(LoginAnswer(AuthViews.Login(db, Some(key), Some(password), accepts)));
      var r := HandleLogin(st, Exchange(answer, refresh, answer), tokens, check, firstTime);
      r.asked.None? && r.toasts[|r.toasts| - 1] == LOGIN_FAILED
      && (!Truthy(st.refresh) ==> r.store == st && r.navigate == Some(LOGIN_PATH) && r.toasts == [LOGIN_FAILED])
      && (Truthy(st.refresh) && refresh.RefreshThrew? ==>
            r.store == TokenStore(None, None) && r.navigate == Some(LOGIN_PATH) && r.toasts == [LOGIN_FAILED])
      && (Truthy(st.refresh) && refresh.RefreshAnswered? ==>
            r.navigate.None? && r.toasts == ["Invalid credentials.", LOGIN_FAILED]
            && r.store == (if Truthy(refresh.access) then st.(access := refresh.access) else st))
  {
  }

  /** Right credentials and a first-time check that resolves: the answer's
      tokens are stored and a user of the backend's role lands where
      `Landing` says, asking the first-time endpoint of that role. */
  lemma RightPassword(db: Db, key: string, password: string, accepts: set<nat>, st: TokenStore,
                      login: Exchange, access: string, refreshToken: string, check: Exchange, firstTime: bool)
    requires AuthViews.Login(db, Some(key), Some(password), accepts).status == 200
    requires Succeeded(login.first) && Succeeded(check.first)
    ensures var role := AuthViews.Login(db, Some(key), Some(password), accepts).userType;
      var r := HandleLogin(st, login, Tokens(access, refreshToken, UserTypeOf(role)), check, firstTime);
      r.store == TokenStore(Some(access), Some(refreshToken))
      && r.asked == Some(FirstTimePath(UserTypeOf(role)))
      && r.navigate == Some(Landing(UserTypeOf(role), firstTime))
      && r.toasts == [LOGIN_OK]
  {
  }

  /** The redirect table: a mother goes to her tutorial or dashboard, every
      other type to the provider tutorial or the workspace picker, the
      tutorial exactly on a first sign-in. */
  lemma LandingTable(userType: Option<string>, firstTime: bool)
    ensures var p := Landing(userType, firstTime);
      (p == "/mother/tutorial" <==> userType == Some("mother") && firstTime)
      && (p == "/mother/dashboard" <==> userType == Some("mother") && !firstTime)
      && (p == "/provider/tutorial" <==> userType != Some("mother") && firstTime)
      && (p == "/provider/workspace-select" <==> userType != Some("mother") && !firstTime)
  {
  }

  /** With the type the backend sends, only mothers reach the mother pages:
      administrators and users without a role are routed like providers,
      and ask the provider first-time endpoint. */
  lemma RoutingByRole(role: Option<Role>, firstTime: bool)
    ensures var t := UserTypeOf(role);
      (Landing(t, firstTime) in {MOTHER_TUTORIAL, MOTHER_DASHBOARD} <==> role == Some(Mother))
      && (FirstTimePath(t) == PROVIDER_FIRST_TIME_PATH <==> role != Some(Mother))
  {
  }
}

=== FILE: mother_signup_page.dfy ===
/** The mother sign-up wizard
    (web/mothers-garage/src/app/onboarding/mother/signup/page.tsx): five
    validated steps, the interest check boxes, the error toast of a refused
    sign-up, and the code verification and resend of the dialog that follows.
    Remote calls are represented by their outcome; the toast and the timers
    by the state they leave. */
module MotherSignupPage {
  import opened Common
  import opened Validators
  import opened SignupSteps
  import Store
  import Registration
  import NumberFields

  const TOTAL_STEPS := 5

  datatype Form = Form(
    username: string,
    email: string,
    password: string,
    password2: string,
    phone: string,
    firstName: string,
    lastName: string,
    age: string,
    weight: string,
    height: string,
    country: string,
    language: string,
    postpartumNeeds: string,
    infantCare: string,
    interestIds: seq<int>)

  datatype Location = Location(lat: real, lng: real, address: string)

  datatype Page = Page(step: nat, form: Form, location: Option<Location>, tosAgreed: bool)

  const NAMES_REQUIRED := "First name and last name are required"
  const AGE_INVALID := "Please enter a valid age"
  const WEIGHT_INVALID := "Please enter a valid weight"
  const HEIGHT_INVALID := "Please enter a valid height"
  const LOCATION_REQUIRED := "Please pin your location on the map"
  const INTEREST_REQUIRED := "Please select at least one interest"
  const NEEDS_REQUIRED := "Please describe your postpartum needs"
  const CARE_REQUIRED := "Please describe your infant care preferences"
  const TOS_REQUIRED := "You must agree to the Terms of Service"

  /** `validateCurrentStep`: the message of the first failing check of the
      current step, `None` when it passes. */
  function StepError(p: Page): (e: Option<string>) {
    var f := p.form;
    if p.step == 1 then AccountStepError(f.username, f.email, f.password, f.password2, f.phone)
    else if p.step == 2 then
      if IsBlank(f.firstName) || IsBlank(f.lastName) then Some(NAMES_REQUIRED)
      else if !IsPositiveNumber(f.age) then Some(AGE_INVALID)
      else if !IsPositiveNumber(f.weight) then Some(WEIGHT_INVALID)
      else if !IsPositiveNumber(f.height) then Some(HEIGHT_INVALID)
      else None
    else if p.step == 3 then
      if p.location.None? then Some(LOCATION_REQUIRED) else None
    else if p.step == 4 then
      if |f.interestIds| == 0 then Some(INTEREST_REQUIRED)
      else if IsBlank(f.postpartumNeeds) then Some(NEEDS_REQUIRED)
      else if IsBlank(f.infantCare) then Some(CARE_REQUIRED)
      else None
    else if p.step == 5 then
      if !p.tosAgreed then Some(TOS_REQUIRED) else None
    else None
  }

  /** What each step demands. */
  lemma StepRequirements(p: Page)
    ensures var f := p.form;
      var ok := StepError(p).None?;
      (p.step == 1 ==> (ok <==> !IsBlank(f.username) && IsValidEmail(f.email) && IsStrongPassword(f.password)
                                && f.password == f.password2 && IsValidPhoneNumber(f.phone)))
      && (p.step == 2 ==> (ok <==> !IsBlank(f.firstName) && !IsBlank(f.lastName) && IsPositiveNumber(f.age)
                                   && IsPositiveNumber(f.weight) && IsPositiveNumber(f.height)))
      && (p.step == 3 ==> (ok <==> p.location.Some?))
      && (p.step == 4 ==> (ok <==> |f.interestIds| > 0 && !IsBlank(f.postpartumNeeds) && !IsBlank(f.infantCare)))
      && (p.step == 5 ==> (ok <==> p.tosAgreed))
  {
    AccountStepAccepts(p.form.username, p.form.email, p.form.password, p.form.password2, p.form.phone);
  }

  /** `nextStep`: the page after the click, whether the form was submitted,
      and the error shown. */
  function Next(p: Page): (r: (Page, bool, Option<string>)) {
    var e := StepError(p);
    var n := NextStep(p.step, TOTAL_STEPS, e.None?);
    (p.(step := n.0), n.1, e)
  }

  /** `prevStep`. */
  function Prev(p: Page): (r: Page) {
    p.(step := PrevStep(p.step))
  }

  /** The wizard stays on steps 1 to 5, changes nothing but the step, moves
      on only past a step that validates, and submits only from a valid
      fifth step. */
  lemma NextSpec(p: Page)
    requires 1 <= p.step <= TOTAL_STEPS
    ensures var r := Next(p);
      1 <= r.0.step <= TOTAL_STEPS && 1 <= Prev(p).step <= TOTAL_STEPS
      && r.0 == p.(step := r.0.step)
      && (r.0.step == p.step + 1 <==> StepError(p).None? && p.step < TOTAL_STEPS)
      && (r.1 <==> StepError(p).None? && p.step == TOTAL_STEPS)
      && (r.1 ==> p.tosAgreed)
  {
    NavigationStaysInRange(p.step, TOTAL_STEPS, StepError(p).None?);
  }

  // ---------------------------------------------------------------------
  // Interests
  // ---------------------------------------------------------------------

  predicate Distinct(s: seq<int>) {
    forall i, j | 0 <= i < j < |s| :: s[i] != s[j]
  }

  /** `handleCheckboxChange`: checking appends the id unless present;
      unchecking removes its first occurrence. */
  function ToggleInterest(ids: seq<int>, id: int, checked: bool): (r: seq<int>) {
    if checked then (if id in ids then ids else ids + [id])
    else
      var i := IndexOf(ids, id);
      if i == |ids| then ids else ids[..i] + ids[i + 1..]
  }

  /** The interest list never holds an id twice, and after a toggle it holds
      the id exactly when the box is checked; other ids are untouched and
      keep their order: checking appends, unchecking splices the id out
      where it stood. */
  lemma ToggleInterestSpec(ids: seq<int>, id: int, checked: bool)
    requires Distinct(ids)
    ensures var r := ToggleInterest(ids, id, checked);
      Distinct(r)
      && (forall x :: x in r <==> (x in ids && x != id) || (checked && x == id))
      && (checked ==> r[..|ids|] == ids || r == ids)
      && (!checked && id in ids ==> exists k | 0 <= k < |ids| :: ids[k] == id && r == ids[..k] + ids[k + 1..])
      && (!checked && id !in ids ==> r == ids)
  {
    if checked {
      CheckAppends(ids, id);
    } else {
      UncheckSplices(ids, id);
      UncheckKeepsOthers(ids, id);
    }
  }

  /** Checking appends a new id at the end and keeps a present one. */
  lemma CheckAppends(ids: seq<int>, id: int)
    requires Distinct(ids)
    ensures var r := ToggleInterest(ids, id, true);
      Distinct(r)
      && (forall x :: x in r <==> x in ids || x == id)
      && (r[..|ids|] == ids || r == ids)
  {
    var r := ToggleInterest(ids, id, true);
    if id !in ids {
      assert r[..|ids|] == ids;
      assert r[|ids|] == id;
    }
  }

  /** Unchecking removes the id, keeps every other id, and repeats none. */
  lemma UncheckKeepsOthers(ids: seq<int>, id: int)
    requires Distinct(ids)
    ensures var r := ToggleInterest(ids, id, false);
      Distinct(r) && (forall x :: x in r <==> x in ids && x != id)
  {
    var r := ToggleInterest(ids, id, false);
    var i := IndexOf(ids, id);
    if i < |ids| {
      SpliceIndex(ids, i, r);
      SpliceDistinct(ids, i, r);
      SpliceMembers(ids, i, r);
    }
  }

  /** Position `k` of a list with position `i` taken out. */
  function Skip(i: nat, k: nat): nat {
    if k < i then k else k + 1
  }

  /** Each position of the spliced list reads the original past the gap. */
  lemma SpliceIndex(ids: seq<int>, i: nat, r: seq<int>)
    requires i < |ids| && r == ids[..i] + ids[i + 1..]
    ensures |r| == |ids| - 1
    ensures forall k | 0 <= k < |r| :: Skip(i, k) < |ids| && r[k] == ids[Skip(i, k)]
  {
    forall k | 0 <= k < |r| ensures Skip(i, k) < |ids| && r[k] == ids[Skip(i, k)] {
      if k < i {
        assert r[k] == ids[..i][k];
      } else {
        assert r[k] == ids[i + 1..][k - i];
      }
    }
  }

  /** Splicing out one position repeats no id. */
  lemma SpliceDistinct(ids: seq<int>, i: nat, r: seq<int>)
    requires Distinct(ids) && i < |ids| && |r| == |ids| - 1
    requires forall k | 0 <= k < |r| :: Skip(i, k) < |ids| && r[k] == ids[Skip(i, k)]
    ensures Distinct(r)
  {
    forall a, b | 0 <= a < b < |r| ensures r[a] != r[b] {
      assert r[a] == ids[Skip(i, a)] && r[b] == ids[Skip(i, b)];
    }
  }

  /** Splicing out one position of a list without repeats removes exactly
      that id. */
  lemma SpliceMembers(ids: seq<int>, i: nat, r: seq<int>)
    requires Distinct(ids) && i < |ids| && |r| == |ids| - 1
    requires forall k | 0 <= k < |r| :: Skip(i, k) < |ids| && r[k] == ids[Skip(i, k)]
    ensures forall x :: x in r <==> x in ids && x != ids[i]
  {
    forall x ensures x in r <==> x in ids && x != ids[i] {
      if x in r {
        var k :| 0 <= k < |r| && r[k] == x;
        assert ids[Skip(i, k)] == x;
      }
      if x in ids && x != ids[i] {
        var k :| 0 <= k < |ids| && ids[k] == x;
        var k' := if k < i then k else k - 1;
        assert Skip(i, k') == k;
        assert r[k'] == x;
      }
    }
  }

  /** Unchecking takes the id out at its position and leaves a list without
      it as it was. */
  lemma UncheckSplices(ids: seq<int>, id: int)
    ensures var r := ToggleInterest(ids, id, false);
      (id in ids ==> exists k | 0 <= k < |ids| :: ids[k] == id && r == ids[..k] + ids[k + 1..])
      && (id !in ids ==> r == ids)
  {
    var i := IndexOf(ids, id);
    if id in ids {
      assert i < |ids|;
    }
  }

  // ---------------------------------------------------------------------
  // A refused sign-up
  // ---------------------------------------------------------------------

  /** A field's errors as the backend sends them: one message or a list. */
  datatype FieldValue = Text(text: string) | List(items: seq<string>)

  /** The fields of a refusal's body the page looks at. */
  datatype SignupError = SignupError(username: Option<FieldValue>, email: Option<FieldValue>, detail: Option<string>)

  /** JavaScript truthiness of a field: a list always, a text when not empty. */
  predicate FieldTruthy(v: Option<FieldValue>) {
    v.Some? && (v.value.List? || v.value.text != "")
  }

  /** The message a field shows: its text, or its list's first entry
      (`undefined`, here `None`, for an empty list). */
  function FirstMessage(v: FieldValue): (m: Option<string>) {
    match v
    case Text(t) => Some(t)
    case List(items) => if |items| > 0 then Some(items[0]) else None
  }

  const SIGNUP_FAILED := "Failed to create account. Please check your input."
  const NETWORK_ERROR := "Network error. Please try again."

  /** The toast of a refused sign-up, `data` being the response body (`None`
      when there was no response). */
  function SignupErrorToast(data: Option<SignupError>): (m: Option<string>) {
    if data.None? then Some(NETWORK_ERROR)
    else
      var d := data.value;
      if FieldTruthy(d.username) then FirstMessage(d.username.value)
      else if FieldTruthy(d.email) then FirstMessage(d.email.value)
      else if Truthy(d.detail) then d.detail
      else Some(SIGNUP_FAILED)
  }

  /** The user-name complaint wins over the e-mail one, which wins over
      `detail`; the generic texts appear only when none of them is there. */
  lemma SignupErrorPrecedence(data: Option<SignupError>)
    ensures var m := SignupErrorToast(data);
      (data.None? ==> m == Some(NETWORK_ERROR))
      && (m.None? ==> data.Some? && (data.value.username == Some(List([])) || data.value.email == Some(List([]))))
      && (data.Some? && FieldTruthy(data.value.username) ==> m == FirstMessage(data.value.username.value))
      && (data.Some? && !FieldTruthy(data.value.username) && FieldTruthy(data.value.email) ==>
            m == FirstMessage(data.value.email.value))
      && (data.Some? && !FieldTruthy(data.value.username) && !FieldTruthy(data.value.email) ==>
            m == (if Truthy(data.value.detail) then data.value.detail else Some(SIGNUP_FAILED)))
      && (data == Some(SignupError(Some(List([BLANK_FIELD])), None, None)) ==> m == Some(BLANK_FIELD))
  {
  }

  /** DRF's message for a required text field sent blank. */
  const BLANK_FIELD := "This field may not be blank."

  /** The part of the sign-up endpoint's 400 body the page reads: DRF
      reports each refused field under its own key, and of the fields the
      page looks at, `username` and `email` are refused when blank; the body
      has no `detail`. */
  function RefusalBody(b: Registration.MotherSignup): (e: SignupError)
    ensures e.detail.None?
    ensures FieldTruthy(e.username) <==> PyStrip(b.username) == ""
    ensures FieldTruthy(e.email) <==> PyStrip(b.email) == ""
  {
    SignupError(if PyStrip(b.username) == "" then Some(List([BLANK_FIELD])) else None,
                if PyStrip(b.email) == "" then Some(List([BLANK_FIELD])) else None,
                None)
  }

  /** What the page shows for a sign-up the endpoint refuses: DRF's blank
      message when the user name or e-mail was blank, and otherwise only the
      generic text, whichever number, interest or consent field was at
      fault. */
  lemma RefusedSignUpToast(db: Store.Db, b: Registration.MotherSignup, hashed: string, n: nat, now: int)
    requires 100000 <= n <= 999999
    requires Registration.MotherSignUp(db, b, hashed, n, now).status != 201
    ensures var m := SignupErrorToast(Some(RefusalBody(b)));
      Registration.MotherSignUp(db, b, hashed, n, now).status == 400
      && (m == Some(BLANK_FIELD) <==> PyStrip(b.username) == "" || PyStrip(b.email) == "")
      && (m != Some(BLANK_FIELD) ==> m == Some(SIGNUP_FAILED))
  {
  }

  /** Step two checks only that `Number` reads a positive value, so a weight
      with three decimals or a height of 1000 passes the page and is then
      refused by the endpoint's number fields. */
  lemma StepTwoPassesWhatTheEndpointRefuses()
    ensures IsPositiveNumber("70.123") && !Registration.MeasureAccepted(Some("70.123"))
    ensures IsPositiveNumber("1000") && !Registration.MeasureAccepted(Some("1000"))
  {
    assert !Registration.MeasureAccepted(Some("70.123")) by {
      NumberFields.ThreeDecimals();
    }
    assert !Registration.MeasureAccepted(Some("1000")) by {
      NumberFields.FourWholeDigits();
    }
    ThreeDecimalsPass();
    ThousandPasses();
  }

  // ---------------------------------------------------------------------
  // The verification dialog
  // ---------------------------------------------------------------------

  datatype OtpDialog = OtpDialog(open: bool, code: string, error: string, verifying: bool)

  const CODE_REQUIRED := "Please enter the verification code"
  const CODE_INVALID := "Invalid verification code. Please try again."

  /** `handleVerifyOTP`: the dialog after the click, whether the code was
      sent, and the navigation scheduled. */
  function VerifyOtp(d: OtpDialog, ok: bool): (r: (OtpDialog, bool, Option<Redirect>)) {
    if IsBlank(d.code) then (d.(error := CODE_REQUIRED), false, None)
    else if ok then (d.(open := false, error := "", verifying := false), true, Some(Redirect("/auth/login", 1500)))
    else (d.(error := CODE_INVALID, verifying := false), true, None)
  }

  /** A blank code is never sent; a sent code either closes the dialog and
      leads to the login page after a second and a half, or keeps the dialog
      open with an error; the spinner is off afterwards either way. */
  lemma VerifyOtpSpec(d: OtpDialog, ok: bool)
    ensures var r := VerifyOtp(d, ok);
      (r.1 <==> !IsBlank(d.code))
      && (r.2.Some? <==> r.1 && ok)
      && (r.2.Some? ==> r.2.value == Redirect("/auth/login", 1500) && !r.0.open)
      && (r.1 && !ok ==> r.0.open == d.open && r.0.error == CODE_INVALID)
      && (r.1 ==> !r.0.verifying)
      && r.0.code == d.code
      && (r.0.error == "" <==> r.1 && ok)
  {
  }

  /** The dialog against the verification endpoint: right after a sign-up,
      the mailed code, typed with or without white space around it, is sent,
      and the dialog closes towards the login page exactly when the endpoint
      creates the account; otherwise it stays with its error. */
  lemma MailedCodeVerifies(db: Store.Db, body: Registration.MotherSignup, hashed: string, n: nat, now: int,
                           d: OtpDialog)
    requires 100000 <= n <= 999999
    requires Registration.ValidateMotherSignup(body).Some?
    requires PyStrip(d.code) == Registration.OtpCode(n)
    ensures var signed := Registration.MotherSignUp(db, body, hashed, n, now).db;
      var v := Registration.ValidateMotherSignup(body).value;
      var r := Registration.VerifyEmailOtp(signed, body.email, d.code);
      var page := VerifyOtp(d, r.status == 200);
      page.1
      && (page.2 == Some(Redirect(LOGIN_PATH, 1500)) <==>
            Store.UserByUsername(db, v.username).None? && Store.UserByEmail(db, v.email).None?
            && signed.pendingMothers[v.email].country.Some?)
      && (page.2.None? ==> page.0.open == d.open && page.0.error == CODE_INVALID)
  {
    var code := Registration.OtpCode(n);
    PyStripWithin(d.code);
    assert code[0] in d.code;
    var i :| 0 <= i < |d.code| && d.code[i] == code[0];
    assert !IsJsSpace(d.code[i]);
    Registration.SignUpThenVerify(db, body, hashed, n, now, d.code);
  }

  /** The dialog's resend counts down from 20 seconds. */
  const RESEND_SECONDS := 20

  /** `handleResendOTP` of this page. */
  function ResendOtp(r: Resend, ok: bool): (r': Resend)
    ensures ok && !r.disabled ==> r' == Resend(true, RESEND_SECONDS)
    ensures !ok || r.disabled ==> r' == r
  {
    ResendCode(r, RESEND_SECONDS, ok)
  }

  /** Twenty ticks after a successful resend the button is enabled again,
      and not before. */
  lemma ResendWaitsTwentySeconds(r: Resend, k: nat)
    requires !r.disabled
    ensures var s := ResendTicks(ResendOtp(r, true), k);
      (s.disabled <==> k < RESEND_SECONDS) && (k < RESEND_SECONDS ==> s.countdown == RESEND_SECONDS - k)
  {
    CountdownReenables(RESEND_SECONDS, k);
  }
}

=== FILE: number_fields.dfy ===
/** The number fields of Django REST framework that the mother sign-up
    serializer declares (backend/onboarding/serializers.py:117-119), as they
    read a value sent as text: `IntegerField` for the age and
    `DecimalField(max_digits=5, decimal_places=2)` for the weight and the
    height. Python's `int` and `decimal.Decimal` are modelled on ASCII
    digits. */
module NumberFields {
  import opened Common

  /** Both fields refuse longer text before reading it. */
  const MAX_STRING_LENGTH := 1000

  // ---------------------------------------------------------------------
  // IntegerField
  // ---------------------------------------------------------------------

  /** Digits in groups joined by single underscores, as Python's `int`
      accepts them. */
  predicate GroupedDigits(s: string) {
    |s| > 0 && IsDigit(s[0]) && IsDigit(s[|s| - 1])
    && (forall i | 0 <= i < |s| :: IsDigit(s[i]) || s[i] == '_')
    && (forall i | 0 <= i < |s| - 1 :: s[i] == '_' ==> s[i + 1] != '_')
  }

  /** The digits with the underscores taken out. */
  function Ungrouped(s: string): (r: string)
    requires forall i | 0 <= i < |s| :: IsDigit(s[i]) || s[i] == '_'
    ensures AllDigitChars(r) && |r| <= |s|
    ensures AllDigitChars(s) ==> r == s
    ensures |s| > 0 && s[0] != '_' ==> |r| > 0
  {
    if s == [] then []
    else (if s[0] == '_' then [] else [s[0]]) + Ungrouped(s[1..])
  }

  /** Python's `int(t)` in base ten: white space around an optional sign and
      grouped digits; `None` where it raises `ValueError`. */
  function PyInt(t: string): (r: Option<int>) {
    SignedGroupedDigits(PyStrip(t))
  }

  /** An optional sign and then grouped digits. */
  function SignedGroupedDigits(u: string): (r: Option<int>) {
    var signed := |u| > 0 && (u[0] == '+' || u[0] == '-');
    var digits := if signed then u[1..] else u;
    if !GroupedDigits(digits) then None
    else
      var n: int := DigitsValue(Ungrouped(digits));
      Some(if signed && u[0] == '-' then -n else n)
  }

  /** The leading zeros taken off. */
  function DropZeros(t: string): (r: string)
    ensures |r| <= |t| && r == t[|t| - |r|..]
    ensures forall i | 0 <= i < |t| - |r| :: t[i] == '0'
    ensures r != [] ==> r[0] != '0'
  {
    if |t| > 0 && t[0] == '0' then
      var r := DropZeros(t[1..]);
      assert t[1..][|t| - 1 - |r|..] == t[|t| - |r|..];
      assert forall i | 1 <= i < |t| - |r| :: t[1..][i - 1] == t[i];
      r
    else t
  }

  /** Zeros and then white space: what may follow the point that
      `IntegerField` cuts off. */
  predicate ZerosThenSpace(t: string) {
    var rest := DropZeros(t);
    forall i | 0 <= i < |rest| :: IsPySpace(rest[i])
  }

  /** `re.sub(r'\.0*\s*$', '', t)`: a point followed only by zeros and then
      white space is removed together with them. Nothing after such a point
      is another point, so it can only be the last one. */
  function StripZeroFraction(t: string): (r: string) {
    var k := LastIndexOf(t, '.');
    if k >= 0 && ZerosThenSpace(t[k + 1..]) then t[..k] else t
  }

  /** `IntegerField.to_internal_value` for a value sent as text: the length
      check, the zero fraction removed, then `int`. `None` is the field's
      error, which makes the request a 400. */
  function IntegerFieldValue(s: string): (r: Option<int>) {
    if |s| > MAX_STRING_LENGTH then None else PyInt(StripZeroFraction(s))
  }

  /** Every character of zeros-then-space text is a zero or white space, so
      none of them is a point. */
  lemma ZerosThenSpaceChars(t: string)
    ensures ZerosThenSpace(t) ==> forall i | 0 <= i < |t| :: t[i] == '0' || IsPySpace(t[i])
  {
    var rest := DropZeros(t);
    forall i | |t| - |rest| <= i < |t| ensures t[i] == rest[i - (|t| - |rest|)] {
    }
  }

  lemma PyStripKeeps(s: string)
    requires |s| > 0 && !IsPySpace(s[0]) && !IsPySpace(s[|s| - 1])
    ensures PyStrip(s) == s
  {
  }

  /** `str` of an integer has no white space to strip. */
  lemma RenderingStripped(n: int)
    ensures PyStrip(IntToString(n)) == IntToString(n)
  {
    var s := IntToString(n);
    assert IsDigit(s[|s| - 1]);
    assert s[0] == '-' || IsDigit(s[0]);
    PyStripKeeps(s);
  }

  /** Plain digits are grouped digits, with nothing to take out. */
  lemma PlainDigitsGrouped(s: string)
    requires |s| > 0 && AllDigitChars(s)
    ensures GroupedDigits(s) && Ungrouped(s) == s
  {
  }

  /** The sign and digits of a rendering read back as the number. */
  lemma SignedDigitsOfRendering(n: int)
    ensures SignedGroupedDigits(IntToString(n)) == Some(n)
  {
    var m := if n < 0 then -n else n;
    var digits := NatToString(m);
    var u := IntToString(n);
    assert IsDigit(digits[0]);
    var d := if |u| > 0 && (u[0] == '+' || u[0] == '-') then u[1..] else u;
    assert d == digits;
    NatToStringRoundTrip(m);
    PlainDigitsGrouped(digits);
    assert DigitsValue(Ungrouped(d)) == m;
  }

  /** `int` reads back what `str` renders. */
  lemma PyIntReadsRendering(n: int)
    ensures PyInt(IntToString(n)) == Some(n)
  {
    RenderingStripped(n);
    SignedDigitsOfRendering(n);
  }

  /** The last point of `r + "." + tail` is the one before `tail` when `tail`
      has none. */
  lemma LastPointBefore(r: string, tail: string)
    requires '.' !in r && '.' !in tail
    ensures LastIndexOf(r + "." + tail, '.') == |r|
    ensures LastIndexOf(r, '.') == -1
  {
    var front := r + ".";
    var s := front + tail;
    assert s[|r|] == '.';
    forall j | |front| <= j < |s|
      ensures s[j] != '.'
    {
      TailIndex(front, tail, j);
      assert tail[j - |front|] in tail;
    }
    LastIndexOfAt(s, '.', |r|);
  }

  /** Indexing past the front of a concatenation reads the back. */
  lemma TailIndex(a: string, b: string, j: int)
    requires |a| <= j < |a| + |b|
    ensures (a + b)[j] == b[j - |a|]
  {
  }

  /** An occurrence with none after it is the last one. */
  lemma LastIndexOfAt(s: string, c: char, i: int)
    requires 0 <= i < |s| && s[i] == c
    requires forall j | i < j < |s| :: s[j] != c
    ensures LastIndexOf(s, c) == i
  {
  }

  /** The age field accepts a rendered integer, also when a point, zeros
      and white space follow it, and reads back the same number. */
  lemma IntegerFieldReadsRendering(n: int, tail: string)
    requires ZerosThenSpace(tail)
    requires |IntToString(n)| + 1 + |tail| <= MAX_STRING_LENGTH
    ensures IntegerFieldValue(IntToString(n)) == Some(n)
    ensures IntegerFieldValue(IntToString(n) + "." + tail) == Some(n)
  {
    IntegerFieldReadsOwnRendering(n);
    var r := IntToString(n);
    ZeroTailDropped(r, tail);
    PyIntReadsRendering(n);
  }

  /** A point followed by zeros and white space is taken off a rendering. */
  lemma ZeroTailDropped(r: string, tail: string)
    requires '.' !in r && ZerosThenSpace(tail)
    ensures StripZeroFraction(r + "." + tail) == r
  {
    ZerosThenSpaceChars(tail);
    assert forall i | 0 <= i < |tail| :: tail[i] != '.';
    LastPointBefore(r, tail);
    var s := r + "." + tail;
    assert s[|r| + 1..] == tail;
    assert s[..|r|] == r;
  }

  /** A rendered integer alone is read back as itself. */
  lemma IntegerFieldReadsOwnRendering(n: int)
    requires |IntToString(n)| <= MAX_STRING_LENGTH
    ensures IntegerFieldValue(IntToString(n)) == Some(n)
  {
    var r := IntToString(n);
    assert '.' !in r;
    assert LastIndexOf(r, '.') == -1;
    PyIntReadsRendering(n);
  }

  /** An accepted integer renders in no more characters than were sent. */
  lemma IntegerFieldBound(s: string)
    ensures IntegerFieldValue(s).Some? ==> |IntToString(IntegerFieldValue(s).value)| <= |s|
  {
    if |s| <= MAX_STRING_LENGTH {
      var t := StripZeroFraction(s);
      PyStripShorter(t);
      SignedDigitsBound(PyStrip(t));
    }
  }

  /** The digits `int` reads are at least as many as those of the result. */
  lemma SignedDigitsBound(u: string)
    ensures SignedGroupedDigits(u).Some? ==> |IntToString(SignedGroupedDigits(u).value)| <= |u|
  {
    var signed := |u| > 0 && (u[0] == '+' || u[0] == '-');
    var digits := if signed then u[1..] else u;
    if GroupedDigits(digits) {
      var d := Ungrouped(digits);
      var v := DigitsValue(d);
      assert digits[0] != '_' && |d| >= 1;
      DigitsValueBelow(d);
      DigitCountBelow(v, |d|);
      assert |NatToString(v)| <= |digits|;
      var value := SignedGroupedDigits(u).value;
      if value < 0 {
        assert signed && IntToString(value) == "-" + NatToString(v);
      } else {
        assert value == v && IntToString(value) == NatToString(v);
      }
    }
  }

  /** Stripping never lengthens. */
  lemma {:induction false} PyStripShorter(s: string)
    ensures |PyStrip(s)| <= |s|
    decreases |s|
  {
    if |s| > 0 && IsPySpace(s[0]) {
      PyStripShorter(s[1..]);
    } else if |s| > 0 && IsPySpace(s[|s| - 1]) {
      PyStripShorter(s[..|s| - 1]);
    }
  }

  /** A fraction with a digit other than zero is refused, whatever its
      length: "30.5" is not an age. */
  lemma IntegerFieldRefusesFraction(n: int, fraction: string)
    requires AllDigitChars(fraction)
    requires exists i | 0 <= i < |fraction| :: fraction[i] != '0'
    ensures IntegerFieldValue(IntToString(n) + "." + fraction) == None
  {
    var r := IntToString(n);
    var s := r + "." + fraction;
    if |s| <= MAX_STRING_LENGTH {
      FractionKept(r, fraction);
      assert |r| > 0 && (r[0] == '-' || IsDigit(r[0]));
      FractionTextStripped(r, fraction);
      assert s[|r|] == '.';
      PointNotGrouped(s, |r|);
    }
  }

  /** A numeral with a fraction of digits has nothing to strip. */
  lemma FractionTextStripped(r: string, fraction: string)
    requires |r| > 0 && (r[0] == '-' || IsDigit(r[0]))
    requires AllDigitChars(fraction) && |fraction| > 0
    ensures PyStrip(r + "." + fraction) == r + "." + fraction
  {
    var s := r + "." + fraction;
    assert s[|s| - 1] == fraction[|fraction| - 1];
    assert s[0] == r[0];
    SignOrDigitNotSpace(s[0]);
    SignOrDigitNotSpace(s[|s| - 1]);
    PyStripKeeps(s);
  }

  /** Neither a minus sign nor a digit is stripped. */
  lemma SignOrDigitNotSpace(c: char)
    requires c == '-' || IsDigit(c)
    ensures !IsPySpace(c)
  {
    assert c as int == 0x2D || 0x30 <= c as int <= 0x39;
  }

  /** A fraction with a digit other than zero stays. */
  lemma FractionKept(r: string, fraction: string)
    requires '.' !in r && AllDigitChars(fraction)
    requires exists i | 0 <= i < |fraction| :: fraction[i] != '0'
    ensures StripZeroFraction(r + "." + fraction) == r + "." + fraction
  {
    var s := r + "." + fraction;
    assert forall i | 0 <= i < |fraction| :: fraction[i] != '.';
    LastPointBefore(r, fraction);
    assert s[|r| + 1..] == fraction;
    var i :| 0 <= i < |fraction| && fraction[i] != '0';
    assert !IsPySpace(fraction[i]);
    ZerosThenSpaceChars(fraction);
  }

  /** A point after the first character is never part of signed digits. */
  lemma PointNotGrouped(s: string, k: nat)
    requires 1 <= k < |s| && s[k] == '.'
    ensures SignedGroupedDigits(s) == None
  {
    var signed := s[0] == '+' || s[0] == '-';
    var digits := if signed then s[1..] else s;
    var j := if signed then k - 1 else k;
    assert digits[j] == '.';
  }

  // ---------------------------------------------------------------------
  // DecimalField
  // ---------------------------------------------------------------------

  /** A finite numeral as `decimal.Decimal` reads it: the sign, the digits
      before and after the point, and the exponent. */
  datatype Numeral = Numeral(negative: bool, whole: string, fraction: string, exponent: int)

  predicate IsExponentMark(c: char) { c == 'e' || c == 'E' }

  /** Where the exponent starts: the first `e` or `E`, or the end. */
  function ExponentAt(t: string): (i: nat)
    ensures i <= |t| && (i < |t| ==> IsExponentMark(t[i]))
    ensures forall j | 0 <= j < i :: !IsExponentMark(t[j])
  {
    if t == [] || IsExponentMark(t[0]) then 0 else 1 + ExponentAt(t[1..])
  }

  /** An optionally signed run of digits. */
  function SignedDigits(t: string): (r: Option<int>) {
    var signed := |t| > 0 && (t[0] == '+' || t[0] == '-');
    var digits := if signed then t[1..] else t;
    if |digits| == 0 || !AllDigitChars(digits) then None
    else
      var n: int := DigitsValue(digits);
      Some(if signed && t[0] == '-' then -n else n)
  }

  /** `decimal.Decimal(t)` on stripped text: a sign, digits with at most one
      point and at least one digit, and an optional exponent. The
      infinities and NaNs it also reads are `None`, as the field refuses
      them right after. */
  function ParseDecimal(t: string): (r: Option<Numeral>) {
    var negative := |t| > 0 && t[0] == '-';
    var u := if |t| > 0 && (t[0] == '+' || t[0] == '-') then t[1..] else t;
    var e := ExponentAt(u);
    var exponent := if e < |u| then SignedDigits(u[e + 1..]) else Some(0);
    var m := ParseMantissa(u[..e]);
    if exponent.None? || m.None? then None
    else Some(Numeral(negative, m.value.0, m.value.1, exponent.value))
  }

  /** What `Decimal` reads has digits on both sides of the point. */
  lemma ParsedDigits(t: string)
    requires ParseDecimal(t).Some?
    ensures AllDigitChars(ParseDecimal(t).value.whole) && AllDigitChars(ParseDecimal(t).value.fraction)
  {
  }

  /** The digits before and after the point: digits with at most one point
      and at least one digit. */
  function ParseMantissa(m: string): (r: Option<(string, string)>) {
    var p := IndexOf(m, '.');
    var whole := m[..p];
    var fraction := if p < |m| then m[p + 1..] else "";
    if !AllDigitChars(whole) || !AllDigitChars(fraction) || |whole| + |fraction| == 0 then None
    else Some((whole, fraction))
  }

  /** `c` followed by `k` zeros. */
  function ShiftLeft(c: nat, k: nat): (r: nat) {
    if k == 0 then c else 10 * ShiftLeft(c, k - 1)
  }

  /** The coefficient of `as_tuple`: all the digits read as one number. */
  function Coefficient(x: Numeral): nat
    requires AllDigitChars(x.whole) && AllDigitChars(x.fraction)
  {
    ShiftLeft(DigitsValue(x.whole), |x.fraction|) + DigitsValue(x.fraction)
  }

  /** `validate_precision`'s counts of total digits, whole digits and
      decimal places. */
  datatype Precision = Precision(total: nat, whole: nat, places: nat)

  /** The counts from the number of digits of the coefficient (leading zeros
      do not count, zero has one) and the exponent of `as_tuple`. */
  function PrecisionOf(digits: nat, exponent: int): (p: Precision) {
    if exponent >= 0 then Precision(digits + exponent, digits + exponent, 0)
    else if digits > -exponent then Precision(digits, digits + exponent, -exponent)
    else Precision(-exponent, 0, -exponent)
  }

  const MAX_DIGITS := 5
  const DECIMAL_PLACES := 2

  /** `max_digits=5` and `decimal_places=2`, hence at most three whole
      digits. */
  predicate WithinPrecision(p: Precision) {
    p.total <= MAX_DIGITS && p.places <= DECIMAL_PLACES && p.whole <= MAX_DIGITS - DECIMAL_PLACES
  }

  /** A value quantized to two places: its sign and its magnitude in
      hundredths. */
  datatype Hundredths = Hundredths(negative: bool, cents: nat)

  /** `DecimalField.to_internal_value` for a value sent as text: strip, the
      length check, `Decimal`, the finite check, the precision check, then
      the quantization to two places. `None` is the field's error. */
  function DecimalFieldValue(s: string): (r: Option<Hundredths>) {
    var t := PyStrip(s);
    if |t| > MAX_STRING_LENGTH then None
    else
      var x := ParseDecimal(t);
      if x.None? then None else Quantized(x.value)
  }

  /** The precision check on a numeral `Decimal` read, then the
      quantization to two places. */
  function Quantized(x: Numeral): (r: Option<Hundredths>)
    requires AllDigitChars(x.whole) && AllDigitChars(x.fraction)
  {
    var e := x.exponent - |x.fraction|;
    var c := Coefficient(x);
    if !WithinPrecision(PrecisionOf(|NatToString(c)|, e)) then None
    else Some(Hundredths(x.negative, ShiftLeft(c, if e + 2 >= 0 then e + 2 else 0)))
  }

  /** `str` of the quantized value, which is what the text column keeps. */
  function HundredthsText(h: Hundredths): (r: string) {
    (if h.negative then "-" else "") + NatToString(h.cents / 100) + "." + TwoDigits(h.cents % 100)
  }

  /** `k` digits stay below `10^k`. */
  lemma {:induction false} DigitsValueBelow(s: string)
    requires AllDigitChars(s)
    ensures DigitsValue(s) < Pow10(|s|)
  {
    if |s| > 0 {
      DigitsValueBelow(s[..|s| - 1]);
    }
  }

  /** A number has at most `k` digits exactly when it is below `10^k`. */
  lemma {:induction false} DigitCountBelow(c: nat, k: nat)
    requires k >= 1
    ensures |NatToString(c)| <= k <==> c < Pow10(k)
  {
    if c >= 10 {
      if k == 1 {
        assert Pow10(1) == 10;
      } else {
        DigitCountBelow(c / 10, k - 1);
      }
    }
  }

  /** A numeral without exponent: the sign, the whole digits, and the point
      with the fraction when there is one. */
  function PlainNumeral(negative: bool, whole: string, fraction: string): (s: string) {
    (if negative then "-" else "") + whole + (if fraction == [] then [] else "." + fraction)
  }

  /** `Decimal` reads a plain numeral as its parts. */
  lemma ParsePlain(negative: bool, whole: string, fraction: string)
    requires AllDigitChars(whole) && AllDigitChars(fraction) && |whole| > 0
    ensures ParseDecimal(PlainNumeral(negative, whole, fraction)) == Some(Numeral(negative, whole, fraction, 0))
  {
    var u := whole + (if fraction == [] then [] else "." + fraction);
    var t := PlainNumeral(negative, whole, fraction);
    assert t == (if negative then "-" else "") + u;
    assert IsDigit(u[0]);
    assert (if |t| > 0 && (t[0] == '+' || t[0] == '-') then t[1..] else t) == u;
    NoExponentMark(u);
    assert u[..|u|] == u;
    MantissaOfPlain(whole, fraction);
  }

  /** Text of digits and points has no exponent. */
  lemma NoExponentMark(u: string)
    requires forall j | 0 <= j < |u| :: IsDigit(u[j]) || u[j] == '.'
    ensures ExponentAt(u) == |u|
  {
  }

  /** The mantissa of a plain numeral splits at its point. */
  lemma MantissaOfPlain(whole: string, fraction: string)
    requires AllDigitChars(whole) && AllDigitChars(fraction) && |whole| > 0
    ensures ParseMantissa(whole + (if fraction == [] then [] else "." + fraction)) == Some((whole, fraction))
  {
    var u := whole + (if fraction == [] then [] else "." + fraction);
    assert u[..|whole|] == whole;
    if fraction == [] {
      assert u == whole;
      assert forall j | 0 <= j < |u| :: u[j] != '.';
    } else {
      assert u[|whole|] == '.';
      assert forall j | 0 <= j < |whole| :: u[j] != '.';
      assert u[|whole| + 1..] == fraction;
    }
  }

  /** The precision test of a numeral without exponent is the plain rule:
      at most two decimals and a whole part below 1000, leading zeros
      aside. */
  lemma PrecisionRule(x: Numeral)
    requires AllDigitChars(x.whole) && AllDigitChars(x.fraction) && x.exponent == 0
    ensures var c := Coefficient(x);
      (WithinPrecision(PrecisionOf(|NatToString(c)|, -|x.fraction|))
       <==> |x.fraction| <= 2 && DigitsValue(x.whole) < 1000)
  {
    DigitsValueBelow(x.fraction);
    var c := Coefficient(x);
    var w := DigitsValue(x.whole);
    var d := |x.fraction|;
    assert Pow10(1) == 10 && Pow10(2) == 100 && Pow10(3) == 1000;
    assert Pow10(4) == 10000 && Pow10(5) == 100000;
    if d == 0 {
      DigitCountBelow(c, 3);
    } else if d == 1 {
      assert ShiftLeft(w, 1) == 10 * w;
      DigitCountBelow(c, 4);
      DigitCountBelow(c, 1);
    } else if d == 2 {
      assert ShiftLeft(w, 1) == 10 * w;
      assert ShiftLeft(w, 2) == 100 * w;
      DigitCountBelow(c, 5);
      DigitCountBelow(c, 2);
    }
  }

  /** What the weight and height fields make of a plain numeral: accepted
      exactly with at most two decimals and a whole part below 1000, and
      then read as its value in hundredths. So "999.99" and "070.5" are
      accepted, while "70.123" and "1000" are refused. */
  lemma PlainDecimalRule(negative: bool, whole: string, fraction: string)
    requires AllDigitChars(whole) && AllDigitChars(fraction) && |whole| > 0
    requires |whole| + |fraction| + 2 <= MAX_STRING_LENGTH
    ensures var r := DecimalFieldValue(PlainNumeral(negative, whole, fraction));
      (r.Some? <==> |fraction| <= 2 && DigitsValue(whole) < 1000)
      && (r.Some? ==> r.value == Hundredths(negative, ShiftLeft(DigitsValue(whole), 2) + ShiftLeft(DigitsValue(fraction), 2 - |fraction|)))
  {
    PlainNumeralStripped(negative, whole, fraction);
    ParsePlain(negative, whole, fraction);
    PlainQuantized(Numeral(negative, whole, fraction, 0));
  }

  /** The precision check and quantization of a numeral without exponent. */
  lemma PlainQuantized(x: Numeral)
    requires AllDigitChars(x.whole) && AllDigitChars(x.fraction) && x.exponent == 0
    ensures var r := Quantized(x);
      (r.Some? <==> |x.fraction| <= 2 && DigitsValue(x.whole) < 1000)
      && (r.Some? ==> r.value == Hundredths(x.negative, ShiftLeft(DigitsValue(x.whole), 2) + ShiftLeft(DigitsValue(x.fraction), 2 - |x.fraction|)))
  {
    PrecisionRule(x);
    var w := DigitsValue(x.whole);
    var f := DigitsValue(x.fraction);
    var c := Coefficient(x);
    assert ShiftLeft(w, 1) == 10 * ShiftLeft(w, 0) == 10 * w;
    assert ShiftLeft(w, 2) == 10 * ShiftLeft(w, 1) == 100 * w;
    assert ShiftLeft(f, 1) == 10 * f && ShiftLeft(f, 2) == 100 * f;
    assert ShiftLeft(c, 1) == 10 * c && ShiftLeft(c, 2) == 100 * c;
    if |x.fraction| == 0 {
      assert f == 0 && c == w;
    } else if |x.fraction| == 1 {
      assert c == 10 * w + f;
    } else if |x.fraction| == 2 {
      assert c == 100 * w + f;
    }
  }

  lemma PlainNumeralStripped(negative: bool, whole: string, fraction: string)
    requires AllDigitChars(whole) && AllDigitChars(fraction) && |whole| > 0
    ensures var s := PlainNumeral(negative, whole, fraction);
      PyStrip(s) == s
  {
    var s := PlainNumeral(negative, whole, fraction);
    assert s[0] == '-' || IsDigit(s[0]);
    assert IsDigit(s[|s| - 1]);
    PyStripKeeps(s);
  }

  /** The field reads back the text the column keeps: the rendering of any
      value within five digits is accepted as that same value. */
  lemma DecimalFieldReadsRendering(h: Hundredths)
    requires h.cents < 100000
    ensures DecimalFieldValue(HundredthsText(h)) == Some(h)
  {
    var q := h.cents / 100;
    var whole := NatToString(q);
    var fraction := TwoDigits(h.cents % 100);
    assert HundredthsText(h) == PlainNumeral(h.negative, whole, fraction);
    NatToStringRoundTrip(q);
    assert Pow10(3) == 1000;
    DigitCountBelow(q, 3);
    assert 100 * DigitsValue(whole) + DigitsValue(fraction) == h.cents;
    TwoPlaces(h.negative, whole, fraction, h.cents);
  }

  /** A plain numeral with two places and at most three whole digits is
      read as exactly its hundredths. */
  lemma TwoPlaces(negative: bool, whole: string, fraction: string, cents: nat)
    requires AllDigitChars(whole) && AllDigitChars(fraction) && |whole| > 0
    requires |fraction| == 2 && |whole| <= 3
    requires cents == 100 * DigitsValue(whole) + DigitsValue(fraction)
    ensures DecimalFieldValue(PlainNumeral(negative, whole, fraction)) == Some(Hundredths(negative, cents))
  {
    var s := PlainNumeral(negative, whole, fraction);
    var x := Numeral(negative, whole, fraction, 0);
    PlainNumeralStripped(negative, whole, fraction);
    ParsePlain(negative, whole, fraction);
    DecimalFieldOfParsed(s, x);
    ThreeDigitsBelowThousand(whole);
    QuantizedTwoPlaces(x, cents);
  }

  /** At most three digits stay below a thousand. */
  lemma ThreeDigitsBelowThousand(whole: string)
    requires AllDigitChars(whole) && |whole| <= 3
    ensures DigitsValue(whole) < 1000
  {
    DigitsValueBelow(whole);
    assert Pow10(1) == 10 && Pow10(2) == 100 && Pow10(3) == 1000;
  }

  /** Two places within precision are kept as they are. */
  lemma QuantizedTwoPlaces(x: Numeral, cents: nat)
    requires AllDigitChars(x.whole) && AllDigitChars(x.fraction) && x.exponent == 0
    requires |x.fraction| == 2 && DigitsValue(x.whole) < 1000
    requires cents == 100 * DigitsValue(x.whole) + DigitsValue(x.fraction)
    ensures Quantized(x) == Some(Hundredths(x.negative, cents))
  {
    PrecisionRule(x);
    var w := DigitsValue(x.whole);
    assert ShiftLeft(w, 1) == 10 * ShiftLeft(w, 0) == 10 * w;
    assert ShiftLeft(w, 2) == 10 * ShiftLeft(w, 1) == 100 * w;
    assert Coefficient(x) == cents;
    assert ShiftLeft(cents, 0) == cents;
  }

  /** Past the strip and the length limit, the field's answer is the
      precision check on what `Decimal` read. */
  lemma DecimalFieldOfParsed(s: string, x: Numeral)
    requires PyStrip(s) == s && |s| <= MAX_STRING_LENGTH && ParseDecimal(s) == Some(x)
    ensures AllDigitChars(x.whole) && AllDigitChars(x.fraction)
    ensures DecimalFieldValue(s) == Quantized(x)
  {
    ParsedDigits(s);
  }

  /** Five digits at most: an accepted weight or height is below 1000. */
  lemma DecimalFieldBound(s: string)
    ensures DecimalFieldValue(s).Some? ==> DecimalFieldValue(s).value.cents < 100000
  {
    var t := PyStrip(s);
    if |t| <= MAX_STRING_LENGTH && ParseDecimal(t).Some? {
      ParsedDigits(t);
      QuantizedBound(ParseDecimal(t).value);
    }
  }

  lemma QuantizedBound(x: Numeral)
    requires AllDigitChars(x.whole) && AllDigitChars(x.fraction)
    ensures Quantized(x).Some? ==> Quantized(x).value.cents < 100000
  {
    var e := x.exponent - |x.fraction|;
    var c := Coefficient(x);
    var digits := |NatToString(c)|;
    if WithinPrecision(PrecisionOf(digits, e)) {
      assert e >= -2;
      DigitCountBelow(c, digits);
      ShiftLeftBelow(c, e + 2, digits);
      assert digits + e <= 3;
      Pow10Monotone(digits + e + 2, 5);
      assert Pow10(5) == 100000;
    }
  }

  /** Shifting a number below `10^d` by `k` places keeps it below `10^(d+k)`. */
  lemma {:induction false} ShiftLeftBelow(c: nat, k: nat, d: nat)
    requires c < Pow10(d)
    ensures ShiftLeft(c, k) < Pow10(d + k)
  {
    if k > 0 {
      ShiftLeftBelow(c, k - 1, d);
    }
  }

  lemma {:induction false} Pow10Monotone(a: nat, b: nat)
    requires a <= b
    ensures Pow10(a) <= Pow10(b)
    decreases b
  {
    if a < b {
      Pow10Monotone(a, b - 1);
    }
  }

  /** The rendering of a value below 1000 takes at most seven characters,
      "-999.99", so the ten-character column holds it. */
  lemma RenderingFits(h: Hundredths)
    requires h.cents < 100000
    ensures |HundredthsText(h)| <= 7
  {
    assert Pow10(3) == 1000;
    DigitCountBelow(h.cents / 100, 3);
  }

  /** The two digits of a number below 100, and their value. */
  function TwoDigits(n: nat): (r: string)
    requires n < 100
    ensures |r| == 2 && AllDigitChars(r) && DigitsValue(r) == n
  {
    var r := [DigitChar(n / 10), DigitChar(n % 10)];
    assert r[..1] == [r[0]] && [r[0]][..0] == [];
    assert DigitsValue([r[0]]) == n / 10;
    assert DigitsValue(r) == n / 10 * 10 + n % 10;
    r
  }

  /** An age with a fraction, a weight with three decimals and a height of
      four whole digits are each refused; leading zeros and a single decimal
      are fine. */
  lemma FieldExamples()
    ensures IntegerFieldValue("30.5") == None
    ensures DecimalFieldValue("70.123") == None
    ensures DecimalFieldValue("1000") == None
    ensures DecimalFieldValue("070.5") == Some(Hundredths(false, 7050))
  {
    AgeWithFraction();
    ThreeDecimals();
    FourWholeDigits();
    LeadingZero();
  }

  lemma AgeWithFraction()
    ensures IntegerFieldValue("30.5") == None
  {
    assert IntToString(30) == "30";
    assert "30" + "." + "5" == "30.5";
    assert "5"[0] != '0';
    IntegerFieldRefusesFraction(30, "5");
  }

  lemma ThreeDecimals()
    ensures DecimalFieldValue("70.123") == None
  {
    assert PlainNumeral(false, "70", "123") == "70.123";
    PlainDecimalRule(false, "70", "123");
  }

  lemma FourWholeDigits()
    ensures DecimalFieldValue("1000") == None
  {
    assert PlainNumeral(false, "1000", "") == "1000";
    assert DigitsValue("1000") == 1000 by {
      assert "1000"[..3] == "100" && "100"[..2] == "10" && "10"[..1] == "1" && "1"[..0] == "";
    }
    PlainDecimalRule(false, "1000", "");
  }

  lemma LeadingZero()
    ensures DecimalFieldValue("070.5") == Some(Hundredths(false, 7050))
  {
    assert PlainNumeral(false, "070", "5") == "070.5";
    assert DigitsValue("070") == 70 by {
      assert "070"[..2] == "07" && "07"[..1] == "0" && "0"[..0] == "";
    }
    assert DigitsValue("5") == 5 by {
      assert "5"[..0] == "";
    }
    PlainDecimalRule(false, "070", "5");
    assert ShiftLeft(70, 2) == 7000 && ShiftLeft(5, 1) == 50;
  }

  /** The precision test counts digits, not magnitude: zero written with a
      large enough exponent is refused, and a whole number in exponent form
      is accepted. */
  lemma ExponentForms()
    ensures DecimalFieldValue("0E+3") == None
    ensures DecimalFieldValue("1E+2") == Some(Hundredths(false, 10000))
  {
    ExponentForm('0', '3');
    DecimalFieldOfParsed("0E+3", Numeral(false, "0", "", 3));
    ZeroExponentRefused();
    ExponentForm('1', '2');
    DecimalFieldOfParsed("1E+2", Numeral(false, "1", "", 2));
    HundredInExponentForm();
  }

  lemma ZeroExponentRefused()
    ensures Quantized(Numeral(false, "0", "", 3)) == None
  {
    assert Coefficient(Numeral(false, "0", "", 3)) == 0;
    assert NatToString(0) == "0";
    assert PrecisionOf(1, 3) == Precision(4, 4, 0);
  }

  lemma HundredInExponentForm()
    ensures Quantized(Numeral(false, "1", "", 2)) == Some(Hundredths(false, 10000))
  {
    assert Coefficient(Numeral(false, "1", "", 2)) == 1;
    assert NatToString(1) == "1";
    assert PrecisionOf(1, 2) == Precision(3, 3, 0);
    assert ShiftLeft(1, 4) == 10000;
  }

  /** `Decimal` reads a digit, `E+` and a digit as the digit with that
      exponent. */
  lemma ExponentForm(d: char, k: char)
    requires IsDigit(d) && IsDigit(k)
    ensures PyStrip([d, 'E', '+', k]) == [d, 'E', '+', k]
    ensures ParseDecimal([d, 'E', '+', k]) == Some(Numeral(false, [d], "", k as int - '0' as int))
  {
    var t := [d, 'E', '+', k];
    PyStripKeeps(t);
    assert ExponentAt(t) == 1;
    assert t[..1] == [d] && t[2..] == ['+', k];
    assert ['+', k][1..] == [k];
    assert [k][..0] == [];
    assert DigitsValue([k]) == k as int - '0' as int;
    assert SignedDigits(['+', k]) == Some(k as int - '0' as int);
    MantissaOfPlain([d], "");
    assert [d] + (if "" == [] then [] else "." + "") == [d];
    assert ParseMantissa([d]) == Some(([d], ""));
  }
}

=== FILE: payment_views.dfy ===
/** The subscription and booking endpoints (backend/payments/views.py). Each
    endpoint is a function from the database, the authenticated user `me`
    and the request to a status code and the new database. Paid plans run for
    one cycle from the instant of payment and are mirrored on the profile. */
module PaymentViews {
  import opened Common
  import opened Accounts
  import opened Billing
  import opened Store

  /** The profile side of an activation: the profile, when there is one,
      shows the plan and its end date and becomes searchable again. */
  function ActivatedProviders(ps: map<nat, ProviderProfile>, me: nat, plan: string, end: int)
    : (r: map<nat, ProviderProfile>)
    ensures r.Keys == ps.Keys
    ensures me in ps ==> r[me] == ps[me].(plan := Some(plan), subscriptionEnd := Some(end), searchable := true)
    ensures forall o | o != me && o in ps :: r[o] == ps[o]
  {
    if me in ps then ps[me := ps[me].(plan := Some(plan), subscriptionEnd := Some(end), searchable := true)]
    else ps
  }

  /** Start a cycle on `plan` and mirror it on the profile (the tail shared by
      the three activation endpoints). */
  function Activate(db: Db, me: nat, plan: string, now: int): (d: Db) {
    db.(subscriptions := db.subscriptions[me := StartCycle(plan, now)],
        providers := ActivatedProviders(db.providers, me, plan, now + CYCLE))
  }

  /** After an activation the provider is governed by the activated plan for
      the whole cycle and no longer, the profile (if any) shows that plan and
      is searchable, and every other provider's rows are untouched. */
  lemma ActivationGoverns(db: Db, me: nat, plan: string, now: int, t: int)
    ensures var d := Activate(db, me, plan, now);
      (now <= t < now + CYCLE ==> EffectivePlan(SubscriptionOf(d, me), ProviderOf(d, me), t) == Some(plan))
      && !IsLive(d.subscriptions[me], now + CYCLE)
      && (me in db.providers ==> d.providers[me].plan == Some(plan) && d.providers[me].searchable)
      && (forall o | o != me && o in db.providers :: o in d.providers && d.providers[o] == db.providers[o])
      && (forall o | o != me && o in db.subscriptions :: o in d.subscriptions && d.subscriptions[o] == db.subscriptions[o])
      && d.users == db.users && d.usage == db.usage
  {
    var sub := StartCycle(plan, now);
    assert SubscriptionOf(Activate(db, me, plan, now), me) == Some(sub);
    if now <= t < now + CYCLE {
      assert IsLive(sub, t);
    }
  }

  lemma ActivationKeepsWf(db: Db, me: nat, plan: string, now: int)
    requires Wf(db) && me < |db.users|
    ensures Wf(Activate(db, me, plan, now))
  {
  }

  /** `PayPalPaymentSuccessView.post`: the plan is checked before the role. */
  function PaymentSuccess(db: Db, me: nat, plan: Option<string>, now: int): (r: Outcome)
    requires me < |db.users|
    ensures r.status == 200 <==> (plan == Some(STANDARD) || plan == Some(PREMIUM)) && IsProvider(db, me)
    ensures !(plan == Some(STANDARD) || plan == Some(PREMIUM)) ==> r.status == 400
    ensures r.status != 200 ==> r.db == db
  {
    if !(plan == Some(STANDARD) || plan == Some(PREMIUM)) then Outcome(400, db)
    else if !IsProvider(db, me) then Outcome(403, db)
    else Outcome(200, Activate(db, me, plan.value, now))
  }

  /** `FreePlanActivationView.post`. */
  function FreePlan(db: Db, me: nat, now: int): (r: Outcome)
    requires me < |db.users|
    ensures r.status == 200 <==> IsProvider(db, me)
    ensures r.status != 200 ==> r.status == 403 && r.db == db
  {
    if !IsProvider(db, me) then Outcome(403, db)
    else Outcome(200, Activate(db, me, BASIC, now))
  }

  /** The free plan really is the basic quota: right after it a provider may
      take four bookings and is at the limit with the fifth. */
  lemma FreePlanQuota(db: Db, me: nat, now: int, used: nat)
    requires me < |db.users| && IsProvider(db, me)
    ensures var d := FreePlan(db, me, now).db;
      MonthlyLimitReached(BookingUsage(used, now), SubscriptionOf(d, me), ProviderOf(d, me), now) <==> used >= 5
  {
    ActivationGoverns(db, me, BASIC, now, now);
  }

  /** `BookingUsageIncrementView.post`: non-providers are refused; otherwise the
      counter (created at zero if missing) goes up by one and the profile is
      hidden once the governing plan's quota is reached. */
  function BookingIncrement(db: Db, me: nat, now: int): (r: Outcome)
    requires me < |db.users|
  {
    if !IsProvider(db, me) then Outcome(403, db)
    else
      var u := if me in db.usage then db.usage[me] else BookingUsage(0, now);
      var sub := SubscriptionOf(db, me);
      var step := IncrementUsage(u, sub, ProviderOf(db, me), now);
      var prof := if MonthlyLimitReached(step.0, sub, step.1, now) && step.1.Some?
                  then Some(step.1.value.(searchable := false)) else step.1;
      Outcome(200, PutProvider(db.(usage := db.usage[me := step.0]), me, prof))
  }

  /** A booking counts exactly once and hides the provider exactly when the
      quota is then reached; of the caller's profile only the two flags may
      change, and every other row, profile and registration is unchanged. */
  lemma BookingIncrementSpec(db: Db, me: nat, now: int)
    requires me < |db.users|
    ensures var r := BookingIncrement(db, me, now);
      (r.status == 200 <==> IsProvider(db, me))
      && (r.status == 200 ==>
            var before := if me in db.usage then db.usage[me].used else 0;
            r.db.usage[me].used == before + 1
            && (me in db.providers ==>
                  r.db.providers[me].plan == db.providers[me].plan
                  && (!r.db.providers[me].searchable <==>
                        MonthlyLimitReached(r.db.usage[me], SubscriptionOf(db, me), ProviderOf(db, me), now)
                        || !db.providers[me].searchable))
            && r.db.users == db.users && r.db.subscriptions == db.subscriptions
            && (forall o | o != me && o in db.usage :: o in r.db.usage && r.db.usage[o] == db.usage[o]))
      && r.db.mothers == db.mothers && r.db.pendingMothers == db.pendingMothers
      && r.db.pendingProviders == db.pendingProviders
      && r.db.providers.Keys == db.providers.Keys
      && (forall o | o != me && o in db.providers :: r.db.providers[o] == db.providers[o])
      && (me in db.providers ==>
            r.db.providers[me] == db.providers[me].(verifiedByAdmin := r.db.providers[me].verifiedByAdmin,
                                                    searchable := r.db.providers[me].searchable))
      && (r.status != 200 ==> r.db == db)
  {
    if IsProvider(db, me) {
      BookingIncrementCounts(db, me, now);
      BookingIncrementFrame(db, me, now);
      if me in db.providers {
        BookingIncrementProfile(db, me, now);
      }
    }
  }

  /** A provider's booking touches only the counters and the caller's own
      profile, and of that profile only the verified and searchable flags. */
  lemma BookingIncrementFrame(db: Db, me: nat, now: int)
    requires me < |db.users| && IsProvider(db, me)
    ensures var r := BookingIncrement(db, me, now);
      r.db == db.(usage := r.db.usage, providers := r.db.providers)
      && r.db.providers.Keys == db.providers.Keys
      && (forall o | o != me && o in db.providers :: r.db.providers[o] == db.providers[o])
      && (me in db.providers ==>
            r.db.providers[me] == db.providers[me].(verifiedByAdmin := r.db.providers[me].verifiedByAdmin,
                                                    searchable := r.db.providers[me].searchable))
  {
    var u := if me in db.usage then db.usage[me] else BookingUsage(0, now);
    var sub, p := SubscriptionOf(db, me), ProviderOf(db, me);
    var step := IncrementUsage(u, sub, p, now);
    if me in db.providers {
      assert p == Some(db.providers[me]);
    }
    FlagUpdateFrame(db, me, step.0, step.1, MonthlyLimitReached(step.0, sub, step.1, now));
  }

  /** Storing a new counter and a profile that differs from the caller's
      only in its flags, hidden or not, changes nothing else. */
  lemma FlagUpdateFrame(db: Db, me: nat, used: BookingUsage, q: Option<ProviderProfile>, hidden: bool)
    requires q.Some? <==> me in db.providers
    requires me in db.providers ==>
               q.value == db.providers[me].(verifiedByAdmin := q.value.verifiedByAdmin, searchable := q.value.searchable)
    ensures var prof := (if hidden && q.Some? then Some(q.value.(searchable := false)) else q);
      var r := PutProvider(db.(usage := db.usage[me := used]), me, prof);
      r == db.(usage := r.usage, providers := r.providers)
      && r.usage == db.usage[me := used]
      && r.providers.Keys == db.providers.Keys
      && (forall o | o != me && o in db.providers :: r.providers[o] == db.providers[o])
      && (me in db.providers ==>
            r.providers[me] == prof.value
            && r.providers[me] == db.providers[me].(verifiedByAdmin := r.providers[me].verifiedByAdmin,
                                                    searchable := r.providers[me].searchable))
  {
  }

  /** A provider's booking adds one to their counter only. */
  lemma BookingIncrementCounts(db: Db, me: nat, now: int)
    requires me < |db.users| && IsProvider(db, me)
    ensures var r := BookingIncrement(db, me, now);
      var before := if me in db.usage then db.usage[me].used else 0;
      r.status == 200 && me in r.db.usage && r.db.usage[me].used == before + 1
      && r.db.users == db.users && r.db.subscriptions == db.subscriptions
      && (forall o | o != me && o in db.usage :: o in r.db.usage && r.db.usage[o] == db.usage[o])
  {
  }

  /** A provider's profile keeps its plan and is hidden once the quota is
      reached. */
  lemma BookingIncrementProfile(db: Db, me: nat, now: int)
    requires me < |db.users| && IsProvider(db, me) && me in db.providers
    ensures var r := BookingIncrement(db, me, now);
      me in r.db.usage && me in r.db.providers
      && r.db.providers[me].plan == db.providers[me].plan
      && (!r.db.providers[me].searchable <==>
            MonthlyLimitReached(r.db.usage[me], SubscriptionOf(db, me), ProviderOf(db, me), now)
            || !db.providers[me].searchable)
  {
    var u := if me in db.usage then db.usage[me] else BookingUsage(0, now);
    var sub, p := SubscriptionOf(db, me), ProviderOf(db, me);
    var step := IncrementUsage(u, sub, p, now);
    assert p == Some(db.providers[me]);
    LimitFollowsPlan(step.0, sub, step.1, p, now);
    FlagUpdateFrame(db, me, step.0, step.1, MonthlyLimitReached(step.0, sub, step.1, now));
  }

  /** The quota test reads only the profile's plan. */
  lemma LimitFollowsPlan(u: BookingUsage, sub: Option<Subscription>, p: Option<ProviderProfile>,
                         q: Option<ProviderProfile>, now: int)
    requires p.Some? == q.Some? && (p.Some? ==> p.value.plan == q.value.plan)
    ensures MonthlyLimitReached(u, sub, p, now) == MonthlyLimitReached(u, sub, q, now)
  {
  }

  /** `CheckFirstTimeLoginView.get`: 403 for a non-provider, 404 without a
      profile, and otherwise 200 with whether the tutorial is still to do. */
  function CheckFirstTime(db: Db, me: nat): (r: (nat, Option<bool>))
    requires me < |db.users|
    ensures r.1.Some? <==> r.0 == 200
    ensures r.0 == 403 <==> !IsProvider(db, me)
    ensures r.0 == 404 <==> IsProvider(db, me) && me !in db.providers
    ensures r.0 == 200 ==> me in db.providers && r.1 == Some(!db.providers[me].completedTutorial)
  {
    if !IsProvider(db, me) then (403, None)
    else if me !in db.providers then (404, None)
    else (200, Some(!db.providers[me].completedTutorial))
  }

  /** `CompleteTutorialView.post`. */
  function CompleteTutorial(db: Db, me: nat): (r: Outcome)
    requires me < |db.users|
    ensures r.status == 200 <==> IsProvider(db, me) && me in db.providers
    ensures r.status != 200 ==> r.db == db
  {
    if !IsProvider(db, me) then Outcome(403, db)
    else if me !in db.providers then Outcome(404, db)
    else Outcome(200, db.(providers := db.providers[me := db.providers[me].(completedTutorial := true)]))
  }

  /** Completing the tutorial is what turns the first-time flag off, it is
      idempotent, and the two endpoints agree on who may call them. */
  lemma TutorialFlagRoundTrip(db: Db, me: nat)
    requires me < |db.users|
    ensures var r := CompleteTutorial(db, me);
      CheckFirstTime(r.db, me).0 == CheckFirstTime(db, me).0
      && (r.status == 200 ==> CheckFirstTime(r.db, me) == (200, Some(false)))
      && CompleteTutorial(r.db, me) == Outcome(r.status, r.db)
  {
  }

  /** `SubscriptionStatusView.get`: the live subscription's plan, else the
      profile's plan as stored (no basic default), and the profile's country. */
  datatype StatusReply = StatusReply(status: nat, plan: Option<string>, country: Option<string>)

  function SubscriptionStatus(db: Db, me: nat, now: int): (r: StatusReply)
    requires me < |db.users|
  {
    if !IsProvider(db, me) then StatusReply(403, None, None)
    else if me !in db.providers then StatusReply(404, None, None)
    else
      var sub := SubscriptionOf(db, me);
      var plan := if sub.Some? && IsLive(sub.value, now) then sub.value.plan else db.providers[me].plan;
      StatusReply(200, plan, Some(db.providers[me].country))
  }

  /** The status endpoint agrees with the quota logic whenever a subscription
      is live or the profile names a plan, but, unlike the quota logic, reports
      no plan at all (rather than basic) for a provider with neither. */
  lemma StatusAgreesWithQuota(db: Db, me: nat, now: int)
    requires me < |db.users| && IsProvider(db, me) && me in db.providers
    ensures var r := SubscriptionStatus(db, me, now);
      var sub := SubscriptionOf(db, me);
      r.status == 200
      && ((sub.Some? && IsLive(sub.value, now)) || Truthy(db.providers[me].plan) ==>
            r.plan == EffectivePlan(sub, ProviderOf(db, me), now))
      && (!(sub.Some? && IsLive(sub.value, now)) && db.providers[me].plan.None? ==>
            r.plan.None? && EffectivePlan(sub, ProviderOf(db, me), now) == Some(BASIC))
  {
  }

  /** The status a provider sees right after paying is the plan paid for. */
  lemma StatusAfterPayment(db: Db, me: nat, plan: string, now: int)
    requires me < |db.users| && IsProvider(db, me) && me in db.providers
    requires plan == STANDARD || plan == PREMIUM
    ensures var d := PaymentSuccess(db, me, Some(plan), now).db;
      SubscriptionStatus(d, me, now) == StatusReply(200, Some(plan), Some(db.providers[me].country))
  {
  }

  /** `PLAN_PRICING`: price and currency of the paid plans. */
  function PlanPrice(plan: string): (r: Option<(string, string)>)
    ensures r.Some? <==> plan == STANDARD || plan == PREMIUM
  {
    if plan == STANDARD then Some(("50.00", "USD"))
    else if plan == PREMIUM then Some(("100.00", "USD"))
    else None
  }

  /** What the payment service reports for an order; a failed lookup is
      modelled as no order at all. */
  datatype Order = Order(status: string, amount: string, currency: string, payee: string)

  /** `PayPalVerifiedPaymentView.post`, with the order lookup's outcome and the
      configured merchant e-mail ("" when not configured) as inputs. */
  function VerifiedPayment(db: Db, me: nat, orderId: Option<string>, plan: Option<string>,
                           lookup: Option<Order>, merchant: string, now: int): (r: Outcome)
    requires me < |db.users|
  {
    if !IsProvider(db, me) then Outcome(403, db)
    else if !Truthy(orderId) || !Truthy(plan) then Outcome(400, db)
    else if PlanPrice(plan.value).None? then Outcome(400, db)
    else if lookup.None? then Outcome(400, db)
    else if lookup.value.status != "COMPLETED" then Outcome(400, db)
    else if (lookup.value.amount, lookup.value.currency) != PlanPrice(plan.value).value then Outcome(400, db)
    else if merchant != "" && lookup.value.payee != merchant then Outcome(400, db)
    else Outcome(200, Activate(db, me, plan.value, now))
  }

  /** An order activates a plan exactly when the caller is a provider, the
      plan is a paid one, the order was found, is completed, paid the plan's
      price in its currency, and (when a merchant is configured) was paid to
      that merchant. The basic plan can never be bought this way. */
  lemma VerifiedPaymentAcceptsExactly(db: Db, me: nat, orderId: Option<string>, plan: Option<string>,
                                      lookup: Option<Order>, merchant: string, now: int)
    requires me < |db.users|
    ensures var r := VerifiedPayment(db, me, orderId, plan, lookup, merchant, now);
      (r.status == 200 <==>
         IsProvider(db, me) && Truthy(orderId)
         && (plan == Some(STANDARD) || plan == Some(PREMIUM))
         && lookup.Some? && lookup.value.status == "COMPLETED"
         && lookup.value.amount == (if plan == Some(STANDARD) then "50.00" else "100.00")
         && lookup.value.currency == "USD"
         && (merchant == "" || lookup.value.payee == merchant))
      && (r.status == 200 ==> r.db == Activate(db, me, plan.value, now))
      && (r.status != 200 ==> r.db == db && (r.status == 403 <==> !IsProvider(db, me)))
      && (plan == Some(BASIC) ==> r.status != 200)
  {
  }
}

=== FILE: pending.dfy ===
/** Registrations waiting for completion (backend/onboarding/models.py): a
    mother waits for her e-mail code, a provider waits for an administrator.
    Neither is a user yet. */
module Pending {
  import opened Common

  /** `PendingMotherRegistration`; `email` is unique among them. `otp` is the
      six-character code last mailed, `otpCreatedAt` when it was (re)issued. */
  datatype PendingMother = PendingMother(
    username: string,
    email: string,
    phone: Option<string>,
    password: string,
    firstName: string,
    lastName: string,
    age: Option<string>,
    weight: Option<string>,
    height: Option<string>,
    country: Option<string>,
    language: Option<string>,
    postpartumNeeds: Option<string>,
    infantCare: Option<string>,
    interestIds: seq<int>,
    lat: Option<real>,
    lng: Option<real>,
    tosAgreed: bool,
    otp: Option<string>,
    otpCreatedAt: Option<int>)

  /** `PendingProviderRegistration`; `email` is unique among them, the user
      name is not. */
  datatype PendingProvider = PendingProvider(
    username: string,
    email: string,
    phone: Option<string>,
    password: string,
    firstName: string,
    lastName: string,
    license: Option<string>,
    bio: Option<string>,
    clinic: Option<string>,
    country: Option<string>,
    language: Option<string>,
    serviceTypeIds: seq<int>,
    specialityIds: seq<int>,
    certificates: Option<seq<string>>,
    lat: Option<real>,
    lng: Option<real>)

  /** Python truthiness of an optional float: present and not zero. */
  predicate TruthyCoord(x: Option<real>) {
    x.Some? && x.value != 0.0
  }
}

=== FILE: provider_signup_page.dfy ===
/** The provider sign-up wizard
    (web/mothers-garage/src/app/onboarding/provider/signup/page.tsx): six
    validated steps, the service and specialty choices, the multipart
    payload of the application, and the message shown when it is refused. */
module ProviderSignupPage {
  import opened Common
  import opened Validators
  import opened SignupSteps
  import opened FileUpload

  const TOTAL_STEPS := 6

  // ---------------------------------------------------------------------
  // Specialties chosen per service
  // ---------------------------------------------------------------------

  /** The `selectedSpecialtyIds` object: its integer keys are enumerated in
      ascending order, so it is kept as a list of entries sorted by key. */
  type Choices = seq<(nat, seq<nat>)>

  predicate SortedKeys(a: Choices) {
    forall i, j | 0 <= i < j < |a| :: a[i].0 < a[j].0
  }

  /** `obj[k]`. */
  function Get(a: Choices, k: nat): (v: Option<seq<nat>>) {
    if a == [] then None else if a[0].0 == k then Some(a[0].1) else Get(a[1..], k)
  }

  /** `{ ...obj, [k]: v }`. */
  function Put(a: Choices, k: nat, v: seq<nat>): (r: Choices)
    ensures |r| > 0 && (r[0].0 == k || (a != [] && r[0].0 == a[0].0))
    ensures SortedKeys(a) ==> SortedKeys(r)
  {
    if a == [] then [(k, v)]
    else if k < a[0].0 then [(k, v)] + a
    else if k == a[0].0 then [(k, v)] + a[1..]
    else [a[0]] + Put(a[1..], k, v)
  }

  /** `delete obj[k]`. */
  function Remove(a: Choices, k: nat): (r: Choices)
    ensures |r| <= |a|
    ensures r != [] ==> a != [] && (r[0] == a[0] || (|a| > 1 && r[0] == a[1]))
    ensures SortedKeys(a) ==> SortedKeys(r)
  {
    if a == [] then []
    else if a[0].0 == k then a[1..]
    else [a[0]] + Remove(a[1..], k)
  }

  /** Writing a key is seen by reading it, and by no other key. */
  lemma {:induction false} GetPut(a: Choices, k: nat, v: seq<nat>, j: nat)
    requires SortedKeys(a)
    ensures Get(Put(a, k, v), j) == if j == k then Some(v) else Get(a, j)
  {
    if a != [] && k > a[0].0 {
      GetPut(a[1..], k, v, j);
    } else if a != [] && k == a[0].0 && j != k {
      assert Get(a, j) == Get(a[1..], j);
    }
  }

  /** A removed key reads as missing; the others are untouched. */
  lemma {:induction false} GetRemove(a: Choices, k: nat, j: nat)
    requires SortedKeys(a)
    ensures Get(Remove(a, k), j) == if j == k then None else Get(a, j)
  {
    if a != [] {
      if a[0].0 == k {
        GetMissing(a[1..], k);
      } else {
        GetRemove(a[1..], k, j);
      }
    }
  }

  /** In a sorted list, a key smaller than every key is missing. */
  lemma {:induction false} GetMissing(a: Choices, k: nat)
    requires SortedKeys(a)
    requires forall i | 0 <= i < |a| :: k < a[i].0
    ensures Get(a, k) == None
  {
    if a != [] {
      GetMissing(a[1..], k);
    }
  }

  /** `Object.values(obj).flat()`. */
  function Values(a: Choices): (vs: seq<nat>) {
    if a == [] then [] else a[0].1 + Values(a[1..])
  }

  /** A value is listed exactly when some key holds it. */
  lemma {:induction false} ValuesMembership(a: Choices, x: nat)
    requires SortedKeys(a)
    ensures x in Values(a) <==> exists k | k in KeysOf(a) :: Get(a, k).Some? && x in Get(a, k).value
  {
    if a != [] {
      ValuesMembership(a[1..], x);
      var k0 := a[0].0;
      GetMissing(a[1..], k0);
      assert Values(a) == a[0].1 + Values(a[1..]);
      if x in Values(a) {
        if x in a[0].1 {
          assert k0 in KeysOf(a) && Get(a, k0) == Some(a[0].1);
        } else {
          assert x in Values(a[1..]);
          var k :| k in KeysOf(a[1..]) && Get(a[1..], k).Some? && x in Get(a[1..], k).value;
          assert k != k0;
          assert k in KeysOf(a) && Get(a, k) == Get(a[1..], k);
        }
      }
      if exists k | k in KeysOf(a) :: Get(a, k).Some? && x in Get(a, k).value {
        var k :| k in KeysOf(a) && Get(a, k).Some? && x in Get(a, k).value;
        if k != k0 {
          assert Get(a, k) == Get(a[1..], k);
          assert k in KeysOf(a[1..]);
        }
      }
    }
  }

  function KeysOf(a: Choices): (ks: set<nat>)
    ensures forall k | k in ks :: Get(a, k).Some?
    ensures forall k | Get(a, k).Some? :: k in ks
  {
    if a == [] then {} else {a[0].0} + KeysOf(a[1..])
  }

  // ---------------------------------------------------------------------
  // The page
  // ---------------------------------------------------------------------

  datatype Form = Form(
    username: string,
    email: string,
    password: string,
    password2: string,
    phone: string,
    firstName: string,
    lastName: string,
    bio: string,
    license: string,
    clinic: string,
    country: string,
    language: string)

  /** A service offered, as the specialities-by-service endpoint lists it. */
  datatype ServiceOption = ServiceOption(id: nat, name: string)

  datatype Page = Page(
    step: nat,
    form: Form,
    services: seq<nat>,
    specialties: Choices,
    certificates: seq<File>,
    location: Option<(real, real)>,
    tosAgreed: bool,
    complete: bool)

  /** Choosing a service: its id is appended, with no check for one already
      there, and its specialty list starts empty. */
  function SelectService(p: Page, id: nat): (r: Page) {
    p.(services := p.services + [id], specialties := Put(p.specialties, id, []))
  }

  /** Dropping a service: every occurrence of its id goes, with its
      specialties. */
  function DeselectService(p: Page, id: nat): (r: Page) {
    p.(services := Without(p.services, id), specialties := Remove(p.specialties, id))
  }

  /** `ids.filter((x) => x !== id)`. */
  function Without(ids: seq<nat>, id: nat): (r: seq<nat>)
    ensures forall x :: x in r <==> x in ids && x != id
    ensures |r| <= |ids|
  {
    if ids == [] then [] else (if ids[0] == id then [] else [ids[0]]) + Without(ids[1..], id)
  }

  /** A click on a service's card. */
  function ClickService(p: Page, id: nat): (r: Page) {
    if id in p.services then DeselectService(p, id) else SelectService(p, id)
  }

  /** A specialty's check box under a chosen service. */
  function ToggleSpecialty(p: Page, service: nat, specialty: nat, checked: bool): (r: Page) {
    var current := Get(p.specialties, service).GetOr([]);
    var next := if checked then current + [specialty] else Without(current, specialty);
    p.(specialties := Put(p.specialties, service, next))
  }

  /** Choosing a service starts it with no specialty, dropping it forgets its
      specialties, and no other service's specialties change. */
  lemma ServiceChoiceSpec(p: Page, id: nat, other: nat)
    requires SortedKeys(p.specialties) && other != id
    ensures var s := SelectService(p, id);
      id in s.services && Get(s.specialties, id) == Some([]) && SortedKeys(s.specialties)
      && Get(s.specialties, other) == Get(p.specialties, other)
      && s.services[..|p.services|] == p.services
    ensures var d := DeselectService(p, id);
      id !in d.services && Get(d.specialties, id).None? && SortedKeys(d.specialties)
      && Get(d.specialties, other) == Get(p.specialties, other)
      && (forall x :: x in d.services <==> x in p.services && x != id)
  {
    GetPut(p.specialties, id, [], id);
    GetPut(p.specialties, id, [], other);
    GetRemove(p.specialties, id, id);
    GetRemove(p.specialties, id, other);
  }

  /** The card and the check box inside it both react to one click, so a
      service can end up listed twice. */
  lemma DoubleSelectDuplicates(p: Page, id: nat)
    ensures var s := SelectService(SelectService(p, id), id).services;
      |s| == |p.services| + 2 && s[|s| - 1] == id && s[|s| - 2] == id
  {
  }

  /** A specialty box adds or removes that specialty for that service only. */
  lemma ToggleSpecialtySpec(p: Page, service: nat, specialty: nat, checked: bool, other: nat)
    requires SortedKeys(p.specialties) && other != service
    ensures var r := ToggleSpecialty(p, service, specialty, checked);
      SortedKeys(r.specialties) && Get(r.specialties, service).Some?
      && (specialty in Get(r.specialties, service).value <==> checked)
      && Get(r.specialties, other) == Get(p.specialties, other)
      && r.services == p.services
  {
    var current := Get(p.specialties, service).GetOr([]);
    var next := if checked then current + [specialty] else Without(current, specialty);
    GetPut(p.specialties, service, next, service);
    GetPut(p.specialties, service, next, other);
  }

  // ---------------------------------------------------------------------
  // Step validation
  // ---------------------------------------------------------------------

  /** A chosen service with at least one specialty. */
  predicate Covered(a: Choices, id: nat) {
    Get(a, id).Some? && |Get(a, id).value| > 0
  }

  /** The first chosen service without a specialty, if any. */
  function FirstUncovered(services: seq<nat>, a: Choices): (r: Option<nat>)
    ensures r.None? <==> forall i | 0 <= i < |services| :: Covered(a, services[i])
    ensures r.Some? ==> r.value in services && !Covered(a, r.value)
  {
    if services == [] then None
    else if !Covered(a, services[0]) then Some(services[0])
    else FirstUncovered(services[1..], a)
  }

  /** The name shown for a service: the first option with its id, or a
      stand-in when there is none or its name is empty. */
  function ServiceName(options: seq<ServiceOption>, id: nat): (name: string)
    ensures name != ""
  {
    if options == [] then "selected service"
    else if options[0].id == id then (if options[0].name != "" then options[0].name else "selected service")
    else ServiceName(options[1..], id)
  }

  const SERVICE_REQUIRED := "Please select at least one service"
  const NAMES_REQUIRED := "First name and last name are required"
  const BIO_REQUIRED := "Professional bio is required"
  const LICENSE_REQUIRED := "License number is required"
  const CERTIFICATE_REQUIRED := "Please upload at least one certificate"
  const COUNTRY_REQUIRED := "Please select your country"
  const LANGUAGE_REQUIRED := "Please select your preferred language"
  const LOCATION_REQUIRED := "Please pin your service location on the map"
  const TOS_REQUIRED := "You must agree to the Terms of Service"

  /** `validateCurrentStep`. */
  function StepError(p: Page, options: seq<ServiceOption>): (e: Option<string>) {
    var f := p.form;
    if p.step == 1 then AccountStepError(f.username, f.email, f.password, f.password2, f.phone)
    else if p.step == 2 then
      if |p.services| == 0 then Some(SERVICE_REQUIRED)
      else
        var missing := FirstUncovered(p.services, p.specialties);
        if missing.Some? then Some("Please select at least one specialty for " + ServiceName(options, missing.value))
        else None
    else if p.step == 3 then
      if IsBlank(f.firstName) || IsBlank(f.lastName) then Some(NAMES_REQUIRED)
      else if IsBlank(f.bio) then Some(BIO_REQUIRED)
      else if IsBlank(f.license) then Some(LICENSE_REQUIRED)
      else if |p.certificates| == 0 then Some(CERTIFICATE_REQUIRED)
      else None
    else if p.step == 4 then
      if IsBlank(f.country) then Some(COUNTRY_REQUIRED)
      else if IsBlank(f.language) then Some(LANGUAGE_REQUIRED)
      else None
    else if p.step == 5 then
      if p.location.None? then Some(LOCATION_REQUIRED) else None
    else if p.step == 6 then
      if !p.tosAgreed then Some(TOS_REQUIRED) else None
    else None
  }

  /** What each step demands. */
  lemma StepRequirements(p: Page, options: seq<ServiceOption>)
    ensures var f := p.form;
      var ok := StepError(p, options).None?;
      (p.step == 1 ==> (ok <==> !IsBlank(f.username) && IsValidEmail(f.email) && IsStrongPassword(f.password)
                                && f.password == f.password2 && IsValidPhoneNumber(f.phone)))
      && (p.step == 2 ==> (ok <==> |p.services| > 0 && forall i | 0 <= i < |p.services| :: Covered(p.specialties, p.services[i])))
      && (p.step == 3 ==> (ok <==> !IsBlank(f.firstName) && !IsBlank(f.lastName) && !IsBlank(f.bio)
                                   && !IsBlank(f.license) && |p.certificates| > 0))
      && (p.step == 4 ==> (ok <==> !IsBlank(f.country) && !IsBlank(f.language)))
      && (p.step == 5 ==> (ok <==> p.location.Some?))
      && (p.step == 6 ==> (ok <==> p.tosAgreed))
  {
    AccountStepAccepts(p.form.username, p.form.email, p.form.password, p.form.password2, p.form.phone);
  }

  // ---------------------------------------------------------------------
  // Submission
  // ---------------------------------------------------------------------

  /** The multipart form sent: the text fields, the location if pinned, one
      `service_type_ids` entry per chosen service, the specialties of every
      service in key order, and the certificates in the order chosen. */
  datatype Payload = Payload(
    form: Form,
    pinnedLocation: Option<(real, real)>,
    serviceTypeIds: seq<string>,
    specialityIds: seq<string>,
    certificates: seq<File>)

  /** `String(id)` for each id. */
  function RenderIds(ids: seq<nat>): (r: seq<string>)
    ensures |r| == |ids|
    ensures forall i | 0 <= i < |ids| :: r[i] == NatToString(ids[i])
  {
    if ids == [] then [] else [NatToString(ids[0])] + RenderIds(ids[1..])
  }

  /** How a server reads the ids back. */
  function ParseIds(ss: seq<string>): (r: Option<seq<nat>>) {
    if ss == [] then Some([])
    else if !AllDigitChars(ss[0]) then None
    else
      var rest := ParseIds(ss[1..]);
      if rest.None? then None else Some([DigitsValue(ss[0])] + rest.value)
  }

  lemma {:induction false} ParseRenderIds(ids: seq<nat>)
    ensures ParseIds(RenderIds(ids)) == Some(ids)
  {
    if ids != [] {
      NatToStringRoundTrip(ids[0]);
      assert RenderIds(ids)[1..] == RenderIds(ids[1..]);
      ParseRenderIds(ids[1..]);
      assert [ids[0]] + ids[1..] == ids;
    }
  }

  function PayloadOf(p: Page): (pl: Payload) {
    Payload(p.form, p.location, RenderIds(p.services), RenderIds(Values(p.specialties)), p.certificates)
  }

  /** The server reads back exactly the chosen services, in order and with
      any repetition, and exactly the specialties chosen under some service. */
  lemma PayloadRoundTrip(p: Page, x: nat)
    requires SortedKeys(p.specialties)
    ensures var pl := PayloadOf(p);
      ParseIds(pl.serviceTypeIds) == Some(p.services)
      && ParseIds(pl.specialityIds) == Some(Values(p.specialties))
      && (x in Values(p.specialties) <==>
            exists k | k in KeysOf(p.specialties) :: x in Get(p.specialties, k).value)
      && pl.certificates == p.certificates && pl.pinnedLocation == p.location
  {
    ParseRenderIds(p.services);
    ParseRenderIds(Values(p.specialties));
    ValuesMembership(p.specialties, x);
  }

  /** What a refused application's error looks like to the page. */
  datatype Issue = Messages(items: seq<string>) | OtherIssue

  datatype ErrorData =
    | NotHttpError
    | NoBody
    | TextBody(text: string)
    | ObjectBody(detail: Option<string>, fields: seq<(string, Issue)>)

  const UNEXPECTED := "An unexpected error occurred. Please try again."
  const SOMETHING_WRONG := "Something went wrong. Please try again."
  const FIX_HEADER := "Please fix the following issues:"

  function IssueText(i: Issue): string {
    if i.Messages? && |i.items| > 0 then Join(i.items, ", ") else "Invalid input"
  }

  function IssueLine(field: string, i: Issue): string {
    "• " + field + ": " + IssueText(i)
  }

  function IssueLines(fields: seq<(string, Issue)>): (lines: seq<string>)
    ensures |lines| == |fields|
    ensures forall k | 0 <= k < |fields| :: lines[k] == IssueLine(fields[k].0, fields[k].1)
  {
    if fields == [] then [] else [IssueLine(fields[0].0, fields[0].1)] + IssueLines(fields[1..])
  }

  /** The message of a refused application: a text body as it is, then
      `detail`, then one line per field, then a fallback. */
  function ErrorText(d: ErrorData): (m: string) {
    match d
    case NotHttpError => UNEXPECTED
    case NoBody => SOMETHING_WRONG
    case TextBody(t) => t
    case ObjectBody(detail, fields) =>
      if Truthy(detail) then detail.value
      else FIX_HEADER + "\n" + Join(IssueLines(fields), "\n")
  }

  predicate NoNewline(s: string) { '\n' !in s }

  lemma {:induction false} JoinNoNewline(parts: seq<string>, sep: string)
    requires NoNewline(sep) && forall k | 0 <= k < |parts| :: NoNewline(parts[k])
    ensures NoNewline(Join(parts, sep))
  {
    if |parts| > 1 {
      JoinNoNewline(parts[1..], sep);
    }
  }

  /** A field's line has no line break when its name and messages have none. */
  lemma IssueLineNoNewline(field: string, i: Issue)
    requires NoNewline(field)
    requires i.Messages? ==> forall j | 0 <= j < |i.items| :: NoNewline(i.items[j])
    ensures NoNewline(IssueLine(field, i))
  {
    if i.Messages? && |i.items| > 0 {
      JoinNoNewline(i.items, ", ");
    } else {
      assert NoNewline("Invalid input");
    }
    assert NoNewline("• ") && NoNewline(": ");
  }

  lemma HeaderNoNewline()
    ensures NoNewline(FIX_HEADER)
  {
  }

  /** The header and the field lines, which the message joins with line
      breaks, hold none themselves. */
  lemma MessageLinesNoNewline(fields: seq<(string, Issue)>)
    requires forall k | 0 <= k < |fields| :: NoNewline(fields[k].0)
    requires forall k, j | 0 <= k < |fields| && fields[k].1.Messages? && 0 <= j < |fields[k].1.items| ::
      NoNewline(fields[k].1.items[j])
    ensures var all := [FIX_HEADER] + IssueLines(fields);
      forall k | 0 <= k < |all| :: '\n' !in all[k]
  {
    var lines := IssueLines(fields);
    var all := [FIX_HEADER] + lines;
    HeaderNoNewline();
    forall k | 0 <= k < |all| ensures '\n' !in all[k] {
      if k > 0 {
        assert all[k] == lines[k - 1];
        IssueLineNoNewline(fields[k - 1].0, fields[k - 1].1);
      }
    }
  }

  /** Field names and messages without line breaks give a message whose
      lines are the header and then one line per field, in order, naming the
      field. */
  lemma ErrorTextLines(detail: Option<string>, fields: seq<(string, Issue)>)
    requires !Truthy(detail) && |fields| > 0
    requires forall k | 0 <= k < |fields| :: NoNewline(fields[k].0)
    requires forall k, j | 0 <= k < |fields| && fields[k].1.Messages? && 0 <= j < |fields[k].1.items| ::
      NoNewline(fields[k].1.items[j])
    ensures var lines := Split(ErrorText(ObjectBody(detail, fields)), '\n');
      |lines| == |fields| + 1 && lines[0] == FIX_HEADER
      && forall k | 0 <= k < |fields| :: lines[k + 1] == IssueLine(fields[k].0, fields[k].1)
  {
    var all := [FIX_HEADER] + IssueLines(fields);
    assert all[1..] == IssueLines(fields);
    assert ErrorText(ObjectBody(detail, fields)) == Join(all, "\n");
    MessageLinesNoNewline(fields);
    JoinSplit(all, '\n');
  }

  /** `handleSubmit`: the current step is checked again first; a valid form
      is sent, and `failure` is the error it met (`None` for success, which
      marks the application complete). */
  function Submit(p: Page, options: seq<ServiceOption>, failure: Option<ErrorData>): (r: (Page, Option<Payload>, Option<string>)) {
    var e := StepError(p, options);
    if e.Some? then (p, None, e)
    else if failure.None? then (p.(complete := true), Some(PayloadOf(p)), None)
    else (p, Some(PayloadOf(p)), Some(ErrorText(failure.value)))
  }

  /** `nextStep`. */
  function Next(p: Page, options: seq<ServiceOption>, failure: Option<ErrorData>): (r: (Page, Option<Payload>, Option<string>)) {
    var e := StepError(p, options);
    var n := NextStep(p.step, TOTAL_STEPS, e.None?);
    if n.1 then Submit(p, options, failure) else (p.(step := n.0), None, e)
  }

  /** The application goes out only from a valid last step, with the terms
      agreed, and only success completes it; before the last step Next only
      moves on. */
  lemma NextSpec(p: Page, options: seq<ServiceOption>, failure: Option<ErrorData>)
    requires 1 <= p.step <= TOTAL_STEPS
    ensures var r := Next(p, options, failure);
      1 <= r.0.step <= TOTAL_STEPS
      && (r.1.Some? <==> p.step == TOTAL_STEPS && p.tosAgreed)
      && (r.1.Some? ==> r.1.value == PayloadOf(p))
      && (r.0.complete <==> p.complete || (r.1.Some? && failure.None?))
      && (r.1.Some? && failure.Some? ==> r.2 == Some(ErrorText(failure.value)))
      && (p.step < TOTAL_STEPS ==> r.1.None? && (r.0.step == p.step + 1 <==> StepError(p, options).None?))
  {
    NavigationStaysInRange(p.step, TOTAL_STEPS, StepError(p, options).None?);
  }
}

=== FILE: registration.dfy ===
/** The registration flow (backend/onboarding/serializers.py and the sign-up,
    code and approval endpoints of backend/onboarding/views.py and
    backend/onboarding/admin.py). A mother's sign-up is parked as a pending
    record until she returns the six-digit code mailed to her; a provider's
    is parked until an administrator approves it. Hashing, the random code and
    the storage names of uploaded files are inputs; mail is not modelled. */
module Registration {
  import opened Common
  import opened Accounts
  import opened Billing
  import opened Pending
  import opened Store
  import opened NumberFields
  import PaymentViews
  import WorkspaceViews

  // ---------------------------------------------------------------------
  // Field validation shared by the serializers
  // ---------------------------------------------------------------------

  /** A required `CharField`: present and not blank once stripped; DRF stores
      the stripped text. */
  function RequiredText(s: string): (r: Option<string>)
    ensures r.Some? <==> PyStrip(s) != ""
    ensures r.Some? ==> r.value == PyStrip(s)
  {
    var t := PyStrip(s);
    if t == "" then None else Some(t)
  }

  /** An optional `CharField` with `allow_blank`: stripped when present. */
  function OptionalText(s: Option<string>): (r: Option<string>)
    ensures r.Some? <==> s.Some?
    ensures s.Some? ==> r.value == PyStrip(s.value)
  {
    if s.Some? then Some(PyStrip(s.value)) else None
  }

  /** `str(random.randint(100000, 999999))`: the code is always six digits,
      which is exactly what the `otp` column holds. */
  function OtpCode(n: nat): (code: string)
    requires 100000 <= n <= 999999
    ensures |code| == 6
    ensures forall i | 0 <= i < |code| :: IsDigit(code[i])
    ensures PyStrip(code) == code
  {
    NatToStringLength(n, 5);
    var code := NatToString(n);
    PyStripKeeps(code);
    code
  }

  /** `UserTypeSelectionSerializer.user_type`. */
  predicate IsUserTypeChoice(s: string) { s == "mother" || s == "provider" }

  /** The user-type choice field accepts exactly the two self-service roles,
      and the plan choice field exactly the three plans. */
  lemma ChoiceFieldsAccept(s: string)
    ensures IsUserTypeChoice(s) <==> ParseRole(s) == Some(Mother) || ParseRole(s) == Some(Provider)
    ensures IsPlanChoice(s) <==> s in {BASIC, STANDARD, PREMIUM}
  {
  }

  // ---------------------------------------------------------------------
  // Mother sign-up: an upsert keyed by e-mail
  // ---------------------------------------------------------------------

  /** The mother sign-up body; a field that was not sent is `None`. `age`,
      `weight` and `height` are the text the number fields parse. */
  datatype MotherSignup = MotherSignup(
    username: string,
    email: string,
    phone: Option<string>,
    password: string,
    firstName: string,
    lastName: string,
    age: Option<string>,
    weight: Option<string>,
    height: Option<string>,
    country: Option<string>,
    language: Option<string>,
    postpartumNeeds: Option<string>,
    infantCare: Option<string>,
    interestIds: seq<int>,
    lat: Option<real>,
    lng: Option<real>,
    tosAgreed: Option<bool>)

  /** The optional `age` `IntegerField`: absent, or text `int` reads. */
  predicate AgeAccepted(s: Option<string>) {
    s.None? || IntegerFieldValue(s.value).Some?
  }

  /** An optional `DecimalField(max_digits=5, decimal_places=2)`. */
  predicate MeasureAccepted(s: Option<string>) {
    s.None? || DecimalFieldValue(s.value).Some?
  }

  /** What the text column keeps of an accepted age: `str` of the integer. */
  function StoredAge(s: Option<string>): (r: Option<string>)
    requires AgeAccepted(s)
    ensures r.Some? <==> s.Some?
    ensures s.Some? ==> IntegerFieldValue(r.value) == IntegerFieldValue(s.value)
  {
    if s.None? then None
    else
      var n := IntegerFieldValue(s.value).value;
      IntegerFieldBound(s.value);
      IntegerFieldReadsOwnRendering(n);
      Some(IntToString(n))
  }

  /** What the text column keeps of an accepted weight or height: `str` of
      the value quantized to two places, which fits the ten characters of the
      column. */
  function StoredMeasure(s: Option<string>): (r: Option<string>)
    requires MeasureAccepted(s)
    ensures r.Some? <==> s.Some?
    ensures s.Some? ==> DecimalFieldValue(r.value) == DecimalFieldValue(s.value) && |r.value| <= 10
  {
    if s.None? then None
    else
      var h := DecimalFieldValue(s.value).value;
      DecimalFieldBound(s.value);
      DecimalFieldReadsRendering(h);
      RenderingFits(h);
      Some(HundredthsText(h))
  }

  /** `PendingMotherSignUpSerializer` field validation: the four required text
      fields must not be blank, at least one interest must be chosen,
      `tos_agreed` must be sent, and the age, weight and height, when sent,
      must be numbers their fields accept. Text is stored stripped, numbers
      as the column renders them, and the language defaults to English. */
  function ValidateMotherSignup(b: MotherSignup): (r: Option<MotherSignup>)
    ensures r.Some? <==>
      PyStrip(b.username) != "" && PyStrip(b.email) != "" && PyStrip(b.password) != ""
      && PyStrip(b.firstName) != "" && PyStrip(b.lastName) != "" && |b.interestIds| > 0
      && AgeAccepted(b.age) && MeasureAccepted(b.weight) && MeasureAccepted(b.height)
      && b.tosAgreed.Some?
    ensures r.Some? ==>
      r.value.username == PyStrip(b.username) && r.value.email == PyStrip(b.email)
      && r.value.password == PyStrip(b.password)
      && r.value.interestIds == b.interestIds && r.value.language.Some?
      && (b.language.None? ==> r.value.language == Some(ENGLISH))
      && r.value.age == StoredAge(b.age)
      && r.value.weight == StoredMeasure(b.weight) && r.value.height == StoredMeasure(b.height)
      && r.value.lat == b.lat && r.value.lng == b.lng && r.value.tosAgreed == b.tosAgreed
  {
    var u := RequiredText(b.username);
    var e := RequiredText(b.email);
    var p := RequiredText(b.password);
    var f := RequiredText(b.firstName);
    var l := RequiredText(b.lastName);
    if u.None? || e.None? || p.None? || f.None? || l.None? || |b.interestIds| == 0 then None
    else if !AgeAccepted(b.age) || !MeasureAccepted(b.weight) || !MeasureAccepted(b.height) then None
    else if b.tosAgreed.None? then None
    else Some(b.(username := u.value, email := e.value, phone := OptionalText(b.phone), password := p.value,
                 firstName := f.value, lastName := l.value, age := StoredAge(b.age),
                 weight := StoredMeasure(b.weight), height := StoredMeasure(b.height),
                 country := OptionalText(b.country),
                 language := if b.language.Some? then OptionalText(b.language) else Some(ENGLISH),
                 postpartumNeeds := OptionalText(b.postpartumNeeds),
                 infantCare := OptionalText(b.infantCare)))
  }

  /** Both coordinates, when both were sent; otherwise neither. */
  predicate BothCoords(lat: Option<real>, lng: Option<real>) {
    lat.Some? && lng.Some?
  }

  /** The record a first sign-up creates: no timestamp on its code. */
  function NewPendingMother(v: MotherSignup, hashed: string, code: string): (p: PendingMother) {
    PendingMother(v.username, v.email, v.phone, hashed, v.firstName, v.lastName,
                  v.age, v.weight, v.height, v.country, v.language,
                  v.postpartumNeeds, v.infantCare, v.interestIds,
                  if BothCoords(v.lat, v.lng) then v.lat else None,
                  if BothCoords(v.lat, v.lng) then v.lng else None,
                  v.tosAgreed == Some(true), Some(code), None)
  }

  /** A repeated sign-up overwrites the fields that were sent, keeps the ones
      that were not, and stamps the new code. */
  function RefreshPendingMother(prev: PendingMother, v: MotherSignup, hashed: string, code: string, now: int)
    : (p: PendingMother)
  {
    prev.(username := v.username, email := v.email, phone := v.phone.OrElse(prev.phone), password := hashed,
         firstName := v.firstName, lastName := v.lastName,
         age := v.age.OrElse(prev.age), weight := v.weight.OrElse(prev.weight),
         height := v.height.OrElse(prev.height), country := v.country.OrElse(prev.country),
         language := v.language.OrElse(prev.language),
         postpartumNeeds := v.postpartumNeeds.OrElse(prev.postpartumNeeds),
         infantCare := v.infantCare.OrElse(prev.infantCare),
         interestIds := v.interestIds,
         lat := if BothCoords(v.lat, v.lng) then v.lat else prev.lat,
         lng := if BothCoords(v.lat, v.lng) then v.lng else prev.lng,
         tosAgreed := v.tosAgreed == Some(true), otp := Some(code), otpCreatedAt := Some(now))
  }

  /** `PendingMotherSignUpView.create` with `make_password(password)` given as
      `hashed` and the random draw as `n`: 400 on invalid fields, otherwise
      the pending record for the e-mail is created or refreshed and 201. */
  function MotherSignUp(db: Db, body: MotherSignup, hashed: string, n: nat, now: int): (r: Outcome)
    requires 100000 <= n <= 999999
    ensures r.status == 201 <==> ValidateMotherSignup(body).Some?
    ensures r.status != 201 ==> r.status == 400 && r.db == db
  {
    var v := ValidateMotherSignup(body);
    if v.None? then Outcome(400, db)
    else
      var code := OtpCode(n);
      var e := v.value.email;
      var p := if e in db.pendingMothers then RefreshPendingMother(db.pendingMothers[e], v.value, hashed, code, now)
               else NewPendingMother(v.value, hashed, code);
      Outcome(201, db.(pendingMothers := db.pendingMothers[e := p]))
  }

  /** A sign-up leaves exactly one pending record for the e-mail, holding the
      hash and a fresh six-digit code; the code is stamped only when a record
      already existed; a new record takes every field from the request, a
      refreshed one keeps the fields that were not sent; nothing else in the
      database changes. */
  lemma MotherSignUpSpec(db: Db, body: MotherSignup, hashed: string, n: nat, now: int)
    requires 100000 <= n <= 999999
    requires ValidateMotherSignup(body).Some?
    ensures var v := ValidateMotherSignup(body).value;
      var d := MotherSignUp(db, body, hashed, n, now).db;
      var p := d.pendingMothers[v.email];
      v.email in d.pendingMothers && d.pendingMothers.Keys == db.pendingMothers.Keys + {v.email}
      && p.email == v.email && p.username == v.username && p.password == hashed
      && p.otp.Some? && |p.otp.value| == 6 && p.interestIds == v.interestIds
      && (p.otpCreatedAt.Some? <==> v.email in db.pendingMothers)
      && (p.otpCreatedAt.Some? ==> p.otpCreatedAt.value == now)
      && (v.email !in db.pendingMothers ==> p.country == v.country && p.phone == v.phone)
      && (v.email in db.pendingMothers && v.country.None? ==> p.country == db.pendingMothers[v.email].country)
      && (BothCoords(v.lat, v.lng) ==> p.lat == v.lat && p.lng == v.lng)
      && (forall e | e in db.pendingMothers && e != v.email :: d.pendingMothers[e] == db.pendingMothers[e])
      && d.users == db.users && d.mothers == db.mothers && d.providers == db.providers
  {
  }

  lemma MotherSignUpKeepsWf(db: Db, body: MotherSignup, hashed: string, n: nat, now: int)
    requires 100000 <= n <= 999999
    requires Wf(db)
    ensures Wf(MotherSignUp(db, body, hashed, n, now).db)
  {
  }

  /** Numbers the serializer's fields refuse, or a missing `tos_agreed`,
      make the whole sign-up a 400 that changes nothing. */
  lemma SignUpRefusesBadNumbers(db: Db, body: MotherSignup, hashed: string, n: nat, now: int)
    requires 100000 <= n <= 999999
    requires body.age == Some("30.5") || body.weight == Some("70.123")
      || body.height == Some("1000") || body.tosAgreed.None?
    ensures MotherSignUp(db, body, hashed, n, now) == Outcome(400, db)
  {
    FieldExamples();
  }

  /** What a successful sign-up parks is what the number fields read: the
      stored age, weight and height parse back to the values sent. */
  lemma SignUpStoresNumbersFaithfully(db: Db, body: MotherSignup, hashed: string, n: nat, now: int)
    requires 100000 <= n <= 999999
    requires ValidateMotherSignup(body).Some? && PyStrip(body.email) !in db.pendingMothers
    ensures var p := MotherSignUp(db, body, hashed, n, now).db.pendingMothers[PyStrip(body.email)];
      (p.age.Some? <==> body.age.Some?)
      && (body.age.Some? ==> IntegerFieldValue(p.age.value) == IntegerFieldValue(body.age.value))
      && (body.weight.Some? ==> DecimalFieldValue(p.weight.value) == DecimalFieldValue(body.weight.value))
      && (body.height.Some? ==> DecimalFieldValue(p.height.value) == DecimalFieldValue(body.height.value))
      && p.tosAgreed == (body.tosAgreed == Some(true))
  {
  }

  // ---------------------------------------------------------------------
  // Re-sending the code
  // ---------------------------------------------------------------------

  /** The resend guard as written: a code exists and the seconds part of the
      time since it was stamped, `(now - created).seconds`, is below 60. The
      seconds part is the remainder modulo one day, never negative. */
  predicate CooldownActive(created: Option<int>, now: int) {
    created.Some? && (now - created.value) % DAY < 60
  }

  /** `RequestEmailOTPView.post`: 400 for a blank e-mail (the serializer's
      `EmailField` strips it first), 404 without a pending record, 400 while
      the cooldown holds, otherwise a new code stamped `now` and 200. */
  function RequestEmailOtp(db: Db, email: string, n: nat, now: int): (r: Outcome)
    requires 100000 <= n <= 999999
  {
    var e := RequiredText(email);
    if e.None? then Outcome(400, db)
    else if e.value !in db.pendingMothers then Outcome(404, db)
    else
      var p := db.pendingMothers[e.value];
      if CooldownActive(p.otpCreatedAt, now) then Outcome(400, db)
      else Outcome(200, db.(pendingMothers := db.pendingMothers[e.value := p.(otp := Some(OtpCode(n)), otpCreatedAt := Some(now))]))
  }

  /** 404 exactly for an unknown e-mail, 400 exactly for a blank one or while
      the cooldown holds, and a 200 changes nothing but that record's code
      and stamp. */
  lemma RequestEmailOtpSpec(db: Db, email: string, n: nat, now: int)
    requires 100000 <= n <= 999999
    ensures var r := RequestEmailOtp(db, email, n, now);
      var e := PyStrip(email);
      (r.status == 404 <==> e != "" && e !in db.pendingMothers)
      && (r.status == 400 <==> e == "" || (e in db.pendingMothers && CooldownActive(db.pendingMothers[e].otpCreatedAt, now)))
      && (r.status != 200 ==> r.db == db)
      && (r.status == 200 ==>
            r.db.pendingMothers[e] == db.pendingMothers[e].(otp := Some(OtpCode(n)), otpCreatedAt := Some(now))
            && r.db == db.(pendingMothers := r.db.pendingMothers)
            && r.db.pendingMothers.Keys == db.pendingMothers.Keys)
  {
  }

  /** Within the first day the guard means what it says: fewer than 60
      seconds since the stamp. It then repeats every day: a request one day
      and thirty seconds later is refused again, and a clock that went back a
      few seconds lets the request through. */
  lemma CooldownWrapsDaily(created: int, now: int)
    ensures 0 <= now - created < DAY ==> (CooldownActive(Some(created), now) <==> now - created < 60)
    ensures CooldownActive(Some(created), now + DAY) == CooldownActive(Some(created), now)
    ensures CooldownActive(Some(created), created + DAY + 30)
    ensures !CooldownActive(Some(created), created - 10)
  {
  }

  /** A successful resend blocks another for the next 60 seconds. */
  lemma ResendThenResend(db: Db, email: string, n: nat, m: nat, now: int, later: int)
    requires 100000 <= n <= 999999 && 100000 <= m <= 999999
    requires RequestEmailOtp(db, email, n, now).status == 200
    requires now <= later < now + 60
    ensures RequestEmailOtp(RequestEmailOtp(db, email, n, now).db, email, m, later).status == 400
  {
  }

  /** A first sign-up leaves the code unstamped, so the first resend is let
      through however soon it comes. */
  lemma FirstResendNeverWaits(db: Db, body: MotherSignup, hashed: string, n: nat, m: nat, now: int, later: int)
    requires 100000 <= n <= 999999 && 100000 <= m <= 999999
    requires ValidateMotherSignup(body).Some? && PyStrip(body.email) !in db.pendingMothers
    ensures var d := MotherSignUp(db, body, hashed, n, now).db;
      RequestEmailOtp(d, body.email, m, later).status == 200
  {
  }

  // ---------------------------------------------------------------------
  // Verifying the code
  // ---------------------------------------------------------------------

  /** The pin is set only when both stored coordinates are truthy, so a zero
      latitude or longitude drops it. */
  function TruthyPin(lat: Option<real>, lng: Option<real>): (pin: Option<Point>)
    ensures pin.Some? <==> TruthyCoord(lat) && TruthyCoord(lng)
    ensures pin.Some? ==> pin.value == Point(lng.value, lat.value)
  {
    if TruthyCoord(lat) && TruthyCoord(lng) then Some(Point(lng.value, lat.value)) else None
  }

  /** The user a verified pending mother becomes. Her names are not copied. */
  function MotherUser(p: PendingMother): (u: User) {
    User(p.username, p.email, p.phone, p.password, Some(Mother), true, "", "", false)
  }

  /** `VerifyEmailOTPView.post`, one transaction: 400 when the e-mail or the
      code is blank (the serializer's fields strip both first), 404 without a pending
      record, 400 when the stripped code differs (its age is never looked
      at), 500 with nothing written when the user name or e-mail is taken or
      no country was given (the profile's country column is not nullable);
      otherwise the user and profile are created, the pending record is
      deleted, and 200. */
  function VerifyEmailOtp(db: Db, email: string, code: string): (r: Outcome) {
    var e := RequiredText(email);
    var c := RequiredText(code);
    if e.None? || c.None? then Outcome(400, db)
    else if e.value !in db.pendingMothers then Outcome(404, db)
    else
      var p := db.pendingMothers[e.value];
      if p.otp != c then Outcome(400, db)
      else
        var created := CreateUser(db, MotherUser(p));
        if created.None? || p.country.None? then Outcome(500, db)
        else
          var id := created.value.0;
          var d := created.value.1;
          var prof := NewMotherProfile(p.age, p.weight, p.height, p.country.value, p.language,
                                       p.postpartumNeeds, p.infantCare, p.tosAgreed)
                        .(pin := TruthyPin(p.lat, p.lng), interests := ExistingIds(p.interestIds, db.interests));
          Outcome(200, d.(mothers := d.mothers[id := prof], pendingMothers := d.pendingMothers - {e.value}))
  }

  /** Verification succeeds exactly when the record exists, the code matches,
      the name and e-mail are free and a country was given. It then adds one
      verified mother carrying the pending hash, a profile copied from the
      record with only existing interests, and removes the record; any other
      answer leaves the database as it was. */
  lemma VerifyEmailOtpSpec(db: Db, email: string, code: string)
    ensures var r := VerifyEmailOtp(db, email, code);
      var e := PyStrip(email);
      var c := PyStrip(code);
      (r.status == 404 <==> e != "" && c != "" && e !in db.pendingMothers)
      && (e == "" || c == "" ==> r.status == 400)
      && (r.status == 200 <==>
         e != "" && c != "" && e in db.pendingMothers && db.pendingMothers[e].otp == Some(c)
         && UserByUsername(db, db.pendingMothers[e].username).None?
         && UserByEmail(db, db.pendingMothers[e].email).None?
         && db.pendingMothers[e].country.Some?)
      && (r.status != 200 ==> r.db == db)
      && (r.status == 200 ==>
            var p := db.pendingMothers[e];
            var id := |db.users|;
            r.db.users == db.users + [MotherUser(p)]
            && HasRole(r.db.users[id], Mother) && r.db.users[id].emailVerified
            && r.db.users[id].password == p.password
            && id in r.db.mothers && r.db.mothers[id].country == p.country.value
            && r.db.mothers[id].interests <= db.interests
            && r.db.mothers[id].agreedToTerms == p.tosAgreed
            && (r.db.mothers[id].pin.Some? <==> TruthyCoord(p.lat) && TruthyCoord(p.lng))
            && r.db.pendingMothers == db.pendingMothers - {e}
            && r.db.providers == db.providers && r.db.subscriptions == db.subscriptions)
  {
    var e := PyStrip(email);
    var c := PyStrip(code);
    if e != "" && c != "" && e in db.pendingMothers {
      var p := db.pendingMothers[e];
      assert MotherUser(p).username == p.username && MotherUser(p).email == p.email;
    }
  }

  /** A mother whose code was accepted is reported as first-time by the
      tutorial check, with no payment method on file. */
  lemma VerifiedMotherIsFirstTime(db: Db, email: string, code: string)
    ensures var r := VerifyEmailOtp(db, email, code);
      r.status == 200 ==>
        |db.users| < |r.db.users|
        && WorkspaceViews.CheckMotherFirstTime(r.db, |db.users|) == (200, Some(true))
        && r.db.mothers[|db.users|].paymentMethod.None?
  {
  }

  lemma VerifyEmailOtpKeepsWf(db: Db, email: string, code: string)
    requires Wf(db)
    ensures Wf(VerifyEmailOtp(db, email, code).db)
  {
    var r := VerifyEmailOtp(db, email, code);
    if r.status == 200 {
      var p := db.pendingMothers[PyStrip(email)];
      CreateUserKeepsWf(db, MotherUser(p));
    }
  }

  /** Sign-up and verification fit together: right after signing up, sending
      the same e-mail with the code that was mailed, white space around it or
      not, creates the account exactly when the name and e-mail are still
      free and the record has a country, and the account then carries the
      requested name and the hash of the password. */
  lemma SignUpThenVerify(db: Db, body: MotherSignup, hashed: string, n: nat, now: int, typed: string)
    requires 100000 <= n <= 999999
    requires ValidateMotherSignup(body).Some?
    requires PyStrip(typed) == OtpCode(n)
    ensures var v := ValidateMotherSignup(body).value;
      var d := MotherSignUp(db, body, hashed, n, now).db;
      var r := VerifyEmailOtp(d, body.email, typed);
      (r.status == 200 <==>
         UserByUsername(db, v.username).None? && UserByEmail(db, v.email).None?
         && d.pendingMothers[v.email].country.Some?)
      && (r.status != 200 ==> r.status == 500 && r.db == d)
      && (r.status == 200 ==>
            r.db.users[|db.users|].username == v.username
            && r.db.users[|db.users|].password == hashed
            && v.email !in r.db.pendingMothers)
  {
    MotherSignUpSpec(db, body, hashed, n, now);
    var v := ValidateMotherSignup(body).value;
    var d := MotherSignUp(db, body, hashed, n, now).db;
    VerifyEmailOtpSpec(d, body.email, typed);
  }

  // ---------------------------------------------------------------------
  // Provider sign-up
  // ---------------------------------------------------------------------

  /** The provider sign-up body; `certificates` are the names the file store
      gave the uploaded files, in upload order. */
  datatype ProviderSignup = ProviderSignup(
    username: string,
    email: string,
    phone: Option<string>,
    password: string,
    password2: string,
    firstName: Option<string>,
    lastName: Option<string>,
    bio: Option<string>,
    license: Option<string>,
    clinic: Option<string>,
    country: Option<string>,
    language: Option<string>,
    lat: Option<real>,
    lng: Option<real>,
    certificates: seq<string>,
    serviceTypeIds: Option<seq<int>>,
    specialityIds: Option<seq<int>>)

  /** `PendingProviderSignUpSerializer.validate/create` with the hash as
      `hashed`: 400 for a blank required field (the e-mail field strips and
      refuses blank text like the others), for passwords that differ, or for
      an e-mail that already has a pending registration; otherwise a new
      record under the next id and 201. */
  function ProviderSignUp(db: Db, b: ProviderSignup, hashed: string): (r: Outcome) {
    var u := RequiredText(b.username);
    var e := RequiredText(b.email);
    var p1 := RequiredText(b.password);
    var p2 := RequiredText(b.password2);
    if u.None? || e.None? || p1.None? || p2.None? || p1 != p2 then Outcome(400, db)
    else if exists k | k in db.pendingProviders :: db.pendingProviders[k].email == e.value then Outcome(400, db)
    else
      var id := db.lastPendingId + 1;
      var p := PendingProvider(u.value, e.value, OptionalText(b.phone), hashed,
                               OptionalText(b.firstName).GetOr(""), OptionalText(b.lastName).GetOr(""),
                               OptionalText(b.license), OptionalText(b.bio), OptionalText(b.clinic),
                               OptionalText(b.country),
                               if b.language.Some? then OptionalText(b.language) else Some(ENGLISH),
                               b.serviceTypeIds.GetOr([]), b.specialityIds.GetOr([]),
                               Some(b.certificates),
                               if BothCoords(b.lat, b.lng) then b.lat else None,
                               if BothCoords(b.lat, b.lng) then b.lng else None);
      Outcome(201, db.(pendingProviders := db.pendingProviders[id := p], lastPendingId := id))
  }

  /** A provider sign-up succeeds exactly when the user name and e-mail are
      not blank, the passwords agree and no pending registration has the
      stripped e-mail; the new record stores that e-mail, keeps the hash, the
      certificates in upload order and the requested ids, and is the only
      change. */
  lemma ProviderSignUpSpec(db: Db, b: ProviderSignup, hashed: string)
    ensures var r := ProviderSignUp(db, b, hashed);
      (r.status == 201 <==>
         PyStrip(b.username) != "" && PyStrip(b.email) != "" && PyStrip(b.password) != ""
         && PyStrip(b.password) == PyStrip(b.password2)
         && forall k | k in db.pendingProviders :: db.pendingProviders[k].email != PyStrip(b.email))
      && (r.status != 201 ==> r.status == 400 && r.db == db)
      && (r.status == 201 ==>
            var id := db.lastPendingId + 1;
            r.db.pendingProviders.Keys == db.pendingProviders.Keys + {id}
            && r.db.pendingProviders[id].email == PyStrip(b.email)
            && r.db.pendingProviders[id].password == hashed
            && r.db.pendingProviders[id].certificates == Some(b.certificates)
            && r.db.pendingProviders[id].serviceTypeIds == b.serviceTypeIds.GetOr([])
            && r.db.pendingProviders[id].specialityIds == b.specialityIds.GetOr([])
            && r.db.users == db.users && r.db.pendingMothers == db.pendingMothers)
  {
  }

  lemma ProviderSignUpKeepsWf(db: Db, b: ProviderSignup, hashed: string)
    requires Wf(db)
    ensures Wf(ProviderSignUp(db, b, hashed).db)
  {
  }

  /** Python `s.rstrip("/")`. */
  function RStripSlash(s: string): (r: string)
    ensures |r| <= |s| && r == s[..|r|]
    ensures r == "" || r[|r| - 1] != '/'
    ensures forall i | |r| <= i < |s| :: s[i] == '/'
  {
    if |s| > 0 && s[|s| - 1] == '/' then RStripSlash(s[..|s| - 1]) else s
  }

  /** `PendingProviderReviewSerializer.get_certificate_urls`: the absolute
      address of each stored file, `base` being "" without a request. */
  function CertificateUrls(base: string, mediaUrl: string, paths: seq<string>): (urls: seq<string>)
    ensures |urls| == |paths|
    ensures forall i | 0 <= i < |paths| :: urls[i] == RStripSlash(base) + mediaUrl + paths[i]
  {
    if paths == [] then [] else [RStripSlash(base) + mediaUrl + paths[0]] + CertificateUrls(base, mediaUrl, paths[1..])
  }

  /** Every address starts with the same prefix, which never ends in a slash
      doubled from `base`, and dropping that prefix gives back the stored
      path, in the same position. */
  lemma {:induction false} CertificateUrlsRoundTrip(base: string, mediaUrl: string, paths: seq<string>)
    ensures var urls := CertificateUrls(base, mediaUrl, paths);
      var prefix := RStripSlash(base) + mediaUrl;
      forall i | 0 <= i < |paths| :: StartsWith(urls[i], prefix) && urls[i][|prefix|..] == paths[i]
  {
    var urls := CertificateUrls(base, mediaUrl, paths);
    var prefix := RStripSlash(base) + mediaUrl;
    forall i | 0 <= i < |paths|
      ensures StartsWith(urls[i], prefix) && urls[i][|prefix|..] == paths[i]
    {
      assert urls[i] == prefix + paths[i];
      assert urls[i][..|prefix|] == prefix;
    }
  }

  // ---------------------------------------------------------------------
  // Approving a pending provider
  // ---------------------------------------------------------------------

  /** How a pending location becomes a pin: the endpoint tests truthiness,
      the admin action tests `is not None`. */
  datatype PinRule = Truthiness | NotNone

  function PinOf(rule: PinRule, lat: Option<real>, lng: Option<real>): (pin: Option<Point>)
    ensures rule == NotNone ==> (pin.Some? <==> BothCoords(lat, lng))
    ensures rule == Truthiness ==> (pin.Some? <==> TruthyCoord(lat) && TruthyCoord(lng))
    ensures pin.Some? ==> BothCoords(lat, lng) && pin.value == Point(lng.value, lat.value)
  {
    match rule
    case Truthiness => TruthyPin(lat, lng)
    case NotNone => if BothCoords(lat, lng) then Some(Point(lng.value, lat.value)) else None
  }

  /** The user an approved pending provider becomes. */
  function ProviderUser(p: PendingProvider): (u: User) {
    User(p.username, p.email, p.phone, p.password, Some(Provider), true, "", "", false)
  }

  /** The profile an approved pending provider gets: verified, no plan, the
      existing ones among the requested services and specialities. */
  function ApprovedProfile(db: Db, p: PendingProvider, rule: PinRule, country: string): (prof: ProviderProfile) {
    NewProviderProfile(p.bio, p.license, p.clinic, true, country, p.language)
      .(pin := PinOf(rule, p.lat, p.lng),
        serviceTypes := ExistingIds(p.serviceTypeIds, db.serviceTypes.Keys),
        specialities := ExistingIds(p.specialityIds, db.specialities.Keys))
  }

  /** Turning one pending provider into a user and profile, deleting the
      record; `None` when the database refuses (name or e-mail taken, or no
      country). */
  function Promote(db: Db, id: nat, rule: PinRule): (r: Option<Db>)
    requires id in db.pendingProviders
    ensures r.Some? <==>
      UserByUsername(db, db.pendingProviders[id].username).None?
      && UserByEmail(db, db.pendingProviders[id].email).None?
      && db.pendingProviders[id].country.Some?
    ensures r.Some? ==>
      r.value.users == db.users + [ProviderUser(db.pendingProviders[id])]
      && r.value.pendingProviders == db.pendingProviders - {id}
      && r.value.providers == db.providers[|db.users| := ApprovedProfile(db, db.pendingProviders[id], rule, db.pendingProviders[id].country.value)]
      && r.value.serviceTypes == db.serviceTypes && r.value.specialities == db.specialities
      && r.value.mothers == db.mothers && r.value.pendingMothers == db.pendingMothers
      && r.value.subscriptions == db.subscriptions && r.value.usage == db.usage
      && r.value.lastPendingId == db.lastPendingId
  {
    var p := db.pendingProviders[id];
    var created := CreateUser(db, ProviderUser(p));
    if created.None? || p.country.None? then None
    else
      var d := created.value.1;
      Some(d.(providers := d.providers[|db.users| := ApprovedProfile(db, p, rule, p.country.value)],
              pendingProviders := d.pendingProviders - {id}))
  }

  /** An approved provider logs in to a first-time check that answers yes:
      the new profile starts with the tutorial pending, and with no plan. */
  lemma ApprovedProviderIsFirstTime(db: Db, id: nat, rule: PinRule)
    requires id in db.pendingProviders
    ensures var r := Promote(db, id, rule);
      r.Some? ==>
        |db.users| < |r.value.users|
        && PaymentViews.CheckFirstTime(r.value, |db.users|) == (200, Some(true))
        && r.value.providers[|db.users|].plan.None?
  {
  }

  lemma PromoteKeepsWf(db: Db, id: nat, rule: PinRule)
    requires Wf(db) && id in db.pendingProviders
    ensures Promote(db, id, rule).Some? ==> Wf(Promote(db, id, rule).value)
  {
    CreateUserKeepsWf(db, ProviderUser(db.pendingProviders[id]));
  }

  /** `AdminApproveProviderView.post`, one transaction: 400 without a
      (truthy) `pending_id`, 404 for an unknown one, 500 with nothing written
      when the database refuses, otherwise 200. */
  function AdminApprove(db: Db, pendingId: Option<int>): (r: Outcome)
    ensures r.status == 400 <==> pendingId.None? || pendingId.value == 0
    ensures r.status == 404 <==> pendingId.Some? && pendingId.value != 0 && !(pendingId.value >= 0 && pendingId.value as nat in db.pendingProviders)
    ensures r.status == 200 ==> Promote(db, pendingId.value as nat, Truthiness) == Some(r.db)
    ensures r.status != 200 ==> r.db == db
  {
    if pendingId.None? || pendingId.value == 0 then Outcome(400, db)
    else if pendingId.value < 0 || pendingId.value as nat !in db.pendingProviders then Outcome(404, db)
    else
      var d := Promote(db, pendingId.value as nat, Truthiness);
      if d.None? then Outcome(500, db) else Outcome(200, d.value)
  }

  /** `PendingProviderRegistrationAdmin.approve_provider`: the selected records
      in order, all or nothing. The selection holds distinct pending ids. */
  function ApproveBatch(db: Db, ids: seq<nat>): (r: Option<Db>)
    requires forall i | 0 <= i < |ids| :: ids[i] in db.pendingProviders
    requires forall i, j | 0 <= i < j < |ids| :: ids[i] != ids[j]
    decreases |ids|
  {
    if ids == [] then Some(db)
    else
      var d := Promote(db, ids[0], NotNone);
      if d.None? then None
      else
        assert forall i | 0 <= i < |ids[1..]| :: ids[1..][i] in d.value.pendingProviders by {
          forall i | 0 <= i < |ids[1..]| ensures ids[1..][i] in d.value.pendingProviders {
            assert ids[1..][i] == ids[i + 1];
          }
        }
        ApproveBatch(d.value, ids[1..])
  }

  /** The users a selection of pending records turns into, in order. */
  function ProviderUsers(pp: map<nat, PendingProvider>, ids: seq<nat>): (us: seq<User>)
    requires forall i | 0 <= i < |ids| :: ids[i] in pp
    ensures |us| == |ids|
    ensures forall k | 0 <= k < |ids| :: us[k] == ProviderUser(pp[ids[k]])
  {
    if ids == [] then [] else [ProviderUser(pp[ids[0]])] + ProviderUsers(pp, ids[1..])
  }

  /** A successful batch appends exactly one user per selected record, in
      selection order, each carrying that record's name, e-mail, phone and
      hash, with the provider role and a verified e-mail. */
  lemma {:induction false} ApproveBatchUsers(db: Db, ids: seq<nat>)
    requires forall i | 0 <= i < |ids| :: ids[i] in db.pendingProviders
    requires forall i, j | 0 <= i < j < |ids| :: ids[i] != ids[j]
    ensures var r := ApproveBatch(db, ids);
      r.Some? ==> r.value.users == db.users + ProviderUsers(db.pendingProviders, ids)
    decreases |ids|
  {
    if ids != [] {
      var d := Promote(db, ids[0], NotNone);
      if d.Some? {
        var rest := ids[1..];
        ApproveBatchUsers(d.value, rest);
        assert ProviderUsers(d.value.pendingProviders, rest) == ProviderUsers(db.pendingProviders, rest);
        assert ProviderUsers(db.pendingProviders, ids)
          == [ProviderUser(db.pendingProviders[ids[0]])] + ProviderUsers(db.pendingProviders, rest);
      }
    }
  }

  /** A successful batch gives every new user a profile verified by the
      administrator. */
  lemma {:induction false} ApproveBatchProfiles(db: Db, ids: seq<nat>)
    requires forall i | 0 <= i < |ids| :: ids[i] in db.pendingProviders
    requires forall i, j | 0 <= i < j < |ids| :: ids[i] != ids[j]
    ensures var r := ApproveBatch(db, ids);
      r.Some? ==>
        (forall j | |db.users| <= j < |r.value.users| :: j in r.value.providers && r.value.providers[j].verifiedByAdmin)
        && (forall j | j in db.providers && j < |db.users| :: j in r.value.providers && r.value.providers[j] == db.providers[j])
    decreases |ids|
  {
    if ids != [] {
      var d := Promote(db, ids[0], NotNone);
      if d.Some? {
        ApproveBatchProfiles(d.value, ids[1..]);
      }
    }
  }

  /** A successful batch deletes exactly the selected pending records. */
  lemma {:induction false} ApproveBatchDeletes(db: Db, ids: seq<nat>)
    requires forall i | 0 <= i < |ids| :: ids[i] in db.pendingProviders
    requires forall i, j | 0 <= i < j < |ids| :: ids[i] != ids[j]
    ensures var r := ApproveBatch(db, ids);
      r.Some? ==> r.value.pendingProviders.Keys == db.pendingProviders.Keys - set i | 0 <= i < |ids| :: ids[i]
    decreases |ids|
  {
    if ids != [] {
      var d := Promote(db, ids[0], NotNone);
      if d.Some? {
        var rest := ids[1..];
        ApproveBatchDeletes(d.value, rest);
        var all := set i | 0 <= i < |ids| :: ids[i];
        var tail := set i | 0 <= i < |rest| :: rest[i];
        assert all == {ids[0]} + tail by {
          forall x | x in all ensures x in {ids[0]} + tail {
            var i :| 0 <= i < |ids| && ids[i] == x;
            if i > 0 { assert rest[i - 1] == x; }
          }
        }
      }
    }
  }

  /** The endpoint and the admin action approve alike, except for the pin:
      they agree whenever neither stored coordinate is zero, and a pending
      provider on the equator (latitude 0.0) is pinned by the admin action
      but not by the endpoint. */
  lemma EndpointAndBatchAgree(db: Db, id: nat)
    requires id > 0 && id in db.pendingProviders
    ensures var p := db.pendingProviders[id];
      var single := ApproveBatch(db, [id]);
      var ep := AdminApprove(db, Some(id));
      (single.Some? <==> ep.status == 200)
      && (single.Some? && (p.lat.Some? ==> p.lat.value != 0.0) && (p.lng.Some? ==> p.lng.value != 0.0) ==>
            single.value == ep.db)
      && (single.Some? && p.lat == Some(0.0) && p.lng.Some? ==>
            |db.users| in single.value.providers && |db.users| in ep.db.providers
            && single.value.providers[|db.users|].pin.Some? && ep.db.providers[|db.users|].pin.None?)
  {
    var p := db.pendingProviders[id];
    var single := ApproveBatch(db, [id]);
    var d := Promote(db, id, NotNone);
    assert [id][1..] == [];
    if d.Some? {
      assert ApproveBatch(d.value, []) == Some(d.value);
    }
    assert single == d;
    if single.Some? && (p.lat.Some? ==> p.lat.value != 0.0) && (p.lng.Some? ==> p.lng.value != 0.0) {
      assert PinOf(NotNone, p.lat, p.lng) == PinOf(Truthiness, p.lat, p.lng);
    }
  }

  // ---------------------------------------------------------------------
  // Creating an administrator
  // ---------------------------------------------------------------------

  /** Stripping twice is stripping once. */
  lemma {:induction false} PyStripIdempotent(s: string)
    ensures PyStrip(PyStrip(s)) == PyStrip(s)
    decreases |s|
  {
    if |s| > 0 && IsPySpace(s[0]) {
      PyStripIdempotent(s[1..]);
    } else if |s| > 0 && IsPySpace(s[|s| - 1]) {
      PyStripIdempotent(s[..|s| - 1]);
    }
  }

  /** A stored text value passes the same field again unchanged, is no longer
      than what was sent, and holds only characters that were sent: DRF never
      invents or pads text. */
  lemma TextFieldsSettle(s: string, o: Option<string>)
    ensures RequiredText(s).Some? ==>
      RequiredText(RequiredText(s).value) == RequiredText(s)
      && |RequiredText(s).value| <= |s|
      && forall k | 0 <= k < |RequiredText(s).value| :: RequiredText(s).value[k] in s
    ensures OptionalText(o).Some? ==>
      OptionalText(OptionalText(o)) == OptionalText(o)
      && |OptionalText(o).value| <= |o.value|
  {
    PyStripIdempotent(s);
    PyStripShorter(s);
    PyStripWithin(s);
    if o.Some? {
      PyStripIdempotent(o.value);
      PyStripShorter(o.value);
    }
  }

  /** The body of an administrator creation; a name that was not sent is
      `None`. */
  datatype AdminUserBody = AdminUserBody(username: string, email: string, firstName: Option<string>,
                                         lastName: Option<string>, password: string, confirmPassword: string)

  /** `AdminUserCreateSerializer`: the username, e-mail and both passwords
      are required and stored stripped, the names are optional, and
      `validate` refuses passwords that differ. `None` is a 400. */
  function ValidateAdminUser(b: AdminUserBody): (r: Option<AdminUserBody>) {
    var u := RequiredText(b.username);
    var e := RequiredText(b.email);
    var p := RequiredText(b.password);
    var c := RequiredText(b.confirmPassword);
    if u.None? || e.None? || p.None? || c.None? || p.value != c.value then None
    else Some(b.(username := u.value, email := e.value, firstName := OptionalText(b.firstName),
                 lastName := OptionalText(b.lastName), password := p.value, confirmPassword := c.value))
  }

  /** A body is accepted exactly when the username, e-mail and passwords are
      not blank and the passwords agree once stripped; the cleaned body holds
      the stripped text and is itself accepted unchanged. */
  lemma ValidateAdminUserSpec(b: AdminUserBody)
    ensures var r := ValidateAdminUser(b);
      (r.Some? <==> PyStrip(b.username) != "" && PyStrip(b.email) != "" && PyStrip(b.password) != ""
                    && PyStrip(b.password) == PyStrip(b.confirmPassword))
      && (r.Some? ==>
            r.value.username == PyStrip(b.username) && r.value.email == PyStrip(b.email)
            && r.value.password == r.value.confirmPassword == PyStrip(b.password)
            && (b.firstName.None? <==> r.value.firstName.None?)
            && ValidateAdminUser(r.value) == r)
  {
    PyStripIdempotent(b.username);
    PyStripIdempotent(b.email);
    PyStripIdempotent(b.password);
    PyStripIdempotent(b.confirmPassword);
    if b.firstName.Some? {
      PyStripIdempotent(b.firstName.value);
    }
    if b.lastName.Some? {
      PyStripIdempotent(b.lastName.value);
    }
  }

  /** The administrator `SuperAdminCreateAdminView.post` creates from an
      accepted body, with `hashed` the hash of its password. */
  function AdminUserOf(v: AdminUserBody, hashed: string): (u: User) {
    User(v.username, v.email, None, hashed, Some(Admin), true, v.firstName.GetOr(""), v.lastName.GetOr(""), true)
  }

  /** `SuperAdminCreateAdminView.post`, answering `onDuplicate` when the user
      name or e-mail is taken: 403 unless the caller is the super
      administrator, 400 for a refused body, 201 with the new administrator
      appended. */
  function CreateAdminWith(db: Db, me: nat, b: AdminUserBody, hashed: string, onDuplicate: nat): (r: Outcome)
    requires me < |db.users|
  {
    if db.users[me].role != Some(SuperAdmin) then Outcome(403, db)
    else
      var v := ValidateAdminUser(b);
      if v.None? then Outcome(400, db)
      else
        var c := CreateUser(db, AdminUserOf(v.value, hashed));
        if c.None? then Outcome(onDuplicate, db) else Outcome(201, c.value.1)
  }

  /** The view as written: `IntegrityError` is caught by name, but the module
      never imports it, so a taken user name or e-mail ends in a `NameError`,
      a 500, with nothing saved. */
  function CreateAdminAsWritten(db: Db, me: nat, b: AdminUserBody, hashed: string): (r: Outcome)
    requires me < |db.users|
  {
    CreateAdminWith(db, me, b, hashed, 500)
  }

  /** The view as its `except` clause intends: "Username or email already
      exists." with 400. */
  function CreateAdmin(db: Db, me: nat, b: AdminUserBody, hashed: string): (r: Outcome)
    requires me < |db.users|
  {
    CreateAdminWith(db, me, b, hashed, 400)
  }

  /** Only the super administrator creates administrators; a created one is
      the last user, a verified staff member with the admin role, the
      stripped user name and e-mail and the hash given, and nothing else changes; every
      refusal leaves the database as it was, and well-formedness is kept. */
  lemma CreateAdminSpec(db: Db, me: nat, b: AdminUserBody, hashed: string)
    requires me < |db.users| && Wf(db)
    ensures var r := CreateAdmin(db, me, b, hashed);
      (r.status == 403 <==> db.users[me].role != Some(SuperAdmin))
      && (r.status == 201 <==>
            db.users[me].role == Some(SuperAdmin) && ValidateAdminUser(b).Some?
            && UserByUsername(db, PyStrip(b.username)).None? && UserByEmail(db, PyStrip(b.email)).None?)
      && r.status in {201, 400, 403}
      && (r.status != 201 ==> r.db == db)
      && (r.status == 201 ==>
            |r.db.users| == |db.users| + 1 && r.db.users[..|db.users|] == db.users
            && var u := r.db.users[|db.users|];
            u.role == Some(Admin) && u.isStaff && u.emailVerified && u.username == PyStrip(b.username)
            && u.email == PyStrip(b.email) && u.password == hashed && r.db == db.(users := db.users + [u]))
      && Wf(r.db)
  {
    ValidateAdminUserSpec(b);
    var v := ValidateAdminUser(b);
    if db.users[me].role == Some(SuperAdmin) && v.Some? {
      CreateUserKeepsWf(db, AdminUserOf(v.value, hashed));
      var c := CreateUser(db, AdminUserOf(v.value, hashed));
      if c.Some? {
        assert c.value.1.users[..|db.users|] == db.users;
      }
    }
  }

  /** As written and as intended the view agrees on every request except a
      valid one from the super administrator whose user name is taken, which
      as written is a 500 and as intended a 400. */
  lemma DuplicateAdminIsServerError(db: Db, me: nat, b: AdminUserBody, hashed: string)
    requires me < |db.users|
    ensures var w := CreateAdminAsWritten(db, me, b, hashed);
      var c := CreateAdmin(db, me, b, hashed);
      w.db == c.db
      && (w.status != c.status <==>
            db.users[me].role == Some(SuperAdmin) && ValidateAdminUser(b).Some?
            && (UserByUsername(db, PyStrip(b.username)).Some? || UserByEmail(db, PyStrip(b.email)).Some?))
      && (w.status != c.status ==> w.status == 500 && c.status == 400)
  {
    ValidateAdminUserSpec(b);
  }
}

=== FILE: reset_password_page.dfy ===
/** The password reset page (web/mothers-garage/src/app/auth/reset-password/page.tsx):
    the link's `uid` and `token` are read once, a hint flags a confirmation
    that differs, and the form is checked in a fixed order before anything
    is sent. The request itself is an input. */
module ResetPasswordPage {
  import opened Common
  import opened Validators
  import opened Store
  import opened AuthViews

  const INVALID_LINK := "Invalid password reset link. Please request a new one."
  const WEAK_PASSWORD := "Password must be at least 8 characters with uppercase, lowercase, number, and special character."
  const MISMATCH := "Passwords do not match."
  const RESET_FAILED := "Failed to reset password. The link may have expired. Please request a new one."

  /** The page's state. */
  datatype Page = Page(uid: Option<string>, token: Option<string>, password: string, confirm: string,
                       error: string, submitting: bool, success: bool)

  /** The effect reading the address: both parameters are kept when both
      are non-empty; otherwise neither is and the page shows the link
      error. */
  function ReadLink(uidParam: Option<string>, tokenParam: Option<string>): (p: Page) {
    if !Truthy(uidParam) || !Truthy(tokenParam) then Page(None, None, "", "", INVALID_LINK, false, false)
    else Page(uidParam, tokenParam, "", "", "", false, false)
  }

  /** The page starts in the error state exactly when a parameter is
      missing or empty, and otherwise holds both. */
  lemma ReadLinkSpec(uidParam: Option<string>, tokenParam: Option<string>)
    ensures var p := ReadLink(uidParam, tokenParam);
      (p.error == INVALID_LINK <==> !Truthy(uidParam) || !Truthy(tokenParam))
      && (p.error == "" ==> p.uid == uidParam && p.token == tokenParam)
      && (p.error != "" ==> p.error == INVALID_LINK)
  {
  }

  /** The match-hint effect. */
  function MatchHint(password: string, confirm: string): (hint: string) {
    if confirm != "" && password != confirm then MISMATCH else ""
  }

  /** The hint shows exactly while a non-empty confirmation differs from the
      password, so an empty confirmation is never flagged. */
  lemma MatchHintSpec(password: string, confirm: string)
    ensures var hint := MatchHint(password, confirm);
      (hint != "" <==> confirm != "" && password != confirm)
      && (hint != "" ==> hint == MISMATCH)
  {
  }

  /** The first failing check of `handleSubmit`: the link, then the
      strength, then the confirmation. */
  function SubmitError(p: Page): (e: Option<string>) {
    if !Truthy(p.uid) || !Truthy(p.token) then Some(INVALID_LINK)
    else if !IsStrongPassword(p.password) then Some(WEAK_PASSWORD)
    else if !PasswordsMatch(p.password, p.confirm) then Some(MISMATCH)
    else None
  }

  /** The request: uid, token, password and its confirmation. */
  datatype ResetRequest = ResetRequest(uid: string, token: string, password: string, password2: string)

  /** What `handleSubmit` did: the page afterwards, the request sent and the
      navigation scheduled. */
  datatype Submitted = Submitted(page: Page, sent: Option<ResetRequest>, redirect: Option<Redirect>)

  /** `handleSubmit`; `failure` is `None` when the request succeeded and
      otherwise the `detail` of the error response, if any. */
  function Submit(p: Page, failure: Option<Option<string>>): (s: Submitted) {
    var e := SubmitError(p);
    if e.Some? then Submitted(p.(error := e.value), None, None)
    else
      var req := ResetRequest(p.uid.value, p.token.value, p.password, p.confirm);
      if failure.None? then
        Submitted(p.(error := "", success := true, submitting := false), Some(req), Some(Redirect(LOGIN_PATH, 3000)))
      else
        var msg := if Truthy(failure.value) then failure.value.value else RESET_FAILED;
        Submitted(p.(error := msg, submitting := false), Some(req), None)
  }

  /** The request goes out exactly when the link is complete and the
      password is strong and confirmed; otherwise the first failing check
      names the error and nothing else changes. A success leaves for the
      login page three seconds later; a failure shows the server's detail
      when it has one. */
  lemma SubmitSpec(p: Page, failure: Option<Option<string>>)
    ensures var s := Submit(p, failure);
      var c1 := Truthy(p.uid) && Truthy(p.token);
      var c2 := c1 && IsStrongPassword(p.password);
      (s.sent.Some? <==> c2 && p.password == p.confirm)
      && (!c1 ==> s.page == p.(error := INVALID_LINK))
      && (c1 && !c2 ==> s.page == p.(error := WEAK_PASSWORD))
      && (c2 && p.password != p.confirm ==> s.page == p.(error := MISMATCH))
      && (s.sent.Some? ==> s.sent.value == ResetRequest(p.uid.value, p.token.value, p.password, p.password))
      && (s.redirect.Some? <==> s.sent.Some? && failure.None?)
      && (s.redirect.Some? ==> s.redirect.value == Redirect("/auth/login", 3000) && s.page.success)
      && (s.sent.Some? && failure.Some? ==>
            s.page.success == p.success
            && s.page.error == (if Truthy(failure.value) then failure.value.value else RESET_FAILED))
      && (s.sent.Some? ==> !s.page.submitting)
  {
  }

  /** A request the page sends always passes the endpoint's field and
      confirmation checks: it succeeds exactly when the link's user id
      decodes to a known user for whom the token is valid. */
  lemma SentRequestReachesTokenCheck(db: Db, p: Page, failure: Option<Option<string>>, decoded: Option<int>,
                                     tokenOkFor: set<nat>, newHash: string)
    requires Submit(p, failure).sent.Some?
    ensures var q := Submit(p, failure).sent.value;
      var r := ResetPassword(db, Some(q.uid), Some(q.token), Some(q.password), Some(q.password2),
                             decoded, tokenOkFor, newHash);
      r.status == 200 <==> decoded.Some? && 0 <= decoded.value < |db.users| && decoded.value as nat in tokenOkFor
  {
    ResetPasswordSpec(db, p.uid, p.token, Some(p.password), Some(p.confirm), decoded, tokenOkFor, newHash);
  }
}

=== FILE: settings_pages.dfy ===
/** The two settings pages (web/mothers-garage/src/app/mother/dashboard/settings/page.tsx
    and web/mothers-garage/src/app/provider/settings/page.tsx). Both keep
    the form as the JSON object the settings endpoint returned, keyed by
    field name, and send it back whole, except that the three password
    fields are dropped unless all of them are filled in. The provider page
    also checks the password fields before sending and turns the error
    `detail` into one line of text. The request is an input. */
module SettingsPages {
  import opened Common
  import opened Accounts
  import opened Store
  import opened SettingsViews

  /** The form: field name to value, as loaded and as sent. */
  type Form = map<string, string>

  const OLD_PASSWORD := "old_password"
  const NEW_PASSWORD := "new_password"
  const CONFIRM_PASSWORD := "confirm_new_password"

  // ---------------------------------------------------------------------
  // Shared by both pages
  // ---------------------------------------------------------------------

  /** JavaScript truthiness of `formData[k]`: present and non-empty. */
  predicate Filled(f: Form, k: string) {
    k in f && f[k] != ""
  }

  predicate AllPasswords(f: Form) {
    Filled(f, OLD_PASSWORD) && Filled(f, NEW_PASSWORD) && Filled(f, CONFIRM_PASSWORD)
  }

  predicate AnyPassword(f: Form) {
    Filled(f, OLD_PASSWORD) || Filled(f, NEW_PASSWORD) || Filled(f, CONFIRM_PASSWORD)
  }

  /** `handleInputChange`: the field named by the input takes its value. */
  function InputChange(f: Form, name: string, value: string): (f': Form) {
    f[name := value]
  }

  /** Typing changes the named field and no other, and adds no other key. */
  lemma InputChangeSpec(f: Form, name: string, value: string)
    ensures var f' := InputChange(f, name, value);
      f'.Keys == f.Keys + {name} && f'[name] == value
      && forall k | k in f && k != name :: f'[k] == f[k]
  {
  }

  /** The body sent: the form, without the three password keys unless all
      three are filled in. */
  function StripPasswords(f: Form): (sent: Form) {
    if AllPasswords(f) then f else f - {OLD_PASSWORD, NEW_PASSWORD, CONFIRM_PASSWORD}
  }

  /** Every other field is sent as it is in the form; the passwords are sent
      together, as typed, or not at all. */
  lemma StripPasswordsSpec(f: Form)
    ensures var sent := StripPasswords(f);
      (forall k | k in f && k !in {OLD_PASSWORD, NEW_PASSWORD, CONFIRM_PASSWORD} :: k in sent && sent[k] == f[k])
      && sent.Keys <= f.Keys
      && (AllPasswords(f) ==> sent == f)
      && (!AllPasswords(f) ==> OLD_PASSWORD !in sent && NEW_PASSWORD !in sent && CONFIRM_PASSWORD !in sent)
  {
  }

  /** The form after a successful save: the three password fields empty. */
  function ClearPasswords(f: Form): (f': Form) {
    f[OLD_PASSWORD := ""][NEW_PASSWORD := ""][CONFIRM_PASSWORD := ""]
  }

  /** After a save no password is filled in and every other field is as
      it was. */
  lemma ClearPasswordsSpec(f: Form)
    ensures var f' := ClearPasswords(f);
      !AnyPassword(f') && StripPasswords(f') == f' - {OLD_PASSWORD, NEW_PASSWORD, CONFIRM_PASSWORD}
      && forall k | k in f && k !in {OLD_PASSWORD, NEW_PASSWORD, CONFIRM_PASSWORD} :: k in f' && f'[k] == f[k]
  {
  }

  /** A field of the body as the endpoint reads it: `None` when not sent. */
  function Field(body: Form, k: string): (v: Option<string>) {
    if k in body then Some(body[k]) else None
  }

  // ---------------------------------------------------------------------
  // The mother's page
  // ---------------------------------------------------------------------

  /** What a save did: the form afterwards, the body sent (when the request
      went out), and the toast's title. */
  datatype Saved = Saved(form: Form, sent: Option<Form>, title: string)

  /** `handleSubmit` of the mother's page: the body always goes out; a
      success clears the passwords, a failure leaves the form as it was. */
  function MotherSubmit(f: Form, ok: bool): (s: Saved) {
    var body := StripPasswords(f);
    if ok then Saved(ClearPasswords(f), Some(body), "Success")
    else Saved(f, Some(body), "Error")
  }

  /** The body the mother's endpoint receives. */
  function MotherPatchOf(body: Form): (b: MotherPatch) {
    MotherPatch(Field(body, "email"), Field(body, OLD_PASSWORD), Field(body, NEW_PASSWORD),
                Field(body, CONFIRM_PASSWORD), Field(body, "payment_method"), Field(body, "age"),
                Field(body, "weight"), Field(body, "height"), Field(body, "postpartum_needs"),
                Field(body, "infant_care_preferences"), Field(body, "preferred_language"), Field(body, "country"))
  }

  /** The request is always sent, with no check that the new passwords
      agree; the endpoint sees a password change only when the form had all
      three filled. A success empties the password fields and keeps the
      rest; a failure keeps the whole form. */
  lemma MotherSubmitSpec(f: Form, ok: bool, u: User)
    ensures var s := MotherSubmit(f, ok);
      s.sent == Some(StripPasswords(f))
      && (ok ==> s.form == ClearPasswords(f) && s.title == "Success")
      && (!ok ==> s.form == f && s.title == "Error")
      && (MotherBranchOf(u, MotherPatchOf(s.sent.value)) == ChangePassword ==> AllPasswords(f))
  {
  }

  /** When the e-mail is edited together with the passwords, the endpoint
      takes the e-mail branch and ignores the passwords, yet the page,
      seeing a success, empties the password fields as if they had been
      changed. The page renders its e-mail input disabled, so a form with an
      edited e-mail arises only from a request made outside that input. */
  lemma EmailEditHidesPasswordChange(db: Db, me: nat, f: Form, oldOk: bool, newHash: string)
    requires me < |db.users| && IsMother(db, me) && me in db.mothers
    requires AllPasswords(f) && Filled(f, "email") && f["email"] != db.users[me].email
    ensures var r := MotherSettingsPatch(db, me, MotherPatchOf(MotherSubmit(f, true).sent.value), oldOk, newHash);
      r.status == 200 ==> r.db.users[me].password == db.users[me].password
                          && !AnyPassword(MotherSubmit(f, true).form)
  {
    MotherSettingsPatchSpec(db, me, MotherPatchOf(StripPasswords(f)), oldOk, newHash);
    ClearPasswordsSpec(f);
  }

  // ---------------------------------------------------------------------
  // The provider's page
  // ---------------------------------------------------------------------

  /** The `detail` of an error response, by its JavaScript type: missing
      (no response, or no such key), `null`, a string, an array of strings,
      an object whose values are strings or arrays of strings (a string
      value is written as a one-item list), or another scalar with the
      text `String` gives it. */
  datatype Detail =
    | NoDetail
    | NullDetail
    | TextDetail(text: string)
    | ListDetail(items: seq<string>)
    | MapDetail(values: seq<seq<string>>)
    | ScalarDetail(rendered: string)

  const UPDATE_FAILED := "Failed to update settings."

  /** `Object.values(detail).flat()`. */
  function Flatten(values: seq<seq<string>>): (items: seq<string>) {
    if |values| == 0 then [] else values[0] + Flatten(values[1..])
  }

  /** The error text as the page builds it. `typeof null` is "object", so
      `Object.values(null)` throws and the fallback `JSON.stringify(null)`
      gives "null"; a missing detail reaches `String(undefined)`. The
      initial "Failed to update settings." is overwritten on every path. */
  function DetailTextAsWritten(d: Detail): (m: string) {
    match d
    case NoDetail => "undefined"
    case NullDetail => "null"
    case TextDetail(s) => s
    case ListDetail(items) => Join(items, " ")
    case MapDetail(values) => Join(Flatten(values), " ")
    case ScalarDetail(r) => r
  }

  /** A request that fails without a response, or whose body has no
      `detail`, is reported to the provider as "undefined". */
  lemma AsWrittenShowsUndefined()
    ensures DetailTextAsWritten(NoDetail) == "undefined"
    ensures DetailTextAsWritten(NullDetail) == "null"
    ensures DetailTextAsWritten(NoDetail) != UPDATE_FAILED
  {
  }

  /** The error text with the generic message used when there is no detail
      to show, as the initial value of `readableMessage` intends. */
  function DetailText(d: Detail): (m: string) {
    match d
    case NoDetail => UPDATE_FAILED
    case NullDetail => UPDATE_FAILED
    case _ => DetailTextAsWritten(d)
  }

  /** The generic message replaces exactly the missing and `null` details;
      every detail the server wrote is shown as the page writes it, so a
      plain string is shown unchanged and a list of words without spaces
      can be split back into its items. */
  lemma DetailTextSpec(d: Detail)
    ensures var m := DetailText(d);
      ((d.NoDetail? || d.NullDetail?) ==> m == UPDATE_FAILED)
      && (!(d.NoDetail? || d.NullDetail?) ==> m == DetailTextAsWritten(d))
      && (d.TextDetail? ==> m == d.text)
      && (d.ListDetail? && |d.items| >= 1 && (forall k | 0 <= k < |d.items| :: ' ' !in d.items[k]) ==>
            Split(m, ' ') == d.items)
  {
    if d.ListDetail? && |d.items| >= 1 && (forall k | 0 <= k < |d.items| :: ' ' !in d.items[k]) {
      JoinSplit(d.items, ' ');
    }
  }

  /** The provider page's password check before sending: all three or none,
      and the new ones equal. */
  function ProviderPasswordError(f: Form): (e: Option<string>) {
    if AnyPassword(f) && !AllPasswords(f) then Some("Password Error")
    else if AnyPassword(f) && f[NEW_PASSWORD] != f[CONFIRM_PASSWORD] then Some("Password Mismatch")
    else None
  }

  /** `handleSubmit` of the provider's page; `failure` is `None` when the
      request succeeded and otherwise the error's `detail`. The toast's text
      is returned with its title. */
  function ProviderSubmit(f: Form, failure: Option<Detail>): (s: (Saved, string)) {
    var e := ProviderPasswordError(f);
    if e.Some? then (Saved(f, None, e.value), "")
    else
      var body := StripPasswords(f);
      if failure.None? then (Saved(ClearPasswords(f), Some(body), "Success"), "Your settings have been updated successfully.")
      else (Saved(f, Some(body), "Update Failed"), DetailText(failure.value))
  }

  /** Nothing is sent when some but not all password fields are filled in,
      or when the new ones differ; otherwise the body goes out, a success
      empties the passwords and a failure keeps the form and shows the
      detail text. */
  lemma ProviderSubmitSpec(f: Form, failure: Option<Detail>)
    ensures var s := ProviderSubmit(f, failure);
      var partial := AnyPassword(f) && !AllPasswords(f);
      var differ := AllPasswords(f) && f[NEW_PASSWORD] != f[CONFIRM_PASSWORD];
      (s.0.sent.None? <==> partial || differ)
      && (partial ==> s.0 == Saved(f, None, "Password Error"))
      && (differ ==> s.0 == Saved(f, None, "Password Mismatch"))
      && (s.0.sent.Some? ==> s.0.sent.value == StripPasswords(f))
      && (s.0.sent.Some? && failure.None? ==> s.0.form == ClearPasswords(f))
      && (s.0.sent.Some? && failure.Some? ==> s.0.form == f && s.1 == DetailText(failure.value))
  {
  }

  /** The body the provider's endpoint receives. */
  function ProviderPatchOf(body: Form): (b: ProviderPatch) {
    ProviderPatch(Field(body, "email"), Field(body, "first_name"), Field(body, "last_name"),
                  Field(body, "phone_number"), Field(body, OLD_PASSWORD), Field(body, NEW_PASSWORD),
                  Field(body, CONFIRM_PASSWORD), Field(body, "subscription_plan"), Field(body, "license_number"),
                  Field(body, "bio"), Field(body, "associated_clinic"), Field(body, "preferred_language"),
                  Field(body, "country"))
  }

  /** A body the provider page sends never breaks the endpoint's own
      password rules: if it carries a password at all it carries all three
      and the new ones agree, so the only password refusal left is a wrong
      old password. */
  lemma ProviderBodyPassesPasswordRules(db: Db, me: nat, f: Form, failure: Option<Detail>, oldOk: bool,
                                        newHash: string)
    requires me < |db.users|
    requires ProviderSubmit(f, failure).0.sent.Some?
    ensures var b := ProviderPatchOf(ProviderSubmit(f, failure).0.sent.value);
      var r := ProviderSettingsPatch(db, me, b, oldOk, newHash);
      (AnyPasswordField(b) ==> AllPasswordFields(b) && b.newPassword == b.confirmPassword)
      && (r.status == 400 ==> AnyPasswordField(b) && !oldOk)
  {
    var b := ProviderPatchOf(StripPasswords(f));
    ProviderSettingsPatchSpec(db, me, b, oldOk, newHash);
  }
}

=== FILE: settings_views.dfy ===
/** The settings endpoints of backend/onboarding/views.py: reading and
    patching a mother's or a provider's account. A patch body holds only the
    keys that were sent (`None` for a key that was not); whether the old
    password checks out and the hash of the new one are inputs. */
module SettingsViews {
  import opened Common
  import opened Accounts
  import opened Billing
  import opened Store

  // ---------------------------------------------------------------------
  // Mother settings
  // ---------------------------------------------------------------------

  datatype MotherPatch = MotherPatch(
    email: Option<string>,
    oldPassword: Option<string>,
    newPassword: Option<string>,
    confirmPassword: Option<string>,
    paymentMethod: Option<string>,
    age: Option<string>,
    weight: Option<string>,
    height: Option<string>,
    postpartumNeeds: Option<string>,
    infantCare: Option<string>,
    language: Option<string>,
    country: Option<string>)

  /** What `MotherSettingsView.get` returns. */
  datatype MotherSettings = MotherSettings(
    email: string, age: Option<string>, weight: Option<string>, height: Option<string>,
    postpartumNeeds: Option<string>, infantCare: Option<string>,
    language: Option<string>, country: string)

  function MotherSettingsGet(db: Db, me: nat): (r: (nat, Option<MotherSettings>))
    requires me < |db.users|
    ensures r.1.Some? <==> r.0 == 200
    ensures r.0 == 200 <==> IsMother(db, me) && me in db.mothers
    ensures r.0 == 200 ==> r.1.value.email == db.users[me].email && r.1.value.country == db.mothers[me].country
  {
    if !IsMother(db, me) then (403, None)
    else if me !in db.mothers then (404, None)
    else
      var m := db.mothers[me];
      (200, Some(MotherSettings(db.users[me].email, m.age, m.weight, m.height, m.postpartumNeeds,
                                m.infantCare, m.language, m.country)))
  }

  /** The profile fields of a patch written over the profile. */
  function PatchMotherProfile(m: MotherProfile, b: MotherPatch): (r: MotherProfile) {
    m.(age := b.age.OrElse(m.age), weight := b.weight.OrElse(m.weight), height := b.height.OrElse(m.height),
       postpartumNeeds := b.postpartumNeeds.OrElse(m.postpartumNeeds),
       infantCare := b.infantCare.OrElse(m.infantCare),
       language := b.language.OrElse(m.language),
       country := b.country.GetOr(m.country))
  }

  /** Which branch of `MotherSettingsView.patch` a body takes; the first that
      applies wins and the rest of the body is ignored. */
  datatype MotherBranch = ChangeEmail | ChangePassword | PaymentMethod | ProfileFields

  function MotherBranchOf(u: User, b: MotherPatch): MotherBranch {
    if Truthy(b.email) && b.email.value != u.email then ChangeEmail
    else if Truthy(b.oldPassword) && Truthy(b.newPassword) && Truthy(b.confirmPassword) then ChangePassword
    else if b.paymentMethod.Some? then PaymentMethod
    else ProfileFields
  }

  /** `MotherSettingsView.patch`. A new e-mail drops the verified flag (500,
      nothing saved, when another user has it); a password change needs the
      old password and two equal new ones; a payment method is accepted but,
      the user having no such column, nothing is stored; otherwise the
      profile fields sent are written. */
  function MotherSettingsPatch(db: Db, me: nat, b: MotherPatch, oldOk: bool, newHash: string): (r: Outcome)
    requires me < |db.users|
  {
    if !IsMother(db, me) then Outcome(403, db)
    else if me !in db.mothers then Outcome(404, db)
    else
      var u := db.users[me];
      match MotherBranchOf(u, b)
      case ChangeEmail =>
        var d := UpdateUser(db, me, u.(email := b.email.value, emailVerified := false));
        if d.None? then Outcome(500, db) else Outcome(200, d.value)
      case ChangePassword =>
        if !oldOk then Outcome(400, db)
        else if b.newPassword != b.confirmPassword then Outcome(400, db)
        else Outcome(200, db.(users := db.users[me := u.(password := newHash)]))
      case PaymentMethod => Outcome(200, db)
      case ProfileFields =>
        Outcome(200, db.(mothers := db.mothers[me := PatchMotherProfile(db.mothers[me], b)]))
  }

  /** Each branch touches only what it names: the e-mail branch only the
      user's e-mail and verified flag, the password branch only the hash and
      only with the right old password and matching new ones, the payment
      branch nothing, the profile branch only the profile, with each field
      taken from the body when sent and kept otherwise. */
  lemma MotherSettingsPatchSpec(db: Db, me: nat, b: MotherPatch, oldOk: bool, newHash: string)
    requires me < |db.users|
    ensures var r := MotherSettingsPatch(db, me, b, oldOk, newHash);
      (r.status == 403 <==> !IsMother(db, me))
      && (r.status == 404 <==> IsMother(db, me) && me !in db.mothers)
      && (r.status != 200 ==> r.db == db)
      && (r.status == 200 ==>
            var u := db.users[me];
            |r.db.users| == |db.users| && r.db.providers == db.providers
            && (forall o | 0 <= o < |db.users| && o != me :: r.db.users[o] == db.users[o])
            && match MotherBranchOf(u, b)
               case ChangeEmail =>
                 r.db.users[me] == u.(email := b.email.value, emailVerified := false) && r.db.mothers == db.mothers
               case ChangePassword =>
                 oldOk && b.newPassword == b.confirmPassword
                 && r.db.users[me] == u.(password := newHash) && r.db.mothers == db.mothers
               case PaymentMethod => r.db == db
               case ProfileFields =>
                 r.db.users == db.users
                 && r.db.mothers == db.mothers[me := PatchMotherProfile(db.mothers[me], b)])
  {
    if IsMother(db, me) && me in db.mothers {
      var u := db.users[me];
      var r := MotherSettingsPatch(db, me, b, oldOk, newHash);
      match MotherBranchOf(u, b)
      case ChangeEmail =>
        var d := UpdateUser(db, me, u.(email := b.email.value, emailVerified := false));
        assert r == (if d.None? then Outcome(500, db) else Outcome(200, d.value));
      case ChangePassword =>
        var users := db.users[me := u.(password := newHash)];
        assert r.status == 200 ==> r.db == db.(users := users);
      case PaymentMethod =>
      case ProfileFields =>
    }
  }

  /** Patching the profile fields and reading the settings back shows what
      was sent and, for each field not sent, what was there before. */
  lemma MotherPatchThenGet(db: Db, me: nat, b: MotherPatch, oldOk: bool, newHash: string)
    requires me < |db.users| && IsMother(db, me) && me in db.mothers
    requires MotherBranchOf(db.users[me], b) == ProfileFields
    ensures var before := MotherSettingsGet(db, me).1.value;
      var after := MotherSettingsGet(MotherSettingsPatch(db, me, b, oldOk, newHash).db, me);
      after.0 == 200
      && after.1.value == before.(age := b.age.OrElse(before.age), weight := b.weight.OrElse(before.weight),
                                  height := b.height.OrElse(before.height),
                                  postpartumNeeds := b.postpartumNeeds.OrElse(before.postpartumNeeds),
                                  infantCare := b.infantCare.OrElse(before.infantCare),
                                  language := b.language.OrElse(before.language),
                                  country := b.country.GetOr(before.country))
  {
  }

  // ---------------------------------------------------------------------
  // Provider settings
  // ---------------------------------------------------------------------

  datatype ProviderPatch = ProviderPatch(
    email: Option<string>,
    firstName: Option<string>,
    lastName: Option<string>,
    phone: Option<string>,
    oldPassword: Option<string>,
    newPassword: Option<string>,
    confirmPassword: Option<string>,
    plan: Option<string>,
    license: Option<string>,
    bio: Option<string>,
    clinic: Option<string>,
    language: Option<string>,
    country: Option<string>)

  /** What `ProviderSettingsView.get` returns. */
  datatype ProviderSettings = ProviderSettings(
    email: string, firstName: string, lastName: string, phone: Option<string>,
    license: Option<string>, bio: Option<string>, clinic: Option<string>,
    plan: Option<string>, language: Option<string>, country: string)

  function ProviderSettingsGet(db: Db, me: nat): (r: (nat, Option<ProviderSettings>))
    requires me < |db.users|
    ensures r.1.Some? <==> r.0 == 200
    ensures r.0 == 200 <==> IsProvider(db, me) && me in db.providers
    ensures r.0 == 200 ==> r.1.value.email == db.users[me].email && r.1.value.plan == db.providers[me].plan
  {
    if !IsProvider(db, me) then (403, None)
    else if me !in db.providers then (404, None)
    else
      var u := db.users[me];
      var p := db.providers[me];
      (200, Some(ProviderSettings(u.email, u.firstName, u.lastName, u.phone, p.license, p.bio, p.clinic,
                                  p.plan, p.language, p.country)))
  }

  /** The user fields of a patch; sending `email` at all, even unchanged,
      drops the verified flag. */
  function PatchProviderUser(u: User, b: ProviderPatch): (r: User) {
    u.(email := b.email.GetOr(u.email),
       emailVerified := if b.email.Some? then false else u.emailVerified,
       firstName := b.firstName.GetOr(u.firstName), lastName := b.lastName.GetOr(u.lastName),
       phone := b.phone.OrElse(u.phone))
  }

  /** The profile fields of a patch. The plan is written as sent, whatever
      it says and whether or not it was paid for. */
  function PatchProviderProfile(p: ProviderProfile, b: ProviderPatch): (r: ProviderProfile) {
    p.(plan := b.plan.OrElse(p.plan), license := b.license.OrElse(p.license), bio := b.bio.OrElse(p.bio),
       clinic := b.clinic.OrElse(p.clinic), language := b.language.OrElse(p.language),
       country := b.country.GetOr(p.country))
  }

  predicate AnyPasswordField(b: ProviderPatch) {
    Truthy(b.oldPassword) || Truthy(b.newPassword) || Truthy(b.confirmPassword)
  }

  predicate AllPasswordFields(b: ProviderPatch) {
    Truthy(b.oldPassword) && Truthy(b.newPassword) && Truthy(b.confirmPassword)
  }

  /** `ProviderSettingsView.patch`. The user fields are saved first (500 when
      the new e-mail is taken); then, if any password field is set, all three
      must be, the old one must check out and the new ones agree, else 400 —
      with the user fields already saved; then the profile fields are
      written and 200. */
  function ProviderSettingsPatch(db: Db, me: nat, b: ProviderPatch, oldOk: bool, newHash: string): (r: Outcome)
    requires me < |db.users|
  {
    if !IsProvider(db, me) then Outcome(403, db)
    else if me !in db.providers then Outcome(404, db)
    else
      var saved := UpdateUser(db, me, PatchProviderUser(db.users[me], b));
      if saved.None? then Outcome(500, db)
      else
        var d := saved.value;
        if AnyPasswordField(b) && (!AllPasswordFields(b) || !oldOk || b.newPassword != b.confirmPassword) then
          Outcome(400, d)
        else
          var d' := if AnyPasswordField(b) then d.(users := d.users[me := d.users[me].(password := newHash)]) else d;
          Outcome(200, d'.(providers := d'.providers[me := PatchProviderProfile(d'.providers[me], b)]))
  }

  /** The password rules are all or nothing, a rejected password change
      still keeps the user fields that came with it, and a successful patch
      writes exactly the fields sent. */
  lemma ProviderSettingsPatchSpec(db: Db, me: nat, b: ProviderPatch, oldOk: bool, newHash: string)
    requires me < |db.users|
    ensures var r := ProviderSettingsPatch(db, me, b, oldOk, newHash);
      var u := PatchProviderUser(db.users[me], b);
      var free := UpdateUser(db, me, u).Some?;
      (r.status == 403 <==> !IsProvider(db, me))
      && (r.status == 404 <==> IsProvider(db, me) && me !in db.providers)
      && (r.status == 500 <==> IsProvider(db, me) && me in db.providers && !free)
      && (r.status == 400 <==>
            IsProvider(db, me) && me in db.providers && free && AnyPasswordField(b)
            && (!AllPasswordFields(b) || !oldOk || b.newPassword != b.confirmPassword))
      && (r.status == 400 ==> r.db == db.(users := db.users[me := u]))
      && (r.status == 200 ==>
            r.db.users == db.users[me := if AnyPasswordField(b) then u.(password := newHash) else u]
            && r.db.providers == db.providers[me := PatchProviderProfile(db.providers[me], b)])
      && (r.status == 403 || r.status == 404 || r.status == 500 ==> r.db == db)
  {
  }

  /** Patching and reading back shows the fields sent and keeps the others. */
  lemma ProviderPatchThenGet(db: Db, me: nat, b: ProviderPatch, oldOk: bool, newHash: string)
    requires me < |db.users| && IsProvider(db, me) && me in db.providers
    requires ProviderSettingsPatch(db, me, b, oldOk, newHash).status == 200
    ensures var before := ProviderSettingsGet(db, me).1.value;
      var after := ProviderSettingsGet(ProviderSettingsPatch(db, me, b, oldOk, newHash).db, me);
      after.0 == 200
      && after.1.value == before.(email := b.email.GetOr(before.email),
                                  firstName := b.firstName.GetOr(before.firstName),
                                  lastName := b.lastName.GetOr(before.lastName),
                                  phone := b.phone.OrElse(before.phone),
                                  license := b.license.OrElse(before.license), bio := b.bio.OrElse(before.bio),
                                  clinic := b.clinic.OrElse(before.clinic), plan := b.plan.OrElse(before.plan),
                                  language := b.language.OrElse(before.language),
                                  country := b.country.GetOr(before.country))
  {
    ProviderSettingsPatchSpec(db, me, b, oldOk, newHash);
  }

  /** The settings patch is a way round the payment endpoints: a provider
      with no live subscription who sends `subscription_plan: "premium"`
      never again reaches the booking limit. */
  lemma SettingsPlanLiftsQuota(db: Db, me: nat, b: ProviderPatch, oldOk: bool, newHash: string,
                               used: nat, now: int)
    requires me < |db.users| && IsProvider(db, me) && me in db.providers
    requires b.plan == Some(PREMIUM)
    requires ProviderSettingsPatch(db, me, b, oldOk, newHash).status == 200
    requires !(me in db.subscriptions && IsLive(db.subscriptions[me], now))
    ensures var d := ProviderSettingsPatch(db, me, b, oldOk, newHash).db;
      !MonthlyLimitReached(BookingUsage(used, now), SubscriptionOf(d, me), ProviderOf(d, me), now)
  {
    ProviderSettingsPatchSpec(db, me, b, oldOk, newHash);
  }
}

=== FILE: signup_steps.dfy ===
/** What the mother and the provider sign-up wizards share
    (web/mothers-garage/src/app/onboarding/mother/signup/page.tsx and
    web/mothers-garage/src/app/onboarding/provider/signup/page.tsx): step
    navigation, the account step's ordered checks, the numeric fields, and
    the countdown that re-enables "resend code". */
module SignupSteps {
  import opened Common
  import opened Validators

  // ---------------------------------------------------------------------
  // Navigation
  // ---------------------------------------------------------------------

  /** `nextStep` of a wizard with `total` steps, given whether the current
      step validates: the new step, and whether the form is submitted. */
  function NextStep(step: nat, total: nat, valid: bool): (r: (nat, bool)) {
    if !valid then (step, false)
    else if step < total then (step + 1, false)
    else (step, true)
  }

  /** `prevStep`. */
  function PrevStep(step: nat): (s: nat) {
    if step > 1 then step - 1 else step
  }

  /** The step stays between 1 and the last step; Next moves on only from a
      valid step before the last, and submits only from a valid last step;
      Prev undoes a Next. */
  lemma NavigationStaysInRange(step: nat, total: nat, valid: bool)
    requires 1 <= step <= total
    ensures var n := NextStep(step, total, valid);
      1 <= n.0 <= total && 1 <= PrevStep(step) <= total
      && (n.0 == step + 1 <==> valid && step < total)
      && (n.0 != step + 1 ==> n.0 == step)
      && (n.1 <==> valid && step == total)
      && (n.0 == step + 1 ==> PrevStep(n.0) == step)
      && (step == 1 <==> PrevStep(step) == step)
  {
  }

  // ---------------------------------------------------------------------
  // The account step
  // ---------------------------------------------------------------------

  const USERNAME_REQUIRED := "Username is required"
  const EMAIL_INVALID := "Please enter a valid email address"
  const PASSWORD_WEAK := "Password must be at least 8 characters with uppercase, lowercase, number, and special character"
  const PASSWORDS_DIFFER := "Passwords do not match"
  const PHONE_REQUIRED := "Phone number is required"
  const PHONE_INVALID := "Please enter a valid phone number (e.g., +256700000000)"

  /** Step 1 of both wizards: the message of the first check that fails, in
      the order user name, e-mail, password strength, confirmation, phone
      present, phone format; `None` when all pass. */
  function AccountStepError(username: string, email: string, password: string, password2: string,
                            phone: string): (e: Option<string>) {
    if IsBlank(username) then Some(USERNAME_REQUIRED)
    else if !IsValidEmail(email) then Some(EMAIL_INVALID)
    else if !IsStrongPassword(password) then Some(PASSWORD_WEAK)
    else if !PasswordsMatch(password, password2) then Some(PASSWORDS_DIFFER)
    else if IsBlank(phone) then Some(PHONE_REQUIRED)
    else if !IsValidPhoneNumber(phone) then Some(PHONE_INVALID)
    else None
  }

  /** A valid phone number starts with '+', so it is never blank: the
      "required" check is subsumed by the format check. */
  lemma ValidPhoneNotBlank(phone: string)
    requires IsValidPhoneNumber(phone)
    ensures !IsBlank(phone)
  {
    assert !IsJsSpace(phone[0]);
  }

  /** The account step passes exactly for a non-blank user name, a valid
      e-mail, a strong password typed twice and a valid phone number, and
      each message is shown exactly when every earlier check passed and its
      own failed. */
  lemma AccountStepAccepts(username: string, email: string, password: string, password2: string, phone: string)
    ensures var e := AccountStepError(username, email, password, password2, phone);
      var c1 := !IsBlank(username);
      var c2 := c1 && IsValidEmail(email);
      var c3 := c2 && IsStrongPassword(password);
      var c4 := c3 && password == password2;
      (e.None? <==> c4 && IsValidPhoneNumber(phone))
      && (e == Some(USERNAME_REQUIRED) <==> !c1)
      && (e == Some(EMAIL_INVALID) <==> c1 && !IsValidEmail(email))
      && (e == Some(PASSWORD_WEAK) <==> c2 && !IsStrongPassword(password))
      && (e == Some(PASSWORDS_DIFFER) <==> c3 && password != password2)
      && (e == Some(PHONE_REQUIRED) <==> c4 && IsBlank(phone))
      && (e == Some(PHONE_INVALID) <==> c4 && !IsBlank(phone) && !IsValidPhoneNumber(phone))
  {
    if IsValidPhoneNumber(phone) {
      ValidPhoneNotBlank(phone);
    }
  }

  // ---------------------------------------------------------------------
  // Numeric fields
  // ---------------------------------------------------------------------

  /** Digits with at most one decimal point and at least one digit. */
  predicate IsDecimalBody(t: string) {
    (exists i | 0 <= i < |t| :: IsDigit(t[i]))
    && (forall i | 0 <= i < |t| :: IsDigit(t[i]) || t[i] == '.')
    && Count(t, '.') <= 1
  }

  /** Some digit is not zero. */
  predicate HasNonZeroDigit(t: string) {
    exists i | 0 <= i < |t| :: '1' <= t[i] <= '9'
  }

  /** `s && !isNaN(Number(s)) && Number(s) > 0` for the decimal forms
      `Number` reads: white space around an optionally signed decimal. */
  predicate IsPositiveNumber(s: string) {
    var t := JsTrim(s);
    s != "" && |t| > 0
    && ((t[0] == '+' && IsDecimalBody(t[1..]) && HasNonZeroDigit(t[1..]))
        || (IsDecimalBody(t) && HasNonZeroDigit(t)))
  }

  /** A rendered number has a non-zero digit exactly when it is positive. */
  lemma {:induction false} NatToStringNonZero(n: nat)
    ensures HasNonZeroDigit(NatToString(n)) <==> n > 0
  {
    var s := NatToString(n);
    if n >= 10 {
      NatToStringNonZero(n / 10);
      var pre := NatToString(n / 10);
      assert s == pre + [DigitChar(n % 10)];
      var i :| 0 <= i < |pre| && '1' <= pre[i] <= '9';
      assert s[i] == pre[i];
    } else {
      assert s == [DigitChar(n)];
      assert HasNonZeroDigit(s) <==> '1' <= s[0] <= '9';
    }
  }

  /** A whole number typed as its digits is accepted exactly when it is
      positive, so "0" is refused. */
  lemma WholeNumberAccepted(n: nat)
    ensures IsPositiveNumber(NatToString(n)) <==> n > 0
  {
    var s := NatToString(n);
    NatToStringNonZero(n);
    assert !IsJsSpace(s[0]) && !IsJsSpace(s[|s| - 1]);
    assert JsTrim(s) == s;
    assert '.' !in s;
    CountNone(s, '.');
    assert IsDigit(s[0]);
  }

  /** Any number of decimals passes: "70.123" is a positive number. */
  lemma ThreeDecimalsPass()
    ensures IsPositiveNumber("70.123")
  {
    var s := "70.123";
    assert !IsJsSpace(s[0]) && !IsJsSpace(s[|s| - 1]);
    assert JsTrim(s) == s;
    assert '1' <= s[0] <= '9';
    assert s[1..] == "0.123" && s[2..] == ".123" && s[3..] == "123";
    assert Count(s[3..], '.') == 0 by {
      CountNone(s[3..], '.');
    }
    assert Count(s, '.') == 1;
  }

  /** Any magnitude passes: "1000" is a positive number. */
  lemma ThousandPasses()
    ensures IsPositiveNumber("1000")
  {
    var s := "1000";
    assert !IsJsSpace(s[0]) && !IsJsSpace(s[|s| - 1]);
    assert JsTrim(s) == s;
    assert '1' <= s[0] <= '9';
    CountNone(s, '.');
  }

  // ---------------------------------------------------------------------
  // The resend countdown
  // ---------------------------------------------------------------------

  /** Whether "resend code" is disabled, and the seconds shown. The
      one-second timer runs exactly while the button is disabled. */
  datatype Resend = Resend(disabled: bool, countdown: nat)

  /** `handleResendOTP` with a countdown of `seconds`: ignored while
      disabled; a failed request changes nothing; a successful one disables
      the button and starts the countdown. */
  function ResendCode(r: Resend, seconds: nat, ok: bool): (r': Resend) {
    if r.disabled || !ok then r else Resend(true, seconds)
  }

  /** One tick of the timer: the count goes down, and at 1 or below the
      button is enabled again and the count shows 0. */
  function ResendTick(r: Resend): (r': Resend) {
    if !r.disabled then r
    else if r.countdown <= 1 then Resend(false, 0)
    else Resend(true, r.countdown - 1)
  }

  function ResendTicks(r: Resend, k: nat): (r': Resend)
    decreases k
  {
    if k == 0 then r else ResendTicks(ResendTick(r), k - 1)
  }

  /** Starting from a count of `c`, the button stays disabled for `c - 1`
      ticks, showing the seconds left, and is enabled by tick `c`. */
  lemma {:induction false} CountdownReenables(c: nat, k: nat)
    requires c >= 1
    ensures ResendTicks(Resend(true, c), k) == if k < c then Resend(true, c - k) else Resend(false, 0)
  {
    if k > 0 {
      if c == 1 {
        IdleTicks(k - 1);
      } else {
        CountdownReenables(c - 1, k - 1);
      }
    }
  }

  /** Once enabled with a zero count, ticking changes nothing. */
  lemma {:induction false} IdleTicks(k: nat)
    ensures ResendTicks(Resend(false, 0), k) == Resend(false, 0)
  {
    if k > 0 {
      IdleTicks(k - 1);
    }
  }

  /** After a successful resend, a second request is ignored until the
      countdown has run out. */
  lemma ResendBlockedDuringCountdown(r: Resend, seconds: nat, k: nat, ok: bool)
    requires !r.disabled && seconds >= 1 && k < seconds
    ensures var started := ResendCode(r, seconds, true);
      var later := ResendTicks(started, k);
      ResendCode(later, seconds, ok) == later && later.disabled
      && !ResendTicks(started, seconds).disabled
  {
    CountdownReenables(seconds, k);
    CountdownReenables(seconds, seconds);
  }
}

=== FILE: store.dfy ===
/** The database the backend views read and write, as one immutable value.
    Users are never deleted, so they are kept in creation order and a user's
    id is its position; profiles, subscriptions and usage counters hang off a
    user id; pending mothers are keyed by their unique e-mail, pending
    providers by their own id. */
module Store {
  import opened Common
  import opened Accounts
  import opened Billing
  import opened Pending

  datatype Db = Db(
    users: seq<User>,
    mothers: map<nat, MotherProfile>,
    providers: map<nat, ProviderProfile>,
    subscriptions: map<nat, Subscription>,
    usage: map<nat, BookingUsage>,
    pendingMothers: map<string, PendingMother>,
    pendingProviders: map<nat, PendingProvider>,
    lastPendingId: nat,
    interests: set<int>,
    serviceTypes: map<int, string>,
    specialities: map<int, Speciality>)

  /** The database constraints the views rely on: `User.username` and
      `User.email` are unique, every one-to-one row belongs to an existing
      user, a pending mother is filed under her own e-mail, and pending
      provider e-mails are unique, with positive ids no larger than the last
      id issued. */
  predicate Wf(db: Db) {
    (forall i, j | 0 <= i < j < |db.users| ::
       db.users[i].username != db.users[j].username && db.users[i].email != db.users[j].email)
    && (forall id | id in db.mothers :: id < |db.users|)
    && (forall id | id in db.providers :: id < |db.users|)
    && (forall id | id in db.subscriptions :: id < |db.users|)
    && (forall id | id in db.usage :: id < |db.users|)
    && (forall e | e in db.pendingMothers :: db.pendingMothers[e].email == e)
    && (forall id | id in db.pendingProviders :: 0 < id <= db.lastPendingId)
    && (forall a, b | a in db.pendingProviders && b in db.pendingProviders && a != b ::
          db.pendingProviders[a].email != db.pendingProviders[b].email)
  }

  /** Position of the first user with this user name, or `|users|`. */
  function FindUsername(us: seq<User>, name: string): (i: nat)
    ensures i <= |us|
    ensures i < |us| ==> us[i].username == name
    ensures forall j | 0 <= j < i :: us[j].username != name
  {
    if us == [] then 0
    else if us[0].username == name then 0
    else 1 + FindUsername(us[1..], name)
  }

  /** Position of the first user with this e-mail, or `|users|`. */
  function FindEmail(us: seq<User>, email: string): (i: nat)
    ensures i <= |us|
    ensures i < |us| ==> us[i].email == email
    ensures forall j | 0 <= j < i :: us[j].email != email
  {
    if us == [] then 0
    else if us[0].email == email then 0
    else 1 + FindEmail(us[1..], email)
  }

  /** `User.objects.get(username=...)`. */
  function UserByUsername(db: Db, name: string): (r: Option<nat>)
    ensures r.Some? ==> r.value < |db.users| && db.users[r.value].username == name
    ensures r.None? <==> forall j | 0 <= j < |db.users| :: db.users[j].username != name
  {
    var i := FindUsername(db.users, name);
    if i < |db.users| then Some(i) else None
  }

  /** `User.objects.get(email=...)`. */
  function UserByEmail(db: Db, email: string): (r: Option<nat>)
    ensures r.Some? ==> r.value < |db.users| && db.users[r.value].email == email
    ensures r.None? <==> forall j | 0 <= j < |db.users| :: db.users[j].email != email
  {
    var i := FindEmail(db.users, email);
    if i < |db.users| then Some(i) else None
  }

  /** What an endpoint answers: the HTTP status and the database after it. */
  datatype Outcome = Outcome(status: nat, db: Db)

  predicate IsProvider(db: Db, me: nat)
    requires me < |db.users|
  {
    HasRole(db.users[me], Provider)
  }

  predicate IsMother(db: Db, me: nat)
    requires me < |db.users|
  {
    HasRole(db.users[me], Mother)
  }

  /** In a well-formed database a lookup finds THE user with that name. */
  lemma UserByUsernameUnique(db: Db, name: string, k: nat)
    requires Wf(db) && k < |db.users| && db.users[k].username == name
    ensures UserByUsername(db, name) == Some(k)
  {
    assert FindUsername(db.users, name) <= k;
  }

  /** In a well-formed database a lookup finds THE user with that e-mail. */
  lemma UserByEmailUnique(db: Db, email: string, k: nat)
    requires Wf(db) && k < |db.users| && db.users[k].email == email
    ensures UserByEmail(db, email) == Some(k)
  {
    assert FindEmail(db.users, email) <= k;
  }

  /** `User.objects.create(...)`: the new user gets the next id, unless the user
      name or e-mail is already taken, in which case the database raises an
      integrity error and nothing is written (`None`). */
  function CreateUser(db: Db, u: User): (r: Option<(nat, Db)>)
    ensures r.None? <==> UserByUsername(db, u.username).Some? || UserByEmail(db, u.email).Some?
    ensures r.Some? ==> r.value.0 == |db.users| && r.value.1 == db.(users := db.users + [u])
  {
    if UserByUsername(db, u.username).Some? || UserByEmail(db, u.email).Some? then None
    else Some((|db.users|, db.(users := db.users + [u])))
  }

  /** Creating a user keeps the database well formed. */
  lemma CreateUserKeepsWf(db: Db, u: User)
    requires Wf(db)
    ensures CreateUser(db, u).Some? ==> Wf(CreateUser(db, u).value.1)
  {
    var r := CreateUser(db, u);
    if r.Some? {
      var us := r.value.1.users;
      forall i, j | 0 <= i < j < |us|
        ensures us[i].username != us[j].username && us[i].email != us[j].email
      {
        if j == |db.users| {
          assert us[i] == db.users[i];
        }
      }
    }
  }

  /** Replacing the user at `id` with one whose name and e-mail stay unique. */
  function UpdateUser(db: Db, id: nat, u: User): (r: Option<Db>)
    requires id < |db.users|
    ensures r.None? <==> exists j | 0 <= j < |db.users| && j != id ::
      db.users[j].username == u.username || db.users[j].email == u.email
    ensures r.Some? ==> r.value == db.(users := db.users[id := u])
  {
    if exists j | 0 <= j < |db.users| && j != id :: db.users[j].username == u.username || db.users[j].email == u.email
    then None
    else Some(db.(users := db.users[id := u]))
  }

  lemma UpdateUserKeepsWf(db: Db, id: nat, u: User)
    requires Wf(db) && id < |db.users|
    ensures UpdateUser(db, id, u).Some? ==> Wf(UpdateUser(db, id, u).value)
  {
  }

  /** `getattr(user, "provider_profile", None)` and friends. */
  function ProviderOf(db: Db, id: nat): Option<ProviderProfile> {
    if id in db.providers then Some(db.providers[id]) else None
  }

  function MotherOf(db: Db, id: nat): Option<MotherProfile> {
    if id in db.mothers then Some(db.mothers[id]) else None
  }

  function SubscriptionOf(db: Db, id: nat): Option<Subscription> {
    if id in db.subscriptions then Some(db.subscriptions[id]) else None
  }

  /** Writing back an optional profile: `None` leaves the table alone. */
  function PutProvider(db: Db, id: nat, p: Option<ProviderProfile>): (r: Db) {
    if p.Some? then db.(providers := db.providers[id := p.value]) else db
  }

  /** `Model.objects.filter(id__in=ids)`: the listed ids that exist. */
  function ExistingIds(ids: seq<int>, existing: set<int>): (r: set<int>)
    ensures forall x :: x in r <==> x in existing && x in ids
  {
    set x | x in existing && x in ids
  }
}

=== FILE: subscription_page.dfy ===
/** The plan picker (web/mothers-garage/src/app/provider/subscription/page.tsx):
    choosing a plan opens a confirmation dialog; the basic plan is activated
    directly, a paid plan through a payment widget whose approved order is
    then verified by the backend. The widget and the requests are inputs. */
module SubscriptionPage {
  import opened Common
  import opened Accounts
  import opened Store
  import opened PaymentViews
  import opened HttpClient

  /** An entry of `SUBSCRIPTION_PLANS`: id, display name and price in USD. */
  datatype PlanInfo = PlanInfo(id: string, name: string, price: nat)

  const PLANS := [PlanInfo(BASIC, "Basic", 0), PlanInfo(STANDARD, "Standard", 50), PlanInfo(PREMIUM, "Premium", 100)]

  /** `SUBSCRIPTION_PLANS.find(p => p.id === id)`. */
  function FindPlan(id: string): (p: Option<PlanInfo>) {
    if id == BASIC then Some(PLANS[0])
    else if id == STANDARD then Some(PLANS[1])
    else if id == PREMIUM then Some(PLANS[2])
    else None
  }

  /** `FindPlan` is the first entry with that id. */
  lemma FindPlanSpec(id: string)
    ensures var p := FindPlan(id);
      (p.Some? <==> exists k | 0 <= k < |PLANS| :: PLANS[k].id == id)
      && (p.Some? ==> p.value.id == id && p.value in PLANS)
      && (p.Some? <==> IsPlanChoice(id))
  {
  }

  const WORKSPACE_SELECT := "/provider/workspace-select"

  /** The page's state: the plan chosen (initially "basic"), the busy flag,
      the plan the provider is on, whether the dialog is open, and whether
      the subscription went through. */
  datatype Page = Page(selected: string, loading: bool, current: Option<string>, dialog: bool, complete: bool)

  /** `handleSelectPlan`. */
  function SelectPlan(p: Page, id: string): (p': Page) {
    p.(selected := id, dialog := true)
  }

  /** `disabled` of a plan's button. */
  predicate PlanButtonDisabled(p: Page, id: string) {
    (Truthy(p.current) && p.current.value == id) || p.loading
  }

  /** A plan's button is disabled exactly while a request runs or when the
      provider is already on that plan; pressing an enabled one records the
      plan and opens the dialog, touching nothing else. */
  lemma SelectPlanSpec(p: Page, k: nat)
    requires k < |PLANS|
    ensures var id := PLANS[k].id;
      (PlanButtonDisabled(p, id) <==> p.loading || p.current == Some(id))
      && SelectPlan(p, id).selected == id && SelectPlan(p, id).dialog
      && SelectPlan(p, id) == p.(selected := id, dialog := true)
  {
  }

  /** The dialog shows the free-activation button for the basic plan and
      the payment widget for any other. */
  predicate ShowsFreeButton(p: Page) {
    p.selected == BASIC
  }

  /** `handleSelectFreePlan`: the page afterwards and the request sent; a
      success completes the subscription, a failure closes the dialog. */
  function ActivateFree(p: Page, ok: bool): (r: (Page, Post)) {
    var req := ActivateSubscription(BASIC);
    if ok then (p.(loading := false, complete := true), req)
    else (p.(loading := false, dialog := false), req)
  }

  /** The free plan goes to its own endpoint with no body; only a success
      completes, and a failure closes the dialog. */
  lemma ActivateFreeSpec(p: Page, ok: bool)
    ensures var r := ActivateFree(p, ok);
      r.1 == Post(FREE_PLAN_PATH, None) && !r.0.loading
      && (r.0.complete <==> ok || p.complete)
      && (!ok ==> !r.0.dialog && r.0.complete == p.complete)
  {
  }

  /** The `value` of the order the widget creates: the chosen plan's price
      as a string, "0" for an unknown plan. */
  function OrderAmount(p: Page): (amount: string) {
    var plan := FindPlan(p.selected);
    if plan.Some? then NatToString(plan.value.price) else "0"
  }

  /** The order's amount is the plan's price in whole dollars, and the
      backend's price for the plan is that amount written with cents. */
  lemma OrderAmountMatchesPrice(p: Page)
    requires p.selected == STANDARD || p.selected == PREMIUM
    ensures PlanPrice(p.selected) == Some((OrderAmount(p) + ".00", "USD"))
    ensures OrderAmount(p) == (if p.selected == STANDARD then "50" else "100")
  {
    assert NatToString(50) == "50" by {
      assert NatToString(5) == "5";
    }
    assert NatToString(100) == "100" by {
      assert NatToString(1) == "1";
      assert NatToString(10) == "10";
    }
    assert "50" + ".00" == "50.00";
    assert "100" + ".00" == "100.00";
  }

  /** The verification request: the approved order and the chosen plan. */
  datatype VerifyRequest = VerifyRequest(orderId: string, plan: string)

  /** `onApprove`, after the widget captured order `orderId`: the page
      afterwards and the request sent; only a verified order completes the
      subscription, and a failure closes the dialog. */
  function Approve(p: Page, orderId: string, ok: bool): (r: (Page, VerifyRequest)) {
    var req := VerifyRequest(orderId, p.selected);
    if ok then (p.(complete := true), req) else (p.(dialog := false), req)
  }

  /** `onError` of the widget: the dialog closes. */
  function PaymentError(p: Page): (p': Page) {
    p.(dialog := false)
  }

  /** The subscription completes after a payment only once the backend has
      verified the order for the chosen plan; a refused verification or a
      widget error closes the dialog without completing. */
  lemma ApproveSpec(p: Page, orderId: string, ok: bool)
    ensures var r := Approve(p, orderId, ok);
      r.1 == VerifyRequest(orderId, p.selected)
      && (r.0.complete <==> ok || p.complete)
      && (!ok ==> !r.0.dialog && r.0 == p.(dialog := false))
      && !PaymentError(p).dialog && PaymentError(p).complete == p.complete
  {
  }

  /** A provider who paid for a standard or premium order through the
      widget, and whose order the payment service reports as completed, in
      dollars and cents, to the merchant, has the verification accepted and
      the chosen plan activated. */
  lemma PaidOrderVerifies(db: Db, me: nat, p: Page, orderId: string, merchant: string, now: int)
    requires me < |db.users| && IsProvider(db, me) && orderId != ""
    requires p.selected == STANDARD || p.selected == PREMIUM
    ensures var q := Approve(p, orderId, true).1;
      var reported := Order("COMPLETED", OrderAmount(p) + ".00", "USD", merchant);
      var r := VerifiedPayment(db, me, Some(q.orderId), Some(q.plan), Some(reported), merchant, now);
      r.status == 200 && r.db == Activate(db, me, p.selected, now)
  {
    OrderAmountMatchesPrice(p);
  }

  /** `handleCloseModal`: the page afterwards and the navigation, if any. */
  function CloseModal(p: Page): (r: (Page, Option<string>)) {
    if p.complete then (p, Some(WORKSPACE_SELECT)) else (p.(dialog := false), None)
  }

  /** Closing leaves for the workspace picker exactly when the subscription
      went through, and otherwise only closes the dialog. */
  lemma CloseModalSpec(p: Page)
    ensures var r := CloseModal(p);
      (r.1.Some? <==> p.complete)
      && (r.1.Some? ==> r.1.value == "/provider/workspace-select" && r.0 == p)
      && (r.1.None? ==> r.0 == p.(dialog := false))
  {
  }

  /** Selecting a plan and cancelling before anything went through returns
      to the page as it was, save the plan remembered. */
  lemma SelectThenCancel(p: Page, id: string)
    requires !p.complete && !p.dialog
    ensures CloseModal(SelectPlan(p, id)).0 == p.(selected := id)
  {
  }
}

=== FILE: super_admin_dashboard.dfy ===
/** The super administrator's dashboard
    (web/mothers-garage/src/app/super-admin/dashboard/page.tsx): the form
    that creates an administrator, validated field by field, and sign-out.
    The create request is an input. */
module SuperAdminDashboard {
  import opened Common
  import opened Validators
  import opened SignupSteps
  import opened HttpClient
  import Registration

  /** The inputs of the form, named by their element ids. */
  datatype AdminField = Username | Email | FirstName | LastName | Password | ConfirmPassword

  datatype AdminForm = AdminForm(username: string, email: string, firstName: string, lastName: string,
                                 password: string, confirm: string)

  const EMPTY_FORM := AdminForm("", "", "", "", "", "")

  /** The four error slots; "" is no error. */
  datatype FormErrors = FormErrors(username: string, email: string, password: string, confirm: string)

  const NO_ERRORS := FormErrors("", "", "", "")

  /** Whether a field has an error slot: the names have none. */
  predicate HasErrorSlot(f: AdminField) {
    !(f == FirstName || f == LastName)
  }

  function SetField(form: AdminForm, f: AdminField, value: string): (form': AdminForm) {
    match f
    case Username => form.(username := value)
    case Email => form.(email := value)
    case FirstName => form.(firstName := value)
    case LastName => form.(lastName := value)
    case Password => form.(password := value)
    case ConfirmPassword => form.(confirm := value)
  }

  function GetField(form: AdminForm, f: AdminField): (value: string) {
    match f
    case Username => form.username
    case Email => form.email
    case FirstName => form.firstName
    case LastName => form.lastName
    case Password => form.password
    case ConfirmPassword => form.confirm
  }

  function ClearError(e: FormErrors, f: AdminField): (e': FormErrors) {
    match f
    case Username => e.(username := "")
    case Email => e.(email := "")
    case Password => e.(password := "")
    case ConfirmPassword => e.(confirm := "")
    case _ => e
  }

  /** `handleAdminInputChange`: the field takes the value, and its error
      slot, if it has one, is cleared. */
  function InputChange(form: AdminForm, errors: FormErrors, f: AdminField, value: string): (r: (AdminForm, FormErrors)) {
    (SetField(form, f, value), if HasErrorSlot(f) then ClearError(errors, f) else errors)
  }

  /** Typing changes the field typed in and no other; the other errors
      stay, and typing in a name field leaves every error as it was. */
  lemma InputChangeSpec(form: AdminForm, errors: FormErrors, f: AdminField, value: string)
    ensures var r := InputChange(form, errors, f, value);
      GetField(r.0, f) == value
      && (forall g: AdminField | g != f :: GetField(r.0, g) == GetField(form, g))
      && (!HasErrorSlot(f) ==> r.1 == errors)
      && (f == Username ==> r.1 == errors.(username := ""))
      && (f == Email ==> r.1 == errors.(email := ""))
      && (f == Password ==> r.1 == errors.(password := ""))
      && (f == ConfirmPassword ==> r.1 == errors.(confirm := ""))
  {
  }

  /** `validateAdminForm`: every check runs and fills its own slot. */
  function ValidateAdminForm(form: AdminForm): (r: (bool, FormErrors)) {
    var e := FormErrors(
      if IsBlank(form.username) then USERNAME_REQUIRED else "",
      if !IsValidEmail(form.email) then EMAIL_INVALID else "",
      if !IsStrongPassword(form.password) then PASSWORD_WEAK else "",
      if !PasswordsMatch(form.password, form.confirm) then PASSWORDS_DIFFER else "");
    (!IsBlank(form.username) && IsValidEmail(form.email) && IsStrongPassword(form.password)
       && PasswordsMatch(form.password, form.confirm), e)
  }

  /** The form is valid exactly when no slot holds an error, and each slot
      holds its message exactly when its own check fails, whatever the
      others do. */
  lemma ValidateAdminFormSpec(form: AdminForm)
    ensures var r := ValidateAdminForm(form);
      (r.0 <==> r.1 == NO_ERRORS)
      && (r.1.username != "" <==> IsBlank(form.username))
      && (r.1.email != "" <==> !IsValidEmail(form.email))
      && (r.1.password != "" <==> !IsStrongPassword(form.password))
      && (r.1.confirm != "" <==> form.password != form.confirm)
      && (r.1.username != "" ==> r.1.username == USERNAME_REQUIRED)
      && (r.1.email != "" ==> r.1.email == EMAIL_INVALID)
      && (r.1.password != "" ==> r.1.password == PASSWORD_WEAK)
      && (r.1.confirm != "" ==> r.1.confirm == PASSWORDS_DIFFER)
  {
  }

  /** The administrator form asks for what the sign-up wizards' account
      step asks for, less the phone number: it accepts exactly when that
      step, given a valid phone, does. */
  lemma AdminFormAgreesWithSignup(form: AdminForm, phone: string)
    requires IsValidPhoneNumber(phone)
    ensures ValidateAdminForm(form).0 <==>
            AccountStepError(form.username, form.email, form.password, form.confirm, phone).None?
  {
    AccountStepAccepts(form.username, form.email, form.password, form.confirm, phone);
  }

  /** What `handleCreateAdmin` did: the form and errors afterwards, whether
      the dialog is open, and the body sent, if the request went out. */
  datatype Created = Created(form: AdminForm, errors: FormErrors, open: bool, sent: Option<AdminForm>)

  /** `handleCreateAdmin`; `ok` says whether the request succeeded. */
  function CreateAdmin(form: AdminForm, open: bool, ok: bool): (c: Created) {
    var v := ValidateAdminForm(form);
    if !v.0 then Created(form, v.1, open, None)
    else if ok then Created(EMPTY_FORM, v.1, false, Some(form))
    else Created(form, v.1, open, Some(form))
  }

  /** An invalid form sends nothing and shows its errors; a valid one is
      sent as typed, and a success empties every field and closes the
      dialog while a failure keeps both. */
  lemma CreateAdminSpec(form: AdminForm, open: bool, ok: bool)
    ensures var c := CreateAdmin(form, open, ok);
      (c.sent.Some? <==> ValidateAdminForm(form).0)
      && c.errors == ValidateAdminForm(form).1
      && (c.sent.Some? ==> c.sent.value == form && c.errors == NO_ERRORS)
      && (c.sent.Some? && ok ==> c.form == EMPTY_FORM && !c.open)
      && (!(c.sent.Some? && ok) ==> c.form == form && c.open == open)
  {
    ValidateAdminFormSpec(form);
  }

  /** Browser storage. */
  type Storage = map<string, string>

  /** `handleLogout`: the two entries the dashboard knows of are removed
      before going to the administrator sign-in page. */
  function Logout(s: Storage): (r: (Storage, string)) {
    (s - {"auth_token", "user_role"}, "/admin/login")
  }

  /** The tokens the HTTP client reads from storage. */
  function TokensIn(s: Storage): (st: TokenStore) {
    TokenStore(if "access_token" in s then Some(s["access_token"]) else None,
               if "refresh_token" in s then Some(s["refresh_token"]) else None)
  }

  /** Sign-out removes exactly `auth_token` and `user_role`. The
      administrator sign-in also stores the token as `access_token`, which
      stays, so requests made after sign-out still carry it. */
  lemma LogoutSpec(s: Storage)
    ensures var r := Logout(s);
      "auth_token" !in r.0 && "user_role" !in r.0 && r.1 == "/admin/login"
      && (forall k | k in s && k != "auth_token" && k != "user_role" :: k in r.0 && r.0[k] == s[k])
      && r.0.Keys == s.Keys - {"auth_token", "user_role"}
      && TokensIn(r.0) == TokensIn(s)
      && ("access_token" in s && s["access_token"] != "" ==>
            AuthorizationHeader(TokensIn(r.0)) == Some("Bearer " + s["access_token"]))
  {
  }

  /** The body `createAdminUser` sends for a form. */
  function BodyOf(form: AdminForm): (b: Registration.AdminUserBody) {
    Registration.AdminUserBody(form.username, form.email, Some(form.firstName), Some(form.lastName),
                               form.password, form.confirm)
  }

  /** A strong password has no surrounding white space to strip. */
  lemma StrongPasswordUnstripped(p: string)
    requires IsStrongPassword(p)
    ensures PyStrip(p) == p
  {
    assert IsPasswordChar(p[0]) && IsPasswordChar(p[|p| - 1]);
  }

  /** A form the dashboard sends passes the creation serializer's checks
      exactly when its username is not blank by Python's reckoning: its
      e-mail holds an '@' and so is never blank, and the password arrives as
      typed. The two notions of blank differ: a username made of the
      information separator U+001C passes the form and is then refused. */
  lemma SentFormMeetsSerializer(form: AdminForm, open: bool, ok: bool)
    requires CreateAdmin(form, open, ok).sent.Some?
    ensures var v := Registration.ValidateAdminUser(BodyOf(form));
      (v.Some? <==> PyStrip(form.username) != "")
      && (v.Some? ==> v.value.password == form.password && v.value.email == PyStrip(form.email))
    ensures !IsBlank("\U{1C}") && PyStrip("\U{1C}") == ""
  {
    ValidateAdminFormSpec(form);
    StrongPasswordUnstripped(form.password);
    var at := IndexOf(form.email, '@');
    assert form.email[at] == '@';
    PyStripNotBlank(form.email, at);
    Registration.ValidateAdminUserSpec(BodyOf(form));
    assert PyStrip("\U{1C}") == PyStrip("");
  }
}

=== FILE: tutorials.dfy ===
/** The two first-time tutorials (web/mothers-garage/src/app/mother/tutorial/page.tsx
    and web/mothers-garage/src/app/provider/tutorial/page.tsx): three
    pages, the last of which tells the backend the tutorial is done and
    moves on. The completion request is an input. */
module Tutorials {
  import opened Common
  import opened Accounts
  import opened Store
  import opened PaymentViews
  import opened WorkspaceViews
  import opened LoginPage

  const TOTAL_STEPS := 3
  const MOTHER_DONE := "/mother/dashboard"
  const PROVIDER_DONE := "/provider/subscription"

  /** The tutorial's page and busy flag. */
  datatype Tutorial = Tutorial(step: nat, loading: bool)

  /** What `nextStep` did: the tutorial afterwards, whether the completion
      request was sent, and the navigation. */
  datatype Advanced = Advanced(tutorial: Tutorial, called: bool, navigate: Option<string>)

  /** `nextStep` of a tutorial whose completion leads to `done`; `ok` says
      whether the completion request succeeded. */
  function NextStep(t: Tutorial, done: string, ok: bool): (a: Advanced) {
    if t.step < TOTAL_STEPS then Advanced(t.(step := t.step + 1), false, None)
    else if ok then Advanced(t.(loading := false), true, Some(done))
    else Advanced(t.(loading := false), true, None)
  }

  /** The mother's tutorial ends on her dashboard. */
  function MotherNext(t: Tutorial, ok: bool): (a: Advanced) {
    NextStep(t, MOTHER_DONE, ok)
  }

  /** The provider's tutorial ends at the plan picker. */
  function ProviderNext(t: Tutorial, ok: bool): (a: Advanced) {
    NextStep(t, PROVIDER_DONE, ok)
  }

  /** Before the last page a press moves one page on and sends nothing; on
      the last page it sends the completion request and leaves only if that
      succeeded, staying on the page otherwise. */
  lemma NextStepSpec(t: Tutorial, ok: bool)
    requires 1 <= t.step <= TOTAL_STEPS
    ensures var m := MotherNext(t, ok);
      var p := ProviderNext(t, ok);
      (m.called <==> t.step == 3) && (p.called <==> t.step == 3)
      && 1 <= m.tutorial.step <= 3
      && (t.step < 3 ==> m.tutorial.step == t.step + 1 && m.navigate.None?)
      && (m.called ==> m.tutorial.step == 3 && !m.tutorial.loading)
      && (m.navigate.Some? <==> m.called && ok)
      && (p.navigate.Some? <==> p.called && ok)
      && (m.navigate.Some? ==> m.navigate.value == "/mother/dashboard")
      && (p.navigate.Some? ==> p.navigate.value == "/provider/subscription")
  {
  }

  /** Presses from the first page. */
  function Presses(t: Tutorial, k: nat, done: string, ok: bool): (a: Advanced)
    decreases k
  {
    if k == 0 then Advanced(t, false, None)
    else
      var a := NextStep(t, done, ok);
      if k == 1 || a.navigate.Some? then a else Presses(a.tutorial, k - 1, done, ok)
  }

  /** From the first page the completion request goes out on the third
      press and not before: two presses only turn pages. */
  lemma {:induction false} ThirdPressCompletes(t: Tutorial, k: nat, done: string, ok: bool)
    requires t.step == 1 && 1 <= k
    ensures var a := Presses(t, k, done, ok);
      (k < 3 ==> !a.called && a.tutorial.step == 1 + k)
      && (k >= 3 ==> a.called && a.tutorial.step == 3 && (ok ==> a.navigate == Some(done)))
  {
    var a1 := NextStep(t, done, ok);
    if k > 1 {
      var a2 := NextStep(a1.tutorial, done, ok);
      if k > 2 {
        assert Presses(t, k, done, ok) == Presses(a1.tutorial, k - 1, done, ok);
        assert Presses(a1.tutorial, k - 1, done, ok) == Presses(a2.tutorial, k - 2, done, ok);
        StaysOnLastPage(a2.tutorial, k - 2, done, ok);
      }
    }
  }

  /** On the last page every press sends the completion request; the first
      success leaves. */
  lemma {:induction false} StaysOnLastPage(t: Tutorial, k: nat, done: string, ok: bool)
    requires t.step == 3 && k >= 1
    ensures var a := Presses(t, k, done, ok);
      a.called && a.tutorial.step == 3 && (ok ==> a.navigate == Some(done))
    decreases k
  {
    var a := NextStep(t, done, ok);
    if k > 1 && a.navigate.None? {
      StaysOnLastPage(a.tutorial, k - 1, done, ok);
    }
  }

  /** Once the mother's completion request succeeds, her next sign-in finds
      the first-time flag off and goes to her dashboard, not the tutorial. */
  lemma MotherTutorialShownOnce(db: Db, me: nat)
    requires me < |db.users| && IsMother(db, me) && me in db.mothers
    ensures var d := CompleteMotherTutorial(db, me).db;
      var flag := CheckMotherFirstTime(d, me);
      flag == (200, Some(false)) && Landing(Some("mother"), flag.1.value) == "/mother/dashboard"
  {
    MotherTutorialRoundTrip(db, me);
  }

  /** Likewise for a provider: the next sign-in goes to the workspace
      picker. */
  lemma ProviderTutorialShownOnce(db: Db, me: nat)
    requires me < |db.users| && IsProvider(db, me) && me in db.providers
    ensures var d := CompleteTutorial(db, me).db;
      var flag := CheckFirstTime(d, me);
      flag == (200, Some(false)) && Landing(Some("provider"), flag.1.value) == "/provider/workspace-select"
  {
    TutorialFlagRoundTrip(db, me);
  }

  /** The provider tutorial's country: "US" until the status request
      answers, then whatever the answer holds (possibly nothing); a failed
      request keeps "US". */
  function TutorialCountry(reply: Option<StatusReply>): (c: Option<string>) {
    if reply.Some? && 200 <= reply.value.status < 300 then reply.value.country else Some("US")
  }

  /** For a provider with a profile, the tutorial shows the profile's
      country; for anyone else the request fails and "US" stays. */
  lemma TutorialCountrySpec(db: Db, me: nat, now: int)
    requires me < |db.users|
    ensures var c := TutorialCountry(Some(SubscriptionStatus(db, me, now)));
      (IsProvider(db, me) && me in db.providers ==> c == Some(db.providers[me].country))
      && (!(IsProvider(db, me) && me in db.providers) ==> c == Some("US"))
      && TutorialCountry(None) == Some("US")
  {
  }
}

=== FILE: validators.dfy ===
/** The client's form validators and display helpers
    (web/mothers-garage/src/lib/utils.ts). Each regular expression is stated
    twice: as the decision procedure the form code calls, and as the shape the
    pattern describes; a lemma shows the two agree on every input. */
module Validators {
  import opened Common

  // ---------------------------------------------------------------------
  // e-mail: /^[^\s@]+@[^\s@]+\.[^\s@]+$/

  /** A non-empty run of characters that are neither white space nor '@'. */
  predicate EmailPiece(s: string) {
    |s| > 0 && forall k | 0 <= k < |s| :: !IsJsSpace(s[k]) && s[k] != '@'
  }

  /** `s` matches the pattern with its '@' at `at` and its literal '.' at `dot`. */
  predicate EmailShapeAt(s: string, at: int, dot: int) {
    0 < at < dot < |s| - 1 && s[at] == '@' && s[dot] == '.'
    && EmailPiece(s[..at]) && EmailPiece(s[at + 1..dot]) && EmailPiece(s[dot + 1..])
  }

  /** The language of the e-mail pattern. */
  ghost predicate EmailPatternMatches(s: string) {
    exists at, dot :: EmailShapeAt(s, at, dot)
  }

  /** The decision the sign-up and forgot-password forms use: no white space,
      exactly one '@' with something before it, and a '.' strictly inside the
      part after it. */
  predicate IsValidEmail(s: string) {
    var at := IndexOf(s, '@');
    (forall k | 0 <= k < |s| :: !IsJsSpace(s[k]))
    && 0 < at < |s| && '@' !in s[at + 1..]
    && exists dot | at + 1 < dot < |s| - 1 :: s[dot] == '.'
  }

  /** `isValidEmail` accepts exactly the strings the pattern matches. */
  lemma IsValidEmailMatchesPattern(s: string)
    ensures IsValidEmail(s) <==> EmailPatternMatches(s)
  {
    if IsValidEmail(s) {
      ValidEmailMatches(s);
    }
    if EmailPatternMatches(s) {
      var at, dot :| EmailShapeAt(s, at, dot);
      MatchIsValidEmail(s, at, dot);
    }
  }

  /** An accepted address splits at its '@' and a '.' after it. */
  lemma ValidEmailMatches(s: string)
    requires IsValidEmail(s)
    ensures EmailPatternMatches(s)
  {
    var at := IndexOf(s, '@');
    var dot :| at + 1 < dot < |s| - 1 && s[dot] == '.';
    var domain := s[at + 1..];
    var mid, tail := s[at + 1..dot], s[dot + 1..];
    assert EmailPiece(mid) by {
      forall k | 0 <= k < |mid| ensures mid[k] != '@' {
        assert mid[k] == domain[k];
      }
    }
    assert EmailPiece(tail) by {
      forall k | 0 <= k < |tail| ensures tail[k] != '@' {
        assert tail[k] == domain[dot - at + k];
      }
    }
    assert EmailShapeAt(s, at, dot);
  }

  /** A matching address has no white space and its one '@' at `at`. */
  lemma MatchIsValidEmail(s: string, at: int, dot: int)
    requires EmailShapeAt(s, at, dot)
    ensures IsValidEmail(s)
  {
    var head, mid, tail := s[..at], s[at + 1..dot], s[dot + 1..];
    forall k | 0 <= k < |s| ensures !IsJsSpace(s[k]) {
      if k < at {
        assert head[k] == s[k];
      } else if at < k < dot {
        assert mid[k - at - 1] == s[k];
      } else if dot < k {
        assert tail[k - dot - 1] == s[k];
      }
    }
    forall k | 0 <= k < at ensures s[k] != '@' {
      assert head[k] == s[k];
    }
    assert IndexOf(s, '@') == at;
    var domain := s[at + 1..];
    assert '@' !in domain by {
      forall k | 0 <= k < |domain| ensures domain[k] != '@' {
        var j := at + 1 + k;
        if j < dot {
          assert mid[k] == s[j];
        } else if j > dot {
          assert tail[j - dot - 1] == s[j];
        }
      }
    }
  }

  // ---------------------------------------------------------------------
  // password:
  // /^(?=.*[a-z])(?=.*[A-Z])(?=.*\d)(?=.*[@$!%*?&])[A-Za-z\d@$!%*?&]{8,}$/

  /** The symbols the password pattern requires one of. */
  predicate IsPasswordSymbol(c: char) {
    c == '@' || c == '$' || c == '!' || c == '%' || c == '*' || c == '?' || c == '&'
  }

  /** The only characters a password may contain. */
  predicate IsPasswordChar(c: char) {
    IsLower(c) || IsUpper(c) || IsDigit(c) || IsPasswordSymbol(c)
  }

  /** The language of the password pattern: at least eight characters, all
      from the allowed alphabet, and each of the four classes present. */
  predicate IsStrongPassword(p: string) {
    |p| >= 8
    && (forall k | 0 <= k < |p| :: IsPasswordChar(p[k]))
    && (exists k | 0 <= k < |p| :: IsLower(p[k]))
    && (exists k | 0 <= k < |p| :: IsUpper(p[k]))
    && (exists k | 0 <= k < |p| :: IsDigit(p[k]))
    && (exists k | 0 <= k < |p| :: IsPasswordSymbol(p[k]))
  }

  /** One left-to-right pass over the password, as a regular-expression engine
      runs the four look-aheads and the character class together. */
  method ScanStrongPassword(p: string) returns (ok: bool)
    ensures ok <==> IsStrongPassword(p)
  {
    var lower, upper, digit, symbol, allowed := false, false, false, false, true;
    var i := 0;
    while i < |p|
      invariant 0 <= i <= |p|
      invariant lower <==> exists k | 0 <= k < i :: IsLower(p[k])
      invariant upper <==> exists k | 0 <= k < i :: IsUpper(p[k])
      invariant digit <==> exists k | 0 <= k < i :: IsDigit(p[k])
      invariant symbol <==> exists k | 0 <= k < i :: IsPasswordSymbol(p[k])
      invariant allowed <==> forall k | 0 <= k < i :: IsPasswordChar(p[k])
    {
      var c := p[i];
      lower := lower || IsLower(c);
      upper := upper || IsUpper(c);
      digit := digit || IsDigit(c);
      symbol := symbol || IsPasswordSymbol(c);
      allowed := allowed && IsPasswordChar(c);
      i := i + 1;
    }
    ok := |p| >= 8 && allowed && lower && upper && digit && symbol;
  }

  /** `passwordsMatch`: strict string equality. */
  predicate PasswordsMatch(password: string, confirm: string) {
    password == confirm
  }

  // ---------------------------------------------------------------------
  // phone: /^\+[1-9]\d{1,14}$/

  /** A '+', a non-zero leading digit, and one to fourteen further digits. */
  predicate IsValidPhoneNumber(p: string) {
    2 <= |p| - 1 <= 15 && p[0] == '+' && '1' <= p[1] <= '9'
    && forall k | 2 <= k < |p| :: IsDigit(p[k])
  }

  /** A valid number is '+' followed by 2 to 15 digits and nothing else, so
      separators such as '-' or ' ' are never accepted. */
  lemma ValidPhoneShape(p: string)
    requires IsValidPhoneNumber(p)
    ensures 3 <= |p| <= 16
    ensures p == "+" + Digits(p)
    ensures '-' !in p && ' ' !in p
  {
    var tail := p[1..];
    assert Digits(tail) == tail by {
      forall k | 0 <= k < |tail| ensures IsDigit(tail[k]) {
        assert tail[k] == p[k + 1];
      }
      AllDigits(tail);
    }
    assert Digits(p) == tail by {
      DigitsCons(p[0], tail);
      assert [p[0]] + tail == p;
    }
    assert p == [p[0]] + tail;
    forall k | 0 <= k < |p| ensures p[k] != '-' && p[k] != ' ' {
      if k > 0 {
        assert IsDigit(p[k]);
      }
    }
  }

  /** The dashed form written next to the pattern is not accepted by it. */
  lemma DashedPhoneRejected()
    ensures !IsValidPhoneNumber("+1-555-555-5555")
  {
    assert "+1-555-555-5555"[2] == '-';
  }

  // ---------------------------------------------------------------------
  // formatPhoneNumber

  /** `s.replace(/\D/g, "")`: the ASCII digits of `s`, in order. */
  function Digits(s: string): (d: string)
    ensures |d| <= |s|
    ensures forall k | 0 <= k < |d| :: IsDigit(d[k])
  {
    if s == [] then [] else (if IsDigit(s[0]) then [s[0]] else []) + Digits(s[1..])
  }

  lemma DigitsCons(c: char, s: string)
    ensures Digits([c] + s) == (if IsDigit(c) then [c] else []) + Digits(s)
  {
    assert ([c] + s)[1..] == s;
  }

  lemma {:induction false} DigitsAppend(a: string, b: string)
    ensures Digits(a + b) == Digits(a) + Digits(b)
  {
    if a == [] {
      assert a + b == b;
    } else {
      assert (a + b)[1..] == a[1..] + b;
      DigitsAppend(a[1..], b);
    }
  }

  lemma {:induction false} AllDigits(s: string)
    requires forall k | 0 <= k < |s| :: IsDigit(s[k])
    ensures Digits(s) == s
  {
    if s != [] {
      AllDigits(s[1..]);
    }
  }

  /** `formatPhoneNumber`: 10, 11 and 12 digits get a display layout; any
      other text is returned unchanged, and the empty text stays empty. */
  function FormatPhoneNumber(p: string): (r: string) {
    if p == "" then ""
    else
      var c := Digits(p);
      if |c| == 10 then Layout10(c)
      else if |c| == 11 then Layout11(c)
      else if |c| == 12 then Layout12(c)
      else p
  }

  /** `(ddd) ddd-dddd` */
  function Layout10(c: string): string
    requires |c| == 10
  {
    "(" + c[..3] + (") " + c[3..6] + ("-" + c[6..]))
  }

  /** `+d (ddd) ddd-dddd` */
  function Layout11(c: string): string
    requires |c| == 11
  {
    "+" + c[..1] + (" (" + c[1..4] + (") " + c[4..7] + ("-" + c[7..])))
  }

  /** `+ddd ddd ddd ddd` */
  function Layout12(c: string): string
    requires |c| == 12
  {
    "+" + c[..3] + (" " + c[3..6] + (" " + c[6..9] + (" " + c[9..])))
  }

  /** Formatting only inserts punctuation: the digits stay the same and in the
      same order. */
  lemma FormatPreservesDigits(p: string)
    ensures Digits(FormatPhoneNumber(p)) == Digits(p)
  {
    if p != "" {
      var c := Digits(p);
      if |c| == 10 {
        Layout10Digits(c);
      } else if |c| == 11 {
        Layout11Digits(c);
      } else if |c| == 12 {
        Layout12Digits(c);
      }
    }
  }

  lemma Layout10Digits(c: string)
    requires |c| == 10 && forall k | 0 <= k < |c| :: IsDigit(c[k])
    ensures Digits(Layout10(c)) == c
  {
    PunctRun("-", c[6..]);
    PunctThenRun(") ", c[3..6], "-" + c[6..]);
    PunctThenRun("(", c[..3], ") " + c[3..6] + ("-" + c[6..]));
    assert c[..3] + (c[3..6] + c[6..]) == c;
  }

  lemma Layout11Digits(c: string)
    requires |c| == 11 && forall k | 0 <= k < |c| :: IsDigit(c[k])
    ensures Digits(Layout11(c)) == c
  {
    PunctRun("-", c[7..]);
    PunctThenRun(") ", c[4..7], "-" + c[7..]);
    PunctThenRun(" (", c[1..4], ") " + c[4..7] + ("-" + c[7..]));
    PunctThenRun("+", c[..1], " (" + c[1..4] + (") " + c[4..7] + ("-" + c[7..])));
    assert c[..1] + (c[1..4] + (c[4..7] + c[7..])) == c;
  }

  lemma Layout12Digits(c: string)
    requires |c| == 12 && forall k | 0 <= k < |c| :: IsDigit(c[k])
    ensures Digits(Layout12(c)) == c
  {
    PunctRun(" ", c[9..]);
    PunctThenRun(" ", c[6..9], " " + c[9..]);
    PunctThenRun(" ", c[3..6], " " + c[6..9] + (" " + c[9..]));
    PunctThenRun("+", c[..3], " " + c[3..6] + (" " + c[6..9] + (" " + c[9..])));
    assert c[..3] + (c[3..6] + (c[6..9] + c[9..])) == c;
  }

  lemma PunctRun(punct: string, run: string)
    requires forall k | 0 <= k < |punct| :: !IsDigit(punct[k])
    requires forall k | 0 <= k < |run| :: IsDigit(run[k])
    ensures Digits(punct + run) == run
  {
    NoDigits(punct);
    AllDigits(run);
    DigitsAppend(punct, run);
  }

  /** Punctuation contributes no digits; a digit run contributes itself. */
  lemma PunctThenRun(punct: string, run: string, rest: string)
    requires forall k | 0 <= k < |punct| :: !IsDigit(punct[k])
    requires forall k | 0 <= k < |run| :: IsDigit(run[k])
    ensures Digits(punct + run + rest) == run + Digits(rest)
  {
    NoDigits(punct);
    AllDigits(run);
    DigitsAppend(punct, run);
    assert Digits(punct + run) == run;
    DigitsAppend(punct + run, rest);
  }

  lemma {:induction false} NoDigits(s: string)
    requires forall k | 0 <= k < |s| :: !IsDigit(s[k])
    ensures Digits(s) == []
  {
    if s != [] {
      NoDigits(s[1..]);
    }
  }

  /** Formatting an already formatted number changes nothing. */
  lemma FormatIdempotent(p: string)
    ensures FormatPhoneNumber(FormatPhoneNumber(p)) == FormatPhoneNumber(p)
  {
    FormatPreservesDigits(p);
  }

  // ---------------------------------------------------------------------
  // truncateText

  /** JavaScript `text.slice(0, end)` for an integer `end`: a negative end
      counts from the back, and the end is clamped to the text. */
  function SliceTo(text: string, end: int): (r: string)
    ensures |r| <= |text|
  {
    var e := if end < 0 then (if |text| + end < 0 then 0 else |text| + end)
             else if end > |text| then |text| else end;
    text[..e]
  }

  /** `truncateText`: texts no longer than `maxLength` are kept, longer ones
      are cut and marked with "...". Lengths count code points, where
      JavaScript counts UTF-16 units. */
  function TruncateText(text: string, maxLength: int): (r: string) {
    if |text| <= maxLength then text else SliceTo(text, maxLength) + "..."
  }

  /** Texts within the limit are returned as they are; with a non-negative
      limit a longer text keeps exactly its first `maxLength` characters and
      gains the three-character marker; a negative limit drops that many
      characters from the end (all of them when it exceeds the length). */
  lemma TruncateTextShape(text: string, maxLength: int)
    ensures |text| <= maxLength ==> TruncateText(text, maxLength) == text
    ensures 0 <= maxLength < |text| ==>
      TruncateText(text, maxLength) == text[..maxLength] + "..."
      && |TruncateText(text, maxLength)| == maxLength + 3
    ensures maxLength < 0 ==>
      TruncateText(text, maxLength)
        == text[..if |text| + maxLength < 0 then 0 else |text| + maxLength] + "..."
  {
  }

  /** Truncating twice with the same non-negative limit is truncating once. */
  lemma TruncateIdempotent(text: string, maxLength: int)
    requires 0 <= maxLength
    ensures TruncateText(TruncateText(text, maxLength), maxLength) == TruncateText(text, maxLength)
  {
    var r := TruncateText(text, maxLength);
    if |text| > maxLength {
      assert r == text[..maxLength] + "...";
      assert r[..maxLength] == text[..maxLength];
    }
  }

  // ---------------------------------------------------------------------
  // getInitials

  /** `s.charAt(0)`: the first character, or "" for the empty text. */
  function CharAt0(s: string): (r: string) {
    if s == [] then "" else [s[0]]
  }

  /** `getInitials`: the upper-cased first letters of the first and the last
      space-separated word; one word gives one letter. Upper-casing is
      ASCII only, where JavaScript's covers all of Unicode. */
  function GetInitials(name: string): (r: string) {
    if name == "" then ""
    else
      var names := Split(name, ' ');
      if |names| == 1 then ToUpper(CharAt0(names[0]))
      else ToUpper(CharAt0(names[0]) + CharAt0(names[|names| - 1]))
  }

  /** The initial of the first word: the name's first character, unless the
      name starts with a space. */
  function FirstInitial(name: string): string {
    if name != [] && name[0] != ' ' then [UpperChar(name[0])] else []
  }

  /** The initial of the last word: the character right after the last space,
      when the name has a space not at its very end. */
  function LastInitial(name: string): string {
    var last := LastIndexOf(name, ' ');
    if 0 <= last && last + 1 < |name| then [UpperChar(name[last + 1])] else []
  }

  /** The initials read directly off the name's characters: the first
      character (unless it is a space) and, when the name contains a space,
      the character right after the last space; so at most two letters. */
  lemma GetInitialsFromSpaces(name: string)
    ensures |GetInitials(name)| <= 2
    ensures ' ' !in name ==> GetInitials(name) == FirstInitial(name)
    ensures ' ' in name ==> GetInitials(name) == FirstInitial(name) + LastInitial(name)
  {
    if name != "" {
      if ' ' !in name {
        InitialsOneWord(name);
      } else {
        InitialsSeveralWords(name);
      }
    }
  }

  lemma InitialsOneWord(name: string)
    requires name != "" && ' ' !in name
    ensures GetInitials(name) == FirstInitial(name)
  {
    assert IndexOf(name, ' ') == |name|;
    assert Split(name, ' ') == [name];
    assert CharAt0(name) == [name[0]];
  }

  lemma InitialsSeveralWords(name: string)
    requires ' ' in name
    ensures GetInitials(name) == FirstInitial(name) + LastInitial(name)
  {
    var a := CharAt0(Split(name, ' ')[0]);
    var b := CharAt0(LastPart(name, ' '));
    InitialsOfFirstAndLast(name);
    FirstWordInitial(name);
    LastWordInitial(name);
    ToUpperAppend(a, b);
  }

  /** With a space there are several words: the initials come from the
      first and the last. */
  lemma InitialsOfFirstAndLast(name: string)
    requires ' ' in name
    ensures GetInitials(name) == ToUpper(CharAt0(Split(name, ' ')[0]) + CharAt0(LastPart(name, ' ')))
  {
    var i := IndexOf(name, ' ');
    assert i < |name|;
    SplitFirstSeparator(name, ' ');
  }

  /** The first word's initial is the name's first character. */
  lemma FirstWordInitial(name: string)
    requires ' ' in name
    ensures ToUpper(CharAt0(Split(name, ' ')[0])) == FirstInitial(name)
  {
    var i := IndexOf(name, ' ');
    assert i < |name|;
    assert Split(name, ' ')[0] == name[..i];
  }

  /** The last word's initial is the character after the last space. */
  lemma LastWordInitial(name: string)
    requires ' ' in name
    ensures ToUpper(CharAt0(LastPart(name, ' '))) == LastInitial(name)
  {
    SplitLast(name, ' ');
  }

}

=== FILE: workspace_select_page.dfy ===
/** The provider's workspace picker
    (web/mothers-garage/src/app/provider/workspace-select/page.tsx): the
    overview response is checked before use, the booking quota is drawn as
    a percentage bar whose colour marks how close the limit is, and picking
    a service stores it and opens the dashboard. */
module WorkspaceSelectPage {
  import opened Common
  import opened Accounts
  import opened Store
  import opened WorkspaceViews

  const DEFAULT_SETTINGS_LINK := "/provider/settings"
  const DASHBOARD := "/provider/dashboard"

  /** The `subscription` object the page reads: plan, bookings used, and
      the limit (`null` when there is none). */
  datatype Usage = Usage(plan: string, used: nat, limit: Option<nat>)

  /** The `services` field as JavaScript sees it. */
  datatype ServicesField = Missing | NotArray | ServiceList(names: seq<string>)

  /** The response body, when there is one. */
  datatype Response = Response(services: ServicesField, subscription: Option<Usage>, settingsLink: Option<string>)

  /** What the page shows once loaded. */
  datatype Workspace = Workspace(services: seq<string>, subscription: Usage, settingsLink: string)

  /** The loading effect; `resp` is `None` when the request failed or the
      body was empty. The result is the data shown, `None` with an error
      toast when the body is incomplete. */
  function Load(resp: Option<Response>): (w: Option<Workspace>) {
    if resp.None? then None
    else
      var r := resp.value;
      if !r.services.ServiceList? || r.subscription.None? then None
      else Some(Workspace(r.services.names, r.subscription.value,
                          if Truthy(r.settingsLink) then r.settingsLink.value else DEFAULT_SETTINGS_LINK))
  }

  /** Data is shown exactly when the body has a `services` array (an empty
      one will do) and a `subscription` object; then both are shown as sent
      and the settings link falls back to "/provider/settings". */
  lemma LoadSpec(resp: Option<Response>)
    ensures var w := Load(resp);
      (w.Some? <==> resp.Some? && resp.value.services.ServiceList? && resp.value.subscription.Some?)
      && (w.Some? ==>
            w.value.services == resp.value.services.names
            && w.value.subscription == resp.value.subscription.value
            && (Truthy(resp.value.settingsLink) ==> w.value.settingsLink == resp.value.settingsLink.value)
            && (!Truthy(resp.value.settingsLink) ==> w.value.settingsLink == "/provider/settings")
            && w.value.settingsLink != "")
  {
  }

  /** The settings link the overview endpoint sends. */
  const OVERVIEW_SETTINGS_LINK := "/api/v1/onboarding/provider_settings"

  /** The overview endpoint's 200 body as the page receives it: the service
      names as a list, in the order `list(set(...))` happened to give, the
      subscription part and the endpoint's settings link. */
  function OverviewBody(o: Overview, order: seq<string>): (r: Response)
    requires forall x :: x in order <==> x in o.services
  {
    Response(ServiceList(order), Some(UsageOf(o)), Some(OVERVIEW_SETTINGS_LINK))
  }

  /** Every answer the overview endpoint gives a provider loads: the page
      shows exactly the provider's services, the subscription as sent, and
      the endpoint's settings link rather than the fallback. */
  lemma OverviewLoads(db: Db, me: nat, now: int, order: seq<string>)
    requires me < |db.users|
    requires WorkspaceOverview(db, me, now).status == 200
    requires forall x :: x in order <==> x in WorkspaceOverview(db, me, now).overview.value.services
    ensures var o := WorkspaceOverview(db, me, now).overview.value;
      var w := Load(Some(OverviewBody(o, order)));
      w.Some?
      && (forall x :: x in w.value.services <==> x in o.services)
      && w.value.subscription == UsageOf(o)
      && w.value.settingsLink == OVERVIEW_SETTINGS_LINK
  {
    OverviewRenewsFirst(db, me, now);
  }

  /** A JavaScript number as far as the bar needs it: a real, or NaN. */
  datatype Percent = Finite(value: real) | NotANumber

  function Min(a: real, b: real): real {
    if a <= b then a else b
  }

  /** `getBookingUsagePercentage`. A `null` limit counts as 0 in the
      division: `used / 0` is infinite, hence capped at 100, unless `used` is
      0 too, when it is NaN, which `Math.min` passes on. */
  function UsagePercentage(sub: Option<Usage>): (p: Percent) {
    if sub.None? then Finite(0.0)
    else if sub.value.plan == PREMIUM then Finite(100.0)
    else
      var limit := sub.value.limit.GetOr(0);
      if limit == 0 then (if sub.value.used == 0 then NotANumber else Finite(100.0))
      else Finite(Min(100.0, (sub.value.used as real / limit as real) * 100.0))
  }

  /** The percentage is never above 100 nor below 0; it is 0 without a
      subscription, 100 on the premium plan, and otherwise the share of the
      limit used, capped at 100. */
  lemma UsagePercentageSpec(sub: Option<Usage>)
    ensures var p := UsagePercentage(sub);
      (p.Finite? ==> 0.0 <= p.value <= 100.0)
      && (sub.None? ==> p == Finite(0.0))
      && (sub.Some? && sub.value.plan == PREMIUM ==> p == Finite(100.0))
      && (p.NotANumber? <==> sub.Some? && sub.value.plan != PREMIUM && sub.value.limit.GetOr(0) == 0
                             && sub.value.used == 0)
      && (sub.Some? && sub.value.plan != PREMIUM && sub.value.limit.GetOr(0) > 0 ==>
            var limit := sub.value.limit.value as real;
            p.Finite? && p.value * limit <= sub.value.used as real * 100.0
            && (p.value == 100.0 || p.value * limit == sub.value.used as real * 100.0))
  {
  }

  /** `getBookingUsageColor`; a NaN fails both comparisons. */
  function UsageColor(sub: Option<Usage>): (c: string) {
    var p := UsagePercentage(sub);
    if p.Finite? && p.value >= 90.0 then "bg-red-500"
    else if p.Finite? && p.value >= 70.0 then "bg-yellow-500"
    else "bg-green-500"
  }

  /** Red from 90 per cent, yellow from 70, green below and for NaN. */
  lemma UsageColorSpec(sub: Option<Usage>)
    ensures var p := UsagePercentage(sub);
      var c := UsageColor(sub);
      (c == "bg-red-500" <==> p.Finite? && p.value >= 90.0)
      && (c == "bg-yellow-500" <==> p.Finite? && 70.0 <= p.value < 90.0)
      && (c == "bg-green-500" <==> p.NotANumber? || p.value < 70.0)
  {
  }

  /** The subscription object the overview endpoint sends. */
  function UsageOf(o: Overview): (u: Usage) {
    Usage(o.plan, o.used, o.limit)
  }

  /** Read against the overview endpoint: a provider who has reached the
      limit sees a full red bar; a premium provider, who has no limit, also
      always sees a full red bar; a provider without a plan sees NaN and
      green before the first booking and a full red bar after it. */
  lemma BarForOverview(db: Db, me: nat, now: int)
    requires me < |db.users|
    requires WorkspaceOverview(db, me, now).status == 200
    ensures var o := WorkspaceOverview(db, me, now).overview.value;
      var sub := Some(UsageOf(o));
      (o.limitReached ==> UsagePercentage(sub) == Finite(100.0) && UsageColor(sub) == "bg-red-500")
      && (o.plan == PREMIUM ==> UsagePercentage(sub) == Finite(100.0) && UsageColor(sub) == "bg-red-500")
      && (o.plan == "none" && o.used == 0 ==> UsagePercentage(sub).NotANumber? && UsageColor(sub) == "bg-green-500")
      && (o.plan == "none" && o.used > 0 ==> UsageColor(sub) == "bg-red-500")
  {
    OverviewLimitAgreesWithQuota(db, me, now);
    var o := WorkspaceOverview(db, me, now).overview.value;
    if o.limitReached && o.plan != PREMIUM {
      var limit := o.limit.value;
      if limit > 0 {
        assert (o.used as real / limit as real) * 100.0 >= 100.0 by {
          assert o.used as real >= limit as real;
          assert o.used as real / limit as real >= 1.0;
        }
      }
    }
  }

  /** What `serviceColors[service]` yields: one of the table's colours, or
      a property every object literal inherits from `Object.prototype` (a
      function, or the prototype itself for `__proto__`). */
  datatype Colour = Hex(text: string) | Inherited(name: string)

  /** The names an object literal inherits from `Object.prototype`
      (section 20.1.3 and Annex B.2.2 of ECMAScript 2024). Each value is a
      function or an object, so it is truthy. */
  const OBJECT_PROTOTYPE_NAMES: set<string> :=
    {"constructor", "__proto__", "hasOwnProperty", "isPrototypeOf", "propertyIsEnumerable", "toLocaleString",
     "toString", "valueOf", "__defineGetter__", "__defineSetter__", "__lookupGetter__", "__lookupSetter__"}

  /** `getServiceColor`: the table's entry when the lookup is truthy, and
      Teletherapy's purple otherwise. An inherited property is truthy, so
      it is passed on rather than replaced by the fallback. */
  function ServiceColor(service: string): (colour: Colour) {
    if service == "Teletherapy" then Hex("#832D90")
    else if service == "Home Care" then Hex("#C46B41")
    else if service == "E-learning" then Hex("#4B9CD3")
    else if service in OBJECT_PROTOTYPE_NAMES then Inherited(service)
    else Hex("#832D90")
  }

  /** The page's `serviceColors` table. */
  const SERVICE_COLOURS: map<string, string> :=
    map["Teletherapy" := "#832D90", "Home Care" := "#C46B41", "E-learning" := "#4B9CD3"]

  /** The colour is the table's own entry, else the inherited property of
      that name, else Teletherapy's colour. */
  lemma ServiceColorIsTableLookup(service: string)
    ensures ServiceColor(service)
            == if service in SERVICE_COLOURS then Hex(SERVICE_COLOURS[service])
               else if service in OBJECT_PROTOTYPE_NAMES then Inherited(service)
               else Hex("#832D90")
  {
  }

  /** Each of the three known services has its own colour; a name inherited
      from `Object.prototype` yields that property instead of a colour; every
      other name is drawn like Teletherapy. */
  lemma ServiceColorSpec(service: string)
    ensures ServiceColor(service).Hex? ==> ServiceColor(service).text in {"#832D90", "#C46B41", "#4B9CD3"}
    ensures (ServiceColor(service) == Hex("#C46B41") <==> service == "Home Care")
    ensures (ServiceColor(service) == Hex("#4B9CD3") <==> service == "E-learning")
    ensures ServiceColor(service).Inherited? <==> service in OBJECT_PROTOTYPE_NAMES
    ensures service !in {"Teletherapy", "Home Care", "E-learning"} && service !in OBJECT_PROTOTYPE_NAMES ==>
              ServiceColor(service) == Hex("#832D90")
  {
  }

  /** The fallback never applies to "constructor": the lookup finds the
      inherited `Object` function first. */
  lemma ConstructorSkipsFallback()
    ensures ServiceColor("constructor") == Inherited("constructor")
    ensures ServiceColor("constructor") != Hex("#832D90")
  {
    assert "constructor" in OBJECT_PROTOTYPE_NAMES;
  }

  /** Browser storage. */
  type Storage = map<string, string>

  /** `handleSelectWorkspace`: the storage afterwards and the page opened. */
  function SelectWorkspace(s: Storage, workspace: string): (r: (Storage, string)) {
    (s["selectedWorkspace" := workspace], DASHBOARD)
  }

  /** The choice is stored under "selectedWorkspace", nothing else in
      storage changes, and the dashboard opens. */
  lemma SelectWorkspaceSpec(s: Storage, workspace: string)
    ensures var r := SelectWorkspace(s, workspace);
      "selectedWorkspace" in r.0 && r.0["selectedWorkspace"] == workspace
      && r.0.Keys == s.Keys + {"selectedWorkspace"}
      && (forall k | k in s && k != "selectedWorkspace" :: r.0[k] == s[k])
      && r.1 == "/provider/dashboard"
  {
  }

  /** The last choice wins: choosing again overwrites the first choice
      entirely. */
  lemma SelectWorkspaceLastWins(s: Storage, first: string, second: string)
    ensures SelectWorkspace(SelectWorkspace(s, first).0, second) == SelectWorkspace(s, second)
  {
    var a := SelectWorkspace(s, first).0["selectedWorkspace" := second];
    var b := s["selectedWorkspace" := second];
    assert a.Keys == b.Keys;
    assert forall k | k in a :: a[k] == b[k];
    assert a == b;
    assert SelectWorkspace(SelectWorkspace(s, first).0, second) == (a, DASHBOARD);
  }

  /** A card picked from a loaded overview stores one of the provider's own
      services. */
  lemma PickedServiceIsOffered(db: Db, me: nat, now: int, order: seq<string>, st: Storage, i: nat)
    requires me < |db.users|
    requires WorkspaceOverview(db, me, now).status == 200
    requires forall x :: x in order <==> x in WorkspaceOverview(db, me, now).overview.value.services
    requires i < |order|
    ensures var o := WorkspaceOverview(db, me, now).overview.value;
      var w := Load(Some(OverviewBody(o, order)));
      w.Some? && i < |w.value.services|
      && SelectWorkspace(st, w.value.services[i]).0["selectedWorkspace"] in o.services
  {
    OverviewLoads(db, me, now, order);
  }
}

=== FILE: workspace_views.dfy ===
/** The provider workspace overview, the provider search and the mother
    tutorial endpoints of backend/onboarding/views.py. */
module WorkspaceViews {
  import opened Common
  import opened Accounts
  import opened Billing
  import opened Store
  import opened PaymentViews

  // ---------------------------------------------------------------------
  // Workspace overview
  // ---------------------------------------------------------------------

  /** The `subscription` part of the overview, and the service names. */
  datatype Overview = Overview(
    plan: string,
    limit: Option<nat>,
    used: nat,
    daysRemaining: nat,
    limitReached: bool,
    nextRenewal: Option<int>,
    shouldWarn: bool,
    services: set<string>)

  datatype OverviewReply = OverviewReply(status: nat, overview: Option<Overview>, db: Db)

  /** Whole days from `now` to `end`, rounded down as `timedelta.days` does,
      and never below zero. */
  function DaysRemaining(end: Option<int>, now: int): (d: nat)
    ensures end.None? || end.value <= now ==> d == 0
    ensures end.Some? && end.value > now ==> d * DAY <= end.value - now < (d + 1) * DAY
  {
    if end.None? then 0
    else
      var days := (end.value - now) / DAY;
      if days < 0 then 0 else days
  }

  /** The names of the service types the given specialities belong to. */
  function ServiceNames(db: Db, specs: set<int>): (names: set<string>)
    ensures forall n :: n in names <==>
      exists s | s in specs && s in db.specialities ::
        db.specialities[s].serviceType in db.serviceTypes && db.serviceTypes[db.specialities[s].serviceType] == n
  {
    set s | s in specs && s in db.specialities && db.specialities[s].serviceType in db.serviceTypes
      :: db.serviceTypes[db.specialities[s].serviceType]
  }

  /** A basic subscription that has run out is renewed on every call, before
      anything else is checked. */
  function RenewOnRead(db: Db, me: nat, now: int): (d: Db) {
    if me in db.subscriptions then
      var r := AutoRenewIfNeeded(db.subscriptions[me], ProviderOf(db, me), now);
      PutProvider(db.(subscriptions := db.subscriptions[me := r.0]), me, r.1)
    else db
  }

  /** `ProviderWorkspaceOverviewView.get`: the quota comes from the profile's
      plan alone ("none" when it is missing or blank), with limits 5 for
      basic, 50 for standard and none otherwise; the warning is for paid
      plans within five days of their end. */
  function WorkspaceOverview(db: Db, me: nat, now: int): (r: OverviewReply)
    requires me < |db.users|
  {
    var d := RenewOnRead(db, me, now);
    if !IsProvider(d, me) then OverviewReply(403, None, d)
    else if me !in d.providers then OverviewReply(404, None, d)
    else
      var p := d.providers[me];
      var plan := if Truthy(p.plan) then p.plan.value else "none";
      var limit := Quota(Some(plan));
      var used := if me in d.usage then d.usage[me].used else 0;
      var days := DaysRemaining(p.subscriptionEnd, now);
      OverviewReply(200, Some(Overview(plan, limit, used, days, limit.Some? && used >= limit.value,
                                       p.subscriptionEnd, (plan == STANDARD || plan == PREMIUM) && days <= 5,
                                       ServiceNames(d, p.specialities))), d)
  }

  /** The renewal happens even for a caller who is then refused, and the
      overview is there exactly for a provider with a profile. */
  lemma OverviewRenewsFirst(db: Db, me: nat, now: int)
    requires me < |db.users|
    ensures var r := WorkspaceOverview(db, me, now);
      r.db == RenewOnRead(db, me, now)
      && (r.status == 403 <==> !IsProvider(db, me))
      && (r.status == 200 <==> IsProvider(db, me) && me in db.providers)
      && (r.overview.Some? <==> r.status == 200)
  {
  }

  /** The overview's limit flag agrees with the booking quota for the three
      plans, but where the quota treats any other plan (a missing one
      included) as exhausted, the overview shows no limit at all. */
  lemma OverviewLimitAgreesWithQuota(db: Db, me: nat, now: int)
    requires me < |db.users|
    ensures var r := WorkspaceOverview(db, me, now);
      r.status == 200 ==>
        var o := r.overview.value;
        (o.limitReached <==> o.limit.Some? && o.used >= o.limit.value)
        && (IsPlanChoice(o.plan) ==> o.limitReached == LimitReachedFor(Some(o.plan), o.used))
        && (!IsPlanChoice(o.plan) ==> !o.limitReached && LimitReachedFor(Some(o.plan), o.used))
        && o.plan == (if Truthy(r.db.providers[me].plan) then r.db.providers[me].plan.value else "none")
  {
  }

  /** A provider on an expired basic subscription sees a fresh thirty-day
      cycle and no warning. */
  lemma RenewedBasicShowsThirtyDays(db: Db, me: nat, now: int)
    requires me < |db.users| && IsProvider(db, me) && me in db.providers
    requires me in db.subscriptions && db.subscriptions[me].plan == Some(BASIC)
    requires HasExpired(db.subscriptions[me], now)
    ensures var r := WorkspaceOverview(db, me, now);
      r.status == 200 && r.overview.value.daysRemaining == 30
      && r.overview.value.nextRenewal == Some(now + CYCLE) && !r.overview.value.shouldWarn
      && IsLive(r.db.subscriptions[me], now)
  {
  }

  // ---------------------------------------------------------------------
  // Provider search
  // ---------------------------------------------------------------------

  /** A provider matches when searchable, offering a service type whose name
      equals the query ignoring case, and in the mother's country ignoring
      case. */
  predicate Matches(db: Db, id: nat, service: string, country: string)
    requires id in db.providers
  {
    var p := db.providers[id];
    p.searchable
    && (exists st | st in p.serviceTypes && st in db.serviceTypes :: EqualsIgnoreCase(db.serviceTypes[st], service))
    && EqualsIgnoreCase(p.country, country)
  }

  /** `SearchProvidersView.get`: 403 for anyone but a mother, 400 without a
      service, 404 without a mother profile; otherwise the ids of the
      matching providers. */
  function SearchProviders(db: Db, me: nat, service: Option<string>): (r: (nat, set<nat>))
    requires me < |db.users|
  {
    if !IsMother(db, me) then (403, {})
    else if !Truthy(service) then (400, {})
    else if me !in db.mothers then (404, {})
    else
      var q := ToLower(PyStrip(service.value));
      var c := ToLower(PyStrip(db.mothers[me].country));
      (200, set id | id in db.providers && Matches(db, id, q, c))
  }

  /** The checks come in order, and the answer is exactly the matching
      providers: every provider listed matches, and every matching provider
      is listed. */
  lemma SearchProvidersSpec(db: Db, me: nat, service: Option<string>)
    requires me < |db.users|
    ensures var r := SearchProviders(db, me, service);
      (r.0 == 403 <==> !IsMother(db, me))
      && (r.0 == 400 <==> IsMother(db, me) && !Truthy(service))
      && (r.0 == 404 <==> IsMother(db, me) && Truthy(service) && me !in db.mothers)
      && (r.0 != 200 ==> r.1 == {})
      && (r.0 == 200 ==>
            forall id :: id in r.1 <==>
              id in db.providers && db.providers[id].searchable
              && Matches(db, id, ToLower(PyStrip(service.value)), ToLower(PyStrip(db.mothers[me].country))))
  {
  }

  /** A provider hidden by the booking that exhausted the quota is not found
      by any search until something makes it searchable again. */
  lemma HiddenProviderNotFound(db: Db, provider: nat, mother: nat, now: int, service: Option<string>)
    requires provider < |db.users| && mother < |db.users|
    requires IsProvider(db, provider) && provider in db.providers
    requires var u := if provider in db.usage then db.usage[provider].used else 0;
      MonthlyLimitReached(BookingUsage(u + 1, 0), SubscriptionOf(db, provider), ProviderOf(db, provider), now)
    ensures var d := BookingIncrement(db, provider, now).db;
      provider !in SearchProviders(d, mother, service).1
  {
    BookingIncrementSpec(db, provider, now);
  }

  /** Lowering twice is lowering once. */
  lemma ToLowerIdempotent(s: string)
    ensures ToLower(ToLower(s)) == ToLower(s)
  {
    assert forall i | 0 <= i < |s| :: LowerChar(LowerChar(s[i])) == LowerChar(s[i]);
  }

  /** The overview lists services by the provider's specialities, while the
      search goes by the profile's own service types. A speciality whose
      service type the profile also carries makes a searchable provider in
      the mother's country findable under the listed name; a profile with no
      service types lists the name all the same and is never found under
      it. */
  lemma ListedServiceSearch(db: Db, provider: nat, mother: nat, s: int)
    requires mother < |db.users| && IsMother(db, mother) && mother in db.mothers
    requires provider in db.providers
    requires s in db.providers[provider].specialities && s in db.specialities
    requires db.specialities[s].serviceType in db.serviceTypes
    ensures var p := db.providers[provider];
      var t := db.specialities[s].serviceType;
      var name := db.serviceTypes[t];
      name in ServiceNames(db, p.specialities)
      && (t in p.serviceTypes && p.searchable && name != "" && PyStrip(name) == name
          && ToLower(p.country) == ToLower(PyStrip(db.mothers[mother].country))
          ==> provider in SearchProviders(db, mother, Some(name)).1)
      && (p.serviceTypes == {} ==> provider !in SearchProviders(db, mother, Some(name)).1)
  {
    var p := db.providers[provider];
    var t := db.specialities[s].serviceType;
    var name := db.serviceTypes[t];
    ToLowerIdempotent(name);
    ToLowerIdempotent(PyStrip(db.mothers[mother].country));
    if t in p.serviceTypes && p.searchable && name != "" && PyStrip(name) == name
       && ToLower(p.country) == ToLower(PyStrip(db.mothers[mother].country)) {
      assert Matches(db, provider, ToLower(PyStrip(name)), ToLower(PyStrip(db.mothers[mother].country)));
    }
  }

  // ---------------------------------------------------------------------
  // Mother tutorial
  // ---------------------------------------------------------------------

  /** `CheckMotherFirstTimeView.get`: 403 for a non-mother, 404 without a
      profile, and otherwise 200 with whether the tutorial is still to do. */
  function CheckMotherFirstTime(db: Db, me: nat): (r: (nat, Option<bool>))
    requires me < |db.users|
    ensures r.1.Some? <==> r.0 == 200
    ensures r.0 == 403 <==> !IsMother(db, me)
    ensures r.0 == 404 <==> IsMother(db, me) && me !in db.mothers
    ensures r.0 == 200 ==> me in db.mothers && r.1 == Some(!db.mothers[me].completedTutorial)
  {
    if !IsMother(db, me) then (403, None)
    else if me !in db.mothers then (404, None)
    else (200, Some(!db.mothers[me].completedTutorial))
  }

  /** `CompleteMotherTutorialView.post`. */
  function CompleteMotherTutorial(db: Db, me: nat): (r: Outcome)
    requires me < |db.users|
    ensures r.status == 200 <==> IsMother(db, me) && me in db.mothers
    ensures r.status != 200 ==> r.db == db
  {
    if !IsMother(db, me) then Outcome(403, db)
    else if me !in db.mothers then Outcome(404, db)
    else Outcome(200, db.(mothers := db.mothers[me := db.mothers[me].(completedTutorial := true)]))
  }

  /** Completing the tutorial turns the first-time flag off, repeating it
      changes nothing, and both endpoints refuse the same callers. */
  lemma MotherTutorialRoundTrip(db: Db, me: nat)
    requires me < |db.users|
    ensures var r := CompleteMotherTutorial(db, me);
      CheckMotherFirstTime(r.db, me).0 == CheckMotherFirstTime(db, me).0
      && (r.status == 200 ==> CheckMotherFirstTime(r.db, me) == (200, Some(false)))
      && CompleteMotherTutorial(r.db, me) == Outcome(r.status, r.db)
  {
  }
}
